=== FILE: README.md ===
# Selective page migration for ccNUMA, in Dafny

This project models the compiler side and the runtime side of selective page
migration. An LLVM function pass scans the loops of every function. For each
load and store inside a loop it does the following:

- reduces the address to an array plus a symbolic byte offset;
- counts how often the access runs relative to an enclosing loop;
- bounds the offset over the loop nest;
- checks that everything it needs can be computed in the loop's preheader;
- records one hook call per (preheader, array) pair, merging repeated pairs.

At run time the hook `__spm_get(array, min, max, reuse)` decides whether the
slice is worth migrating to the node of the running thread. It then binds the
pages of the slice there. A separate runtime entry point places each new
thread on the next NUMA node in turn.

The model follows the program's structure, one module per component:

- `Exprs` (expr.dfy): the symbolic expressions of `Expr.cpp`/`Expr.h`.
  - A datatype with an `Invalid` sentinel.
  - The operators, with their light normal form.
  - A real-valued semantics `Value`, so every operator has a soundness lemma.
  - The symbol and subterm queries.
- `Decimal` and `SymbolTable` (decimal.dfy, symbols.dfy): the symbol tables behind `Expr(V)`.
  - Values to symbols, and names to values.
  - The id counter.
  - `GetName`, and the rebinding constructor `Expr(V, R)`.
- `Lowering` (lowering.dfy): `getValue`/`getExprValue`, which turn an expression into emitted 64-bit code.
  - `Eval` is a semantics for that code.
- `Arith` (arith.dfy): the machine arithmetic the source relies on.
  - 64-bit wrap-around.
  - C's truncating division.
- `Ir` (ir.dfy): the fragment of an LLVM function the pass inspects.
  - The dominator tree and the loop forest are given data.
- `LoopInfo` and `LoopInfoRas` (loop_info.dfy, loop_info_ras.dfy): the two copies of `LoopInfoExpr`.
  - The copies are the page-migration pass's and the address sanitizer's.
  - Each has symbolic expressions of values, loop invariance, single-variant-phi search and induction-variable recognition.
  - The sanitizer copy adds the co-located phi analysis.
- `ReduceIndexation` (reduce_indexation.dfy): the reduction of `getelementptr` chains to a root array and a byte offset.
- `RelativeExecutions` (relative_executions.dfy): the execution count of a loop body relative to an enclosing loop, as nested sums.
  - The computer-algebra bridge is a parameter.
- `RelativeMinMax` (relative_minmax.dfy): the minimum and maximum of an expression over the loop nest.
- `Placement` (placement.dfy): `canGenerateExprAt`, the check that an expression can be computed at the end of a block.
  - It includes the repair that issues global loads again.
- `CallSites` (call_sites.dfy): the pass itself.
  - The `CallInfo` records and their merge.
  - `generateCallFor`.
  - The walk of `runOnFunction` over the dominator tree.
  - The emitted hook calls.
- `SampleLoop` (sample_loop.dfy): the loop `for (i = 0; i < n; i++) x = a[i]` taken through the whole pass, one stage at a time.
  - It shows that the hypotheses of the end-to-end lemmas can be met: on every run with `0 <= i < n`, the emitted bounds enclose the byte the load reads.
- `WorkerFunctions` (worker_functions.dfy): the module pass collecting the start routines given to `pthread_create`.
- `Runtime` (runtime.dfy): the runtime library.
  - Page arithmetic.
  - The migrate-or-not test.
  - The region handed to the binding call.
  - The round-robin node cursor.
  - The cache size read at start-up.

Failures that the source signals with a sentinel keep that sentinel in the
model. This covers `InvalidExpr()`, a `false` return and a null value.
LLVM assertions and null dereferences become explicit outcomes
(`None`, `Crashed`, `Aborted`) rather than preconditions.

Where the source is wrong, the model keeps both halves:

- a member that behaves as written, with a concrete input that shows the
  problem;
- a corrected member with the intended property proved.

The rest of the model uses the corrected member (see "## Findings").

## Model

| member | source | states |
|---|---|---|
| Exprs.Plus | src/SelectivePageMigration/Expr.cpp:462-466 | an invalid operand makes the sum invalid |
| Exprs.PlusSound | src/SelectivePageMigration/Expr.cpp:462-466 | for valid operands, `a + b` denotes the sum of the operands' values under every environment, whatever normal form is built |
| Exprs.Times | src/SelectivePageMigration/Expr.cpp:490-494 | an invalid operand gives the sentinel; valid operands give a valid product |
| Exprs.TimesSound | src/SelectivePageMigration/Expr.cpp:490-494 | `a * b` denotes the product of the values, including after constant folding and absorption by zero |
| Exprs.MinusSound | src/SelectivePageMigration/Expr.cpp:476-480 | `a - b` denotes the difference of the values |
| Exprs.Power | src/SelectivePageMigration/Expr.cpp:518-522 | an invalid operand gives the sentinel; valid operands give a valid power |
| Exprs.PowerSound | src/SelectivePageMigration/Expr.cpp:518-522 | `a ^ k` for an integer k denotes the k-th power of the value |
| Exprs.Divide | src/SelectivePageMigration/Expr.cpp:504-508 | an invalid operand gives the sentinel |
| Exprs.DivideSound | src/SelectivePageMigration/Expr.cpp:504-508 | `a / b` denotes the quotient of the values when the divisor's value is not zero |
| Exprs.DivideByZero | src/SelectivePageMigration/Expr.cpp:504-508 | a non-constant divisor whose value is zero leaves a symbolic inverse, and the quotient's value is 0 |
| Exprs.MinE | src/SelectivePageMigration/Expr.cpp:532-536 | an invalid operand gives the sentinel |
| Exprs.MinSound | src/SelectivePageMigration/Expr.cpp:532-536 | `min(a, b)` denotes the smaller of the two values |
| Exprs.MaxE | src/SelectivePageMigration/Expr.cpp:539-543 | an invalid operand gives the sentinel |
| Exprs.MaxSound | src/SelectivePageMigration/Expr.cpp:539-543 | `max(a, b)` denotes the larger of the two values |
| Exprs.OperatorsKeepClean | src/SelectivePageMigration/Expr.cpp:462-543 | operands free of the sentinel give results free of it, so expressions built from values and numbers stay valid |
| Exprs.MakeRat | src/SelectivePageMigration/Expr.cpp:93 | the constant n/d has the value n/d, and it is a non-integer rational only when d does not divide n |
| Exprs.SymbolsArePreorderSymbols | src/SelectivePageMigration/Expr.cpp:290-298 | `getSymbols` gives exactly the symbol subterms of a preorder walk, in that order, repeats kept |
| Exprs.HasIsPreorderMember | src/SelectivePageMigration/Expr.cpp:561-563 | `has(x)` holds exactly when `x` is met by the preorder walk |
| Exprs.HasSymbolIffInSymbols | src/SelectivePageMigration/Expr.cpp:561-563 | a symbol occurs in an expression exactly when it is among its `getSymbols` |
| Exprs.PowOperands | src/SelectivePageMigration/Expr.cpp:271-280 | the base and exponent of a power are its operands 0 and 1 |
| Decimal.NatToStringInjective | src/SelectivePageMigration/Expr.cpp:130 | different ids print as different decimal strings |
| Decimal.SuffixedNamesDistinct | src/SelectivePageMigration/Expr.cpp:130 | names `base.id` with different ids differ, whatever the bases |
| SymbolTable.GetName | src/SelectivePageMigration/Expr.cpp:107-131 | a value keeps its id once given one, and a new id is the counter |
| SymbolTable.GetNameInv | src/SelectivePageMigration/Expr.cpp:107-131 | naming keeps the tables consistent (ids distinct and below the counter, stored symbols named by their ids) |
| SymbolTable.NamesDistinct | src/SelectivePageMigration/Expr.cpp:107-131 | in consistent tables two different values never share a name |
| SymbolTable.FreshNameUnregistered | src/SelectivePageMigration/Expr.cpp:107-131 | a name formed with the counter is not registered yet |
| SymbolTable.Intern | src/SelectivePageMigration/Expr.cpp:134-152 | a constant integer is itself and leaves the tables alone; a value seen before gets its stored symbol back |
| SymbolTable.InternInv | src/SelectivePageMigration/Expr.cpp:134-152 | interning keeps the tables consistent and coherent |
| SymbolTable.InternTwice | src/SelectivePageMigration/Expr.cpp:141-144 | interning a value again changes nothing and returns the same symbol |
| SymbolTable.InternedSymbolsDistinct | src/SelectivePageMigration/Expr.cpp:134-152 | different values get different symbols |
| SymbolTable.SymbolValueAfterIntern | src/SelectivePageMigration/Expr.cpp:301-303 | after interning a non-constant value, `getSymbolValue` of its symbol is that value |
| SymbolTable.SymbolValueCoherent | src/SelectivePageMigration/Expr.cpp:301-303 | in coherent tables every stored symbol stands for its own value |
| SymbolTable.Rebind | src/SelectivePageMigration/Expr.cpp:155-172 | a constant gives a fresh symbol merely named like the sentinel, `Sym(INVALID_NAME)`, which is not `Invalid` itself; otherwise the symbol carries R's name, and R's id is given out if R had none |
| SymbolTable.RebindInv | src/SelectivePageMigration/Expr.cpp:155-172 | rebinding keeps the tables consistent |
| SymbolTable.RebindRedirects | src/SelectivePageMigration/Expr.cpp:155-172 | rebinding an interned R returns R's symbol, which afterwards stands for V |
| SymbolTable.InvExtends | src/SelectivePageMigration/Expr.cpp:107-152 | consistency survives appending instructions to the function |
| Lowering.LowerAtom | src/SelectivePageMigration/Expr.cpp:306-332 | an integer is emitted as itself, a rational as its quotient truncated toward zero, and a symbol as its registered value; an unregistered symbol crashes |
| Lowering.LowerPolySound | src/SelectivePageMigration/Expr.cpp:374-408 | a polynomial never lowers to null, and successful code computes its exact value modulo 2^64 |
| Lowering.LowerPolySucceeds | src/SelectivePageMigration/Expr.cpp:345-408 | lowering a polynomial succeeds exactly when its constants fit in an `i64` and its symbols are registered |
| Lowering.LowerComputesValue | src/SelectivePageMigration/Expr.cpp:345-408 | lowered code computes the expression's value, wrapped into the `i64` range |
| Lowering.LowerMinMaxSelects | src/SelectivePageMigration/Expr.cpp:410-432 | `min`/`max` lower to a signed compare-and-select picking the smaller (larger) lowered operand |
| Lowering.RationalFactorExact | src/SelectivePageMigration/Expr.cpp:384-399 | a rational factor n/d multiplies by n then divides with `sdiv`; without overflow and with an exact division, the result times d is exactly the product with n |
| Lowering.AccumulateHolds | src/SelectivePageMigration/Expr.cpp:402-403 | each `add`/`mul` step of the fold combines the wrapped values as the exact operation does, modulo 2^64 |
| Lowering.FoldCrash | src/SelectivePageMigration/Expr.cpp:402-403 | a crash stays a crash through the rest of a fold |
| Arith.Wrap64 | src/SelectivePageMigration/Expr.cpp:310-311 | the 64-bit value is in range, congruent to the input modulo 2^64, and equal to it when it fits |
| Arith.WrapAddLeft | src/SelectivePageMigration/Expr.cpp:403 | wrapping an intermediate sum does not change the wrapped total |
| Arith.WrapMulLeft | src/SelectivePageMigration/Expr.cpp:403 | wrapping an intermediate product does not change the wrapped total |
| Arith.Unsigned32 | src/SelectivePageMigration/SelectivePageMigration.cpp:241 | a size kept in a 32-bit `unsigned` is below 2^32, congruent to the size modulo 2^32, and the size itself when it fits |
| Arith.TruncDiv | src/SelectivePageMigration/Expr.cpp:396 | `sdiv`: the magnitude is the quotient of magnitudes and the sign is the product of signs |
| Ir.Toplevel | src/SelectivePageMigration/LoopInfoExpr.cpp:174-176 | the walk over parents ends at a loop without a parent, numbered no later than the start |
| Ir.HeadedLoop | src/SelectivePageMigration/SelectivePageMigration.cpp:165-168 | a block heads a loop exactly when it is in a loop whose header it is |
| Ir.BlockIndex | src/RangedAddressSanitizer/LoopInfoExpr.cpp:221 | the first incoming entry of the block, or -1 when it has none |
| Ir.IncomingFor | src/SelectivePageMigration/LoopInfoExpr.cpp:253-254 | an incoming value exists exactly when the block has an entry, and it is that entry's value |
| LoopInfo.ExprForValue | src/SelectivePageMigration/LoopInfoExpr.cpp:97-129 | the expression built for a value denotes its exact arithmetic over the atoms it reaches |
| LoopInfo.ExprForMeaning | src/SelectivePageMigration/LoopInfoExpr.cpp:97-134 | from consistent tables, the expression denotes the value's exact arithmetic when each name stands for its value's run-time value |
| LoopInfo.ExprForGrows | src/SelectivePageMigration/LoopInfoExpr.cpp:97-129 | building an expression only adds symbols to the tables |
| LoopInfo.ExprForInv | src/SelectivePageMigration/LoopInfoExpr.cpp:97-129 | building an expression keeps the tables consistent |
| LoopInfo.ExprForClean | src/SelectivePageMigration/LoopInfoExpr.cpp:97-129 | the expression never contains the sentinel |
| LoopInfo.InvariantIffNoOccurrence | src/SelectivePageMigration/LoopInfoExpr.cpp:45-54 | an expression is loop invariant exactly when none of its symbol occurrences stands for a variant value |
| LoopInfo.SingleVariantPhiSpec | src/SelectivePageMigration/LoopInfoExpr.cpp:314-329 | a phi is found exactly when the expression has a single variant symbol occurrence and it stands for a phi |
| LoopInfo.ChooseSides | src/SelectivePageMigration/LoopInfoExpr.cpp:192-242 | when exactly one side varies it is the variable side; otherwise a side mentioning a load is the invariant one, left first |
| LoopInfo.BranchCompare | src/SelectivePageMigration/LoopInfoExpr.cpp:147-155 | the exit test is a conditional branch on an integer comparison whose operands are values of the function |
| LoopInfo.EndBoundValue | src/SelectivePageMigration/LoopInfoExpr.cpp:263-284 | the end is the bound minus one for `<`, plus one for `>`, and the bound itself otherwise |
| LoopInfo.MatchStepValue | src/SelectivePageMigration/LoopInfoExpr.cpp:286-293 | a matched latch value is the phi plus the step, and the step does not contain the phi |
| LoopInfo.MatchStepOfIncrement | src/SelectivePageMigration/LoopInfoExpr.cpp:286-293 | matching undoes adding a non-constant step to the phi |
| LoopInfo.InductionQueriesAgree | src/SelectivePageMigration/LoopInfoExpr.cpp:71-94 | `isInductionVariable` and `getLoopForInductionVariable` agree on the answer and on the tables |
| LoopInfo.GetLoopInfoKeeps | src/SelectivePageMigration/LoopInfoExpr.cpp:137-301 | whatever its outcome, the analysis only adds symbols and keeps the tables consistent |
| LoopInfo.GetLoopInfoRejects | src/SelectivePageMigration/LoopInfoExpr.cpp:140-171 | no exiting block, an exit that is not a conditional branch on a comparison, or an inequality test give up and leave the tables alone |
| LoopInfo.GetLoopInfoShape | src/SelectivePageMigration/LoopInfoExpr.cpp:244-260 | a recognised variable is a variant phi of the loop, the loop has a preheader and a latch, and the start is invariant while the latch value is not |
| LoopInfo.RecurrenceMeaning | src/SelectivePageMigration/LoopInfoExpr.cpp:253-293 | the start is the value from the preheader and the latch value is the phi plus the step |
| LoopInfo.GetLoopInfoMeaning | src/SelectivePageMigration/LoopInfoExpr.cpp:137-301 | the end is a side of the exit comparison adjusted by one for a strict test; start and step as in `RecurrenceMeaning` |
| LoopInfoRas.ExitingBlock | src/RangedAddressSanitizer/LoopInfoExpr.cpp:160-162 | a loop is analysed only when it has exactly one exiting block |
| LoopInfoRas.StrictSides | src/RangedAddressSanitizer/LoopInfoExpr.cpp:206-217 | a side choice exists exactly when one side varies and the other does not |
| LoopInfoRas.StrictSidesRefine | src/RangedAddressSanitizer/LoopInfoExpr.cpp:206-217 | where variance decides, the sanitizer and page-migration choices agree; otherwise only the latter may succeed |
| LoopInfoRas.IncomingPair | src/RangedAddressSanitizer/LoopInfoExpr.cpp:221-224 | the latch entry is picked by position and the start entry is the other of the first two; a missing latch or an index out of range fails |
| LoopInfoRas.RasEndValue | src/RangedAddressSanitizer/LoopInfoExpr.cpp:251-278 | an equality exit moves the end one unit back against the sign of the step; a non-constant or zero step fails |
| LoopInfoRas.InductionQueriesAgreeRas | src/RangedAddressSanitizer/LoopInfoExpr.cpp:51-71 | the two induction queries agree |
| LoopInfoRas.GetLoopInfoRasKeeps | src/RangedAddressSanitizer/LoopInfoExpr.cpp:156-291 | the analysis only adds symbols and keeps the tables consistent |
| LoopInfoRas.GetLoopInfoRasSingleExit | src/RangedAddressSanitizer/LoopInfoExpr.cpp:160-162 | several exiting blocks, or none, give up and leave the tables alone |
| LoopInfoRas.GetLoopInfoRasShape | src/RangedAddressSanitizer/LoopInfoExpr.cpp:199-245 | a recognised loop has a single accepted exit with exactly one variant side and a variant phi fed from the latch |
| LoopInfoRas.RecurrenceRasMeaning | src/RangedAddressSanitizer/LoopInfoExpr.cpp:219-282 | the start is the entry next to the latch entry, the latch value is phi plus step, and the step does not mention the phi |
| LoopInfoRas.GetLoopInfoRasMeaning | src/RangedAddressSanitizer/LoopInfoExpr.cpp:156-291 | in a recognised loop of the sanitizer copy, exactly one side of the exit comparison is loop-invariant, and the end is that side adjusted as `RasAdjust` says; the start is the entry from outside the loop and the latch entry is the phi plus the step |
| LoopInfoRas.ColocatedLoopInfo | src/RangedAddressSanitizer/LoopInfoExpr.cpp:108-154 | a co-located analysis succeeds only on a loop the induction analysis recognises |
| LoopInfoRas.ColocatedKeeps | src/RangedAddressSanitizer/LoopInfoExpr.cpp:108-154 | the co-located analysis only adds symbols and keeps the tables consistent |
| LoopInfoRas.ColocatedOfInductionVariable | src/RangedAddressSanitizer/LoopInfoExpr.cpp:118-122 | for the induction phi itself, start and step are the loop's |
| LoopInfoRas.ColocatedMeaning | src/RangedAddressSanitizer/LoopInfoExpr.cpp:124-153 | one entry comes from outside and is the start; the other's value is the phi plus the step |
| LoopInfoRas.CoEntryValue | src/RangedAddressSanitizer/LoopInfoExpr.cpp:126-137 | an entry from outside gives its own value, any other gives its exact arithmetic |
| ReduceIndexation.FieldsInside | src/SelectivePageMigration/ReduceIndexation.cpp:104-111 | each field offset plus its size is the next offset, and no field ends beyond the structure |
| ReduceIndexation.IndexWalk | src/SelectivePageMigration/ReduceIndexation.cpp:103-127 | a walk that stops early leaves an invalid subscript |
| ReduceIndexation.ReduceMemoryOp | src/SelectivePageMigration/ReduceIndexation.cpp:97-134 | an address that is not computed is the array with the subscript unchanged; a reduced root is no later than the address |
| ReduceIndexation.Root | src/SelectivePageMigration/ReduceIndexation.cpp:99-132 | the end of the chain of bases is a value that is not an address computation |
| ReduceIndexation.ReduceKeeps | src/SelectivePageMigration/ReduceIndexation.cpp:97-134 | the reduction only adds symbols and keeps the tables consistent |
| ReduceIndexation.IndexWalkValue | src/SelectivePageMigration/ReduceIndexation.cpp:103-127 | a completed walk adds to the subscript the byte offset the indices select, in exact arithmetic over the index values (`WalkOffset`: casts as the identity, division exact, no wrap) |
| ReduceIndexation.ReduceSound | src/SelectivePageMigration/ReduceIndexation.cpp:97-134 | the reduction aborts exactly when a structure index names no field; otherwise it reaches the root array with the subscript plus the address's exact-arithmetic byte offset (`AddressOffset`) |
| ReduceIndexation.ReduceAccessOffset | src/SelectivePageMigration/ReduceIndexation.cpp:58-82 | the subscript of a load or store is the exact-arithmetic byte offset (`AddressOffset`) of its address from the root array |
| ReduceIndexation.ReduceFallsThrough | src/SelectivePageMigration/ReduceIndexation.cpp:99-133 | a failed inner reduction is reported as success with the computed address as the array |
| RelativeExecutions.FactsSound | src/SelectivePageMigration/RelativeExecutions.cpp:67-70 | the page-migration loop analysis keeps the tables and names its induction variable by a symbol |
| RelativeExecutions.Prepare | src/SelectivePageMigration/RelativeExecutions.cpp:113-130 | a level exists only with loop facts and an inverse of the step, which is its weight |
| RelativeExecutions.ExecutionsWith | src/SelectivePageMigration/RelativeExecutions.cpp:63-157 | a failure gives the sentinel; the levels summed start at the loop and climb the loop forest, each weighted by its step's inverse |
| RelativeExecutions.Outward | src/SelectivePageMigration/RelativeExecutions.cpp:97-141 | the walk over parents keeps the levels summed so far and stops only where the loop allows |
| RelativeExecutions.ToplevelItselfNeverCompletes | src/SelectivePageMigration/RelativeExecutions.cpp:97-155 | asking for the count relative to the loop itself never completes |
| RelativeExecutions.FirstLevelCount | src/SelectivePageMigration/RelativeExecutions.cpp:89-90 | under an exact bridge the first sum is the reference count of that loop alone |
| RelativeExecutions.OuterLevelCount | src/SelectivePageMigration/RelativeExecutions.cpp:132-135 | each step outward gives the reference count of the nest one level larger |
| RelativeExecutions.ExecutionsCount | src/SelectivePageMigration/RelativeExecutions.cpp:63-157 | a valid count is the number of header executions per entry into the outermost loop reached |
| RelativeExecutions.ExecutionsRelativeToCount | src/SelectivePageMigration/RelativeExecutions.cpp:63-157 | the same, over the page-migration loop analysis |
| RelativeExecutions.WeightsAreInverseSteps | src/SelectivePageMigration/RelativeExecutions.cpp:125-132 | one iteration of a loop counts the inverse of its step |
| RelativeMinMax.FactsOf | src/SelectivePageMigration/RelativeMinMax.cpp:106-126 | loop facts exist only for a symbol standing for the induction phi of a loop the loop analysis recognises; they are that analysis's start and end, and the tables are the ones the loop query leaves |
| RelativeMinMax.InductionFactsKeep | src/SelectivePageMigration/RelativeMinMax.cpp:106-126 | every query for loop facts only adds symbols and keeps the tables consistent |
| RelativeMinMax.InductionFactsGrow | src/SelectivePageMigration/RelativeMinMax.cpp:106-126 | every query for loop facts only adds symbols to the tables |
| RelativeMinMax.MinNode | src/SelectivePageMigration/RelativeMinMax.cpp:227-233 | as written a `min` node always succeeds; corrected it succeeds exactly when both operands do |
| RelativeMinMax.MaxNode | src/SelectivePageMigration/RelativeMinMax.cpp:235-241 | the same for `max` |
| RelativeMinMax.GetMinMax | src/SelectivePageMigration/RelativeMinMax.cpp:99-249 | constants are their own range with the tables untouched; a symbol without loop facts is its own range with the tables its query leaves; an inequality exit or a non-constant exponent fails; a failed node other than a sum or a product leaves the bounds as they were |
| RelativeMinMax.GetMinMaxGrows | src/SelectivePageMigration/RelativeMinMax.cpp:99-249 | with loop queries that only add symbols, so does the whole inference |
| RelativeMinMax.GetMinMaxKeeps | src/SelectivePageMigration/RelativeMinMax.cpp:99-249 | with loop queries that keep the tables consistent, the whole inference keeps them consistent and only adds symbols |
| RelativeMinMax.SymbolMinMax | src/SelectivePageMigration/RelativeMinMax.cpp:106-167 | a symbol without loop facts is its own range; an induction variable needs a usable exit predicate |
| RelativeMinMax.LoopRange | src/SelectivePageMigration/RelativeMinMax.cpp:136-158 | the range exists exactly for rising or falling exit predicates |
| RelativeMinMax.GetMinMaxSound | src/SelectivePageMigration/RelativeMinMax.cpp:99-249 | with the corrected rules, a successful range encloses the expression's value on every run where each loop fact the inference asks for holds, asked of the tables that query is made on (`FactsHoldFor`) |
| RelativeMinMax.SymbolMinMaxSound | src/SelectivePageMigration/RelativeMinMax.cpp:106-167 | on a run where the variable's own loop facts hold and so do those its start and end ranges consult, an induction variable lies between the ranges of its start and its end; `SampleLoop.IndexFactsHold` meets this hypothesis for `i` of `for (i = 0; i < n; i++)` on every run with `0 <= i < n` |
| RelativeMinMax.LoopRangeSound | src/SelectivePageMigration/RelativeMinMax.cpp:136-158 | with enclosed start and end, the corrected rule encloses every value of the variable, in either direction |
| RelativeMinMax.MinNodeSound | src/SelectivePageMigration/RelativeMinMax.cpp:227-233 | the corrected `min` node encloses the smaller of two enclosed values |
| RelativeMinMax.MaxNodeSound | src/SelectivePageMigration/RelativeMinMax.cpp:235-241 | the corrected `max` node encloses the larger of two enclosed values |
| RelativeMinMax.AddFoldSound | src/SelectivePageMigration/RelativeMinMax.cpp:170-181 | the accumulated range of a sum encloses the sum of the terms |
| RelativeMinMax.SumStep | src/SelectivePageMigration/RelativeMinMax.cpp:60-63 | `addMinMax` encloses the sum of two enclosed values |
| RelativeMinMax.MulFoldSound | src/SelectivePageMigration/RelativeMinMax.cpp:183-202 | the accumulated range of a product encloses the product of the factors |
| RelativeMinMax.MulMinMaxSound | src/SelectivePageMigration/RelativeMinMax.cpp:66-96 | the corrected `mulMinMax` encloses the product of two enclosed values |
| RelativeMinMax.CornersSound | src/SelectivePageMigration/RelativeMinMax.cpp:89-95 | the four corner products bound a product of two ranges |
| RelativeMinMax.PowMinMaxSound | src/SelectivePageMigration/RelativeMinMax.cpp:204-225 | for a positive base range, the power rule encloses the power, increasing for a positive exponent and decreasing otherwise |
| RelativeMinMax.GetMinMaxRelativeTo | src/SelectivePageMigration/RelativeMinMax.cpp:252-256 | building the expression of the value and inferring its range only adds symbols to the tables and keeps them consistent |
| RelativeMinMax.GetMinMaxRelativeToSound | src/SelectivePageMigration/RelativeMinMax.cpp:252-256 | a successful range encloses the run-time value of the instruction on every run where the loop facts the inference consults hold, each name of the final tables standing for its value; the hypothesis concerns only the queries the inference makes, and `SampleLoop.SampleRelativeTo` meets it |
| RelativeMinMax.MulAsWrittenMissesCorner | src/SelectivePageMigration/RelativeMinMax.cpp:89-95 | as written, `i * j` reaches 8 while the range's minimum is 10 |
| RelativeMinMax.MulCorrectedEncloses | src/SelectivePageMigration/RelativeMinMax.cpp:89-95 | corrected, the same product is enclosed |
| RelativeMinMax.MinAsWrittenClipsRange | src/SelectivePageMigration/RelativeMinMax.cpp:227-233 | as written, `min(i, 20)` reaches 10 but gets the range [0, 0] |
| RelativeMinMax.MinCorrectedEncloses | src/SelectivePageMigration/RelativeMinMax.cpp:227-233 | corrected, `min(i, 20)` gets [0, 10], which encloses it |
| RelativeMinMax.FallingAsWrittenIsEmpty | src/SelectivePageMigration/RelativeMinMax.cpp:146-152 | as written, a loop falling from 10 to 0 gets the empty range [10, 0]; corrected it gets [0, 10] |
| Placement.FirstStuck | src/SelectivePageMigration/SelectivePageMigration.cpp:382-416 | the first symbol, in `getSymbols` order, that stands for no value or for an instruction outside the target |
| Placement.Reload | src/SelectivePageMigration/SelectivePageMigration.cpp:392-395 | the new load is unnamed, in the target block, from the same pointer with the same type, appended after every value |
| Placement.Repair | src/SelectivePageMigration/SelectivePageMigration.cpp:387-400 | corrected, a repair always happens; a repair issues the load again and rebinds the name to it |
| Placement.CanGenerateAt | src/SelectivePageMigration/SelectivePageMigration.cpp:381-419 | placeable only when nothing is left blocked; a failed repair is reported as a check that never ends |
| Placement.RepairShrinks | src/SelectivePageMigration/SelectivePageMigration.cpp:387-400 | each repair leaves fewer names to repair, so the check ends |
| Placement.CorrectedPlaceable | src/SelectivePageMigration/SelectivePageMigration.cpp:381-419 | corrected, the check succeeds exactly when every symbol is bound and those outside the target are global loads |
| Placement.RepairKeepsHoistable | src/SelectivePageMigration/SelectivePageMigration.cpp:387-400 | a repair neither makes nor spoils a placeable expression |
| Placement.RepairsOnlyBlocked | src/SelectivePageMigration/SelectivePageMigration.cpp:381-419 | only blocked names are redirected, each to a load issued again at the target from the same pointer |
| Placement.ReissuedName | src/SelectivePageMigration/Expr.cpp:107-131 | a load issued again from global `g` is named `g.1` once it gets the next id |
| Placement.AsWrittenNeverSettles | src/SelectivePageMigration/SelectivePageMigration.cpp:398-400 | as written, checking a symbol already rebound once starts over without end |
| Placement.CorrectedSettles | src/SelectivePageMigration/SelectivePageMigration.cpp:398-400 | corrected, the same check succeeds |
| CallSites.HashAgrees | src/SelectivePageMigration/SelectivePageMigration.h:72-80 | equal records hash alike, and equality depends only on the preheader and the array |
| CallSites.Find | src/SelectivePageMigration/SelectivePageMigration.cpp:359 | the lookup fails exactly when no record has the key, and otherwise finds one with it |
| CallSites.FindUnique | src/SelectivePageMigration/SelectivePageMigration.h:83 | in a set of records, any record with the key is the one found |
| CallSites.Erase | src/SelectivePageMigration/SelectivePageMigration.cpp:373 | erasing removes exactly the record with the key and keeps the set a set |
| CallSites.MergeMeaning | src/SelectivePageMigration/SelectivePageMigration.cpp:361-371 | the merged record computes the smaller minimum, the larger maximum and the wrapped sum of the reuses |
| CallSites.AddCall | src/SelectivePageMigration/SelectivePageMigration.cpp:358-375 | adding keeps one record per key and records the new key |
| CallSites.AsMapAt | src/SelectivePageMigration/SelectivePageMigration.h:83 | each record is what the key-to-record map gives for its key |
| CallSites.AddCallMap | src/SelectivePageMigration/SelectivePageMigration.cpp:358-375 | adding updates the key-to-record map at one key, with the record or with the merge, and keeps every other key |
| CallSites.EmitCall | src/SelectivePageMigration/SelectivePageMigration.cpp:192-226 | a re-load array is loaded again from its global at the preheader; any other array is passed as it is |
| CallSites.Emission | src/SelectivePageMigration/SelectivePageMigration.cpp:190-229 | one hook call per record, at its preheader, with its minimum, maximum and reuse |
| CallSites.EmissionPerKey | src/SelectivePageMigration/SelectivePageMigration.cpp:190-229 | calls go one to each recorded (preheader, array) pair |
| CallSites.FinalEncloses | src/SelectivePageMigration/SelectivePageMigration.cpp:268-279 | a valid reuse comes with a final loop around the access's loop |
| CallSites.Reduce | src/SelectivePageMigration/SelectivePageMigration.cpp:236-266 | a load reduces its pointer and a store its address operand; the size is that of the value read or written, reduced to the 32 bits of the `unsigned Size` it is stored in: below 2^32, congruent to the full size modulo 2^32, and equal to it when it fits |
| CallSites.GenerateCallFor | src/SelectivePageMigration/SelectivePageMigration.cpp:236-378 | a non-access is dropped with nothing changed; an aborted reduction crashes; an unreduced address, an invalid reuse or a failed range drops the access; a kept access adds its record at the preheader of its final loop, for the reduced array, with the lowered reuse times the size, minimum and maximum |
| CallSites.KeptRecordBrackets | src/SelectivePageMigration/SelectivePageMigration.cpp:236-378 | on a run where the symbols stand for their values, the loop facts the range inference consults hold (`RunFits`) and the bounds fit in 64 bits, the code of a kept record computes a minimum and a maximum that enclose the exact-arithmetic byte offset (`AddressOffset`) of the accessed address from its array |
| CallSites.OffsetBracketed | src/SelectivePageMigration/SelectivePageMigration.cpp:327-356 | when the loop facts the range inference consults for the subscript hold, the reduced subscript is the exact-arithmetic byte offset, the corrected range encloses it, and the lowered bounds compute that range |
| CallSites.CodeBrackets | src/SelectivePageMigration/SelectivePageMigration.cpp:351-356 | code lowered from two polynomial bounds of a number computes bounds of that number when the bounds fit in 64 bits |
| CallSites.Bounded | src/SelectivePageMigration/SelectivePageMigration.cpp:282-333 | an array unusable at the preheader is kept only as a global access registered for re-loading; a failed range drops the access; a kept record carries the lowered reuse, minimum and maximum of the range |
| CallSites.CheckAt | src/SelectivePageMigration/SelectivePageMigration.cpp:337 | usable only when nothing is left stuck; the records and re-loads are untouched |
| CallSites.Finish | src/SelectivePageMigration/SelectivePageMigration.cpp:337-349 | a one-point range is dropped, a loop without a preheader crashes, and a kept record goes to the final loop's preheader with the lowered reuse in bytes, minimum and maximum |
| CallSites.Insert | src/SelectivePageMigration/SelectivePageMigration.cpp:351-375 | a record is added exactly when all three expressions lower to code, and it carries that code |
| CallSites.HandleBlock | src/SelectivePageMigration/SelectivePageMigration.cpp:179-183 | the block's instructions go through the step in order: the result is `false` exactly when the reference fold `HandleAll` crashes, and otherwise the state is the one the fold ends with |
| CallSites.HandleAllGood | src/SelectivePageMigration/SelectivePageMigration.cpp:179-183 | with a step that keeps states good, handling a block keeps the state good and only adds to it |
| CallSites.PassStepGood | src/SelectivePageMigration/SelectivePageMigration.cpp:236-378 | `generateCallFor`, from a good state, crashes or leaves a good state that only grew |
| CallSites.VisitBlock | src/SelectivePageMigration/SelectivePageMigration.cpp:179-183 | a block already in `Processed` is skipped; any other is recorded and handled |
| CallSites.HandleLoop | src/SelectivePageMigration/SelectivePageMigration.cpp:178-184 | the blocks of a loop in turn: the state and the processed blocks are those of the reference fold `VisitBlocks`, and the result is `false` exactly when it crashes |
| CallSites.VisitGood | src/SelectivePageMigration/SelectivePageMigration.cpp:178-184 | the blocks of a loop keep a good state good and only grow it |
| CallSites.VisitTrace | src/SelectivePageMigration/SelectivePageMigration.cpp:178-184 | blocks processed before stay processed, only blocks of the loop are added, none twice, and all of them unless the pass crashed |
| CallSites.VisitHeader | src/SelectivePageMigration/SelectivePageMigration.cpp:162-176 | one step of the post-order walk: the blocks of a scanned loop's header are visited, any other block is passed over |
| CallSites.WalkGood | src/SelectivePageMigration/SelectivePageMigration.cpp:162-187 | the walk keeps the state good, and the function it ends with extends the one it started from |
| CallSites.WalkTrace | src/SelectivePageMigration/SelectivePageMigration.cpp:162-187 | the walk handles no block twice, only blocks of scanned loops, and, unless the pass crashed, every block of every scanned loop whose header it met |
| CallSites.RunWalk | src/SelectivePageMigration/SelectivePageMigration.cpp:143-232 | for any step that keeps states good, the outcome of the pass is that of the reference fold `Walk`, with the properties listed for `RunOnFunction` |
| CallSites.RunOnFunction | src/SelectivePageMigration/SelectivePageMigration.cpp:143-232 | the pass runs exactly when the reference fold `Walk` of `generateCallFor` over the post-order does not crash, and then its function, records and re-loads are the fold's; each scanned-loop block is handled once, the result is `changed` exactly when calls exist, and the hooks are the emission of the records |
| CallSites.CoveredStep | src/SelectivePageMigration/SelectivePageMigration.cpp:162-187 | after a header's loop, every scanned header so far is covered |
| WorkerFunctions.FoundInExact | src/SelectivePageMigration/GetWorkerFunctions.cpp:34-43 | a name is collected from a function exactly when one of its instructions creates a thread with that start routine |
| WorkerFunctions.FoundUpToExact | src/SelectivePageMigration/GetWorkerFunctions.cpp:32-45 | the names collected are exactly the start routines of the thread creations in the functions scanned |
| WorkerFunctions.ScanFunction | src/SelectivePageMigration/GetWorkerFunctions.cpp:33-44 | a function's scan fails exactly when a thread creation has too few operands |
| WorkerFunctions.RunOnModule | src/SelectivePageMigration/GetWorkerFunctions.cpp:29-47 | the module is unchanged; the result fails exactly on a short creation, and otherwise a name is in it exactly when some function spawns it |
| WorkerFunctions.RepeatedCreation | src/SelectivePageMigration/GetWorkerFunctions.cpp:40 | creating the same routine again adds nothing |
| Runtime.PageOf | src/SelectivePageMigration/Runtime/SelectivePageMigrationRuntime.cpp:460-461 | the page holds the address, rounding toward zero for negative addresses |
| Runtime.PagesOf | src/SelectivePageMigration/Runtime/SelectivePageMigrationRuntime.cpp:460-461 | the first page holds `Ary + Start` and the last holds `Ary + End` |
| Runtime.Migrates | src/SelectivePageMigration/Runtime/SelectivePageMigrationRuntime.cpp:466 | migration needs a positive slice |
| Runtime.MigratesExactly | src/SelectivePageMigration/Runtime/SelectivePageMigrationRuntime.cpp:466 | migrate exactly when 5·(End−Start) > cache and Reuse > 200·(End−Start); the fallback divisor never decides |
| Runtime.HeuristicExample | src/SelectivePageMigration/Runtime/SelectivePageMigrationRuntime.cpp:466 | with a 1,000,000-byte cache and a 300,000-byte slice, reuse 70,000,000 migrates and 10,000,000 does not |
| Runtime.MigrateAsWritten | src/SelectivePageMigration/Runtime/SelectivePageMigrationRuntime.cpp:331-332 | the region as written ends where the last page begins |
| Runtime.AsWrittenMissesLastPage | src/SelectivePageMigration/Runtime/SelectivePageMigrationRuntime.cpp:331-332 | as written, the byte at `Ary + End` is never bound, and a slice within one page binds nothing |
| Runtime.SinglePageBindsNothing | src/SelectivePageMigration/Runtime/SelectivePageMigrationRuntime.cpp:331-332 | offsets 0 through 4095 from address 0 get an empty region as written, and one page corrected |
| Runtime.Migrate | src/SelectivePageMigration/Runtime/SelectivePageMigrationRuntime.cpp:331-332 | the corrected region ends after the last page |
| Runtime.MigrateCoversSlice | src/SelectivePageMigration/Runtime/SelectivePageMigrationRuntime.cpp:331-332 | every byte from `Ary + Start` through `Ary + End` lies in the corrected region, which starts on a page boundary |
| Runtime.Get | src/SelectivePageMigration/Runtime/SelectivePageMigrationRuntime.cpp:454-497 | a region is bound exactly when the test passes, and it covers the whole slice |
| Runtime.Lock | src/SelectivePageMigration/Runtime/SelectivePageMigrationRuntime.cpp:429-432 | the next node after the last, wrapping to 0 after the last node; no nodes divides by zero |
| Runtime.Locks | src/SelectivePageMigration/Runtime/SelectivePageMigrationRuntime.cpp:374 | from the initial cursor, the j-th lock picks node j mod the node count |
| Runtime.RoundRobinCovers | src/SelectivePageMigration/Runtime/SelectivePageMigrationRuntime.cpp:429-432 | any node-count consecutive locks include every node |
| Runtime.RoundRobinDistinct | src/SelectivePageMigration/Runtime/SelectivePageMigrationRuntime.cpp:429-432 | no node is picked twice within node-count consecutive locks |
| Runtime.FirstPU | src/SelectivePageMigration/Runtime/SelectivePageMigrationRuntime.cpp:364 | processing unit 0 is the first processing unit of the topology, if any |
| Runtime.CacheSize | src/SelectivePageMigration/Runtime/SelectivePageMigrationRuntime.cpp:364-367 | the total is the sum of the cache sizes on the parent chain of processing unit 0, and 0 without one |
| Runtime.CacheCounted | src/SelectivePageMigration/Runtime/SelectivePageMigrationRuntime.cpp:364-367 | every cache above processing unit 0 counts toward the total |
| SampleLoop.LoadReduced | src/SelectivePageMigration/ReduceIndexation.cpp:97-134 | in `for (i = 0; i < n; i++) x = a[i]`, the load's address `&a[i]` reduces to the array `a` with subscript `i`, named `i.0` |
| SampleLoop.SampleLoopInfo | src/SelectivePageMigration/LoopInfoExpr.cpp:137-301 | the loop analysis recognises `i` with start 0, end `n - 1` and step 1, naming `n` as `n.1` |
| SampleLoop.SampleExecutions | src/SelectivePageMigration/RelativeExecutions.cpp:63-157 | the load runs `n` times per entry into the loop, which has no enclosing loop |
| SampleLoop.SampleFacts | src/SelectivePageMigration/RelativeMinMax.cpp:106-126 | the loop facts of `i` are its start 0, its end `n - 1` and the `<` test |
| SampleLoop.IndexRange | src/SelectivePageMigration/RelativeMinMax.cpp:106-167 | with those facts, the range of `i` is `[0, n - 1]` |
| SampleLoop.SampleRelativeTo | src/SelectivePageMigration/RelativeMinMax.cpp:252-256 | `getMinMaxRelativeTo` of `i` in its loop is `[0, n - 1]`, the hypothesis of `RelativeMinMax.GetMinMaxRelativeToSound` holds on every run with `0 <= i < n`, and so `i` lies in that range |
| SampleLoop.IndexFactsHold | src/SelectivePageMigration/RelativeMinMax.cpp:106-167 | every loop fact the range inference for `i` consults holds on each run with `0 <= i < n` |
| SampleLoop.SampleKept | src/SelectivePageMigration/SelectivePageMigration.cpp:236-378 | `generateCallFor` keeps one record at the loop's preheader for `a`, with reuse `n`, minimum 0 and maximum `n - 1` |
| SampleLoop.SampleFits | src/SelectivePageMigration/SelectivePageMigration.cpp:236-378 | every run with `0 <= i < n` and `n` in 64 bits meets the hypothesis `RunFits` of `CallSites.KeptRecordBrackets` |
| SampleLoop.SampleBracketsOn | src/SelectivePageMigration/SelectivePageMigration.cpp:236-378 | on those runs the emitted minimum 0 and maximum `n - 1` enclose the byte offset `i` that the load reads from `a` |
| SampleLoop.SampleWalk | src/SelectivePageMigration/SelectivePageMigration.cpp:162-187 | the walk handles the loop block once and ends with the one record |
| SampleLoop.SampleRun | src/SelectivePageMigration/SelectivePageMigration.cpp:143-232 | `runOnFunction` runs, reports a change, handles the loop block once and keeps exactly that record |

## Left out

- Builds: no member models the abort of a failed `assert`.
  - Where an assertion guards a path, the model takes the path of a build without assertions (`SymbolTable.Rebind`, and so `Placement.AsWrittenNeverSettles`), or stops with a clean failure (the analyses listed below).
  - `Runtime.Get` is the one member that follows a debug build, because there the `assert` holds the binding call itself.
- Expression normal form: GiNaC's algebraic normalisation is not modelled, and equality of expressions is syntactic on the datatype.
  - The model flattens sums, folds their numbers into one term placed last, and applies 1·x and 0·x, placing a constant factor last. It does not sort terms or collect like terms.
  - `match` is modelled only for the `phi + $0` pattern the loop analyses use.
  - `min`/`max` are evaluated only on two constants.
- The computer-algebra bridge of the execution count is the `Algebra` parameter of `RelativeExecutions`. It covers conversion, inverse, product, summation and expansion, and the external Python process is not modelled.
  - The count is proved exact only under the `Exact` assumptions on that parameter.
- The floating-point power in lowered code is a parameter of `Lowering.Eval`.
- Floating point in the runtime test is modelled in exact reals. Both the double-precision value of 0.2 and the rounding of the division are left out.
- Runtime.Migrates: `long` overflow of `End - Start` and `Ary + Start` is not modelled, and neither is the `<<` of a negative page number. Inputs are treated as unbounded integers.
- Runtime.CacheSize: the wrap-around of the `unsigned long` total is not modelled.
- The topology library, thread binding, memory binding and the mutex are not modelled. The cursor is modelled sequentially: one lock at a time, with the topology given as data.
- IR mutation is modelled only in part.
  - Emitted instructions are `Code` trees, and re-issued loads are values appended to the function.
  - Insertion points, bit casts and the `__spm_get` declaration are not modelled.
- The dominator tree, `LoopInfo`, `DataLayout` and post-order are given data in `Ir.Function` and are not computed.
- ReduceIndexation.ReduceSound: sizes are `getTypeAllocSize` without alignment padding, and pointers are 8 bytes.
  - The source stores the element size in an `unsigned` (src/SelectivePageMigration/ReduceIndexation.cpp:122), which truncates it to 32 bits. The model keeps the full size, so the two differ for element types of 4 GiB or more.
  - A `cast<ConstantInt>` on a non-constant structure index is modelled as an `Aborted` reduction.
  - The offset the reduction is proved to reach is `AddressOffset`, in exact arithmetic over the index values, not the machine offset; see `CallSites.KeptRecordBrackets` below.
- ReduceIndexation.IndexWalkValue: the offset a walk adds is `WalkOffset`, in exact arithmetic: casts are the identity, division is exact and nothing wraps. It is the machine byte offset only for indices built from add, sub and mul without overflow.
- ReduceIndexation.ReduceAccessOffset: the subscript equals the exact-arithmetic offset `AddressOffset`, which is the machine offset only for indices built from add, sub and mul without overflow.
- The special handling of `main` and of the worker functions in `runOnFunction` (src/SelectivePageMigration/SelectivePageMigration.cpp:98-141) is left out: it instruments thread creation and program start.
  - `WorkerFunctions` models what that code consumes.
- The `Exit` block of `CallInfo` is not stored, because no later code reads it.
- The hook calls come out in record order. The source emits them in `unordered_set` iteration order, which depends on pointer values.
- RelativeMinMax.GetMinMax: recursion into the bounds of an induction variable carries a `fuel` bound.
  - A symbol with no registered value is given its own range. The source calls `dyn_cast<PHINode>` on the null value `getSymbolValue` returns there (src/SelectivePageMigration/RelativeMinMax.cpp:108). The pass never reaches that case, because every symbol it asks about was interned by `ExprFor`.
  - With fuel exhausted, a loop-bound range fails.
  - Unbounded mutual recursion through loop bounds, which needs cyclic loop facts, is not modelled.
- RelativeMinMax.GetMinMaxSound: soundness is proved for expressions without powers, the sentinel or empty products. Powers have the separate `PowMinMaxSound`, which needs a positive base range.
- Lowering.LowerComputesValue: proved for polynomials (integers and symbols under sums and products). Rationals, powers and `min`/`max` have their own lemmas, `RationalFactorExact` and `LowerMinMaxSelects`.
- LLVM assertions inside the analyses are modelled as analysis failure, `None`. These are a phi without an entry for a block, a latch index of -1, a zero or non-constant step in an equality exit, and a co-located phi without exactly two entries.
- LoopInfo.GetLoopInfoRejects: a loop without an exiting block is modelled as a clean failure. The source reads `Eblocks[0]` of the empty vector (src/SelectivePageMigration/LoopInfoExpr.cpp:143), which asserts in a debug build and reads out of bounds otherwise.
- LoopInfoRas.ColocatedLoopInfo: a co-located phi without both a start and a trip entry is modelled as a clean failure. The source stops there on `assert(foundCoStart && foundCoTrip)` (src/RangedAddressSanitizer/LoopInfoExpr.cpp:138).
- RelativeExecutions.Prepare: an inverse the bridge cannot compute is modelled as a failure of the level. The source does not check the first level's inverse for null (src/SelectivePageMigration/RelativeExecutions.cpp:89) and passes it on to the summation.
- Exprs.Divide: a divisor that is the numeric constant zero is modelled as the symbolic power `0^-1`. The library throws `pole_error` there (src/SelectivePageMigration/Expr.cpp:504-508), and the exception is not modelled. `DivideByZero` is about the value of a non-constant divisor that evaluates to zero.
- SymbolTable.Rebind: a name of R that is not registered leaves the names as they are. The source asserts there (src/SelectivePageMigration/Expr.cpp:170-171); the model follows a build without assertions, which is also what `Placement.AsWrittenNeverSettles` relies on.
- RelativeMinMax.FactsOf: the bounds of an induction variable are read from the first run of the loop analysis. The source runs `getLoopInfo` a second time on the tables the first run extended; that second run is not modelled.
- LoopInfo.ExprFor: the expression of a binary instruction is built left operand first, so symbols get their ids in that order. C++ leaves the order of the two recursive calls unspecified (src/SelectivePageMigration/LoopInfoExpr.cpp:107-114), so the numbers in symbol names may differ from a given build.
- Lowering.LowerAtom: a rational is emitted as its exact quotient truncated toward zero. The source truncates `(long)getFloat()` (src/SelectivePageMigration/Expr.cpp:313-315), the double nearest the rational, which can differ for large numerators.
- CallSites.Bounded: the range comes from the corrected rules only. The as-written rules are modelled in `RelativeMinMax` and shown wrong there (see "## Findings").
- CallSites.CheckAt: it uses the corrected repair only. The as-written repair is `Placement.AsWrittenNeverSettles`.
- CallSites.GenerateCallFor: it uses the corrected range rules and the corrected repair only, for the reasons above.
- CallSites.RunOnFunction: it uses the corrected range rules and the corrected repair only, for the reasons above.
- CallSites.KeptRecordBrackets: the end-to-end bracket is proved for bounds that are polynomials whose values fit in 64 bits, over subscripts without powers or the sentinel.
  - The offset it brackets is `AddressOffset`, the exact-arithmetic value of the index instructions: casts are the identity, `sdiv`/`udiv` are exact division (0 on a zero divisor), and nothing wraps. That is how the source's expressions read those instructions (src/SelectivePageMigration/LoopInfoExpr.cpp:96-127).
  - It is the machine offset only for subscripts built from add, sub and mul that do not overflow. For `((2*i+1) sdiv 2) * 2` on an `i8` array the exact offset is `2i+1` while the machine reads byte `2i`, so on such subscripts the emitted range can miss an accessed byte; `zext`, `trunc` and 64-bit wrap-around diverge the same way.
- CallSites.OffsetBracketed: the offset is the exact-arithmetic one, for the reason given under `CallSites.KeptRecordBrackets`.
- Runtime.Get: it binds the corrected region, one page more than the source (see "## Findings"). The binding call sits inside `assert` (src/SelectivePageMigration/Runtime/SelectivePageMigrationRuntime.cpp:330-335): a build with `NDEBUG` never binds, and a failed bind aborts a debug build. The model follows a debug build in which the bind succeeds.
- Debug output, command-line options and pass registration are left out.
- The commented-out page-interval logging in the runtime is dead code and is left out.
- The benchmarks and the thread-log tool are workloads and tools outside the pass and the runtime, and are left out.

## Findings

| source | as written | input that shows it | evidently intended | confidence | as-written member | corrected member |
|---|---|---|---|---|---|---|
| src/SelectivePageMigration/RelativeMinMax.cpp:89-95 | the product of two ranges takes the min/max over three of the four corner products | i in [-3,-2], j in [-5,-4]: `i*j` = 8 at (-2,-4), below the minimum 10 | all four corners (min over all four, max over all four) | high; not executed | RelativeMinMax.MulAsWrittenMissesCorner | RelativeMinMax.MulCorrectedEncloses |
| src/SelectivePageMigration/RelativeMinMax.cpp:227-241 | a `min`/`max` node sets both ends to the min (max) of the operands' minima and ignores failures | `min(i, 20)` with i from 0 to 10 gets [0, 0], yet reaches 10 | each end from the matching ends of both operands, failing when an operand fails | high; not executed | RelativeMinMax.MinAsWrittenClipsRange | RelativeMinMax.MinCorrectedEncloses |
| src/SelectivePageMigration/RelativeMinMax.cpp:146-152 | a falling loop gets Min = max of start, Max = min of end | i falling from 10 to 0 gets [10, 0], which encloses nothing | Min = min of end, Max = max of start | high; not executed | RelativeMinMax.FallingAsWrittenIsEmpty | RelativeMinMax.LoopRangeSound |
| src/SelectivePageMigration/SelectivePageMigration.cpp:398 | the repair rebinds through `Expr(V, R)` with R the symbol's current value, whose name is the symbol's own only before its first rebinding | a symbol `x.0` already rebound to a load of global `g` in block 2, checked again at block 3: the new name is `g.1`, nothing is rebound, and the check recurses forever | redirect the symbol's own name to the new load | medium; not executed | Placement.AsWrittenNeverSettles | Placement.CorrectedSettles |
| src/SelectivePageMigration/Runtime/SelectivePageMigrationRuntime.cpp:331-332 | the bound area is `PageEnd - PageStart` pages from `PageStart`, leaving out page `PageEnd` | Ary = 0, Start = 0, End = 4095: the area is empty, and the byte at `Ary + End` is never bound | `PageEnd - PageStart + 1` pages; the pass's own comment at SelectivePageMigration.cpp:343 treats a one-point range as "a single page" | medium; not executed | Runtime.AsWrittenMissesLastPage | Runtime.MigrateCoversSlice |

=== FILE: arith.dfy ===
/** Machine-integer arithmetic the source relies on: 64-bit two's-complement
    wrap-around and C's truncating division. */
module Arith {

  const TWO_63: int := 0x8000_0000_0000_0000
  const TWO_64: int := 0x1_0000_0000_0000_0000

  /** Representable as a signed 64-bit integer (`long`, `i64`). */
  predicate InI64(x: int) {
    -TWO_63 <= x < TWO_63
  }

  function Abs(x: int): nat {
    if x < 0 then -x else x
  }

  /** Euclidean division is determined by any quotient/remainder pair whose
      remainder lies in [0, m). */
  lemma {:induction false} ModUnique(a: int, m: int, q: int, r: int)
    requires m > 0
    requires a == m * q + r
    requires 0 <= r < m
    ensures a / m == q
    ensures a % m == r
  {
    var q' := a / m;
    var r' := a % m;
    var d := q - q';
    assert m * q - m * q' == m * d;
    assert m * d == r' - r;
    if d > 0 {
      MulAtLeast(m, d);
    } else if d < 0 {
      MulAtLeast(m, -d);
    }
  }

  lemma {:induction false} MulAtLeast(m: int, d: int)
    requires m > 0 && d > 0
    ensures m * d >= m
  {
    if d > 1 {
      MulAtLeast(m, d - 1);
      assert m * d == m * (d - 1) + m;
    }
  }

  /** Reduction of an integer to the signed 64-bit range, as every LLVM `i64`
      instruction and every `APInt(64, x, true)` constant performs it. */
  function Wrap64(x: int): (r: int)
    ensures InI64(r)
    ensures (x - r) % TWO_64 == 0
    ensures InI64(x) ==> r == x
  {
    var r := (x + TWO_63) % TWO_64 - TWO_63;
    assert x - r == TWO_64 * ((x + TWO_63) / TWO_64);
    ModUnique(x - r, TWO_64, (x + TWO_63) / TWO_64, 0);
    assert InI64(x) ==> r == x by {
      if InI64(x) {
        ModUnique(x + TWO_63, TWO_64, 0, x + TWO_63);
      }
    }
    r
  }

  const TWO_32: int := 0x1_0000_0000

  /** Reduction of a size to C's 32-bit `unsigned`, as the implicit
      conversion of a 64-bit `getTypeAllocSize` result performs it: the
      low 32 bits are kept, so the result is below 2^32, congruent to the
      size modulo 2^32, and the size itself when it already fits. */
  function Unsigned32(n: nat): (r: nat)
    ensures r < TWO_32
    ensures (n - r) % TWO_32 == 0
    ensures n < TWO_32 ==> r == n
  {
    var r := n % TWO_32;
    assert n - r == TWO_32 * (n / TWO_32);
    ModUnique(n - r, TWO_32, n / TWO_32, 0);
    assert n < TWO_32 ==> r == n by {
      if n < TWO_32 {
        ModUnique(n, TWO_32, 0, n);
      }
    }
    r
  }

  /** Integers congruent modulo 2^64 wrap to the same `i64`. */
  lemma {:induction false} WrapCongruent(x: int, y: int)
    requires (x - y) % TWO_64 == 0
    ensures Wrap64(x) == Wrap64(y)
  {
    var k := (x - y) / TWO_64;
    assert x - y == TWO_64 * k;
    var qy := (y + TWO_63) / TWO_64;
    var ry := (y + TWO_63) % TWO_64;
    assert y + TWO_63 == TWO_64 * qy + ry;
    assert x + TWO_63 == TWO_64 * (qy + k) + ry;
    ModUnique(x + TWO_63, TWO_64, qy + k, ry);
  }

  /** Wrapping an intermediate sum does not change the wrapped total: a chain
      of `add i64` instructions computes the exact sum modulo 2^64. */
  lemma {:induction false} WrapAddLeft(a: int, b: int)
    ensures Wrap64(Wrap64(a) + b) == Wrap64(a + b)
  {
    var k := (a - Wrap64(a)) / TWO_64;
    assert a - Wrap64(a) == TWO_64 * k;
    assert (a + b) - (Wrap64(a) + b) == TWO_64 * k;
    ModUnique((a + b) - (Wrap64(a) + b), TWO_64, k, 0);
    WrapCongruent(Wrap64(a) + b, a + b);
  }

  /** The same for a chain of `mul i64` instructions. */
  lemma {:induction false} WrapMulLeft(a: int, b: int)
    ensures Wrap64(Wrap64(a) * b) == Wrap64(a * b)
  {
    var k := (a - Wrap64(a)) / TWO_64;
    assert a - Wrap64(a) == TWO_64 * k;
    assert a * b - Wrap64(a) * b == (a - Wrap64(a)) * b;
    assert a * b - Wrap64(a) * b == TWO_64 * (k * b);
    ModUnique(a * b - Wrap64(a) * b, TWO_64, k * b, 0);
    WrapCongruent(Wrap64(a) * b, a * b);
  }

  /** C's (and LLVM `sdiv`'s) integer division, which rounds toward zero:
      the magnitude is the quotient of the magnitudes and the sign is the
      product of the signs. */
  function TruncDiv(a: int, b: int): (q: int)
    requires b != 0
    ensures Abs(q) == Abs(a) / Abs(b)
    ensures q != 0 ==> ((q > 0) <==> ((a > 0) == (b > 0)))
    ensures a >= 0 && b > 0 ==> q == a / b
  {
    DivNonneg(Abs(a), Abs(b));
    var q0 := Abs(a) / Abs(b);
    if (a >= 0) == (b > 0) then q0 else -q0
  }

  /** Dividing a non-negative number by a positive one gives a non-negative
      quotient, zero exactly when the dividend is smaller. */
  lemma {:induction false} DivNonneg(x: int, y: int)
    requires x >= 0 && y > 0
    ensures x / y >= 0
    ensures x / y == 0 <==> x < y
  {
    var q := x / y;
    assert x == y * q + x % y;
    if q < 0 {
      MulAtLeast(y, -q);
    }
    if q > 0 {
      MulAtLeast(y, q);
    }
  }
}

=== FILE: call_sites.dfy ===
/** The call sites of the page-migration hook (`SelectivePageMigration`).
    Every load and store in a loop with one back edge and two header
    predecessors is reduced to an array and a subscript; the subscript's
    range and the access's reuse, relative to the outermost enclosing loop
    the analyses can follow, become a record for the preheader of that
    loop. Records are kept once per (preheader, array) and merged, and one
    `__spm_get` call is emitted per record at the end of its preheader. */
module CallSites {
  import opened Wrappers
  import opened Exprs
  import opened Ir
  import opened SymbolTable
  import opened Lowering
  import opened ReduceIndexation
  import opened RelativeExecutions
  import RelativeMinMax
  import Placement
  import LoopInfo
  import Arith

  // ---------------------------------------------------------------------
  // Records and the set of records

  /** A call to insert (`CallInfo`): the preheader it goes to, the array,
      and the code computing the smallest subscript, the largest one and
      the reuse in bytes. */
  datatype Record = Record(preheader: BlockId, root: ValueId, min: Code, max: Code, reuse: Code)

  type Key = (BlockId, ValueId)

  function KeyOf(r: Record): Key {
    (r.preheader, r.root)
  }

  /** `CallInfo::operator==`: the preheader and the array decide. */
  predicate SameCall(a: Record, b: Record) {
    a.preheader == b.preheader && a.root == b.root
  }

  /** `CallInfoHasher`: the sum of the two addresses, with the numbers of
      blocks and values standing for their addresses. */
  function Hash(a: Record): int {
    a.preheader + a.root
  }

  /** Equal records hash alike, and equality is equality of keys: the code
      a record carries plays no part. */
  lemma {:induction false} HashAgrees(a: Record, b: Record)
    ensures SameCall(a, b) <==> KeyOf(a) == KeyOf(b)
    ensures SameCall(a, b) ==> Hash(a) == Hash(b)
    ensures SameCall(a, b.(min := a.min, max := a.max, reuse := a.reuse)) <==> SameCall(a, b)
  {
  }

  /** `Calls_` is a set under `SameCall`: at most one record per key. */
  predicate Unique(cs: seq<Record>) {
    forall i, j :: 0 <= i < |cs| && 0 <= j < |cs| && i != j ==> KeyOf(cs[i]) != KeyOf(cs[j])
  }

  /** The position of the record with key `k`. */
  function Find(cs: seq<Record>, k: Key): (i: Option<nat>)
    ensures i.Some? ==> i.value < |cs| && KeyOf(cs[i.value]) == k
    ensures i.None? <==> forall j :: 0 <= j < |cs| ==> KeyOf(cs[j]) != k
  {
    if |cs| == 0 then None
    else if KeyOf(cs[0]) == k then Some(0)
    else
      var i := Find(cs[1..], k);
      assert forall j :: 1 <= j < |cs| ==> cs[j] == cs[1..][j - 1];
      if i.None? then None else Some(i.value + 1)
  }

  /** In a set of records, the record with a key is the one `Find` gives. */
  lemma {:induction false} FindUnique(cs: seq<Record>, j: nat)
    requires Unique(cs) && j < |cs|
    ensures Find(cs, KeyOf(cs[j])) == Some(j)
  {
  }

  /** `unordered_set::erase`: the set without the record with key `k`. */
  function Erase(cs: seq<Record>, k: Key): (cs': seq<Record>)
    requires Unique(cs)
    ensures Unique(cs')
    ensures forall x :: x in cs' <==> x in cs && KeyOf(x) != k
  {
    match Find(cs, k)
    case None => cs
    case Some(i) =>
      var cs' := cs[..i] + cs[i + 1..];
      assert forall j :: 0 <= j < |cs'| ==> cs'[j] == cs[if j < i then j else j + 1];
      forall x | x in cs && KeyOf(x) != k
        ensures x in cs'
      {
        var j :| 0 <= j < |cs| && cs[j] == x;
        assert cs'[if j < i then j else j - 1] == x;
      }
      cs'
  }

  /** The merge of a new record into the one kept for its key: the smaller
      minimum (`icmp slt` and `select`), the larger maximum (`icmp sgt` and
      `select`) and the sum of the reuses. */
  function Merge(kept: Record, r: Record): (m: Record)
    ensures KeyOf(m) == KeyOf(kept)
  {
    kept.(min := Select(Slt, kept.min, r.min), max := Select(Sgt, kept.max, r.max), reuse := AddI(kept.reuse, r.reuse))
  }

  /** At run time the merged record computes the smaller of the two
      minima, the larger of the two maxima, and the sum of the reuses
      wrapped to 64 bits. */
  lemma {:induction false} MergeMeaning(kept: Record, r: Record, run: ValueId -> int, pow: (int, int) -> int)
    ensures var m := Merge(kept, r);
            var (a, b) := (Eval(kept.min, run, pow), Eval(r.min, run, pow));
            var x := Eval(m.min, run, pow);
            x <= a && x <= b && (x == a || x == b)
    ensures var m := Merge(kept, r);
            var (a, b) := (Eval(kept.max, run, pow), Eval(r.max, run, pow));
            var x := Eval(m.max, run, pow);
            x >= a && x >= b && (x == a || x == b)
    ensures Eval(Merge(kept, r).reuse, run, pow) == Arith.Wrap64(Eval(kept.reuse, run, pow) + Eval(r.reuse, run, pow))
  {
  }

  /** `SelectivePageMigration.cpp` lines 357-375: insert the record; when one with its key is there,
      merge into that one, erase it and insert the merged record. */
  function AddCall(cs: seq<Record>, r: Record): (cs': seq<Record>)
    requires Unique(cs)
    ensures Unique(cs')
  {
    match Find(cs, KeyOf(r))
    case None => cs + [r]
    case Some(i) =>
      var m := Merge(cs[i], r);
      Erase(cs, KeyOf(m)) + [m]
  }

  /** The keys of the records. */
  function KeySet(cs: seq<Record>): set<Key> {
    set i | 0 <= i < |cs| :: KeyOf(cs[i])
  }

  /** The records as a map from key to record: the reference meaning of
      the set of records. */
  function AsMap(cs: seq<Record>): (m: map<Key, Record>)
    ensures m.Keys == KeySet(cs)
  {
    map k | k in KeySet(cs) :: cs[Find(cs, k).value]
  }

  /** A record of a set of records is what the map gives for its key. */
  lemma {:induction false} AsMapAt(cs: seq<Record>, x: Record)
    requires Unique(cs) && x in cs
    ensures KeyOf(x) in AsMap(cs) && AsMap(cs)[KeyOf(x)] == x
  {
    var j :| 0 <= j < |cs| && cs[j] == x;
    FindUnique(cs, j);
  }

  /** Adding a record updates the map at its key, with the record itself
      when the key is new and with the merge otherwise; every other key
      keeps its record. */
  lemma {:induction false} AddCallMap(cs: seq<Record>, r: Record)
    requires Unique(cs)
    ensures var m := AsMap(cs);
            var k := KeyOf(r);
            AsMap(AddCall(cs, r)) == m[k := if k in m then Merge(m[k], r) else r]
  {
    var m, k := AsMap(cs), KeyOf(r);
    var cs' := AddCall(cs, r);
    match Find(cs, k)
    case None =>
      assert k !in m;
      assert forall x :: x in cs' <==> (x in cs && KeyOf(x) != k) || x == r;
      MapUpdate(cs, cs', k, r);
    case Some(i) =>
      var mg := Merge(cs[i], r);
      AsMapAt(cs, cs[i]);
      assert forall x :: x in cs' <==> (x in cs && KeyOf(x) != k) || x == mg;
      MapUpdate(cs, cs', k, mg);
  }

  /** A set of records holding the records of another but the one with key
      `k`, and `y` with that key, maps like the other updated at `k`. */
  lemma {:induction false} MapUpdate(a: seq<Record>, b: seq<Record>, k: Key, y: Record)
    requires Unique(a) && Unique(b) && KeyOf(y) == k
    requires forall x :: x in b <==> (x in a && KeyOf(x) != k) || x == y
    ensures AsMap(b) == AsMap(a)[k := y]
  {
    var got, want := AsMap(b), AsMap(a)[k := y];
    forall q | q in want
      ensures q in got && got[q] == want[q]
    {
      if q == k {
        AsMapAt(b, y);
      } else {
        var j :| 0 <= j < |a| && KeyOf(a[j]) == q;
        AsMapAt(a, a[j]);
        AsMapAt(b, a[j]);
      }
    }
    forall q | q in got
      ensures q in want
    {
      var j :| 0 <= j < |b| && KeyOf(b[j]) == q;
      assert b[j] in b;
      if b[j] != y {
        AsMapAt(a, b[j]);
      }
    }
  }

  // ---------------------------------------------------------------------
  // Emission

  /** An access through a global variable, which can be issued again at
      another block. */
  predicate GlobalAccess(f: Function, a: ValueId)
    requires WellFormed(f) && a < |f.values|
  {
    var k := f.values[a].kind;
    assert RefsOk(k, a, |f.values|);
    (k.Load? || k.Store?) && f.values[k.ptr].kind.GlobalVar?
  }

  /** The arrays registered for re-loading (`LoadsToInsert`) are accesses
      through globals. */
  predicate ReloadsOk(f: Function, reloads: set<ValueId>)
    requires WellFormed(f)
  {
    forall a :: a in reloads ==> a < |f.values| && GlobalAccess(f, a)
  }

  /** The first argument of the hook: the array itself, cast to `void*`,
      or a new load from the global it was read from or written to. */
  datatype Arg = Direct(root: ValueId) | Reloaded(ptr: ValueId)

  /** A `__spm_get(array, min, max, reuse)` call at the end of a block. */
  datatype HookCall = HookCall(block: BlockId, arg: Arg, min: Code, max: Code, reuse: Code)

  /** `SelectivePageMigration.cpp` lines 192-226: the call for one record. An array registered for
      re-loading is loaded again from its global; any other array is
      passed as it is. */
  function EmitCall(f: Function, reloads: set<ValueId>, r: Record): (c: HookCall)
    requires WellFormed(f) && ReloadsOk(f, reloads)
    ensures c.block == r.preheader && c.min == r.min && c.max == r.max && c.reuse == r.reuse
    ensures c.arg.Reloaded? <==> r.root in reloads
    ensures c.arg.Direct? ==> c.arg.root == r.root
    ensures c.arg.Reloaded? ==>
              && c.arg.ptr < |f.values| && f.values[c.arg.ptr].kind.GlobalVar?
              && c.arg.ptr == f.values[r.root].kind.ptr
  {
    var arg := if r.root in reloads then Reloaded(f.values[r.root].kind.ptr) else Direct(r.root);
    HookCall(r.preheader, arg, r.min, r.max, r.reuse)
  }

  /** `SelectivePageMigration.cpp` lines 190-229: one call per record. */
  function Emission(f: Function, reloads: set<ValueId>, cs: seq<Record>): (out: seq<HookCall>)
    requires WellFormed(f) && ReloadsOk(f, reloads)
    ensures |out| == |cs|
    ensures forall i :: 0 <= i < |cs| ==> out[i] == EmitCall(f, reloads, cs[i])
  {
    seq(|cs|, i requires 0 <= i < |cs| => EmitCall(f, reloads, cs[i]))
  }

  /** The emitted calls go one to each (preheader, array) pair recorded:
      no two calls come from records with the same key, and every key has
      its call. */
  lemma {:induction false} EmissionPerKey(f: Function, reloads: set<ValueId>, cs: seq<Record>)
    requires WellFormed(f) && ReloadsOk(f, reloads) && Unique(cs)
    ensures var out := Emission(f, reloads, cs);
            forall k :: k in KeySet(cs) ==>
              exists i :: 0 <= i < |out| && out[i].block == k.0 && KeyOf(cs[i]) == k
    ensures forall i, j :: 0 <= i < j < |cs| ==> KeyOf(cs[i]) != KeyOf(cs[j])
  {
    var out := Emission(f, reloads, cs);
    forall k | k in KeySet(cs)
      ensures exists i :: 0 <= i < |out| && out[i].block == k.0 && KeyOf(cs[i]) == k
    {
      var i :| 0 <= i < |cs| && KeyOf(cs[i]) == k;
      assert out[i].block == k.0;
    }
  }

  // ---------------------------------------------------------------------
  // One access

  /** The analyses' settings: the computer-algebra bridge and the bound on
      the depth of the range inference into loop bounds. */
  datatype Config = Config(alg: Algebra, fuel: nat)

  /** The pass state: the function (with the loads the pass issued again),
      the symbol tables, the records and the arrays to re-load. */
  datatype State = State(f: Function, t: Table, calls: seq<Record>, reloads: set<ValueId>)

  predicate Good(s: State) {
    WellFormed(s.f) && Unique(s.calls) && ReloadsOk(s.f, s.reloads)
  }

  /** The function only gains values and the re-load set only grows. */
  predicate Grows(s: State, s': State) {
    Extends(s.f, s'.f) && s.reloads <= s'.reloads
  }

  /** What one access gives: a record kept (with the loop the reuse is
      relative to), the access dropped (the tables and the function may
      still have changed), or a crash of the pass. */
  datatype Outcome = Kept(s: State, final: LoopId, rec: Record) | Dropped(s: State) | Crashed

  predicate IsAccess(k: Kind) {
    k.Load? || k.Store?
  }

  /** `outer` is `inner` or one of the loops around it. */
  predicate Within(f: Function, outer: LoopId, inner: LoopId)
    requires WellFormed(f) && inner < |f.loops|
    decreases inner
  {
    assert ParentOk(f.loops[inner], inner);
    || inner == outer
    || (f.loops[inner].parent.Some? && Within(f, outer, f.loops[inner].parent.value))
  }

  /** The levels of a walk over the parents end at a loop around the
      first. */
  lemma {:induction false} ClimbsWithin(f: Function, ls: seq<Level>)
    requires WellFormed(f) && |ls| >= 1 && InLoops(f, ls) && Climbs(f, ls)
    ensures Within(f, ls[|ls| - 1].loop, ls[0].loop)
    decreases |ls|
  {
    if |ls| > 1 {
      assert InLoops(f, ls[1..]);
      ClimbsWithin(f, ls[1..]);
      assert ls[1..][|ls[1..]| - 1] == ls[|ls| - 1];
    }
  }

  /** A valid reuse relative to no given loop comes with its `Final`: a
      loop around the access's loop. */
  lemma {:induction false} FinalEncloses(f: Function, t: Table, alg: Algebra, l: LoopId)
    requires WellFormed(f) && l < |f.loops|
    ensures var ex := ExecutionsRelativeTo(f, t, alg, l, None).0;
            ex.count.IsValid() ==> ex.final.Some? && ex.final.value < |f.loops| && Within(f, ex.final.value, l)
  {
    var ex := ExecutionsRelativeTo(f, t, alg, l, None).0;
    assert ex == ExecutionsWith(f, t, alg, Facts(f), l, None).0;
    WalkFinal(f, l, ex);
  }

  /** A walk that starts at `l`, climbs the forest and ends its `Final` at
      its last level has a `Final` around `l` whenever its count is valid. */
  lemma {:induction false} WalkFinal(f: Function, l: LoopId, ex: Executions)
    requires WellFormed(f) && l < |f.loops|
    requires InLoops(f, ex.levels) && Climbs(f, ex.levels)
    requires |ex.levels| > 0 ==> ex.levels[0].loop == l
    requires ex.status.Failed? ==> ex.count.Invalid?
    requires ex.status.Failed? || |ex.levels| >= 1
    requires !ex.status.Failed? ==> ex.final == Some(ex.levels[|ex.levels| - 1].loop)
    ensures ex.count.IsValid() ==> ex.final.Some? && ex.final.value < |f.loops| && Within(f, ex.final.value, l)
  {
    if ex.count.IsValid() {
      ClimbsWithin(f, ex.levels);
    }
  }

  /** `SelectivePageMigration.cpp` lines 236-266: the reduction of the address an access uses, and the
      size of the value it reads or writes, kept in the `unsigned Size` of
      line 241 and so reduced to 32 bits. */
  function Reduce(f: Function, t: Table, v: ValueId): (r: (Reduction, nat, Table))
    requires WellFormed(f) && v < |f.values| && IsAccess(f.values[v].kind)
    ensures r.0.Reduced? ==> r.0.root < |f.values|
    ensures r.1 < Arith.TWO_32
    ensures var x := f.values[v];
            var full := if x.kind.Load? then AllocSize(x.ty) else AllocSize(f.values[x.kind.stored].ty);
            && (full < Arith.TWO_32 ==> r.1 == full)
            && (full - r.1) % Arith.TWO_32 == 0
  {
    var x := f.values[v];
    assert RefsOk(x.kind, v, |f.values|);
    if x.kind.Load? then
      var (red, t1) := ReduceLoad(f, t, v);
      (red, Arith.Unsigned32(AllocSize(x.ty)), t1)
    else
      var (red, t1) := ReduceStore(f, t, v);
      (red, Arith.Unsigned32(AllocSize(f.values[x.kind.stored].ty)), t1)
  }

  /** `generateCallFor(L, I)`. */
  function GenerateCallFor(cfg: Config, s: State, l: LoopId, v: ValueId): (r: Outcome)
    requires Good(s) && l < |s.f.loops| && v < |s.f.values|
    ensures !IsAccess(s.f.values[v].kind) ==> r == Dropped(s)
    ensures Steps(s, r) && RootReachable(s, r)
    ensures r.Kept? ==> Within(s.f, r.final, l)
    ensures IsAccess(s.f.values[v].kind) ==>
              var (red, size, t1) := Reduce(s.f, s.t, v);
              && (red.Aborted? ==> r.Crashed?)
              && (red.Unreduced? ==> r.Dropped?)
              && (red.Reduced? ==>
                    var (ex, t2) := ExecutionsRelativeTo(s.f, t1, cfg.alg, l, None);
                    var rng := RelativeMinMax.GetMinMax(
                      RelativeMinMax.Corrected, RelativeMinMax.InductionFacts(s.f), red.subscript, Zero, Zero, t2, cfg.fuel).0;
                    && (!ex.count.IsValid() || !rng.ok ==> r.Dropped?)
                    && (r.Kept? ==> ex.final == Some(r.final) && r.rec.root == red.root && Emitted(r, ex.count, size, rng.lo, rng.hi)))
  {
    var f := s.f;
    if !IsAccess(f.values[v].kind) then Dropped(s)
    else
      var (red, size, t1) := Reduce(f, s.t, v);
      match red
      case Aborted => Crashed
      case Unreduced(_) => Dropped(s.(t := t1))
      case Reduced(root, sub) =>
        var (ex, t2) := ExecutionsRelativeTo(f, t1, cfg.alg, l, None);
        if !ex.count.IsValid() then Dropped(s.(t := t2))
        else
          FinalEncloses(f, t1, cfg.alg, l);
          Bounded(cfg, s.(t := t2), ex.final.value, root, sub, ex.count, size)
  }

  /** What the run must satisfy for the record of a kept access to mean
      what it says: the symbols of the reduction stand for the run-time
      values they name, the bounds of every induction variable the range
      inference consulted are true, and the two bounds are polynomials
      whose values fit in 64 bits. */
  ghost predicate RunFits(cfg: Config, s: State, l: LoopId, v: ValueId, run: ValueId -> int)
    requires Good(s) && l < |s.f.loops| && v < |s.f.values| && IsAccess(s.f.values[v].kind)
  {
    var r := GenerateCallFor(cfg, s, l, v);
    var (red, size, t1) := Reduce(s.f, s.t, v);
    r.Kept? && red.Reduced? ==>
      var t2 := ExecutionsRelativeTo(s.f, t1, cfg.alg, l, None).1;
      var (rng, t3) := RelativeMinMax.GetMinMax(
        RelativeMinMax.Corrected, RelativeMinMax.InductionFacts(s.f), red.subscript, Zero, Zero, t2, cfg.fuel);
      var env := Env(r.s.t.values, run);
      && RelativeMinMax.Plain(red.subscript)
      && LoopInfo.Agrees(t1, env, AsReal(run))
      && RelativeMinMax.FactsHoldFor(RelativeMinMax.InductionFacts(s.f), red.subscript, t2, cfg.fuel, env)
      && Poly(rng.lo) && Poly(rng.hi)
      && Arith.InI64(PolyValue(rng.lo, r.s.t.values, run)) && Arith.InI64(PolyValue(rng.hi, r.s.t.values, run))
  }

  /** The run-time values, taken as exact numbers. */
  function AsReal(run: ValueId -> int): ValueId -> real {
    (w: ValueId) => run(w) as real
  }

  /** The record of a kept access brackets the bytes it touches: on a run
      that fits, the minimum and the maximum its code computes enclose the
      exact-arithmetic byte offset (`AddressOffset`) of the accessed address
      from its array. */
  lemma {:induction false} KeptRecordBrackets(cfg: Config, s: State, l: LoopId, v: ValueId, run: ValueId -> int, pow: (int, int) -> int)
    requires Good(s) && l < |s.f.loops| && v < |s.f.values| && IsAccess(s.f.values[v].kind)
    requires s.f.values[v].kind.ptr < |s.f.values|
    requires LoopInfo.SymsOnly(s.t) && Run64(run) && RunFits(cfg, s, l, v, run)
    ensures var r := GenerateCallFor(cfg, s, l, v);
            var off := AddressOffset(s.f, s.f.values[v].kind.ptr, AsReal(run));
            r.Kept? ==> off.Some? && Eval(r.rec.min, run, pow) as real <= off.value <= Eval(r.rec.max, run, pow) as real
  {
    var f := s.f;
    var r := GenerateCallFor(cfg, s, l, v);
    if r.Kept? {
      var (red, size, t1) := Reduce(f, s.t, v);
      var (ex, t2) := ExecutionsRelativeTo(f, t1, cfg.alg, l, None);
      var (rng, t3) := RelativeMinMax.GetMinMax(
        RelativeMinMax.Corrected, RelativeMinMax.InductionFacts(f), red.subscript, Zero, Zero, t2, cfg.fuel);
      assert red.Reduced? && Emitted(r, ex.count, size, rng.lo, rng.hi);
      OffsetBracketed(f, s.t, v, red, t1, t2, cfg.fuel, rng, t3, r.s.t.values, run, pow, r.rec.min, r.rec.max);
    }
  }

  /** The step of `KeptRecordBrackets` past the pass: the reduction gives
      the offset, the corrected range inference encloses it, and the
      lowered bounds compute the range. */
  lemma {:induction false} OffsetBracketed(f: Function, t: Table, v: ValueId, red: Reduction, t1: Table, t2: Table, fuel: nat,
                                           rng: RelativeMinMax.Range, t3: Table, values: map<string, ValueId>,
                                           run: ValueId -> int, pow: (int, int) -> int, lc: Code, hc: Code)
    requires WellFormed(f) && v < |f.values| && IsAccess(f.values[v].kind) && f.values[v].kind.ptr < |f.values|
    requires LoopInfo.SymsOnly(t) && Run64(run)
    requires (red, t1) == ReduceMemoryOp(f, t, f.values[v].kind.ptr, Zero) && red.Reduced?
    requires (rng, t3) == RelativeMinMax.GetMinMax(
               RelativeMinMax.Corrected, RelativeMinMax.InductionFacts(f), red.subscript, Zero, Zero, t2, fuel)
    requires RelativeMinMax.Plain(red.subscript) && LoopInfo.Agrees(t1, Env(values, run), AsReal(run))
    requires RelativeMinMax.FactsHoldFor(RelativeMinMax.InductionFacts(f), red.subscript, t2, fuel, Env(values, run))
    requires rng.ok && Poly(rng.lo) && Poly(rng.hi)
    requires Arith.InI64(PolyValue(rng.lo, values, run)) && Arith.InI64(PolyValue(rng.hi, values, run))
    requires Lower(rng.lo, values) == Emit(lc) && Lower(rng.hi, values) == Emit(hc)
    ensures var off := AddressOffset(f, f.values[v].kind.ptr, AsReal(run));
            off.Some? && Eval(lc, run, pow) as real <= off.value <= Eval(hc, run, pow) as real
  {
    var env := Env(values, run);
    ReduceAccessOffset(f, t, v, env, AsReal(run));
    RelativeMinMax.GetMinMaxSound(RelativeMinMax.InductionFacts(f), red.subscript, t2, fuel, env);
    CodeBrackets(rng.lo, rng.hi, AddressOffset(f, f.values[v].kind.ptr, AsReal(run)).value, values, run, pow, lc, hc);
  }

  /** Code lowered from two polynomial bounds that enclose `x` computes
      bounds that enclose `x`, as long as the bounds fit in 64 bits. */
  lemma {:induction false} CodeBrackets(lo: Expr, hi: Expr, x: real, values: map<string, ValueId>, run: ValueId -> int, pow: (int, int) -> int, lc: Code, hc: Code)
    requires Poly(lo) && Poly(hi) && Run64(run)
    requires Lower(lo, values) == Emit(lc) && Lower(hi, values) == Emit(hc)
    requires Arith.InI64(PolyValue(lo, values, run)) && Arith.InI64(PolyValue(hi, values, run))
    requires Value(lo, Env(values, run)) <= x <= Value(hi, Env(values, run))
    ensures Eval(lc, run, pow) as real <= x <= Eval(hc, run, pow) as real
  {
    LowerComputesValue(lo, values, run, pow);
    LowerComputesValue(hi, values, run, pow);
  }

  /** What every stage of `generateCallFor` guarantees: a dropped access
      leaves the records alone; a kept one adds its record, which goes to
      the preheader of `final` and names an array that is usable there or
      is registered for re-loading. */
  predicate Steps(s: State, r: Outcome)
    requires Good(s)
  {
    && (r.Dropped? ==> Good(r.s) && Grows(s, r.s) && r.s.calls == s.calls)
    && (r.Kept? ==>
          && Good(r.s) && Grows(s, r.s) && r.s.calls == AddCall(s.calls, r.rec)
          && r.final < |s.f.loops| && s.f.loops[r.final].preheader == Some(r.rec.preheader))
  }

  /** A kept record names an array that is usable at its preheader or is
      registered for re-loading. */
  predicate RootReachable(s: State, r: Outcome)
    requires Good(s)
  {
    r.Kept? ==>
      && r.rec.root < |s.f.values|
      && (Placement.Outside(s.f, r.rec.root, Some(r.rec.preheader)) ==> r.rec.root in r.s.reloads)
  }

  /** `SelectivePageMigration.cpp` lines 282-333: an array that cannot be used at the preheader is
      registered for re-loading when it is an access through a global, and
      the access is dropped otherwise; then the subscript's range. */
  function Bounded(cfg: Config, s: State, final: LoopId, root: ValueId, sub: Expr, count: Expr, size: nat): (r: Outcome)
    requires Good(s) && final < |s.f.loops| && root < |s.f.values|
    ensures Steps(s, r) && RootReachable(s, r) && (r.Kept? ==> r.final == final && r.rec.root == root)
    ensures Placement.Outside(s.f, root, s.f.loops[final].preheader) && !GlobalAccess(s.f, root) ==> r == Dropped(s)
    ensures var rng := RelativeMinMax.GetMinMax(
              RelativeMinMax.Corrected, RelativeMinMax.InductionFacts(s.f), sub, Zero, Zero, s.t, cfg.fuel).0;
            && (!rng.ok ==> r.Dropped?)
            && (r.Kept? ==> Emitted(r, count, size, rng.lo, rng.hi))
  {
    var pre := s.f.loops[final].preheader;
    var outside := Placement.Outside(s.f, root, pre);
    if outside && !GlobalAccess(s.f, root) then Dropped(s)
    else
      var s1 := s.(reloads := if outside then s.reloads + {root} else s.reloads);
      var (rng, t1) := RelativeMinMax.GetMinMax(
        RelativeMinMax.Corrected, RelativeMinMax.InductionFacts(s.f), sub, Zero, Zero, s.t, cfg.fuel);
      if !rng.ok then Dropped(s1.(t := t1))
      else
        var r := Finish(s1.(t := t1), final, root, count, size, rng.lo, rng.hi);
        r
  }

  /** The code of a kept record is the lowering, with the final tables, of
      the reuse in bytes (the count times the access size), of the minimum
      and of the maximum. */
  predicate Emitted(r: Outcome, count: Expr, size: nat, lo: Expr, hi: Expr)
    requires r.Kept?
  {
    && Lower(Times(count, Int(size)), r.s.t.values) == Emit(r.rec.reuse)
    && Lower(lo, r.s.t.values) == Emit(r.rec.min)
    && Lower(hi, r.s.t.values) == Emit(r.rec.max)
  }

  /** The outcome of one `canGenerateExprAt` at the preheader. */
  datatype Checked = Usable(s: State) | Unplaceable(s: State) | CheckCrashed

  /** `canGenerateExprAt(Ex, Preheader)` as a step of the pass: a
      placeable expression, one that is not, or a symbol that stands for
      no value. */
  function CheckAt(s: State, e: Expr, pre: Option<BlockId>): (r: Checked)
    requires Good(s)
    ensures !r.CheckCrashed? ==> Good(r.s) && Grows(s, r.s) && r.s.calls == s.calls && r.s.reloads == s.reloads
    ensures r.Usable? ==> Placement.FirstStuck(r.s.f, r.s.t, Symbols(e), pre).Clear?
    ensures r.Unplaceable? ==> !Placement.FirstStuck(r.s.f, r.s.t, Symbols(e), pre).Clear?
  {
    var (p, g, t1) := Placement.CanGenerateAt(Placement.Corrected, s.f, s.t, e, pre);
    ReloadsExtend(s.f, g, s.reloads);
    if p == Placement.Crashes then CheckCrashed
    else if p == Placement.Placeable then Usable(State(g, t1, s.calls, s.reloads))
    else Unplaceable(State(g, t1, s.calls, s.reloads))
  }

  /** The checks of several expressions in turn, stopping at the first
      that is not placeable. */
  function CheckAll(s: State, es: seq<Expr>, pre: Option<BlockId>): (r: Checked)
    requires Good(s)
    ensures !r.CheckCrashed? ==> Good(r.s) && Grows(s, r.s) && r.s.calls == s.calls && r.s.reloads == s.reloads
    decreases |es|
  {
    if |es| == 0 then Usable(s)
    else
      match CheckAt(s, es[0], pre)
      case CheckCrashed => CheckCrashed
      case Unplaceable(s1) => Unplaceable(s1)
      case Usable(s1) =>
        var r := CheckAll(s1, es[1..], pre);
        r
  }

  /** `SelectivePageMigration.cpp` lines 337-349: the reuse, the minimum and the maximum must be usable
      at the end of the preheader, checked in that order (each check may
      issue loads again there); a range of a single expression is dropped,
      and a loop without a preheader crashes the pass. */
  function Finish(s: State, final: LoopId, root: ValueId, count: Expr, size: nat, lo: Expr, hi: Expr): (r: Outcome)
    requires Good(s) && final < |s.f.loops| && root < |s.f.values|
    ensures lo == hi ==> !r.Kept?
    ensures s.f.loops[final].preheader.None? ==> !r.Kept?
    ensures Steps(s, r) && (r.Kept? ==> r.final == final && r.rec.root == root && r.s.reloads == s.reloads)
    ensures r.Kept? ==> Emitted(r, count, size, lo, hi)
  {
    var pre := s.f.loops[final].preheader;
    match CheckAll(s, [count, lo, hi], pre)
    case CheckCrashed => Crashed
    case Unplaceable(s1) => Dropped(s1)
    case Usable(s1) =>
      if lo == hi then Dropped(s1)
      else if pre.None? then Crashed
      else
        var r := Insert(s1, final, pre.value, root, Times(count, Int(size)), lo, hi);
        r
  }

  /** `SelectivePageMigration.cpp` lines 351-375: the reuse in bytes, the minimum and the maximum are
      lowered to code at the preheader, and the record is added. */
  function Insert(s: State, final: LoopId, pre: BlockId, root: ValueId, reuse: Expr, lo: Expr, hi: Expr): (r: Outcome)
    requires Good(s)
    ensures r.Dropped? ==> false
    ensures r.Kept? ==>
              && r.s == s.(calls := AddCall(s.calls, r.rec)) && r.final == final
              && r.rec.preheader == pre && r.rec.root == root
    ensures r.Kept? <==> Lower(reuse, s.t.values).Emit? && Lower(lo, s.t.values).Emit? && Lower(hi, s.t.values).Emit?
    ensures r.Kept? ==>
              && Lower(reuse, s.t.values) == Emit(r.rec.reuse)
              && Lower(lo, s.t.values) == Emit(r.rec.min)
              && Lower(hi, s.t.values) == Emit(r.rec.max)
  {
    var cr := Lower(reuse, s.t.values);
    var mn := Lower(lo, s.t.values);
    var mx := Lower(hi, s.t.values);
    if !(cr.Emit? && mn.Emit? && mx.Emit?) then Crashed
    else
      var rec := Record(pre, root, mn.code, mx.code, cr.code);
      Kept(s.(calls := AddCall(s.calls, rec)), final, rec)
  }

  /** Appending values keeps the re-load set valid. */
  lemma {:induction false} ReloadsExtend(f: Function, g: Function, reloads: set<ValueId>)
    requires WellFormed(f) && WellFormed(g) && Extends(f, g) && ReloadsOk(f, reloads)
    ensures ReloadsOk(g, reloads)
  {
    forall a | a in reloads
      ensures a < |g.values| && GlobalAccess(g, a)
    {
      var k := f.values[a].kind;
      assert RefsOk(k, a, |f.values|);
      assert g.values[a] == f.values[a];
      assert g.values[k.ptr] == f.values[k.ptr];
    }
  }

  // ---------------------------------------------------------------------
  // The whole function

  /** The loops the pass scans: one back edge and two predecessors of the
      header. */
  predicate Scanned(f: Function, l: LoopId)
    requires l < |f.loops|
  {
    f.loops[l].backEdges == 1 && f.loops[l].headerPreds == 2
  }

  /** A block of a scanned loop whose header the walk over the dominator
      tree meets. */
  predicate InScannedLoop(f: Function, b: BlockId)
    requires WellFormed(f)
  {
    exists l :: 0 <= l < |f.loops| && ScannedAt(f, l) && b in f.loops[l].blocks
  }

  /** `l` is the loop its header heads, the header is in the walk and the
      loop is scanned. */
  predicate ScannedAt(f: Function, l: LoopId)
    requires WellFormed(f) && l < |f.loops|
  {
    var h := f.loops[l].header;
    h in f.domPostorder && HeadedLoop(f, h) == Some(l) && Scanned(f, l)
  }

  /** The instructions of a block among the first `n` values, in order. */
  function InstructionsUpTo(f: Function, b: BlockId, n: nat): (vs: seq<ValueId>)
    requires n <= |f.values|
    ensures forall i :: 0 <= i < |vs| ==> vs[i] < n && f.values[vs[i]].block == b && IsInstruction(f.values[vs[i]].kind)
    ensures forall v :: 0 <= v < n && f.values[v].block == b && IsInstruction(f.values[v].kind) ==> v in vs
    ensures forall i, j :: 0 <= i < j < |vs| ==> vs[i] < vs[j]
  {
    if n == 0 then []
    else
      var vs := InstructionsUpTo(f, b, n - 1);
      if f.values[n - 1].block == b && IsInstruction(f.values[n - 1].kind) then vs + [n - 1] else vs
  }

  /** The result of the pass on a function: whether it changed, the
      function with the loads it issued, the records, the arrays to
      re-load and the hook calls; or a crash. */
  datatype Run = Ran(changed: bool, f: Function, calls: seq<Record>, reloads: set<ValueId>, hooks: seq<HookCall>) | RunCrashed

  /** No block handled twice. */
  predicate Distinct(trace: seq<BlockId>) {
    forall p, q :: 0 <= p < q < |trace| ==> trace[p] != trace[q]
  }

  /** Every block of every scanned loop whose header comes among the
      first `i` blocks of the walk has been handled. */
  predicate Covered(f: Function, i: nat, trace: seq<BlockId>)
    requires WellFormed(f) && i <= |f.domPostorder|
  {
    forall l, b :: 0 <= l < |f.loops| && ScannedAt(f, l) && f.loops[l].header in f.domPostorder[..i] && b in f.loops[l].blocks
      ==> b in trace
  }

  /** A per-access step with the shape of `generateCallFor`. */
  type Step = (State, LoopId, ValueId) -> Outcome

  /** What the walk relies on from the per-access step: on a good state, a
      loop of its function and one of its values, it crashes or leaves a
      good state that grew. */
  ghost predicate StepsGood(gen: Step) {
    forall s: State, l: LoopId, v: ValueId | Good(s) && l < |s.f.loops| && v < |s.f.values| ::
      gen(s, l, v).Crashed? || (Good(gen(s, l, v).s) && Grows(s, gen(s, l, v).s))
  }

  /** `generateCallFor` with the pass's configuration, as a step; the walk
      only calls it where `generateCallFor` may be called, and the other
      arguments give a crash. */
  function PassStep(cfg: Config): Step {
    (s: State, l: LoopId, v: ValueId) =>
      if Good(s) && l < |s.f.loops| && v < |s.f.values| then GenerateCallFor(cfg, s, l, v) else Crashed
  }

  /** `generateCallFor` keeps the state good and only grows it. */
  lemma {:induction false} PassStepGood(cfg: Config)
    ensures StepsGood(PassStep(cfg))
  {
  }

  /** The reference meaning of handling the instructions `vs`: each goes
      through the step from the state the one before it left, and the
      first crash ends the pass (`None`). */
  function HandleAll(gen: Step, s: State, l: LoopId, vs: seq<ValueId>): (r: Option<State>)
    decreases |vs|
  {
    if |vs| == 0 then Some(s)
    else
      var o := gen(s, l, vs[0]);
      if o.Crashed? then None else HandleAll(gen, o.s, l, vs[1..])
  }

  /** Handling values of a good state keeps it good and only grows it. */
  lemma {:induction false} HandleAllGood(gen: Step, s: State, l: LoopId, vs: seq<ValueId>)
    requires StepsGood(gen) && Good(s) && l < |s.f.loops| && forall i :: 0 <= i < |vs| ==> vs[i] < |s.f.values|
    ensures var r := HandleAll(gen, s, l, vs); r.Some? ==> Good(r.value) && Grows(s, r.value)
    decreases |vs|
  {
    if |vs| > 0 {
      var o := gen(s, l, vs[0]);
      if !o.Crashed? {
        HandleAllGood(gen, o.s, l, vs[1..]);
      }
    }
  }

  /** `SelectivePageMigration.cpp` lines 179-182: each instruction of a block in turn, through
      the step; `false` when the pass crashed. */
  method HandleBlock(gen: Step, s0: State, l: LoopId, b: BlockId) returns (ok: bool, s: State)
    ensures var o := HandleAll(gen, s0, l, InstructionsUpTo(s0.f, b, |s0.f.values|));
            (ok <==> o.Some?) && (ok ==> s == o.value)
  {
    s := s0;
    var vs := InstructionsUpTo(s.f, b, |s.f.values|);
    var k := 0;
    while k < |vs|
      invariant 0 <= k <= |vs|
      invariant HandleAll(gen, s0, l, vs) == HandleAll(gen, s, l, vs[k..])
    {
      assert vs[k..][0] == vs[k] && vs[k..][1..] == vs[k + 1..];
      var o := gen(s, l, vs[k]);
      if o.Crashed? {
        return false, s;
      }
      s := o.s;
      k := k + 1;
    }
    return true, s;
  }

  /** The reference meaning of the walk over the blocks `blocks[..j]` of
      loop `l`, from state `s` with the blocks `done` already handled: a
      block not handled yet is handled and recorded. The state is `None`
      once the pass crashed; the blocks list then ends with the block that
      crashed it. */
  function VisitBlocks(gen: Step, l: LoopId, blocks: seq<BlockId>, j: nat, s: State, done: seq<BlockId>): (r: (Option<State>, seq<BlockId>))
    requires j <= |blocks|
    decreases j
  {
    if j == 0 then (Some(s), done)
    else
      var (o, d) := VisitBlocks(gen, l, blocks, j - 1, s, done);
      var b := blocks[j - 1];
      if o.None? || b in d then (o, d)
      else (HandleAll(gen, o.value, l, InstructionsUpTo(o.value.f, b, |o.value.f.values|)), d + [b])
  }

  /** Visiting blocks keeps a good state good and only grows it. */
  lemma {:induction false} VisitGood(gen: Step, l: LoopId, blocks: seq<BlockId>, j: nat, s: State, done: seq<BlockId>)
    requires StepsGood(gen) && Good(s) && l < |s.f.loops| && j <= |blocks|
    ensures var r := VisitBlocks(gen, l, blocks, j, s, done); r.0.Some? ==> Good(r.0.value) && Grows(s, r.0.value)
    decreases j
  {
    if j > 0 {
      VisitGood(gen, l, blocks, j - 1, s, done);
      var (o, d) := VisitBlocks(gen, l, blocks, j - 1, s, done);
      if o.Some? {
        var b := blocks[j - 1];
        HandleAllGood(gen, o.value, l, InstructionsUpTo(o.value.f, b, |o.value.f.values|));
      }
    }
  }

  /** The walk over a loop's blocks keeps the blocks handled before, adds
      only blocks of the loop, none twice, and all of them unless the
      pass crashed. */
  lemma {:induction false} VisitTrace(gen: Step, l: LoopId, blocks: seq<BlockId>, j: nat, s: State, done: seq<BlockId>)
    requires j <= |blocks|
    ensures var (o, d) := VisitBlocks(gen, l, blocks, j, s, done);
            && (forall b :: b in done ==> b in d)
            && (forall b :: b in d ==> b in done || b in blocks)
            && (Distinct(done) ==> Distinct(d))
            && (o.Some? ==> forall p :: 0 <= p < j ==> blocks[p] in d)
    decreases j
  {
    if j > 0 {
      VisitTrace(gen, l, blocks, j - 1, s, done);
    }
  }

  /** A crashed walk over a loop's blocks stays crashed. */
  lemma {:induction false} VisitCrashed(gen: Step, l: LoopId, blocks: seq<BlockId>, j: nat, k: nat, s: State, done: seq<BlockId>)
    requires j <= k <= |blocks|
    requires VisitBlocks(gen, l, blocks, j, s, done).0.None?
    ensures VisitBlocks(gen, l, blocks, k, s, done) == VisitBlocks(gen, l, blocks, j, s, done)
    decreases k
  {
    if j < k {
      VisitCrashed(gen, l, blocks, j, k - 1, s, done);
    }
  }

  /** The `j`-th block of the loop, handled unless it already was. */
  method VisitBlock(gen: Step, l: LoopId, blocks: seq<BlockId>, j: nat, s0: State, done: seq<BlockId>, s: State, trace: seq<BlockId>)
    returns (ok: bool, s': State, trace': seq<BlockId>)
    requires j < |blocks| && VisitBlocks(gen, l, blocks, j, s0, done) == (Some(s), trace)
    ensures VisitBlocks(gen, l, blocks, j + 1, s0, done) == (if ok then Some(s') else None, trace')
  {
    var b := blocks[j];
    s', trace' := s, trace;
    ok := true;
    if b !in trace {
      trace' := trace + [b];
      ok, s' := HandleBlock(gen, s, l, b);
    }
  }

  /** `SelectivePageMigration.cpp` lines 172-178: the blocks of a loop in turn, from state `s0` with the
      blocks `done` already handled; `false` when the pass crashed. */
  method HandleLoop(gen: Step, l: LoopId, blocks: seq<BlockId>, s0: State, done: seq<BlockId>) returns (ok: bool, s: State, trace: seq<BlockId>)
    ensures var (o, d) := VisitBlocks(gen, l, blocks, |blocks|, s0, done);
            && trace == d && (ok <==> o.Some?) && (ok ==> s == o.value)
  {
    s, trace := s0, done;
    var j := 0;
    while j < |blocks|
      invariant 0 <= j <= |blocks|
      invariant VisitBlocks(gen, l, blocks, j, s0, done) == (Some(s), trace)
    {
      ok, s, trace := VisitBlock(gen, l, blocks, j, s0, done, s, trace);
      if !ok {
        VisitCrashed(gen, l, blocks, j + 1, |blocks|, s0, done);
        return;
      }
      j := j + 1;
    }
    ok := true;
  }

  /** The reference meaning of the walk over the first `i` blocks of the
      post-order of the dominator tree of `f`: the blocks of the loop each
      scanned header heads are visited in turn. */
  function Walk(gen: Step, f: Function, s: State, i: nat): (r: (Option<State>, seq<BlockId>))
    requires WellFormed(f) && i <= |f.domPostorder|
    decreases i
  {
    if i == 0 then (Some(s), [])
    else
      var (o, d) := Walk(gen, f, s, i - 1);
      var lo := HeadedLoop(f, f.domPostorder[i - 1]);
      if o.None? || !(lo.Some? && Scanned(f, lo.value)) then (o, d)
      else
        var blocks := f.loops[lo.value].blocks;
        VisitBlocks(gen, lo.value, blocks, |blocks|, o.value, d)
  }

  /** The walk keeps a good state good, and the function it ends with
      extends the one it started from. */
  lemma {:induction false} WalkGood(gen: Step, f: Function, s: State, i: nat)
    requires StepsGood(gen) && WellFormed(f) && Good(s) && Extends(f, s.f) && i <= |f.domPostorder|
    ensures var r := Walk(gen, f, s, i); r.0.Some? ==> Good(r.0.value) && Extends(f, r.0.value.f)
    decreases i
  {
    if i > 0 {
      WalkGood(gen, f, s, i - 1);
      var (o, d) := Walk(gen, f, s, i - 1);
      var lo := HeadedLoop(f, f.domPostorder[i - 1]);
      if o.Some? && lo.Some? && Scanned(f, lo.value) {
        var blocks := f.loops[lo.value].blocks;
        VisitGood(gen, lo.value, blocks, |blocks|, o.value, d);
      }
    }
  }

  /** The walk handles no block twice, only blocks of scanned loops, and,
      unless the pass crashed, every block of every scanned loop whose
      header it has met. */
  lemma {:induction false} WalkTrace(gen: Step, f: Function, s: State, i: nat)
    requires WellFormed(f) && i <= |f.domPostorder|
    ensures var (o, d) := Walk(gen, f, s, i);
            && Distinct(d)
            && (forall p :: 0 <= p < |d| ==> InScannedLoop(f, d[p]))
            && (o.Some? ==> Covered(f, i, d))
    decreases i
  {
    if i > 0 {
      WalkTrace(gen, f, s, i - 1);
      var (o, d) := Walk(gen, f, s, i - 1);
      var lo := HeadedLoop(f, f.domPostorder[i - 1]);
      if o.Some? && lo.Some? && Scanned(f, lo.value) {
        var l := lo.value;
        var blocks := f.loops[l].blocks;
        assert ScannedAt(f, l);
        VisitTrace(gen, l, blocks, |blocks|, o.value, d);
        var (o', d') := VisitBlocks(gen, l, blocks, |blocks|, o.value, d);
        forall p | 0 <= p < |d'|
          ensures InScannedLoop(f, d'[p])
        {
          if d'[p] !in d {
            assert d'[p] in blocks;
          }
        }
        if o'.Some? {
          CoveredGrows(f, i - 1, d, d');
          CoveredStep(f, i - 1, d', l);
        }
      } else if o.Some? {
        CoveredSkip(f, i - 1, d);
      }
    }
  }

  /** A crashed walk over the dominator tree stays crashed. */
  lemma {:induction false} WalkCrashed(gen: Step, f: Function, s: State, i: nat, k: nat)
    requires WellFormed(f) && i <= k <= |f.domPostorder|
    requires Walk(gen, f, s, i).0.None?
    ensures Walk(gen, f, s, k) == Walk(gen, f, s, i)
    decreases k
  {
    if i < k {
      WalkCrashed(gen, f, s, i, k - 1);
    }
  }

  /** `runOnFunction`, after the special cases for `main` and the thread
      functions: the walk over the dominator tree in post-order, each
      scanned loop's blocks handled once through `generateCallFor`, then
      one hook call per record. `trace` lists the blocks handled, in
      order. */
  method RunOnFunction(cfg: Config, f0: Function, t0: Table) returns (r: Run, trace: seq<BlockId>)
    requires WellFormed(f0)
    ensures var (o, d) := Walk(PassStep(cfg), f0, State(f0, t0, [], {}), |f0.domPostorder|);
            && trace == d
            && (r.Ran? <==> o.Some?)
            && (r.Ran? ==> r.f == o.value.f && r.calls == o.value.calls && r.reloads == o.value.reloads)
    ensures Distinct(trace)
    ensures forall i :: 0 <= i < |trace| ==> InScannedLoop(f0, trace[i])
    ensures r.Ran? ==> Covered(f0, |f0.domPostorder|, trace)
    ensures r.Ran? ==> (r.changed <==> |r.calls| > 0)
    ensures r.Ran? ==> WellFormed(r.f) && Extends(f0, r.f) && Unique(r.calls) && ReloadsOk(r.f, r.reloads)
    ensures r.Ran? ==> r.hooks == Emission(r.f, r.reloads, r.calls)
  {
    PassStepGood(cfg);
    r, trace := RunWalk(PassStep(cfg), f0, t0);
  }

  /** The same walk for any step that keeps the state good. */
  method RunWalk(gen: Step, f0: Function, t0: Table) returns (r: Run, trace: seq<BlockId>)
    requires StepsGood(gen) && WellFormed(f0)
    ensures var (o, d) := Walk(gen, f0, State(f0, t0, [], {}), |f0.domPostorder|);
            && trace == d
            && (r.Ran? <==> o.Some?)
            && (r.Ran? ==> r.f == o.value.f && r.calls == o.value.calls && r.reloads == o.value.reloads)
    ensures Distinct(trace)
    ensures forall i :: 0 <= i < |trace| ==> InScannedLoop(f0, trace[i])
    ensures r.Ran? ==> Covered(f0, |f0.domPostorder|, trace)
    ensures r.Ran? ==> (r.changed <==> |r.calls| > 0)
    ensures r.Ran? ==> WellFormed(r.f) && Extends(f0, r.f) && Unique(r.calls) && ReloadsOk(r.f, r.reloads)
    ensures r.Ran? ==> r.hooks == Emission(r.f, r.reloads, r.calls)
  {
    var s0 := State(f0, t0, [], {});
    var s := s0;
    trace := [];
    var i := 0;
    while i < |f0.domPostorder|
      invariant 0 <= i <= |f0.domPostorder|
      invariant Walk(gen, f0, s0, i) == (Some(s), trace)
    {
      var ok;
      ok, s, trace := VisitHeader(gen, f0, i, s0, s, trace);
      if !ok {
        WalkCrashed(gen, f0, s0, i + 1, |f0.domPostorder|);
        WalkTrace(gen, f0, s0, |f0.domPostorder|);
        return RunCrashed, trace;
      }
      i := i + 1;
    }
    WalkGood(gen, f0, s0, |f0.domPostorder|);
    WalkTrace(gen, f0, s0, |f0.domPostorder|);
    r := Ran(|s.calls| > 0, s.f, s.calls, s.reloads, Emission(s.f, s.reloads, s.calls));
  }

  /** The `i`-th block of the walk: the blocks of the loop it heads, when
      that loop is scanned. */
  method VisitHeader(gen: Step, f: Function, i: nat, s0: State, s: State, trace: seq<BlockId>)
    returns (ok: bool, s': State, trace': seq<BlockId>)
    requires WellFormed(f) && i < |f.domPostorder| && Walk(gen, f, s0, i) == (Some(s), trace)
    ensures Walk(gen, f, s0, i + 1) == (if ok then Some(s') else None, trace')
  {
    var lo := HeadedLoop(f, f.domPostorder[i]);
    if lo.Some? && Scanned(f, lo.value) {
      ok, s', trace' := HandleLoop(gen, lo.value, f.loops[lo.value].blocks, s, trace);
    } else {
      ok, s', trace' := true, s, trace;
    }
  }

  /** Handling more blocks keeps the covered ones covered. */
  lemma {:induction false} CoveredGrows(f: Function, i: nat, trace: seq<BlockId>, trace': seq<BlockId>)
    requires WellFormed(f) && i <= |f.domPostorder|
    requires Covered(f, i, trace) && forall b :: b in trace ==> b in trace'
    ensures Covered(f, i, trace')
  {
  }

  /** After the blocks of the loop the `i`-th header heads, the headers up
      to the `i`-th are covered. */
  lemma {:induction false} CoveredStep(f: Function, i: nat, trace: seq<BlockId>, l: LoopId)
    requires WellFormed(f) && i < |f.domPostorder| && l < |f.loops|
    requires HeadedLoop(f, f.domPostorder[i]) == Some(l)
    requires Covered(f, i, trace)
    requires forall b :: b in f.loops[l].blocks ==> b in trace
    ensures Covered(f, i + 1, trace)
  {
    assert f.domPostorder[..i + 1] == f.domPostorder[..i] + [f.domPostorder[i]];
  }

  /** A header that heads no scanned loop adds nothing to cover. */
  lemma {:induction false} CoveredSkip(f: Function, i: nat, trace: seq<BlockId>)
    requires WellFormed(f) && i < |f.domPostorder|
    requires var lo := HeadedLoop(f, f.domPostorder[i]); !(lo.Some? && Scanned(f, lo.value))
    requires Covered(f, i, trace)
    ensures Covered(f, i + 1, trace)
  {
    assert f.domPostorder[..i + 1] == f.domPostorder[..i] + [f.domPostorder[i]];
  }
}

=== FILE: decimal.dfy ===
/** Decimal rendering of unsigned integers (`std::to_string`) and the fact
    that makes interned symbol names unique: a name ending in "." followed by
    a decimal id determines that id. */
module Decimal {

  predicate IsDigit(c: char) {
    '0' <= c <= '9'
  }

  function DigitChar(d: nat): (c: char)
    requires d < 10
    ensures IsDigit(c)
  {
    "0123456789"[d]
  }

  /** `std::to_string` of an unsigned value: its decimal digits, most
      significant first, without leading zeros. */
  function NatToString(n: nat): (s: string)
    ensures 1 <= |s|
    ensures n >= 10 ==> 2 <= |s|
    ensures forall i :: 0 <= i < |s| ==> IsDigit(s[i])
  {
    if n < 10 then [DigitChar(n)] else NatToString(n / 10) + [DigitChar(n % 10)]
  }

  /** Different numbers print differently. */
  lemma {:induction false} NatToStringInjective(a: nat, b: nat)
    requires NatToString(a) == NatToString(b)
    ensures a == b
    decreases a
  {
    var s := NatToString(a);
    if a < 10 && b < 10 {
      assert "0123456789"[a] == s[0] == "0123456789"[b];
    } else if a >= 10 && b >= 10 {
      var pa := NatToString(a / 10);
      var pb := NatToString(b / 10);
      assert s == pa + [DigitChar(a % 10)];
      assert s == pb + [DigitChar(b % 10)];
      assert |pa| == |pb|;
      assert pa == s[..|s| - 1] == pb;
      assert "0123456789"[a % 10] == s[|s| - 1] == "0123456789"[b % 10];
      NatToStringInjective(a / 10, b / 10);
    }
  }

  /** The longest run of digits at the end of a string. */
  function DigitSuffix(s: string): (d: string)
    ensures |d| <= |s| && d == s[|s| - |d|..]
  {
    if |s| == 0 || !IsDigit(s[|s| - 1]) then []
    else DigitSuffix(s[..|s| - 1]) + [s[|s| - 1]]
  }

  /** Behind a dot, the digit run is exactly the digits appended. */
  lemma {:induction false} DigitSuffixAfterDot(base: string, d: string)
    requires forall i :: 0 <= i < |d| ==> IsDigit(d[i])
    ensures DigitSuffix(base + "." + d) == d
    decreases |d|
  {
    var s := base + "." + d;
    if |d| == 0 {
      assert s == base + ".";
    } else {
      var init := d[..|d| - 1];
      assert s[..|s| - 1] == base + "." + init;
      DigitSuffixAfterDot(base, init);
      assert init + [d[|d| - 1]] == d;
    }
  }

  /** Names of the shape `base + "." + to_string(id)` with different ids are
      different, whatever the bases are: the id is the text after the last
      dot. */
  lemma {:induction false} SuffixedNamesDistinct(base1: string, id1: nat, base2: string, id2: nat)
    requires id1 != id2
    ensures base1 + "." + NatToString(id1) != base2 + "." + NatToString(id2)
  {
    if base1 + "." + NatToString(id1) == base2 + "." + NatToString(id2) {
      DigitSuffixAfterDot(base1, NatToString(id1));
      DigitSuffixAfterDot(base2, NatToString(id2));
      NatToStringInjective(id1, id2);
    }
  }
}

=== FILE: expr.dfy ===
/** The symbolic expressions the pass reasons with (class `Expr`, a wrapper
    around an algebra-library expression).

    An expression is a numeric constant, a symbol, a sum, a product, a power,
    a `min`/`max` of two expressions, or the distinguished invalid
    expression that every analysis returns on failure. The invalid
    expression is itself a symbol (named `__INVALID__`), so `IsSymbol` holds
    for it, exactly as in the source.

    The algebra library's automatic simplification is modelled by a light,
    fixed normal form: a sum is flattened, its numeric constants are folded
    into one term placed last and a zero term is dropped; a product folds
    two constants, drops a unit factor, collapses to `0` on a zero factor
    and otherwise is the product of its two operands. Terms are neither reordered nor
    collected. Equality of expressions is syntactic. `Value` gives every
    expression its value under an environment, and each operator is proved
    to compute the value the arithmetic promises. */
module Exprs {
  import opened Wrappers
  import Arith

  type Pos = x: int | x > 0 witness 1

  datatype Expr =
    | Int(value: int)
    | Rat(num: int, den: Pos)
    | Sym(name: string)
    | Add(terms: seq<Expr>)
    | Mul(factors: seq<Expr>)
    | Pow(base: Expr, exponent: Expr)
    | Min(left: Expr, right: Expr)
    | Max(left: Expr, right: Expr)
    | Invalid
  {
    /** Anything but the sentinel (`*this != InvalidExpr()`). */
    predicate IsValid() {
      !Invalid?
    }

    /** Symbols, including the sentinel, which is a symbol too. */
    predicate IsSymbol() {
      Sym? || Invalid?
    }

    /** Numeric constants: integers and rationals alike. */
    predicate IsConstant() {
      Int? || Rat?
    }

    predicate IsInteger() {
      Int?
    }

    /** Every numeric constant of the model is rational. */
    predicate IsRational() {
      IsConstant()
    }

    /** The library reports every real numeric as a float as well. */
    predicate IsFloat() {
      IsConstant()
    }
  }

  /** Name of the sentinel symbol. */
  const INVALID_NAME: string := "__INVALID__"

  /** A default-constructed expression is the number zero. */
  const Zero: Expr := Int(0)

  /** The printed name of a symbol (`getSymbolString`). */
  function SymbolName(e: Expr): (n: string)
    requires e.IsSymbol()
    ensures e.Invalid? ==> n == INVALID_NAME
    ensures e.Sym? ==> n == e.name
  {
    if e.Invalid? then INVALID_NAME else e.name
  }

  /** The value of a numeric constant. */
  function NumVal(e: Expr): real
    requires e.IsConstant()
  {
    if e.Int? then e.value as real else e.num as real / e.den as real
  }

  /** The numerator and the (positive) denominator of a constant. */
  function NumParts(e: Expr): (p: (int, Pos))
    requires e.IsConstant()
    ensures NumVal(e) == p.0 as real / p.1 as real
  {
    if e.Int? then (e.value, 1) else (e.num, e.den)
  }

  // ---------------------------------------------------------------------
  // Values

  /** The value of an expression under an environment binding symbol names
      to reals. The function is total: an unbound symbol, the sentinel, a
      power with a non-integer exponent and a negative power of zero all
      take the value 0, so the operator laws below hold for every
      environment, and they are the real laws whenever the environment
      binds every symbol of the operands. */
  function Value(e: Expr, env: map<string, real>): real
    decreases e
  {
    match e
    case Int(n) => n as real
    case Rat(n, d) => n as real / d as real
    case Sym(x) => if x in env then env[x] else 0.0
    case Add(ts) => SumValue(ts, env)
    case Mul(fs) => ProdValue(fs, env)
    case Pow(b, x) =>
      var bv := Value(b, env);
      if x.Int? && (bv != 0.0 || x.value >= 0) then RealPow(bv, x.value) else 0.0
    case Min(l, r) => RealMin(Value(l, env), Value(r, env))
    case Max(l, r) => RealMax(Value(l, env), Value(r, env))
    case Invalid => 0.0
  }

  /** The sum of the values of a sequence of terms. */
  function SumValue(ts: seq<Expr>, env: map<string, real>): real
    decreases ts
  {
    if |ts| == 0 then 0.0 else Value(ts[0], env) + SumValue(ts[1..], env)
  }

  /** The product of the values of a sequence of factors. */
  function ProdValue(fs: seq<Expr>, env: map<string, real>): real
    decreases fs
  {
    if |fs| == 0 then 1.0 else Value(fs[0], env) * ProdValue(fs[1..], env)
  }

  function RealMin(a: real, b: real): (m: real)
  {
    if a <= b then a else b
  }

  function RealMax(a: real, b: real): (m: real)
  {
    if a >= b then a else b
  }

  /** x raised to an integer power (x must be non-zero when k < 0). */
  function RealPow(x: real, k: int): real
    requires x != 0.0 || k >= 0
    decreases if k < 0 then -k else k
  {
    if k == 0 then 1.0
    else if k > 0 then x * RealPow(x, k - 1)
    else RealPow(x, k + 1) / x
  }

  // ---------------------------------------------------------------------
  // Numeric constants

  /** The constant n/d with a positive denominator: an integer exactly when
      the denominator divides the numerator. */
  function MakeRat(n: int, d: Pos): (r: Expr)
    ensures r.IsConstant()
    ensures NumVal(r) == n as real / d as real
    ensures r.Rat? ==> r.den >= 2 && r.num % r.den != 0
  {
    if n % d == 0 then
      ExactQuotient(n, d);
      Int(n / d)
    else
      Rat(n, d)
  }

  /** An exact integer quotient is the real quotient. */
  lemma {:induction false} ExactQuotient(a: int, b: int)
    requires b > 0 && a % b == 0
    ensures (a / b) as real == a as real / b as real
  {
    var q := a / b;
    assert a == b * q;
    assert a as real == b as real * q as real;
  }

  /** Sum of two constants. */
  function NumAdd(p: Expr, q: Expr): (r: Expr)
    requires p.IsConstant() && q.IsConstant()
    ensures r.IsConstant() && NumVal(r) == NumVal(p) + NumVal(q)
  {
    var (pn, pd) := NumParts(p);
    var (qn, qd) := NumParts(q);
    AddFractions(pn, pd, qn, qd);
    Arith.MulAtLeast(pd, qd);
    MakeRat(pn * qd + qn * pd, pd * qd)
  }

  lemma {:induction false} AddFractions(a: int, b: int, c: int, d: int)
    requires b > 0 && d > 0
    ensures (a * d + c * b) as real / (b * d) as real == a as real / b as real + c as real / d as real
  {
    var B := b as real;
    var D := d as real;
    assert (a * d + c * b) as real == a as real * D + c as real * B;
    assert (b * d) as real == B * D;
  }

  /** Product of two constants. */
  function NumMul(p: Expr, q: Expr): (r: Expr)
    requires p.IsConstant() && q.IsConstant()
    ensures r.IsConstant() && NumVal(r) == NumVal(p) * NumVal(q)
  {
    var (pn, pd) := NumParts(p);
    var (qn, qd) := NumParts(q);
    Arith.MulAtLeast(pd, qd);
    ProductValue(pn, pd, qn, qd, NumVal(p), NumVal(q));
    MakeRat(pn * qn, pd * qd)
  }

  lemma {:induction false} ProductValue(a: int, b: int, c: int, d: int, x: real, y: real)
    requires b > 0 && d > 0
    requires x == a as real / b as real && y == c as real / d as real
    ensures (a * c) as real / (b * d) as real == x * y
  {
    MulFractions(a, b, c, d);
  }

  lemma {:induction false} MulFractions(a: int, b: int, c: int, d: int)
    requires b > 0 && d > 0
    ensures (a * c) as real / (b * d) as real == (a as real / b as real) * (c as real / d as real)
  {
    assert (a * c) as real == a as real * c as real;
    assert (b * d) as real == b as real * d as real;
  }

  /** The reciprocal of a non-zero constant. */
  function Reciprocal(p: Expr): (r: Expr)
    requires p.IsConstant() && NumVal(p) != 0.0
    ensures r.IsConstant() && NumVal(r) == 1.0 / NumVal(p)
  {
    var (pn, pd) := NumParts(p);
    assert pn != 0;
    InvertFraction(pn, pd);
    if pn < 0 then
      NegateFraction(pd as int, pn);
      MakeRat(-(pd as int), -pn)
    else MakeRat(pd, pn)
  }

  lemma {:induction false} NegateFraction(a: int, b: int)
    requires b != 0
    ensures (-a) as real / (-b) as real == a as real / b as real
  {
  }

  lemma {:induction false} InvertFraction(a: int, b: int)
    requires a != 0 && b != 0
    ensures b as real / a as real == 1.0 / (a as real / b as real)
  {
  }

  /** A constant raised to a natural power: the numerator and the
      denominator are raised separately. */
  function NatPow(p: Expr, n: nat): (r: Expr)
    requires p.IsConstant()
    ensures r.IsConstant() && NumVal(r) == RealPow(NumVal(p), n)
  {
    var (pn, pd) := NumParts(p);
    FractionPow(pn, pd, n, pn as real / pd as real);
    MakeRat(IntPow(pn, n), IntPow(pd, n))
  }

  /** An integer raised to a natural power. */
  function IntPow(a: int, n: nat): int {
    if n == 0 then 1 else a * IntPow(a, n - 1)
  }

  /** (a/b)^n is a^n / b^n, and b^n stays positive. */
  lemma {:induction false} FractionPow(a: int, b: int, n: nat, x: real)
    requires b > 0 && x == a as real / b as real
    ensures IntPow(b, n) > 0
    ensures IntPow(a, n) as real / IntPow(b, n) as real == RealPow(x, n)
  {
    if n > 0 {
      FractionPow(a, b, n - 1, x);
      var an, bn := IntPow(a, n - 1), IntPow(b, n - 1);
      Arith.MulAtLeast(b, bn);
      MulFractions(a, b, an, bn);
      PowStep(x, an as real / bn as real, IntPow(a, n) as real / IntPow(b, n) as real, n);
    }
  }

  /** One more factor: x * x^(n-1) is x^n. */
  lemma {:induction false} PowStep(x: real, y: real, z: real, n: nat)
    requires n > 0 && y == RealPow(x, n - 1) && z == x * y
    ensures z == RealPow(x, n)
  {
  }

  /** A constant raised to an integer power: a negative power is the
      matching positive power of the reciprocal. */
  function NumPow(p: Expr, k: int): (r: Expr)
    requires p.IsConstant()
    requires NumVal(p) != 0.0 || k >= 0
    ensures r.IsConstant() && NumVal(r) == RealPow(NumVal(p), k)
  {
    if k >= 0 then NatPow(p, k)
    else
      RealPowOfReciprocal(NumVal(p), -k);
      NatPow(Reciprocal(p), -k)
  }

  /** x^(-n) == (1/x)^n. */
  lemma {:induction false} RealPowOfReciprocal(x: real, n: nat)
    requires x != 0.0
    ensures RealPow(x, -(n as int)) == RealPow(1.0 / x, n)
  {
    if n > 0 {
      RealPowOfReciprocal(x, n - 1);
      var y := RealPow(x, -((n - 1) as int));
      assert RealPow(x, -(n as int)) == y / x;
      assert RealPow(1.0 / x, n) == (1.0 / x) * y;
      DivAsProduct(y, x);
    }
  }

  lemma {:induction false} DivAsProduct(y: real, x: real)
    requires x != 0.0
    ensures (1.0 / x) * y == y / x
  {
  }

  // ---------------------------------------------------------------------
  // Normal form of sums and products

  /** The numeric constants among some operands, in order. */
  function Constants(es: seq<Expr>): (cs: seq<Expr>)
    ensures forall i :: 0 <= i < |cs| ==> cs[i].IsConstant()
  {
    if |es| == 0 then []
    else if es[0].IsConstant() then [es[0]] + Constants(es[1..])
    else Constants(es[1..])
  }

  /** The other operands, in order. */
  function NonConstants(es: seq<Expr>): (rest: seq<Expr>)
    ensures forall i :: 0 <= i < |rest| ==> !rest[i].IsConstant()
    ensures forall x :: x in rest ==> x in es
  {
    if |es| == 0 then []
    else if es[0].IsConstant() then NonConstants(es[1..])
    else [es[0]] + NonConstants(es[1..])
  }

  /** The folded sum of some constants. */
  function ConstSum(cs: seq<Expr>): (c: Expr)
    requires forall i :: 0 <= i < |cs| ==> cs[i].IsConstant()
    ensures c.IsConstant()
  {
    if |cs| == 0 then Int(0) else NumAdd(cs[0], ConstSum(cs[1..]))
  }

  /** Builds the normal-form sum of a sequence of terms: the non-constant
      terms in order, then the folded constant unless it is zero. */
  function MkAdd(ts: seq<Expr>): Expr {
    var c := ConstSum(Constants(ts));
    var rest := NonConstants(ts);
    if |rest| == 0 then c
    else if NumVal(c) == 0.0 then (if |rest| == 1 then rest[0] else Add(rest))
    else Add(rest + [c])
  }

  /** The terms an operand contributes to a sum. */
  function Terms(e: Expr): seq<Expr> {
    if e.Add? then e.terms
    else if e.IsConstant() && NumVal(e) == 0.0 then []
    else [e]
  }

  // ---------------------------------------------------------------------
  // Operators: each returns the sentinel when an operand is the sentinel

  function Plus(a: Expr, b: Expr): (r: Expr)
    ensures (a.Invalid? || b.Invalid?) ==> r.Invalid?
  {
    if a.IsValid() && b.IsValid() then MkAdd(Terms(a) + Terms(b)) else Invalid
  }

  /** `a * b`. Two constants fold, a zero constant absorbs, a unit
      constant disappears, and otherwise the result is the two-factor
      product with a constant factor placed last. */
  function Times(a: Expr, b: Expr): (r: Expr)
    ensures (a.Invalid? || b.Invalid?) ==> r.Invalid?
    ensures a.IsValid() && b.IsValid() ==> r.IsValid()
  {
    if !(a.IsValid() && b.IsValid()) then Invalid
    else if a.IsConstant() && b.IsConstant() then NumMul(a, b)
    else if a.IsConstant() && NumVal(a) == 0.0 then Int(0)
    else if b.IsConstant() && NumVal(b) == 0.0 then Int(0)
    else if a.IsConstant() && NumVal(a) == 1.0 then b
    else if b.IsConstant() && NumVal(b) == 1.0 then a
    else if a.IsConstant() then Mul([b, a])
    else Mul([a, b])
  }

  function Neg(a: Expr): (r: Expr)
    ensures a.Invalid? ==> r.Invalid?
    ensures a.IsValid() ==> r.IsValid()
  {
    Times(Int(-1), a)
  }

  function Minus(a: Expr, b: Expr): (r: Expr)
    ensures (a.Invalid? || b.Invalid?) ==> r.Invalid?
  {
    if a.IsValid() && b.IsValid() then Plus(a, Neg(b)) else Invalid
  }

  /** `a ^ b`. Integer exponents 0 and 1 and constant bases fold; a
      negative power of the constant zero stays symbolic. */
  function Power(a: Expr, b: Expr): (r: Expr)
    ensures (a.Invalid? || b.Invalid?) ==> r.Invalid?
    ensures a.IsValid() && b.IsValid() ==> r.IsValid()
  {
    if !(a.IsValid() && b.IsValid()) then Invalid
    else if b.Int? && b.value == 0 then Int(1)
    else if b.Int? && b.value == 1 then a
    else if b.Int? && a.IsConstant() && (NumVal(a) != 0.0 || b.value >= 0) then NumPow(a, b.value)
    else Pow(a, b)
  }

  /** `b ^ -1`: the reciprocal of a non-zero constant, otherwise the
      symbolic power. */
  function Inverse(b: Expr): (r: Expr)
    requires b.IsValid()
    ensures r.IsValid()
  {
    if b.IsConstant() && NumVal(b) != 0.0 then Reciprocal(b) else Pow(b, Int(-1))
  }

  /** `a / b`, which the library computes as `a * b^-1`. */
  function Divide(a: Expr, b: Expr): (r: Expr)
    ensures (a.Invalid? || b.Invalid?) ==> r.Invalid?
  {
    if a.IsValid() && b.IsValid() then Times(a, Inverse(b)) else Invalid
  }

  /** `min(a, b)`, evaluated when both sides are constants. */
  function MinE(a: Expr, b: Expr): (r: Expr)
    ensures (a.Invalid? || b.Invalid?) ==> r.Invalid?
  {
    if !(a.IsValid() && b.IsValid()) then Invalid
    else if a.IsConstant() && b.IsConstant() then (if NumVal(a) <= NumVal(b) then a else b)
    else Min(a, b)
  }

  /** `max(a, b)`, evaluated when both sides are constants. */
  function MaxE(a: Expr, b: Expr): (r: Expr)
    ensures (a.Invalid? || b.Invalid?) ==> r.Invalid?
  {
    if !(a.IsValid() && b.IsValid()) then Invalid
    else if a.IsConstant() && b.IsConstant() then (if NumVal(a) >= NumVal(b) then a else b)
    else Max(a, b)
  }

  // ---------------------------------------------------------------------
  // Soundness of the operators

  /** A constant's value is its numeric value. */
  lemma {:induction false} ValueOfConstant(e: Expr, env: map<string, real>)
    requires e.IsConstant()
    ensures Value(e, env) == NumVal(e)
  {
  }

  lemma {:induction false} SumValuePrepend(e: Expr, rest: seq<Expr>, env: map<string, real>)
    ensures SumValue([e] + rest, env) == Value(e, env) + SumValue(rest, env)
  {
    assert ([e] + rest)[0] == e;
    assert ([e] + rest)[1..] == rest;
  }

  lemma {:induction false} SumValueConcat(s: seq<Expr>, t: seq<Expr>, env: map<string, real>)
    ensures SumValue(s + t, env) == SumValue(s, env) + SumValue(t, env)
    decreases |s|
  {
    if |s| > 0 {
      assert (s + t)[1..] == s[1..] + t;
      assert (s + t)[0] == s[0];
      SumValueConcat(s[1..], t, env);
    } else {
      assert s + t == t;
    }
  }

  /** A two-factor product has the product of the two values. */
  lemma {:induction false} ProdValuePair(a: Expr, b: Expr, env: map<string, real>)
    ensures ProdValue([a, b], env) == Value(a, env) * Value(b, env)
  {
    var fs := [a, b];
    ProdValueCons(fs, env);
    ProdValueCons(fs[1..], env);
    assert fs[1..][1..] == [];
    MulCongruence(Value(a, env), ProdValue(fs[1..], env), Value(b, env));
  }

  lemma {:induction false} ProdValueCons(fs: seq<Expr>, env: map<string, real>)
    requires |fs| > 0
    ensures ProdValue(fs, env) == Value(fs[0], env) * ProdValue(fs[1..], env)
  {
  }

  /** Replacing a factor by an equal one keeps the product. */
  lemma {:induction false} MulCongruence(x: real, p: real, y: real)
    ensures p == y ==> x * p == x * y
  {
  }

  lemma {:induction false} ProdValueSingle(e: Expr, env: map<string, real>)
    ensures ProdValue([e], env) == Value(e, env)
  {
    assert [e][1..] == [];
  }

  lemma {:induction false} SumValueSingle(e: Expr, env: map<string, real>)
    ensures SumValue([e], env) == Value(e, env)
  {
    assert [e][1..] == [];
  }

  /** Separating the constants keeps the total. */
  lemma {:induction false} SplitSum(ts: seq<Expr>, env: map<string, real>)
    ensures SumValue(ts, env) == SumValue(NonConstants(ts), env) + SumValue(Constants(ts), env)
  {
    if |ts| > 0 {
      SplitSum(ts[1..], env);
      if ts[0].IsConstant() {
        SumValuePrepend(ts[0], Constants(ts[1..]), env);
      } else {
        SumValuePrepend(ts[0], NonConstants(ts[1..]), env);
      }
    }
  }

  /** The folded constant of a sum has the sum's value. */
  lemma {:induction false} ConstSumSound(cs: seq<Expr>, env: map<string, real>)
    requires forall i :: 0 <= i < |cs| ==> cs[i].IsConstant()
    ensures SumValue(cs, env) == NumVal(ConstSum(cs))
  {
    if |cs| > 0 {
      ConstSumSound(cs[1..], env);
    }
  }

  /** The normal-form sum has the value of the sum of its terms. */
  lemma {:induction false} MkAddSound(ts: seq<Expr>, env: map<string, real>)
    ensures Value(MkAdd(ts), env) == SumValue(ts, env)
  {
    SplitSum(ts, env);
    ConstSumSound(Constants(ts), env);
    var c := ConstSum(Constants(ts));
    var rest := NonConstants(ts);
    if |rest| > 0 {
      if NumVal(c) == 0.0 {
        if |rest| == 1 {
          SumValueSingle(rest[0], env);
        }
      } else {
        SumValueConcat(rest, [c], env);
        SumValueSingle(c, env);
      }
    }
  }

  lemma {:induction false} TermsSound(e: Expr, env: map<string, real>)
    ensures SumValue(Terms(e), env) == Value(e, env)
  {
    if !e.Add? && !(e.IsConstant() && NumVal(e) == 0.0) {
      SumValueSingle(e, env);
    }
  }

  /** `a + b` denotes the sum of the values. */
  lemma {:induction false} PlusSound(a: Expr, b: Expr, env: map<string, real>)
    requires a.IsValid() && b.IsValid()
    ensures Value(Plus(a, b), env) == Value(a, env) + Value(b, env)
  {
    TermsSound(a, env);
    TermsSound(b, env);
    SumValueConcat(Terms(a), Terms(b), env);
    MkAddSound(Terms(a) + Terms(b), env);
  }

  /** `a * b` denotes the product of the values. */
  lemma {:induction false} TimesSound(a: Expr, b: Expr, env: map<string, real>)
    requires a.IsValid() && b.IsValid()
    ensures Value(Times(a, b), env) == Value(a, env) * Value(b, env)
  {
    if a.IsConstant() && b.IsConstant() {
      TimesConstants(a, b, env);
    } else if TrivialFactor(a) || TrivialFactor(b) {
      TimesTrivial(a, b, env);
    } else {
      TimesPair(a, b, env);
    }
  }

  /** A constant zero or one, which `Times` folds away. */
  predicate TrivialFactor(e: Expr) {
    e.IsConstant() && (NumVal(e) == 0.0 || NumVal(e) == 1.0)
  }

  /** A zero factor yields zero and a unit factor yields the other operand. */
  lemma {:induction false} TimesTrivial(a: Expr, b: Expr, env: map<string, real>)
    requires a.IsValid() && b.IsValid() && !(a.IsConstant() && b.IsConstant())
    requires TrivialFactor(a) || TrivialFactor(b)
    ensures Value(Times(a, b), env) == Value(a, env) * Value(b, env)
  {
    if a.IsConstant() && NumVal(a) == 0.0 {
      TimesZero(a, b, env, true);
    } else if b.IsConstant() && NumVal(b) == 0.0 {
      TimesZero(a, b, env, false);
    } else {
      TimesUnit(a, b, env);
    }
  }

  lemma {:induction false} TimesZero(a: Expr, b: Expr, env: map<string, real>, left: bool)
    requires a.IsValid() && b.IsValid() && !(a.IsConstant() && b.IsConstant())
    requires left ==> a.IsConstant() && NumVal(a) == 0.0
    requires !left ==> b.IsConstant() && NumVal(b) == 0.0
    ensures Value(Times(a, b), env) == Value(a, env) * Value(b, env)
  {
    var r := Times(a, b);
    assert r == Int(0);
    ValueOfConstant(r, env);
    ValueOfConstant(if left then a else b, env);
    FoldedProduct(Value(r, env), Value(a, env), Value(b, env));
  }

  lemma {:induction false} TimesUnit(a: Expr, b: Expr, env: map<string, real>)
    requires a.IsValid() && b.IsValid() && !(a.IsConstant() && b.IsConstant())
    requires !(a.IsConstant() && NumVal(a) == 0.0) && !(b.IsConstant() && NumVal(b) == 0.0)
    requires TrivialFactor(a) || TrivialFactor(b)
    ensures Value(Times(a, b), env) == Value(a, env) * Value(b, env)
  {
    var r := Times(a, b);
    if a.IsConstant() {
      ValueOfConstant(a, env);
      assert r == b;
    } else {
      ValueOfConstant(b, env);
      assert r == a;
    }
    FoldedProduct(Value(r, env), Value(a, env), Value(b, env));
  }

  /** A product with a zero or unit factor, in plain reals. */
  lemma {:induction false} FoldedProduct(vr: real, va: real, vb: real)
    requires (va == 0.0 && vr == 0.0) || (vb == 0.0 && vr == 0.0)
          || (va == 1.0 && vr == vb) || (vb == 1.0 && vr == va)
    ensures vr == va * vb
  {
  }

  /** Without folding, the product is a two-factor `Mul`, constant last. */
  lemma {:induction false} TimesPair(a: Expr, b: Expr, env: map<string, real>)
    requires a.IsValid() && b.IsValid() && !(a.IsConstant() && b.IsConstant())
    requires !TrivialFactor(a) && !TrivialFactor(b)
    ensures Value(Times(a, b), env) == Value(a, env) * Value(b, env)
  {
    if a.IsConstant() {
      assert Times(a, b) == Mul([b, a]);
      ProdValuePair(b, a, env);
    } else {
      assert Times(a, b) == Mul([a, b]);
      ProdValuePair(a, b, env);
    }
  }

  lemma {:induction false} TimesConstants(a: Expr, b: Expr, env: map<string, real>)
    requires a.IsConstant() && b.IsConstant()
    ensures Value(NumMul(a, b), env) == Value(a, env) * Value(b, env)
  {
    ConstantProduct(NumMul(a, b), a, b, env);
  }

  /** A constant whose number is the product of two constants' numbers has
      the product of their values. */
  lemma {:induction false} ConstantProduct(r: Expr, a: Expr, b: Expr, env: map<string, real>)
    requires r.IsConstant() && a.IsConstant() && b.IsConstant()
    requires NumVal(r) == NumVal(a) * NumVal(b)
    ensures Value(r, env) == Value(a, env) * Value(b, env)
  {
    ValueOfConstant(a, env);
    ValueOfConstant(b, env);
    ValueOfConstant(r, env);
    SameProduct(Value(r, env), Value(a, env), Value(b, env), NumVal(r), NumVal(a), NumVal(b));
  }

  /** Values equal to the numeric values keep their product relation. */
  lemma {:induction false} SameProduct(vr: real, va: real, vb: real, nr: real, na: real, nb: real)
    requires vr == nr && va == na && vb == nb && nr == na * nb
    ensures vr == va * vb
  {
  }

  /** `a - b` denotes the difference of the values. */
  lemma {:induction false} MinusSound(a: Expr, b: Expr, env: map<string, real>)
    requires a.IsValid() && b.IsValid()
    ensures Value(Minus(a, b), env) == Value(a, env) - Value(b, env)
  {
    TimesSound(Int(-1), b, env);
    PlusSound(a, Neg(b), env);
  }

  /** `a ^ k` for an integer k denotes the k-th power of the value. */
  lemma {:induction false} PowerSound(a: Expr, k: int, env: map<string, real>)
    requires a.IsValid()
    requires Value(a, env) != 0.0 || k >= 0
    ensures Value(Power(a, Int(k)), env) == RealPow(Value(a, env), k)
  {
    var x := Value(a, env);
    if k == 1 {
      assert RealPow(x, 1) == x * RealPow(x, 0);
    } else if k != 0 && a.IsConstant() {
      ValueOfConstant(a, env);
      ValueOfConstant(NumPow(a, k), env);
    }
  }

  /** q is x divided by y: y is not zero and q times y gives x back. The
      relation is kept behind a name so that the solver does not reopen the
      product where it is only passed along. */
  predicate IsQuotient(q: real, x: real, y: real) {
    y != 0.0 && q * y == x
  }

  /** The quotient relation is real division. */
  lemma {:induction false} QuotientIsDivision(q: real, x: real, y: real)
    requires y != 0.0
    ensures IsQuotient(q, x, y) <==> q == x / y
  {
  }

  /** v = x * q with q the reciprocal of y makes v the quotient x / y. */
  lemma {:induction false} QuotientByReciprocal(v: real, x: real, q: real, y: real)
    requires IsQuotient(q, 1.0, y) && IsProduct(v, x, q)
    ensures IsQuotient(v, x, y)
  {
    assert v * y == x * (q * y);
  }

  /** p is x times y, named for the same reason as `IsQuotient`. */
  predicate IsProduct(p: real, x: real, y: real) {
    p == x * y
  }

  lemma {:induction false} RealPowMinusOne(y: real)
    requires y != 0.0
    ensures IsQuotient(RealPow(y, -1), 1.0, y)
  {
    assert RealPow(y, -1) == RealPow(y, 0) / y;
  }

  /** The inverse of a non-zero value is its reciprocal. */
  lemma {:induction false} InverseSound(b: Expr, env: map<string, real>)
    requires b.IsValid() && Value(b, env) != 0.0
    ensures IsQuotient(Value(Inverse(b), env), 1.0, Value(b, env))
  {
    if b.IsConstant() {
      InverseOfConstant(b, env);
    } else {
      InverseOfSymbolic(b, env);
    }
  }

  lemma {:induction false} InverseOfConstant(b: Expr, env: map<string, real>)
    requires b.IsConstant() && Value(b, env) != 0.0
    ensures IsQuotient(Value(Inverse(b), env), 1.0, Value(b, env))
  {
    var r := Reciprocal(b);
    ValueOfConstant(b, env);
    ValueOfConstant(r, env);
    assert Inverse(b) == r;
    QuotientIsDivision(NumVal(r), 1.0, NumVal(b));
  }

  lemma {:induction false} InverseOfSymbolic(b: Expr, env: map<string, real>)
    requires b.IsValid() && !b.IsConstant() && Value(b, env) != 0.0
    ensures IsQuotient(Value(Inverse(b), env), 1.0, Value(b, env))
  {
    assert Value(Inverse(b), env) == RealPow(Value(b, env), -1);
    RealPowMinusOne(Value(b, env));
  }

  /** `TimesSound` in the named form. */
  lemma {:induction false} TimesIsProduct(a: Expr, b: Expr, env: map<string, real>)
    requires a.IsValid() && b.IsValid()
    ensures IsProduct(Value(Times(a, b), env), Value(a, env), Value(b, env))
  {
    TimesSound(a, b, env);
  }

  lemma {:induction false} DivideIsProduct(a: Expr, b: Expr, env: map<string, real>)
    requires a.IsValid() && b.IsValid()
    ensures IsProduct(Value(Divide(a, b), env), Value(a, env), Value(Inverse(b), env))
  {
    TimesIsProduct(a, Inverse(b), env);
    assert Divide(a, b) == Times(a, Inverse(b));
  }

  /** `a / b` denotes the quotient of the values when the divisor is not
      zero. */
  lemma {:induction false} DivideSound(a: Expr, b: Expr, env: map<string, real>)
    requires a.IsValid() && b.IsValid()
    requires Value(b, env) != 0.0
    ensures IsQuotient(Value(Divide(a, b), env), Value(a, env), Value(b, env))
  {
    var p := Inverse(b);
    InverseSound(b, env);
    DivideIsProduct(a, b, env);
    QuotientByReciprocal(Value(Divide(a, b), env), Value(a, env), Value(p, env), Value(b, env));
  }

  /** `min(a, b)` denotes the smaller value. */
  lemma {:induction false} MinSound(a: Expr, b: Expr, env: map<string, real>)
    requires a.IsValid() && b.IsValid()
    ensures Value(MinE(a, b), env) == RealMin(Value(a, env), Value(b, env))
  {
  }

  /** `max(a, b)` denotes the larger value. */
  lemma {:induction false} MaxSound(a: Expr, b: Expr, env: map<string, real>)
    requires a.IsValid() && b.IsValid()
    ensures Value(MaxE(a, b), env) == RealMax(Value(a, env), Value(b, env))
  {
  }

  /** A divisor whose value is zero makes the quotient's value zero, the
      convention `Value` gives `b^-1` at zero: a non-constant divisor stays
      the symbolic power `b^-1`. For the numeric constant zero the library
      throws instead, and the model keeps `0^-1` symbolic there as well. */
  lemma {:induction false} DivideByZero(a: Expr, b: Expr, env: map<string, real>)
    requires a.IsValid() && b.IsValid()
    requires Value(b, env) == 0.0
    ensures Value(Divide(a, b), env) == 0.0
  {
    if b.IsConstant() {
      ValueOfConstant(b, env);
    }
    assert Inverse(b) == Pow(b, Int(-1));
    DivideIsProduct(a, b, env);
  }

  // ---------------------------------------------------------------------
  // Expressions free of the sentinel

  /** No subterm is the sentinel. Expressions built by the analyses from
      interned values and numbers are clean, and the operators keep them
      so; a clean expression is in particular valid. */
  predicate Clean(e: Expr)
    decreases e
  {
    match e
    case Invalid => false
    case Add(ts) => forall i :: 0 <= i < |ts| ==> Clean(ts[i])
    case Mul(fs) => forall i :: 0 <= i < |fs| ==> Clean(fs[i])
    case Pow(b, x) => Clean(b) && Clean(x)
    case Min(l, r) => Clean(l) && Clean(r)
    case Max(l, r) => Clean(l) && Clean(r)
    case _ => true
  }

  lemma {:induction false} TermsClean(e: Expr)
    requires Clean(e)
    ensures forall i :: 0 <= i < |Terms(e)| ==> Clean(Terms(e)[i])
  {
  }

  lemma {:induction false} MkAddClean(ts: seq<Expr>)
    requires forall i :: 0 <= i < |ts| ==> Clean(ts[i])
    ensures Clean(MkAdd(ts))
  {
    var c := ConstSum(Constants(ts));
    var rest := NonConstants(ts);
    assert forall x :: x in rest ==> Clean(x);
    if |rest| > 0 && NumVal(c) != 0.0 {
      var all := rest + [c];
      assert forall i :: 0 <= i < |all| ==> all[i] in rest || all[i] == c;
    }
  }

  /** `min` and `max` of clean operands are clean. */
  lemma {:induction false} MinMaxClean(a: Expr, b: Expr)
    requires Clean(a) && Clean(b)
    ensures Clean(MinE(a, b)) && Clean(MaxE(a, b))
  {
  }

  /** A difference of clean operands is clean. */
  lemma {:induction false} MinusClean(a: Expr, b: Expr)
    requires Clean(a) && Clean(b)
    ensures Clean(Minus(a, b))
  {
    TimesClean(Int(-1), b);
    PlusClean(a, Neg(b));
  }

  /** A quotient of clean operands is clean. */
  lemma {:induction false} DivideClean(a: Expr, b: Expr)
    requires Clean(a) && Clean(b)
    ensures Clean(Divide(a, b))
  {
    if b.IsConstant() && NumVal(b) != 0.0 {
      TimesClean(a, Reciprocal(b));
    } else {
      TimesClean(a, Pow(b, Int(-1)));
    }
  }

  /** The operators map clean operands to clean results. */
  lemma {:induction false} OperatorsKeepClean(a: Expr, b: Expr)
    requires Clean(a) && Clean(b)
    ensures Clean(Plus(a, b)) && Clean(Minus(a, b)) && Clean(Times(a, b))
    ensures Clean(Divide(a, b)) && Clean(MinE(a, b)) && Clean(MaxE(a, b))
    ensures Clean(Neg(a)) && Clean(Neg(b)) && Clean(Power(a, b))
  {
    PlusClean(a, b);
    TimesClean(Int(-1), a);
    TimesClean(Int(-1), b);
    PlusClean(a, Neg(b));
    TimesClean(a, b);
    if b.IsConstant() && NumVal(b) != 0.0 {
      TimesClean(a, Reciprocal(b));
    } else {
      TimesClean(a, Pow(b, Int(-1)));
    }
    PowerClean(a, b);
  }

  lemma {:induction false} TimesClean(a: Expr, b: Expr)
    requires Clean(a) && Clean(b)
    ensures Clean(Times(a, b))
  {
    if !(a.IsConstant() && b.IsConstant()) && a.IsConstant() {
      assert Clean(Mul([b, a]));
    }
  }

  lemma {:induction false} PowerClean(a: Expr, b: Expr)
    requires Clean(a) && Clean(b)
    ensures Clean(Power(a, b))
  {
  }

  lemma {:induction false} PlusClean(a: Expr, b: Expr)
    requires Clean(a) && Clean(b)
    ensures Clean(Plus(a, b))
  {
    TermsClean(a);
    TermsClean(b);
    var ts := Terms(a) + Terms(b);
    assert forall i :: 0 <= i < |ts| ==> Clean(ts[i]) by {
      forall i | 0 <= i < |ts|
        ensures Clean(ts[i])
      {
        if i >= |Terms(a)| {
          assert ts[i] == Terms(b)[i - |Terms(a)|];
        }
      }
    }
    MkAddClean(ts);
  }

  // ---------------------------------------------------------------------
  // Traversal

  /** The direct operands (`begin()`..`end()`, `at(i)`). */
  function Operands(e: Expr): (ops: seq<Expr>)
    ensures e.Pow? ==> ops == [e.base, e.exponent]
    ensures e.Add? ==> ops == e.terms
    ensures e.Mul? ==> ops == e.factors
    ensures (e.Min? || e.Max?) ==> ops == [e.left, e.right]
    ensures e.IsSymbol() || e.IsConstant() ==> ops == []
  {
    match e
    case Add(ts) => ts
    case Mul(fs) => fs
    case Pow(b, x) => [b, x]
    case Min(l, r) => [l, r]
    case Max(l, r) => [l, r]
    case _ => []
  }

  /** Every subterm, the expression first, then each operand's subterms in
      order (`preorder_begin()`..`preorder_end()`). */
  function Preorder(e: Expr): (s: seq<Expr>)
    ensures |s| >= 1 && s[0] == e
    decreases e
  {
    [e] + match e
      case Add(ts) => PreorderAll(ts)
      case Mul(fs) => PreorderAll(fs)
      case Pow(b, x) => Preorder(b) + Preorder(x)
      case Min(l, r) => Preorder(l) + Preorder(r)
      case Max(l, r) => Preorder(l) + Preorder(r)
      case _ => []
  }

  function PreorderAll(es: seq<Expr>): seq<Expr>
    decreases es
  {
    if |es| == 0 then [] else Preorder(es[0]) + PreorderAll(es[1..])
  }

  /** The symbols of a sequence of subterms, in order, repeats kept. */
  function KeepSymbols(s: seq<Expr>): (r: seq<Expr>)
    ensures forall i :: 0 <= i < |r| ==> r[i].IsSymbol()
  {
    if |s| == 0 then []
    else if s[0].IsSymbol() then [s[0]] + KeepSymbols(s[1..])
    else KeepSymbols(s[1..])
  }

  lemma {:induction false} KeepSymbolsConcat(s: seq<Expr>, t: seq<Expr>)
    ensures KeepSymbols(s + t) == KeepSymbols(s) + KeepSymbols(t)
    decreases |s|
  {
    if |s| > 0 {
      assert (s + t)[1..] == s[1..] + t;
      assert (s + t)[0] == s[0];
      KeepSymbolsConcat(s[1..], t);
    } else {
      assert s + t == t;
    }
  }

  /** The symbol leaves of an expression, left to right, repeats kept. */
  function Symbols(e: Expr): (syms: seq<Expr>)
    ensures forall i :: 0 <= i < |syms| ==> syms[i].IsSymbol()
    decreases e
  {
    match e
    case Sym(_) => [e]
    case Invalid => [e]
    case Add(ts) => SymbolsAll(ts)
    case Mul(fs) => SymbolsAll(fs)
    case Pow(b, x) => Symbols(b) + Symbols(x)
    case Min(l, r) => Symbols(l) + Symbols(r)
    case Max(l, r) => Symbols(l) + Symbols(r)
    case _ => []
  }

  function SymbolsAll(es: seq<Expr>): (syms: seq<Expr>)
    ensures forall i :: 0 <= i < |syms| ==> syms[i].IsSymbol()
    decreases es
  {
    if |es| == 0 then [] else Symbols(es[0]) + SymbolsAll(es[1..])
  }

  /** `getSymbols` collects exactly the symbol subterms met by a preorder
      walk, in that order and with repeats. */
  lemma {:induction false} SymbolsArePreorderSymbols(e: Expr)
    ensures Symbols(e) == KeepSymbols(Preorder(e))
    decreases e
  {
    var rest := Preorder(e)[1..];
    assert Preorder(e) == [e] + rest;
    KeepSymbolsConcat([e], rest);
    match e
    case Add(ts) => SymbolsAllArePreorderSymbols(ts);
    case Mul(fs) => SymbolsAllArePreorderSymbols(fs);
    case Pow(b, x) =>
      SymbolsArePreorderSymbols(b);
      SymbolsArePreorderSymbols(x);
      KeepSymbolsConcat(Preorder(b), Preorder(x));
    case Min(l, r) =>
      SymbolsArePreorderSymbols(l);
      SymbolsArePreorderSymbols(r);
      KeepSymbolsConcat(Preorder(l), Preorder(r));
    case Max(l, r) =>
      SymbolsArePreorderSymbols(l);
      SymbolsArePreorderSymbols(r);
      KeepSymbolsConcat(Preorder(l), Preorder(r));
    case _ =>
  }

  lemma {:induction false} SymbolsAllArePreorderSymbols(es: seq<Expr>)
    ensures SymbolsAll(es) == KeepSymbols(PreorderAll(es))
    decreases es
  {
    if |es| > 0 {
      SymbolsArePreorderSymbols(es[0]);
      SymbolsAllArePreorderSymbols(es[1..]);
      KeepSymbolsConcat(Preorder(es[0]), PreorderAll(es[1..]));
    }
  }

  /** Whether `x` occurs as a subterm of `e` (`has`). */
  function Has(e: Expr, x: Expr): (b: bool)
    ensures e == x ==> b
    decreases e
  {
    e == x ||
    match e
    case Add(ts) => HasAny(ts, x)
    case Mul(fs) => HasAny(fs, x)
    case Pow(b, y) => Has(b, x) || Has(y, x)
    case Min(l, r) => Has(l, x) || Has(r, x)
    case Max(l, r) => Has(l, x) || Has(r, x)
    case _ => false
  }

  function HasAny(es: seq<Expr>, x: Expr): bool
    decreases es
  {
    |es| > 0 && (Has(es[0], x) || HasAny(es[1..], x))
  }

  /** `has` is membership in the preorder walk. */
  lemma {:induction false} HasIsPreorderMember(e: Expr, x: Expr)
    ensures Has(e, x) <==> x in Preorder(e)
    decreases e
  {
    match e
    case Add(ts) => HasAnyIsPreorderMember(ts, x);
    case Mul(fs) => HasAnyIsPreorderMember(fs, x);
    case Pow(b, y) =>
      HasIsPreorderMember(b, x);
      HasIsPreorderMember(y, x);
    case Min(l, r) =>
      HasIsPreorderMember(l, x);
      HasIsPreorderMember(r, x);
    case Max(l, r) =>
      HasIsPreorderMember(l, x);
      HasIsPreorderMember(r, x);
    case _ =>
  }

  lemma {:induction false} HasAnyIsPreorderMember(es: seq<Expr>, x: Expr)
    ensures HasAny(es, x) <==> x in PreorderAll(es)
    decreases es
  {
    if |es| > 0 {
      HasIsPreorderMember(es[0], x);
      HasAnyIsPreorderMember(es[1..], x);
    }
  }

  /** A symbol occurs in an expression exactly when it is one of its
      symbols. */
  lemma {:induction false} HasSymbolIffInSymbols(e: Expr, s: Expr)
    requires s.IsSymbol()
    ensures Has(e, s) <==> s in Symbols(e)
  {
    HasIsPreorderMember(e, s);
    SymbolsArePreorderSymbols(e);
    KeepSymbolsMember(Preorder(e), s);
  }

  /** Filtering for symbols keeps every symbol. */
  lemma {:induction false} KeepSymbolsMember(q: seq<Expr>, s: Expr)
    requires s.IsSymbol()
    ensures s in KeepSymbols(q) <==> s in q
  {
    if |q| > 0 {
      KeepSymbolsMember(q[1..], s);
      assert q == [q[0]] + q[1..];
    }
  }

  /** The base and exponent of a power are its operands 0 and 1. */
  lemma {:induction false} PowOperands(e: Expr)
    requires e.Pow?
    ensures Operands(e)[0] == e.base && Operands(e)[1] == e.exponent
    ensures |Operands(e)| == 2
  {
  }
}

=== FILE: ir.dfy ===
/** The fragment of an LLVM function the pass inspects: SSA values with
    their kinds, names and types, the blocks they live in, the loop forest
    with the facts the pass queries about each loop, block terminators and
    the dominance relation. The dominator tree and the loop forest are taken
    as given data: the model does not compute them. */
module Ir {
  import opened Wrappers

  type ValueId = nat
  type BlockId = nat
  type LoopId = nat

  /** Binary operators. `OtherBin` stands for every operator the analyses
      do not interpret (shifts, bitwise operations, remainders, ...). */
  datatype BinOp = BAdd | BSub | BMul | BSDiv | BUDiv | OtherBin

  /** Conversions. `OtherCast` stands for bit casts, pointer/integer
      conversions and floating-point conversions. */
  datatype CastOp = CSExt | CZExt | CTrunc | OtherCast

  /** Integer comparison predicates (`CmpInst::ICMP_*`). */
  datatype Predicate = EQ | NE | UGT | UGE | ULT | ULE | SGT | SGE | SLT | SLE

  /** Types, as far as address arithmetic needs them. A scalar carries its
      allocation size in bytes. */
  datatype Type =
    | Scalar(size: nat)
    | Ptr(pointee: Type)
    | Arr(elem: Type, count: nat)
    | Struct(fields: seq<Type>)

  datatype Kind =
    | ConstInt(value: int)
    | Argument
    | GlobalVar
    | OtherConstant
    | Load(ptr: ValueId)
    | Store(stored: ValueId, ptr: ValueId)
    | Phi(incoming: seq<(BlockId, ValueId)>)
    | Binary(op: BinOp, lhs: ValueId, rhs: ValueId)
    | Cast(cop: CastOp, src: ValueId)
    | Gep(base: ValueId, indices: seq<ValueId>)
    | ICmp(pred: Predicate, left: ValueId, right: ValueId)
    | CondBr(cond: ValueId)
    | Jump
    | Call(callee: Option<string>, args: seq<ValueId>)
    | OtherInst

  /** A value: its name (empty when unnamed), its type, its kind and, for
      an instruction, the block holding it. */
  datatype SsaValue = SsaValue(name: string, ty: Type, kind: Kind, block: BlockId)

  /** What the pass asks of a natural loop: its blocks in `block_begin()`
      order, its parent, its preheader and latch when they exist, its
      exiting blocks in order, its number of back edges and the number of
      predecessors of its header. */
  datatype Loop = Loop(
    header: BlockId,
    blocks: seq<BlockId>,
    parent: Option<LoopId>,
    preheader: Option<BlockId>,
    latch: Option<BlockId>,
    exiting: seq<BlockId>,
    backEdges: nat,
    headerPreds: nat)

  /** A function: its values (instructions are listed block by block in
      program order, and values created by the pass are appended), its
      loops, the terminator of each block, the dominance relation, the
      innermost loop of each block inside a loop (`LoopInfo::getLoopFor`)
      and the post-order of the dominator tree. */
  datatype Function = Function(
    values: seq<SsaValue>,
    loops: seq<Loop>,
    terminator: map<BlockId, ValueId>,
    dom: set<(BlockId, BlockId)>,
    loopFor: map<BlockId, LoopId>,
    domPostorder: seq<BlockId>)

  /** Instructions, as opposed to constants, arguments and globals. */
  predicate IsInstruction(k: Kind) {
    !(k.ConstInt? || k.Argument? || k.GlobalVar? || k.OtherConstant?)
  }

  /** Operand references stay inside the function, and the operands that
      the analyses recurse through (arithmetic, conversions and the base
      of an address computation) come earlier: SSA form without a phi on
      the path has no cycles. */
  predicate RefsOk(k: Kind, self: ValueId, n: nat) {
    match k
    case Load(p) => p < n
    case Store(s, p) => s < n && p < n
    case Phi(inc) => forall i :: 0 <= i < |inc| ==> inc[i].1 < n
    case Binary(_, a, b) => a < self && b < self
    case Cast(_, s) => s < self
    case Gep(b, idx) => b < self && forall i :: 0 <= i < |idx| ==> idx[i] < n
    case ICmp(_, a, b) => a < n && b < n
    case CondBr(c) => c < n
    case Call(_, args) => forall i :: 0 <= i < |args| ==> args[i] < n
    case _ => true
  }

  predicate WellFormed(f: Function) {
    && (forall v :: 0 <= v < |f.values| ==> RefsOk(f.values[v].kind, v, |f.values|))
    && (forall l :: 0 <= l < |f.loops| ==> ParentOk(f.loops[l], l))
    && (forall b :: b in f.terminator ==> f.terminator[b] < |f.values|)
    && (forall b :: b in f.loopFor ==> f.loopFor[b] < |f.loops|)
  }

  /** Loops are numbered outside in: a parent comes before its children. */
  predicate ParentOk(lp: Loop, l: LoopId) {
    lp.parent.Some? ==> lp.parent.value < l
  }

  /** `Loop::isLoopInvariant`: a value is invariant in a loop unless it is
      an instruction inside the loop. */
  predicate Invariant(f: Function, l: LoopId, v: ValueId)
    requires l < |f.loops| && v < |f.values|
  {
    var x := f.values[v];
    !IsInstruction(x.kind) || x.block !in f.loops[l].blocks
  }

  /** `DominatorTree::dominates` on blocks. */
  predicate Dominates(f: Function, a: BlockId, b: BlockId) {
    (a, b) in f.dom
  }

  /** The outermost loop enclosing `l` (the `getParentLoop` walk). */
  function Toplevel(f: Function, l: LoopId): (t: LoopId)
    requires WellFormed(f) && l < |f.loops|
    ensures t <= l && f.loops[t].parent.None?
    decreases l
  {
    var p := f.loops[l].parent;
    if p.None? then l else Toplevel(f, p.value)
  }

  /** `PHINode::getBasicBlockIndex`: the first incoming entry for a block,
      or -1. */
  function BlockIndex(inc: seq<(BlockId, ValueId)>, b: BlockId): (i: int)
    ensures -1 <= i < |inc|
    ensures i >= 0 ==> inc[i].0 == b && forall j :: 0 <= j < i ==> inc[j].0 != b
    ensures i == -1 ==> forall j :: 0 <= j < |inc| ==> inc[j].0 != b
  {
    if |inc| == 0 then -1
    else if inc[0].0 == b then 0
    else
      var k := BlockIndex(inc[1..], b);
      if k < 0 then -1 else k + 1
  }

  /** `PHINode::getIncomingValueForBlock`, which LLVM only allows for a
      predecessor block: `None` when the block has no entry. */
  function IncomingFor(inc: seq<(BlockId, ValueId)>, b: BlockId): (r: Option<ValueId>)
    ensures r.Some? <==> exists j :: 0 <= j < |inc| && inc[j].0 == b
    ensures r.Some? ==> exists j :: 0 <= j < |inc| && inc[j] == (b, r.value)
  {
    var i := BlockIndex(inc, b);
    if i < 0 then None else Some(inc[i].1)
  }

  /** Appending a value leaves every existing value, loop and fact alone. */
  predicate Extends(f: Function, g: Function) {
    && |f.values| <= |g.values|
    && (forall i :: 0 <= i < |f.values| ==> g.values[i] == f.values[i])
    && g.loops == f.loops
    && g.terminator == f.terminator
    && g.dom == f.dom
    && g.loopFor == f.loopFor
    && g.domPostorder == f.domPostorder
  }

  /** `LoopInfo::isLoopHeader` followed by `getLoopFor`: the loop a block
      heads, if any. */
  function HeadedLoop(f: Function, b: BlockId): (r: Option<LoopId>)
    requires WellFormed(f)
    ensures r.Some? ==> r.value < |f.loops| && f.loops[r.value].header == b
    ensures r.Some? <==> b in f.loopFor && f.loops[f.loopFor[b]].header == b
  {
    if b in f.loopFor && f.loops[f.loopFor[b]].header == b then Some(f.loopFor[b]) else None
  }
}

=== FILE: loop_info.dfy ===
/** `LoopInfoExpr` of the page-migration pass: symbolic expressions for
    values relative to a loop, and the recognition of a loop's induction
    variable with its start, end and step. The symbol table is threaded
    through every call, because building an expression for a value interns
    the values it stops at. */
module LoopInfo {
  import opened Wrappers
  import opened Exprs
  import opened Ir
  import opened SymbolTable

  // ---------------------------------------------------------------------
  // getExprForLoop / getExpr

  /** The loop an expression is built for; `None` is `getExpr`. */
  predicate ScopeOk(f: Function, scope: Option<LoopId>) {
    scope.Some? ==> scope.value < |f.loops|
  }

  /** The operators the descent interprets. */
  predicate Interpreted(k: Kind) {
    (k.Binary? && !k.op.OtherBin?) || (k.Cast? && !k.cop.OtherCast?)
  }

  /** Where the descent stops: at a value invariant in the scope loop, at a
      non-instruction when there is no loop, and at every value whose
      operator it does not interpret. */
  predicate IsAtom(f: Function, scope: Option<LoopId>, v: ValueId)
    requires WellFormed(f) && ScopeOk(f, scope) && v < |f.values|
  {
    || (scope.Some? && Invariant(f, scope.value, v))
    || (scope.None? && !IsInstruction(f.values[v].kind))
    || !Interpreted(f.values[v].kind)
  }

  /** The symbolic counterpart of an arithmetic instruction; both divisions
      are the exact quotient. */
  function Arith(op: BinOp, x: Expr, y: Expr): Expr
    requires !op.OtherBin?
  {
    match op
    case BAdd => Plus(x, y)
    case BSub => Minus(x, y)
    case BMul => Times(x, y)
    case _ => Divide(x, y)
  }

  /** `getExprForLoop(L, V)`, and `getExpr(V)` for the scope `None`. The
      left operand is built before the right one. */
  function ExprFor(f: Function, t: Table, scope: Option<LoopId>, v: ValueId): (r: (Expr, Table))
    requires WellFormed(f) && ScopeOk(f, scope) && v < |f.values|
    decreases v
  {
    if IsAtom(f, scope, v) then Intern(f, t, v)
    else
      var k := f.values[v].kind;
      if k.Cast? then ExprFor(f, t, scope, k.src)
      else
        var (x, t1) := ExprFor(f, t, scope, k.lhs);
        var (y, t2) := ExprFor(f, t1, scope, k.rhs);
        (Arith(k.op, x, y), t2)
  }

  // ---------------------------------------------------------------------
  // What the expression of a value denotes

  /** The run-time value of an atom: a constant integer is itself, any
      other atom takes its value from `run`. */
  function AtomValue(f: Function, v: ValueId, run: ValueId -> real): real
    requires v < |f.values|
  {
    if f.values[v].kind.ConstInt? then f.values[v].kind.value as real else run(v)
  }

  /** Exact arithmetic on the values of the operands; a zero divisor gives
      zero, the convention of `Value`. */
  function ArithValue(op: BinOp, x: real, y: real): real {
    match op
    case BAdd => x + y
    case BSub => x - y
    case BMul => x * y
    case _ => if y == 0.0 then 0.0 else x / y
  }

  /** The value a value has when its interpreted instructions are computed
      in exact rational arithmetic from the values of the atoms they
      reach: a reference semantics for `ExprFor`, written on the IR. */
  function RefValue(f: Function, scope: Option<LoopId>, v: ValueId, run: ValueId -> real): real
    requires WellFormed(f) && ScopeOk(f, scope) && v < |f.values|
    decreases v
  {
    if IsAtom(f, scope, v) then AtomValue(f, v, run)
    else
      var k := f.values[v].kind;
      if k.Cast? then RefValue(f, scope, k.src, run)
      else ArithValue(k.op, RefValue(f, scope, k.lhs, run), RefValue(f, scope, k.rhs, run))
  }

  /** The stored symbols of a table all stand, under `env`, for the
      run-time values of their values. */
  ghost predicate Agrees(t: Table, env: map<string, real>, run: ValueId -> real) {
    forall w :: w in t.exprs ==>
      t.exprs[w].Sym? && t.exprs[w].name in env && env[t.exprs[w].name] == run(w)
  }

  /** Every stored expression is a symbol. */
  predicate SymsOnly(t: Table) {
    forall w :: w in t.exprs ==> t.exprs[w].Sym?
  }

  /** A later table keeps every stored symbol of an earlier one. */
  predicate Grows(t: Table, t': Table) {
    forall w :: w in t.exprs ==> w in t'.exprs && t'.exprs[w] == t.exprs[w]
  }

  /** The environment a table induces: each registered name stands for the
      run-time value of its value. */
  function CanonEnv(t: Table, run: ValueId -> real): (env: map<string, real>)
    ensures env.Keys == t.values.Keys
    ensures forall n :: n in t.values ==> env[n] == run(t.values[n])
  {
    map n | n in t.values :: run(t.values[n])
  }

  lemma {:induction false} CoherentAgrees(t: Table, run: ValueId -> real)
    requires Coherent(t)
    ensures Agrees(t, CanonEnv(t, run), run)
  {
  }

  lemma {:induction false} InternGrows(f: Function, t: Table, v: ValueId)
    requires WellFormed(f) && v < |f.values|
    ensures Grows(t, Intern(f, t, v).1)
  {
  }

  /** The descent only adds symbols to the table. */
  lemma {:induction false} ExprForGrows(f: Function, t: Table, scope: Option<LoopId>, v: ValueId)
    requires WellFormed(f) && ScopeOk(f, scope) && v < |f.values|
    ensures Grows(t, ExprFor(f, t, scope, v).1)
    decreases v
  {
    if IsAtom(f, scope, v) {
      InternGrows(f, t, v);
    } else {
      var k := f.values[v].kind;
      if k.Cast? {
        ExprForGrows(f, t, scope, k.src);
      } else {
        var t1 := ExprFor(f, t, scope, k.lhs).1;
        ExprForGrows(f, t, scope, k.lhs);
        ExprForGrows(f, t1, scope, k.rhs);
      }
    }
  }

  /** The descent keeps the tables consistent. */
  lemma {:induction false} ExprForInv(f: Function, t: Table, scope: Option<LoopId>, v: ValueId)
    requires WellFormed(f) && ScopeOk(f, scope) && v < |f.values|
    requires Inv(f, t)
    ensures Inv(f, ExprFor(f, t, scope, v).1)
    ensures Coherent(t) ==> Coherent(ExprFor(f, t, scope, v).1)
    decreases v
  {
    if IsAtom(f, scope, v) {
      InternInv(f, t, v);
    } else {
      var k := f.values[v].kind;
      if k.Cast? {
        ExprForInv(f, t, scope, k.src);
      } else {
        var t1 := ExprFor(f, t, scope, k.lhs).1;
        ExprForInv(f, t, scope, k.lhs);
        ExprForInv(f, t1, scope, k.rhs);
      }
    }
  }

  /** Built from symbols and numbers, the expression never contains the
      sentinel; in particular it is valid. */
  lemma {:induction false} ExprForClean(f: Function, t: Table, scope: Option<LoopId>, v: ValueId)
    requires WellFormed(f) && ScopeOk(f, scope) && v < |f.values|
    requires SymsOnly(t)
    ensures Clean(ExprFor(f, t, scope, v).0) && ExprFor(f, t, scope, v).0.IsValid()
    ensures SymsOnly(ExprFor(f, t, scope, v).1)
    decreases v
  {
    if IsAtom(f, scope, v) {
    } else {
      var k := f.values[v].kind;
      if k.Cast? {
        ExprForClean(f, t, scope, k.src);
      } else {
        var (x, t1) := ExprFor(f, t, scope, k.lhs);
        var (y, t2) := ExprFor(f, t1, scope, k.rhs);
        ExprForClean(f, t, scope, k.lhs);
        ExprForClean(f, t1, scope, k.rhs);
        ArithClean(k.op, x, y);
      }
    }
  }

  /** The symbolic counterpart of an instruction keeps clean operands
      clean. */
  lemma {:induction false} ArithClean(op: BinOp, x: Expr, y: Expr)
    requires !op.OtherBin? && Clean(x) && Clean(y)
    ensures Clean(Arith(op, x, y))
  {
    match op
    case BAdd => PlusClean(x, y);
    case BSub => MinusClean(x, y);
    case BMul => TimesClean(x, y);
    case _ => DivideClean(x, y);
  }

  lemma {:induction false} AgreesShrinks(t: Table, t': Table, env: map<string, real>, run: ValueId -> real)
    requires Grows(t, t') && Agrees(t', env, run)
    ensures Agrees(t, env, run) && SymsOnly(t)
  {
  }

  /** The expression built for a value denotes the value's exact
      arithmetic over its atoms, under any environment that agrees with the
      resulting table. */
  lemma {:induction false} ExprForValue(f: Function, t: Table, scope: Option<LoopId>, v: ValueId, env: map<string, real>, run: ValueId -> real)
    requires WellFormed(f) && ScopeOk(f, scope) && v < |f.values|
    requires Agrees(ExprFor(f, t, scope, v).1, env, run)
    ensures Value(ExprFor(f, t, scope, v).0, env) == RefValue(f, scope, v, run)
    decreases v
  {
    if IsAtom(f, scope, v) {
    } else {
      var k := f.values[v].kind;
      if k.Cast? {
        ExprForValue(f, t, scope, k.src, env, run);
      } else {
        var (x, t1) := ExprFor(f, t, scope, k.lhs);
        var (y, t2) := ExprFor(f, t1, scope, k.rhs);
        ExprForGrows(f, t1, scope, k.rhs);
        AgreesShrinks(t1, t2, env, run);
        ExprForGrows(f, t, scope, k.lhs);
        AgreesShrinks(t, t1, env, run);
        ExprForValue(f, t, scope, k.lhs, env, run);
        ExprForValue(f, t1, scope, k.rhs, env, run);
        ExprForClean(f, t, scope, k.lhs);
        ExprForClean(f, t1, scope, k.rhs);
        ArithSound(k.op, x, y, env);
      }
    }
  }

  /** Each interpreted operator denotes its exact arithmetic. */
  lemma {:induction false} ArithSound(op: BinOp, x: Expr, y: Expr, env: map<string, real>)
    requires !op.OtherBin? && x.IsValid() && y.IsValid()
    ensures Value(Arith(op, x, y), env) == ArithValue(op, Value(x, env), Value(y, env))
  {
    if op.BSDiv? || op.BUDiv? {
      DivisionSound(op, x, y, env);
    } else {
      RingSound(op, x, y, env);
    }
  }

  lemma {:induction false} RingSound(op: BinOp, x: Expr, y: Expr, env: map<string, real>)
    requires (op.BAdd? || op.BSub? || op.BMul?) && x.IsValid() && y.IsValid()
    ensures Value(Arith(op, x, y), env) == ArithValue(op, Value(x, env), Value(y, env))
  {
    if op.BMul? {
      ProductSound(op, x, y, env);
    } else {
      SumSound(op, x, y, env);
    }
  }

  lemma {:induction false} SumSound(op: BinOp, x: Expr, y: Expr, env: map<string, real>)
    requires (op.BAdd? || op.BSub?) && x.IsValid() && y.IsValid()
    ensures Value(Arith(op, x, y), env) == ArithValue(op, Value(x, env), Value(y, env))
  {
    if op.BAdd? {
      PlusSound(x, y, env);
    } else {
      MinusSound(x, y, env);
    }
  }

  lemma {:induction false} ProductSound(op: BinOp, x: Expr, y: Expr, env: map<string, real>)
    requires op.BMul? && x.IsValid() && y.IsValid()
    ensures Value(Arith(op, x, y), env) == ArithValue(op, Value(x, env), Value(y, env))
  {
    TimesSound(x, y, env);
  }

  lemma {:induction false} DivisionSound(op: BinOp, x: Expr, y: Expr, env: map<string, real>)
    requires (op.BSDiv? || op.BUDiv?) && x.IsValid() && y.IsValid()
    ensures Value(Arith(op, x, y), env) == ArithValue(op, Value(x, env), Value(y, env))
  {
    var a, b := Value(x, env), Value(y, env);
    assert Arith(op, x, y) == Divide(x, y);
    assert ArithValue(op, a, b) == if b == 0.0 then 0.0 else a / b;
    if b == 0.0 {
      DivideByZero(x, y, env);
    } else {
      DivideSound(x, y, env);
      QuotientIsDivision(Value(Divide(x, y), env), a, b);
    }
  }

  /** Starting from consistent tables, the expression built for a value
      denotes its exact arithmetic when every registered name stands for
      the run-time value of its value. */
  lemma {:induction false} ExprForMeaning(f: Function, t: Table, scope: Option<LoopId>, v: ValueId, run: ValueId -> real)
    requires WellFormed(f) && ScopeOk(f, scope) && v < |f.values|
    requires Inv(f, t) && Coherent(t)
    ensures var r := ExprFor(f, t, scope, v);
            Value(r.0, CanonEnv(r.1, run)) == RefValue(f, scope, v, run)
  {
    var r := ExprFor(f, t, scope, v);
    ExprForInv(f, t, scope, v);
    CoherentAgrees(r.1, run);
    ExprForValue(f, t, scope, v, CanonEnv(r.1, run), run);
  }

  // ---------------------------------------------------------------------
  // IsLoopInvariant / getSingleLoopVariantPhi

  /** The value a symbol stands for (`getSymbolValue`), when it is a value
      of the function. */
  function ValueOfSymbol(f: Function, t: Table, s: Expr): (r: Option<ValueId>)
    requires s.IsSymbol()
    ensures r.Some? ==> r.value < |f.values| && SymbolValue(t, s) == r
    ensures r.None? ==> SymbolValue(t, s).None? || SymbolValue(t, s).value >= |f.values|
  {
    var w := SymbolValue(t, s);
    if w.Some? && w.value < |f.values| then w else None
  }

  /** A symbol is variant in a loop when the value it stands for is. */
  predicate SymbolVariant(f: Function, t: Table, l: LoopId, s: Expr)
    requires WellFormed(f) && l < |f.loops| && s.IsSymbol()
  {
    var w := ValueOfSymbol(f, t, s);
    w.Some? && !Invariant(f, l, w.value)
  }

  /** `IsLoopInvariant(L, Ex)`: no symbol of the expression is variant. */
  predicate ExprInvariant(f: Function, t: Table, l: LoopId, e: Expr)
    requires WellFormed(f) && l < |f.loops|
  {
    var syms := Symbols(e);
    forall i :: 0 <= i < |syms| ==> !SymbolVariant(f, t, l, syms[i])
  }

  /** The values of the variant symbol occurrences, in order, repeats
      kept. */
  function VariantOccurrences(f: Function, t: Table, l: LoopId, syms: seq<Expr>): (occ: seq<ValueId>)
    requires WellFormed(f) && l < |f.loops|
    requires forall i :: 0 <= i < |syms| ==> syms[i].IsSymbol()
    ensures forall i :: 0 <= i < |occ| ==> occ[i] < |f.values| && !Invariant(f, l, occ[i])
    ensures |occ| <= |syms|
  {
    if |syms| == 0 then []
    else
      var here := if SymbolVariant(f, t, l, syms[0]) then [ValueOfSymbol(f, t, syms[0]).value] else [];
      here + VariantOccurrences(f, t, l, syms[1..])
  }

  /** An expression is invariant exactly when none of its symbol
      occurrences is variant. */
  lemma {:induction false} InvariantIffNoOccurrence(f: Function, t: Table, l: LoopId, e: Expr)
    requires WellFormed(f) && l < |f.loops|
    ensures ExprInvariant(f, t, l, e) <==> |VariantOccurrences(f, t, l, Symbols(e))| == 0
  {
    NoOccurrenceIffAllInvariant(f, t, l, Symbols(e));
  }

  lemma {:induction false} NoOccurrenceIffAllInvariant(f: Function, t: Table, l: LoopId, syms: seq<Expr>)
    requires WellFormed(f) && l < |f.loops|
    requires forall i :: 0 <= i < |syms| ==> syms[i].IsSymbol()
    ensures (forall i :: 0 <= i < |syms| ==> !SymbolVariant(f, t, l, syms[i]))
            <==> |VariantOccurrences(f, t, l, syms)| == 0
  {
    if |syms| > 0 {
      NoOccurrenceIffAllInvariant(f, t, l, syms[1..]);
      assert forall i :: 1 <= i < |syms| ==> syms[i] == syms[1..][i - 1];
    }
  }

  /** The scan of `getSingleLoopVariantPhi` from the symbol occurrences
      left to scan and the phi found so far: the first variant occurrence
      that is not a phi, or a second variant occurrence, ends it with
      nothing. */
  function VariantPhiScan(f: Function, t: Table, l: LoopId, syms: seq<Expr>, found: Option<ValueId>): (r: Option<ValueId>)
    requires WellFormed(f) && l < |f.loops|
    requires forall i :: 0 <= i < |syms| ==> syms[i].IsSymbol()
    requires found.Some? ==> VariantPhi(f, l, found.value)
    ensures r.Some? ==> VariantPhi(f, l, r.value)
  {
    if |syms| == 0 then found
    else if SymbolVariant(f, t, l, syms[0]) then
      var w := ValueOfSymbol(f, t, syms[0]).value;
      if !f.values[w].kind.Phi? || found.Some? then None
      else VariantPhiScan(f, t, l, syms[1..], Some(w))
    else VariantPhiScan(f, t, l, syms[1..], found)
  }

  /** A phi of the function that varies in the loop. */
  predicate VariantPhi(f: Function, l: LoopId, v: ValueId)
    requires WellFormed(f) && l < |f.loops|
  {
    v < |f.values| && f.values[v].kind.Phi? && !Invariant(f, l, v)
  }

  /** `getSingleLoopVariantPhi(L, Ex)`. */
  function SingleVariantPhi(f: Function, t: Table, l: LoopId, e: Expr): (r: Option<ValueId>)
    requires WellFormed(f) && l < |f.loops|
    ensures r.Some? ==> VariantPhi(f, l, r.value)
  {
    VariantPhiScan(f, t, l, Symbols(e), None)
  }

  /** The search finds a phi exactly when the expression has a single
      variant symbol occurrence and it stands for a phi. */
  lemma {:induction false} SingleVariantPhiSpec(f: Function, t: Table, l: LoopId, e: Expr)
    requires WellFormed(f) && l < |f.loops|
    ensures var occ := VariantOccurrences(f, t, l, Symbols(e));
            SingleVariantPhi(f, t, l, e) ==
              if |occ| == 1 && f.values[occ[0]].kind.Phi? then Some(occ[0]) else None
  {
    VariantPhiScanSpec(f, t, l, Symbols(e), None);
  }

  lemma {:induction false} VariantPhiScanSpec(f: Function, t: Table, l: LoopId, syms: seq<Expr>, found: Option<ValueId>)
    requires WellFormed(f) && l < |f.loops|
    requires forall i :: 0 <= i < |syms| ==> syms[i].IsSymbol()
    requires found.Some? ==> VariantPhi(f, l, found.value)
    ensures var occ := VariantOccurrences(f, t, l, syms);
            found.None? ==> (VariantPhiScan(f, t, l, syms, found) ==
              if |occ| == 1 && f.values[occ[0]].kind.Phi? then Some(occ[0]) else None)
    ensures var occ := VariantOccurrences(f, t, l, syms);
            found.Some? ==> (VariantPhiScan(f, t, l, syms, found) == if |occ| == 0 then found else None)
  {
    if |syms| > 0 {
      var rest := VariantOccurrences(f, t, l, syms[1..]);
      if SymbolVariant(f, t, l, syms[0]) {
        var w := ValueOfSymbol(f, t, syms[0]).value;
        assert VariantOccurrences(f, t, l, syms) == [w] + rest;
        if f.values[w].kind.Phi? && found.None? {
          VariantPhiScanSpec(f, t, l, syms[1..], Some(w));
        }
      } else {
        assert VariantOccurrences(f, t, l, syms) == rest;
        VariantPhiScanSpec(f, t, l, syms[1..], found);
      }
    }
  }

  // ---------------------------------------------------------------------
  // Choosing the variant side of the exit comparison

  /** The two sides of the comparison once told apart. */
  datatype Sides = Sides(varying: Expr, bound: Expr)

  /** Some symbol of the expression stands for a load. */
  predicate MentionsLoad(f: Function, t: Table, e: Expr) {
    var syms := Symbols(e);
    exists i :: 0 <= i < |syms| && LoadSymbol(f, t, syms[i])
  }

  predicate LoadSymbol(f: Function, t: Table, s: Expr)
    requires s.IsSymbol()
  {
    var w := ValueOfSymbol(f, t, s);
    w.Some? && f.values[w.value].kind.Load?
  }

  /** The variant side is the only variant one; when both or neither side
      varies, a side mentioning a load is taken as the invariant one, the
      left side first. */
  function ChooseSides(f: Function, t: Table, l: LoopId, lhs: Expr, rhs: Expr): (r: Option<Sides>)
    requires WellFormed(f) && l < |f.loops|
    ensures r.Some? ==> r.value == Sides(lhs, rhs) || r.value == Sides(rhs, lhs)
    ensures ExprInvariant(f, t, l, lhs) != ExprInvariant(f, t, l, rhs) ==>
              r.Some? && ExprInvariant(f, t, l, r.value.bound) && !ExprInvariant(f, t, l, r.value.varying)
    ensures ExprInvariant(f, t, l, lhs) == ExprInvariant(f, t, l, rhs) ==>
              && (r.Some? <==> MentionsLoad(f, t, lhs) || MentionsLoad(f, t, rhs))
              && (r.Some? ==> MentionsLoad(f, t, r.value.bound))
              && (MentionsLoad(f, t, lhs) ==> r == Some(Sides(rhs, lhs)))
  {
    var li, ri := ExprInvariant(f, t, l, lhs), ExprInvariant(f, t, l, rhs);
    if !li && ri then Some(Sides(lhs, rhs))
    else if li && !ri then Some(Sides(rhs, lhs))
    else if MentionsLoad(f, t, lhs) then Some(Sides(rhs, lhs))
    else if MentionsLoad(f, t, rhs) then Some(Sides(lhs, rhs))
    else None
  }

  // ---------------------------------------------------------------------
  // The exit comparison, the end bound and the step

  /** The comparison of an exiting block: its terminator is a conditional
      branch on an integer comparison. */
  datatype Compare = Compare(pred: Predicate, left: ValueId, right: ValueId)

  function BranchCompare(f: Function, b: BlockId): (r: Option<Compare>)
    requires WellFormed(f)
    ensures r.Some? ==> r.value.left < |f.values| && r.value.right < |f.values|
  {
    if b !in f.terminator then None
    else
      var k := f.values[f.terminator[b]].kind;
      if !k.CondBr? then None
      else
        var c := f.values[k.cond].kind;
        if c.ICmp? then Some(Compare(c.pred, c.left, c.right)) else None
  }

  /** Every predicate but inequality is accepted. */
  predicate Accepted(p: Predicate) {
    p != NE
  }

  predicate Below(p: Predicate) { p == SLT || p == ULT }
  predicate Above(p: Predicate) { p == SGT || p == UGT }

  /** The last value of the induction variable before the comparison
      fails: one below a strict upper bound, one above a strict lower
      bound, the bound itself otherwise. */
  function EndBound(p: Predicate, bound: Expr): Expr {
    if Below(p) then Minus(bound, Int(1))
    else if Above(p) then Plus(bound, Int(1))
    else bound
  }

  lemma {:induction false} EndBoundValue(p: Predicate, bound: Expr, env: map<string, real>)
    requires bound.IsValid()
    ensures Below(p) ==> Value(EndBound(p, bound), env) == Value(bound, env) - 1.0
    ensures Above(p) ==> Value(EndBound(p, bound), env) == Value(bound, env) + 1.0
    ensures !Below(p) && !Above(p) ==> EndBound(p, bound) == bound
  {
    if Below(p) {
      MinusSound(bound, Int(1), env);
    } else if Above(p) {
      PlusSound(bound, Int(1), env);
    }
  }

  /** The first position of an expression in a sequence, or -1. */
  function IndexOf(es: seq<Expr>, x: Expr): (i: int)
    ensures -1 <= i < |es|
    ensures i >= 0 ==> es[i] == x
    ensures i == -1 <==> x !in es
  {
    if |es| == 0 then -1
    else if es[0] == x then 0
    else
      var k := IndexOf(es[1..], x);
      if k < 0 then -1 else k + 1
  }

  /** `e.match(phi + $0)`: the expression is a sum with the phi among its
      terms, and the wildcard takes the sum of the other terms; it must
      not contain the phi. */
  function MatchStep(e: Expr, phi: Expr): (r: Option<Expr>)
    ensures r.Some? ==> e.Add? && phi in e.terms && !Has(r.value, phi)
  {
    if !e.Add? then None
    else
      var i := IndexOf(e.terms, phi);
      if i < 0 then None
      else
        var w := MkAdd(e.terms[..i] + e.terms[i + 1..]);
        if Has(w, phi) then None else Some(w)
  }

  /** A matched expression is the phi plus the step. */
  lemma {:induction false} MatchStepValue(e: Expr, phi: Expr, env: map<string, real>)
    requires MatchStep(e, phi).Some?
    ensures Value(e, env) == Value(phi, env) + Value(MatchStep(e, phi).value, env)
  {
    var ts := e.terms;
    var i := IndexOf(ts, phi);
    assert ts == ts[..i] + ([ts[i]] + ts[i + 1..]);
    SumValueConcat(ts[..i], [ts[i]] + ts[i + 1..], env);
    SumValuePrepend(ts[i], ts[i + 1..], env);
    SumValueConcat(ts[..i], ts[i + 1..], env);
    MkAddSound(ts[..i] + ts[i + 1..], env);
  }

  /** Matching undoes adding a step to the phi: for a non-constant step
      that is not itself a sum and does not contain the phi, the step comes
      back. */
  lemma {:induction false} MatchStepOfIncrement(phi: Expr, w: Expr)
    requires phi.Sym? && w.IsValid() && !w.IsConstant() && !w.Add? && !Has(w, phi)
    ensures MatchStep(Plus(phi, w), phi) == Some(w)
  {
    var ts := [phi, w];
    assert Terms(phi) + Terms(w) == ts;
    NoConstants(ts);
    NoConstants([w]);
    assert Plus(phi, w) == Add(ts);
    assert [phi, w][..0] + [phi, w][1..] == [w];
  }

  /** Operands without constants are kept as they are. */
  lemma {:induction false} NoConstants(ts: seq<Expr>)
    requires forall i :: 0 <= i < |ts| ==> !ts[i].IsConstant()
    ensures Constants(ts) == [] && NonConstants(ts) == ts
  {
    if |ts| > 0 {
      NoConstants(ts[1..]);
      assert ts == [ts[0]] + ts[1..];
    }
  }

  // ---------------------------------------------------------------------
  // getLoopInfo

  /** The induction variable of a loop with its start, end and step. */
  datatype Bounds = Bounds(phi: ValueId, start: Expr, end: Expr, step: Expr)

  /** `getIncomingValueForBlock`; LLVM asserts that the block has an entry,
      and the model fails instead. */
  function Incoming(f: Function, phi: ValueId, b: BlockId): (r: Option<ValueId>)
    requires WellFormed(f) && phi < |f.values| && f.values[phi].kind.Phi?
    ensures r.Some? ==> r.value < |f.values|
    ensures r == IncomingFor(f.values[phi].kind.incoming, b)
  {
    var inc := f.values[phi].kind.incoming;
    var r := IncomingFor(inc, b);
    assert r.Some? ==> exists j :: 0 <= j < |inc| && inc[j] == (b, r.value);
    assert RefsOk(f.values[phi].kind, phi, |f.values|);
    r
  }

  /** `getLoopInfo`, the page-migration copy: the comparison of the first
      exiting block decides the loop; both sides are built relative to the
      outermost loop; the single variant phi of the variant side must come
      in invariant from the preheader and variant from the latch. */
  function GetLoopInfo(f: Function, t: Table, l: LoopId): (r: (Option<Bounds>, Table))
    requires WellFormed(f) && l < |f.loops|
  {
    var lp := f.loops[l];
    if |lp.exiting| == 0 then (None, t)
    else
      var cmp := BranchCompare(f, lp.exiting[0]);
      if cmp.None? || !Accepted(cmp.value.pred) then (None, t)
      else
        var top := Toplevel(f, l);
        var (lhs, t1) := ExprFor(f, t, Some(top), cmp.value.left);
        var (rhs, t2) := ExprFor(f, t1, Some(top), cmp.value.right);
        if !lhs.IsValid() || !rhs.IsValid() then (None, t2)
        else
          var sides := ChooseSides(f, t2, l, lhs, rhs);
          if sides.None? then (None, t2)
          else
            var phi := SingleVariantPhi(f, t2, l, sides.value.varying);
            if phi.None? then (None, t2)
            else Recurrence(f, t2, l, top, phi.value, cmp.value.pred, sides.value.bound)
  }

  /** The part of `getLoopInfo` after the phi is found: the incoming values,
      the start, the end bound, then the step matched against the latch
      value. */
  function Recurrence(f: Function, t: Table, l: LoopId, top: LoopId, phi: ValueId, pred: Predicate, bound: Expr): (r: (Option<Bounds>, Table))
    requires WellFormed(f) && l < |f.loops| && top < |f.loops| && VariantPhi(f, l, phi)
    ensures r.0.Some? ==> r.0.value.phi == phi
  {
    var lp := f.loops[l];
    if lp.preheader.None? || lp.latch.None? then (None, t)
    else
      var pre := Incoming(f, phi, lp.preheader.value);
      var lat := Incoming(f, phi, lp.latch.value);
      if pre.None? || lat.None? then (None, t)
      else if !Invariant(f, l, pre.value) || Invariant(f, l, lat.value) then (None, t)
      else
        var (start, t3) := ExprFor(f, t, Some(top), pre.value);
        var (phiEx, t4) := Intern(f, t3, phi);
        var (latEx, t5) := ExprFor(f, t4, Some(top), lat.value);
        var step := MatchStep(latEx, phiEx);
        if step.None? then (None, t5)
        else (Some(Bounds(phi, start, EndBound(pred, bound), step.value)), t5)
  }

  /** `getLoopForInductionVariable`: the loop whose header holds the phi,
      when the phi is that loop's induction variable. */
  function LoopForInductionVariable(f: Function, t: Table, phi: ValueId): (r: (Option<LoopId>, Table))
    requires WellFormed(f) && phi < |f.values|
    ensures r.0.Some? ==> r.0.value < |f.loops| && f.loops[r.0.value].header == f.values[phi].block
    ensures r.0.Some? ==> GetLoopInfo(f, t, r.0.value).0.Some? && GetLoopInfo(f, t, r.0.value).0.value.phi == phi
  {
    var l := HeadedLoop(f, f.values[phi].block);
    if l.None? then (None, t)
    else
      var (b, t1) := GetLoopInfo(f, t, l.value);
      (if b.Some? && b.value.phi == phi then l else None, t1)
  }

  /** `isInductionVariable`. */
  function IsInductionVariable(f: Function, t: Table, phi: ValueId): (r: (bool, Table))
    requires WellFormed(f) && phi < |f.values|
  {
    var l := HeadedLoop(f, f.values[phi].block);
    if l.None? then (false, t)
    else
      var (b, t1) := GetLoopInfo(f, t, l.value);
      (b.Some? && b.value.phi == phi, t1)
  }

  /** The two queries agree, on the answer and on the tables. */
  lemma {:induction false} InductionQueriesAgree(f: Function, t: Table, phi: ValueId)
    requires WellFormed(f) && phi < |f.values|
    ensures IsInductionVariable(f, t, phi).0 <==> LoopForInductionVariable(f, t, phi).0.Some?
    ensures IsInductionVariable(f, t, phi).1 == LoopForInductionVariable(f, t, phi).1
  {
  }

  // ---------------------------------------------------------------------
  // Properties of getLoopInfo

  /** A later table extends an earlier one and keeps it consistent. */
  predicate Keeps(f: Function, t: Table, t': Table)
    requires WellFormed(f)
  {
    && Grows(t, t')
    && (Inv(f, t) ==> Inv(f, t'))
    && (Inv(f, t) && Coherent(t) ==> Coherent(t'))
  }

  lemma {:induction false} KeepsTrans(f: Function, t1: Table, t2: Table, t3: Table)
    requires WellFormed(f) && Keeps(f, t1, t2) && Keeps(f, t2, t3)
    ensures Keeps(f, t1, t3)
  {
  }

  lemma {:induction false} ExprForKeeps(f: Function, t: Table, scope: Option<LoopId>, v: ValueId)
    requires WellFormed(f) && ScopeOk(f, scope) && v < |f.values|
    ensures Keeps(f, t, ExprFor(f, t, scope, v).1)
  {
    ExprForGrows(f, t, scope, v);
    if Inv(f, t) {
      ExprForInv(f, t, scope, v);
    }
  }

  lemma {:induction false} InternKeeps(f: Function, t: Table, v: ValueId)
    requires WellFormed(f) && v < |f.values|
    ensures Keeps(f, t, Intern(f, t, v).1)
  {
    InternGrows(f, t, v);
    if Inv(f, t) {
      InternInv(f, t, v);
    }
  }

  /** A phi's symbol denotes the phi's run-time value under any
      environment agreeing with the table it was interned into. */
  lemma {:induction false} InternValue(f: Function, t: Table, v: ValueId, env: map<string, real>, run: ValueId -> real)
    requires WellFormed(f) && v < |f.values| && f.values[v].kind.Phi?
    requires Agrees(Intern(f, t, v).1, env, run)
    ensures var (e, t') := Intern(f, t, v);
            v in t'.exprs && e == t'.exprs[v] && Value(e, env) == run(v)
  {
  }

  /** The analysis only adds symbols and keeps the tables consistent,
      whatever its outcome. */
  lemma {:induction false} GetLoopInfoKeeps(f: Function, t: Table, l: LoopId)
    requires WellFormed(f) && l < |f.loops|
    ensures Keeps(f, t, GetLoopInfo(f, t, l).1)
  {
    var r := GetLoopInfo(f, t, l).1;
    var lp := f.loops[l];
    if |lp.exiting| == 0 {
      KeepsRefl(f, t);
      return;
    }
    var cmp := BranchCompare(f, lp.exiting[0]);
    if cmp.None? || !Accepted(cmp.value.pred) {
      KeepsRefl(f, t);
      return;
    }
    var top := Toplevel(f, l);
    var (lhs, t1) := ExprFor(f, t, Some(top), cmp.value.left);
    var (rhs, t2) := ExprFor(f, t1, Some(top), cmp.value.right);
    ExprForKeeps(f, t, Some(top), cmp.value.left);
    ExprForKeeps(f, t1, Some(top), cmp.value.right);
    KeepsTrans(f, t, t1, t2);
    if !lhs.IsValid() || !rhs.IsValid() {
      assert r == t2;
      return;
    }
    var sides := ChooseSides(f, t2, l, lhs, rhs);
    if sides.None? {
      assert r == t2;
      return;
    }
    var phi := SingleVariantPhi(f, t2, l, sides.value.varying);
    if phi.None? {
      assert r == t2;
      return;
    }
    assert r == Recurrence(f, t2, l, top, phi.value, cmp.value.pred, sides.value.bound).1;
    RecurrenceKeeps(f, t2, l, top, phi.value, cmp.value.pred, sides.value.bound);
    KeepsTrans(f, t, t2, r);
  }

  lemma {:induction false} RecurrenceKeeps(f: Function, t: Table, l: LoopId, top: LoopId, phi: ValueId, pred: Predicate, bound: Expr)
    requires WellFormed(f) && l < |f.loops| && top < |f.loops| && VariantPhi(f, l, phi)
    ensures Keeps(f, t, Recurrence(f, t, l, top, phi, pred, bound).1)
  {
    var r := Recurrence(f, t, l, top, phi, pred, bound).1;
    var lp := f.loops[l];
    if lp.preheader.Some? && lp.latch.Some? {
      var pre := Incoming(f, phi, lp.preheader.value);
      var lat := Incoming(f, phi, lp.latch.value);
      if pre.Some? && lat.Some? && Invariant(f, l, pre.value) && !Invariant(f, l, lat.value) {
        var (start, t3) := ExprFor(f, t, Some(top), pre.value);
        var (phiEx, t4) := Intern(f, t3, phi);
        var (latEx, t5) := ExprFor(f, t4, Some(top), lat.value);
        assert r == t5;
        ExprForKeeps(f, t, Some(top), pre.value);
        InternKeeps(f, t3, phi);
        ExprForKeeps(f, t4, Some(top), lat.value);
        KeepsTrans(f, t, t3, t4);
        KeepsTrans(f, t, t4, t5);
        return;
      }
    }
    assert r == t;
    KeepsRefl(f, t);
  }

  lemma {:induction false} KeepsRefl(f: Function, t: Table)
    requires WellFormed(f)
    ensures Keeps(f, t, t)
  {
  }

  /** The analysis gives up, leaving the tables alone, on a loop without
      an exiting block, on an exit that is not a conditional branch on an
      integer comparison, and on an inequality comparison. */
  lemma {:induction false} GetLoopInfoRejects(f: Function, t: Table, l: LoopId)
    requires WellFormed(f) && l < |f.loops|
    requires || |f.loops[l].exiting| == 0
             || BranchCompare(f, f.loops[l].exiting[0]).None?
             || BranchCompare(f, f.loops[l].exiting[0]).value.pred == NE
    ensures GetLoopInfo(f, t, l) == (None, t)
  {
  }

  /** What a recognised induction variable satisfies: the exit is an
      accepted comparison, the phi varies in the loop, the loop has a
      preheader and a latch, the phi comes in invariant from the first and
      variant from the second, and the step does not mention the phi. */
  lemma {:induction false} GetLoopInfoShape(f: Function, t: Table, l: LoopId)
    requires WellFormed(f) && l < |f.loops|
    requires GetLoopInfo(f, t, l).0.Some?
    ensures var lp := f.loops[l];
            && |lp.exiting| > 0
            && BranchCompare(f, lp.exiting[0]).Some?
            && Accepted(BranchCompare(f, lp.exiting[0]).value.pred)
    ensures var b := GetLoopInfo(f, t, l).0.value;
            var lp := f.loops[l];
            && VariantPhi(f, l, b.phi)
            && lp.preheader.Some? && lp.latch.Some?
            && Incoming(f, b.phi, lp.preheader.value).Some?
            && Invariant(f, l, Incoming(f, b.phi, lp.preheader.value).value)
            && Incoming(f, b.phi, lp.latch.value).Some?
            && !Invariant(f, l, Incoming(f, b.phi, lp.latch.value).value)
  {
  }

  /** The adjustment the end bound applies to the bound side. */
  function Adjust(p: Predicate): real {
    if Below(p) then -1.0 else if Above(p) then 1.0 else 0.0
  }

  /** The start is the value coming in from the preheader, the value coming
      in from the latch is the phi plus the step, and the step does not
      mention the phi, under any environment agreeing with the final
      table. */
  lemma {:induction false} RecurrenceMeaning(f: Function, t: Table, l: LoopId, top: LoopId, phi: ValueId, pred: Predicate, bound: Expr,
                          env: map<string, real>, run: ValueId -> real)
    requires WellFormed(f) && l < |f.loops| && top < |f.loops| && VariantPhi(f, l, phi)
    requires Recurrence(f, t, l, top, phi, pred, bound).0.Some?
    requires Agrees(Recurrence(f, t, l, top, phi, pred, bound).1, env, run)
    ensures var (b, t') := Recurrence(f, t, l, top, phi, pred, bound);
            var lp := f.loops[l];
            && lp.preheader.Some? && lp.latch.Some?
            && Incoming(f, phi, lp.preheader.value).Some?
            && Incoming(f, phi, lp.latch.value).Some?
            && Value(b.value.start, env) == RefValue(f, Some(top), Incoming(f, phi, lp.preheader.value).value, run)
            && RefValue(f, Some(top), Incoming(f, phi, lp.latch.value).value, run) == run(phi) + Value(b.value.step, env)
            && phi in t'.exprs && !Has(b.value.step, t'.exprs[phi])
            && b.value.end == EndBound(pred, bound)
  {
    var lp := f.loops[l];
    var pre := Incoming(f, phi, lp.preheader.value).value;
    var lat := Incoming(f, phi, lp.latch.value).value;
    var (start, t3) := ExprFor(f, t, Some(top), pre);
    var (phiEx, t4) := Intern(f, t3, phi);
    var (latEx, t5) := ExprFor(f, t4, Some(top), lat);
    var step := MatchStep(latEx, phiEx);
    assert Recurrence(f, t, l, top, phi, pred, bound) == (Some(Bounds(phi, start, EndBound(pred, bound), step.value)), t5);
    StepMeaning(f, t3, top, phi, lat, t5, env, run);
    AgreesShrinks(t3, t5, env, run);
    ExprForValue(f, t, Some(top), pre, env, run);
  }

  /** The step matched between the phi and the value coming in from the
      latch: that value is the phi plus the step, and the step does not
      mention the phi, under any environment agreeing with a table that
      extends the one the step was matched in. */
  lemma {:induction false} StepMeaning(f: Function, t: Table, top: LoopId, phi: ValueId, lat: ValueId, tf: Table,
                                       env: map<string, real>, run: ValueId -> real)
    requires WellFormed(f) && top < |f.loops| && phi < |f.values| && f.values[phi].kind.Phi? && lat < |f.values|
    requires var (phiEx, t1) := Intern(f, t, phi);
             var (latEx, t2) := ExprFor(f, t1, Some(top), lat);
             MatchStep(latEx, phiEx).Some? && Keeps(f, t2, tf)
    requires Agrees(tf, env, run)
    ensures Keeps(f, t, tf)
    ensures var (phiEx, t1) := Intern(f, t, phi);
            var (latEx, t2) := ExprFor(f, t1, Some(top), lat);
            var step := MatchStep(latEx, phiEx).value;
            && RefValue(f, Some(top), lat, run) == run(phi) + Value(step, env)
            && phi in tf.exprs && !Has(step, tf.exprs[phi])
  {
    var (phiEx, t1) := Intern(f, t, phi);
    var (latEx, t2) := ExprFor(f, t1, Some(top), lat);
    InternKeeps(f, t, phi);
    ExprForKeeps(f, t1, Some(top), lat);
    KeepsTrans(f, t1, t2, tf);
    KeepsTrans(f, t, t1, tf);
    AgreesShrinks(t2, tf, env, run);
    ExprForValue(f, t1, Some(top), lat, env, run);
    assert phiEx == tf.exprs[phi];
    assert Value(phiEx, env) == run(phi);
    MatchStepValue(latEx, phiEx, env);
  }

  /** The meaning of a recognised loop: its end is a side of the exit
      comparison adjusted by one for a strict comparison, its start is the
      value the phi receives from the preheader, and the value it receives
      from the latch is the phi plus the step; all under any environment
      agreeing with the final table. */
  lemma {:induction false} GetLoopInfoMeaning(f: Function, t: Table, l: LoopId, env: map<string, real>, run: ValueId -> real)
    requires WellFormed(f) && l < |f.loops|
    requires GetLoopInfo(f, t, l).0.Some?
    requires Agrees(GetLoopInfo(f, t, l).1, env, run)
    ensures var b := GetLoopInfo(f, t, l).0.value;
            var lp := f.loops[l];
            var top := Toplevel(f, l);
            var cmp := BranchCompare(f, lp.exiting[0]).value;
            && (|| Value(b.end, env) == RefValue(f, Some(top), cmp.left, run) + Adjust(cmp.pred)
                || Value(b.end, env) == RefValue(f, Some(top), cmp.right, run) + Adjust(cmp.pred))
            && Value(b.start, env) == RefValue(f, Some(top), Incoming(f, b.phi, lp.preheader.value).value, run)
            && RefValue(f, Some(top), Incoming(f, b.phi, lp.latch.value).value, run) == run(b.phi) + Value(b.step, env)
  {
    var lp := f.loops[l];
    var cmp := BranchCompare(f, lp.exiting[0]).value;
    var top := Toplevel(f, l);
    var (lhs, t1) := ExprFor(f, t, Some(top), cmp.left);
    var (rhs, t2) := ExprFor(f, t1, Some(top), cmp.right);
    var sides := ChooseSides(f, t2, l, lhs, rhs).value;
    var phi := SingleVariantPhi(f, t2, l, sides.varying).value;
    var r := Recurrence(f, t2, l, top, phi, cmp.pred, sides.bound);
    assert GetLoopInfo(f, t, l) == r;
    RecurrenceKeeps(f, t2, l, top, phi, cmp.pred, sides.bound);
    RecurrenceMeaning(f, t2, l, top, phi, cmp.pred, sides.bound, env, run);
    ExprForKeeps(f, t1, Some(top), cmp.right);
    KeepsTrans(f, t1, t2, r.1);
    AgreesShrinks(t1, r.1, env, run);
    ExprForValue(f, t, Some(top), cmp.left, env, run);
    AgreesShrinks(t2, r.1, env, run);
    ExprForValue(f, t1, Some(top), cmp.right, env, run);
    EndBoundValue(cmp.pred, sides.bound, env);
  }

  /** Started from a consistent table, the final table induces an
      environment the meaning lemma applies to. */
  lemma {:induction false} GetLoopInfoAgrees(f: Function, t: Table, l: LoopId, run: ValueId -> real)
    requires WellFormed(f) && l < |f.loops| && Inv(f, t) && Coherent(t)
    ensures var t' := GetLoopInfo(f, t, l).1;
            Inv(f, t') && Coherent(t') && Agrees(t', CanonEnv(t', run), run)
  {
    GetLoopInfoKeeps(f, t, l);
    CoherentAgrees(GetLoopInfo(f, t, l).1, run);
  }
}

=== FILE: loop_info_ras.dfy ===
/** `LoopInfoExpr` of the ranged address sanitizer: the same expression
    building and phi search as the page-migration copy, with a stricter
    recognition of induction variables (a single exiting block, exactly one
    variant side of the comparison, the incoming values picked by position)
    and the recognition of a second phi advancing alongside the induction
    variable. */
module LoopInfoRas {
  import opened Wrappers
  import opened Exprs
  import opened Ir
  import opened SymbolTable
  import opened LoopInfo

  // ---------------------------------------------------------------------
  // The stages that differ from the page-migration copy

  /** `Loop::getExitingBlock`: the exiting block when there is exactly
      one. */
  function ExitingBlock(lp: Loop): (r: Option<BlockId>)
    ensures r.Some? <==> |lp.exiting| == 1
    ensures r.Some? ==> r.value in lp.exiting
  {
    if |lp.exiting| == 1 then Some(lp.exiting[0]) else None
  }

  /** Exactly one side of the comparison may vary in the loop; the other
      one is the bound. */
  function StrictSides(f: Function, t: Table, l: LoopId, lhs: Expr, rhs: Expr): (r: Option<Sides>)
    requires WellFormed(f) && l < |f.loops|
    ensures r.Some? <==> ExprInvariant(f, t, l, lhs) != ExprInvariant(f, t, l, rhs)
    ensures r.Some? ==> r.value == Sides(lhs, rhs) || r.value == Sides(rhs, lhs)
    ensures r.Some? ==> ExprInvariant(f, t, l, r.value.bound) && !ExprInvariant(f, t, l, r.value.varying)
  {
    var li, ri := ExprInvariant(f, t, l, lhs), ExprInvariant(f, t, l, rhs);
    if !li && ri then Some(Sides(lhs, rhs))
    else if li && !ri then Some(Sides(rhs, lhs))
    else None
  }

  /** Where the variance of the two sides decides, the strict choice and
      the page-migration choice agree; otherwise only the latter may
      succeed. */
  lemma {:induction false} StrictSidesRefine(f: Function, t: Table, l: LoopId, lhs: Expr, rhs: Expr)
    requires WellFormed(f) && l < |f.loops|
    ensures StrictSides(f, t, l, lhs, rhs).Some? ==>
              StrictSides(f, t, l, lhs, rhs) == ChooseSides(f, t, l, lhs, rhs)
  {
    var r := StrictSides(f, t, l, lhs, rhs);
    if r.Some? {
      var c := ChooseSides(f, t, l, lhs, rhs);
      assert c.Some? && ExprInvariant(f, t, l, c.value.bound) && !ExprInvariant(f, t, l, c.value.varying);
      if r.value == Sides(lhs, rhs) {
        assert !ExprInvariant(f, t, l, lhs);
      } else {
        assert !ExprInvariant(f, t, l, rhs);
      }
    }
  }

  /** The incoming values picked by position: the entry of the latch
      (`getBasicBlockIndex`) and the entry at one minus its index. A
      missing latch, a latch entry beyond the first two and a missing
      partner entry are undefined behaviour in the analysis and fail
      here. The result is (preheader value, latch value). */
  function IncomingPair(f: Function, phi: ValueId, latch: Option<BlockId>): (r: Option<(ValueId, ValueId)>)
    requires WellFormed(f) && phi < |f.values| && f.values[phi].kind.Phi?
    ensures var inc := f.values[phi].kind.incoming;
            r.Some? <==> latch.Some? && |inc| >= 2 && (inc[0].0 == latch.value || inc[1].0 == latch.value)
    ensures var inc := f.values[phi].kind.incoming;
            r.Some? ==>
              && r.value.0 < |f.values| && r.value.1 < |f.values|
              && (|| (inc[0].0 == latch.value && r.value == (inc[1].1, inc[0].1))
                  || (inc[0].0 != latch.value && r.value == (inc[0].1, inc[1].1)))
              && IncomingFor(inc, latch.value) == Some(r.value.1)
  {
    var inc := f.values[phi].kind.incoming;
    assert RefsOk(f.values[phi].kind, phi, |f.values|);
    if latch.None? then None
    else
      var i := BlockIndex(inc, latch.value);
      if i < 0 || i > 1 || 1 - i >= |inc| then None
      else Some((inc[1 - i].1, inc[i].1))
  }

  /** The end bound: as in the page-migration copy, except that an
      equality exit moves one step back from the bound against the sign of
      the step. The sign test asserts a constant step, and a zero step
      fails the assertion that it is positive; both fail here. */
  function RasEnd(p: Predicate, step: Expr, bound: Expr): (r: Option<Expr>)
    ensures r.Some? <==> p != EQ || (step.IsConstant() && NumVal(step) != 0.0)
    ensures p != EQ ==> r == Some(EndBound(p, bound))
  {
    if p != EQ then Some(EndBound(p, bound))
    else if !step.IsConstant() then None
    else if NumVal(step) < 0.0 then Some(Plus(bound, Int(1)))
    else if NumVal(step) > 0.0 then Some(Minus(bound, Int(1)))
    else None
  }

  /** The adjustment the end bound applies: one below a strict upper
      bound, one above a strict lower bound, and for an equality one step
      unit back against the direction of the step. */
  function RasAdjust(p: Predicate, step: Expr): real
    requires p == EQ ==> step.IsConstant()
  {
    if p == EQ then (if NumVal(step) < 0.0 then 1.0 else -1.0) else Adjust(p)
  }

  lemma {:induction false} RasEndValue(p: Predicate, step: Expr, bound: Expr, env: map<string, real>)
    requires bound.IsValid() && RasEnd(p, step, bound).Some?
    ensures Value(RasEnd(p, step, bound).value, env) == Value(bound, env) + RasAdjust(p, step)
  {
    EndBoundValue(p, bound, env);
    if p == EQ {
      if NumVal(step) < 0.0 {
        PlusSound(bound, Int(1), env);
      } else {
        MinusSound(bound, Int(1), env);
      }
    }
  }

  // ---------------------------------------------------------------------
  // getLoopInfo

  /** `getLoopInfo`, the sanitizer copy. */
  function GetLoopInfoRas(f: Function, t: Table, l: LoopId): (r: (Option<Bounds>, Table))
    requires WellFormed(f) && l < |f.loops|
  {
    var exit := ExitingBlock(f.loops[l]);
    if exit.None? then (None, t)
    else
      var cmp := BranchCompare(f, exit.value);
      if cmp.None? || !Accepted(cmp.value.pred) then (None, t)
      else
        var top := Toplevel(f, l);
        var (lhs, t1) := ExprFor(f, t, Some(top), cmp.value.left);
        var (rhs, t2) := ExprFor(f, t1, Some(top), cmp.value.right);
        if !lhs.IsValid() || !rhs.IsValid() then (None, t2)
        else
          var sides := StrictSides(f, t2, l, lhs, rhs);
          if sides.None? then (None, t2)
          else
            var phi := SingleVariantPhi(f, t2, l, sides.value.varying);
            if phi.None? then (None, t2)
            else RecurrenceRas(f, t2, l, top, phi.value, cmp.value.pred, sides.value.bound)
  }

  /** The part after the phi is found: the incoming values by position,
      their variance, then the phi, the step matched against the latch
      value, and only then the start. */
  function RecurrenceRas(f: Function, t: Table, l: LoopId, top: LoopId, phi: ValueId, pred: Predicate, bound: Expr): (r: (Option<Bounds>, Table))
    requires WellFormed(f) && l < |f.loops| && top < |f.loops| && VariantPhi(f, l, phi)
    ensures r.0.Some? ==> r.0.value.phi == phi
  {
    var pair := IncomingPair(f, phi, f.loops[l].latch);
    if pair.None? then (None, t)
    else
      var (pre, lat) := pair.value;
      if !Invariant(f, l, pre) || Invariant(f, l, lat) then (None, t)
      else
        var (phiEx, t3) := Intern(f, t, phi);
        var (latEx, t4) := ExprFor(f, t3, Some(top), lat);
        var step := MatchStep(latEx, phiEx);
        if step.None? then (None, t4)
        else
          var (start, t5) := ExprFor(f, t4, Some(top), pre);
          var end := RasEnd(pred, step.value, bound);
          if end.None? then (None, t5)
          else (Some(Bounds(phi, start, end.value, step.value)), t5)
  }

  /** `isInductionVariable`, sanitizer copy. */
  function IsInductionVariableRas(f: Function, t: Table, phi: ValueId): (r: (bool, Table))
    requires WellFormed(f) && phi < |f.values|
    ensures r.0 ==> HeadedLoop(f, f.values[phi].block).Some?
    ensures r.0 ==> (var b := GetLoopInfoRas(f, t, HeadedLoop(f, f.values[phi].block).value).0; b.Some? && b.value.phi == phi)
  {
    var l := HeadedLoop(f, f.values[phi].block);
    if l.None? then (false, t)
    else
      var (b, t1) := GetLoopInfoRas(f, t, l.value);
      (b.Some? && b.value.phi == phi, t1)
  }

  /** `getLoopForInductionVariable`, sanitizer copy. */
  function LoopForInductionVariableRas(f: Function, t: Table, phi: ValueId): (r: (Option<LoopId>, Table))
    requires WellFormed(f) && phi < |f.values|
    ensures r.0.Some? ==> r.0.value < |f.loops| && f.loops[r.0.value].header == f.values[phi].block
  {
    var l := HeadedLoop(f, f.values[phi].block);
    if l.None? then (None, t)
    else
      var (b, t1) := GetLoopInfoRas(f, t, l.value);
      (if b.Some? && b.value.phi == phi then l else None, t1)
  }

  lemma {:induction false} InductionQueriesAgreeRas(f: Function, t: Table, phi: ValueId)
    requires WellFormed(f) && phi < |f.values|
    ensures IsInductionVariableRas(f, t, phi).0 <==> LoopForInductionVariableRas(f, t, phi).0.Some?
    ensures IsInductionVariableRas(f, t, phi).1 == LoopForInductionVariableRas(f, t, phi).1
  {
  }

  // ---------------------------------------------------------------------
  // Properties of getLoopInfo

  lemma {:induction false} RecurrenceRasKeeps(f: Function, t: Table, l: LoopId, top: LoopId, phi: ValueId, pred: Predicate, bound: Expr)
    requires WellFormed(f) && l < |f.loops| && top < |f.loops| && VariantPhi(f, l, phi)
    ensures Keeps(f, t, RecurrenceRas(f, t, l, top, phi, pred, bound).1)
  {
    var r := RecurrenceRas(f, t, l, top, phi, pred, bound).1;
    var pair := IncomingPair(f, phi, f.loops[l].latch);
    if pair.Some? && Invariant(f, l, pair.value.0) && !Invariant(f, l, pair.value.1) {
      var (pre, lat) := pair.value;
      var (phiEx, t3) := Intern(f, t, phi);
      var (latEx, t4) := ExprFor(f, t3, Some(top), lat);
      InternKeeps(f, t, phi);
      ExprForKeeps(f, t3, Some(top), lat);
      KeepsTrans(f, t, t3, t4);
      if MatchStep(latEx, phiEx).None? {
        assert r == t4;
      } else {
        var t5 := ExprFor(f, t4, Some(top), pre).1;
        ExprForKeeps(f, t4, Some(top), pre);
        KeepsTrans(f, t, t4, t5);
        assert r == t5;
      }
      return;
    }
    assert r == t;
    KeepsRefl(f, t);
  }

  /** The analysis only adds symbols and keeps the tables consistent,
      whatever its outcome. */
  lemma {:induction false} GetLoopInfoRasKeeps(f: Function, t: Table, l: LoopId)
    requires WellFormed(f) && l < |f.loops|
    ensures Keeps(f, t, GetLoopInfoRas(f, t, l).1)
  {
    var r := GetLoopInfoRas(f, t, l).1;
    var exit := ExitingBlock(f.loops[l]);
    if exit.None? {
      KeepsRefl(f, t);
      return;
    }
    var cmp := BranchCompare(f, exit.value);
    if cmp.None? || !Accepted(cmp.value.pred) {
      KeepsRefl(f, t);
      return;
    }
    var top := Toplevel(f, l);
    var (lhs, t1) := ExprFor(f, t, Some(top), cmp.value.left);
    var (rhs, t2) := ExprFor(f, t1, Some(top), cmp.value.right);
    ExprForKeeps(f, t, Some(top), cmp.value.left);
    ExprForKeeps(f, t1, Some(top), cmp.value.right);
    KeepsTrans(f, t, t1, t2);
    if !lhs.IsValid() || !rhs.IsValid() {
      assert r == t2;
      return;
    }
    var sides := StrictSides(f, t2, l, lhs, rhs);
    if sides.None? {
      assert r == t2;
      return;
    }
    var phi := SingleVariantPhi(f, t2, l, sides.value.varying);
    if phi.None? {
      assert r == t2;
      return;
    }
    assert r == RecurrenceRas(f, t2, l, top, phi.value, cmp.value.pred, sides.value.bound).1;
    RecurrenceRasKeeps(f, t2, l, top, phi.value, cmp.value.pred, sides.value.bound);
    KeepsTrans(f, t, t2, r);
  }

  /** A loop with several exiting blocks, or none, is never analysed,
      and the tables are left alone. */
  lemma {:induction false} GetLoopInfoRasSingleExit(f: Function, t: Table, l: LoopId)
    requires WellFormed(f) && l < |f.loops|
    requires |f.loops[l].exiting| != 1
    ensures GetLoopInfoRas(f, t, l) == (None, t)
  {
  }

  /** What a recognised induction variable satisfies: the single exit is
      an accepted comparison with exactly one variant side, the phi varies
      in the loop and takes its values from the latch entry and the entry
      next to it, invariant from the latter and variant from the former;
      an equality exit implies a non-zero constant step. */
  lemma {:induction false} GetLoopInfoRasShape(f: Function, t: Table, l: LoopId)
    requires WellFormed(f) && l < |f.loops|
    requires GetLoopInfoRas(f, t, l).0.Some?
    ensures |f.loops[l].exiting| == 1
    ensures var cmp := BranchCompare(f, f.loops[l].exiting[0]);
            var b := GetLoopInfoRas(f, t, l).0.value;
            && cmp.Some? && Accepted(cmp.value.pred)
            && VariantPhi(f, l, b.phi)
            && IncomingPair(f, b.phi, f.loops[l].latch).Some?
            && Invariant(f, l, IncomingPair(f, b.phi, f.loops[l].latch).value.0)
            && !Invariant(f, l, IncomingPair(f, b.phi, f.loops[l].latch).value.1)
            && (cmp.value.pred == EQ ==> b.step.IsConstant() && NumVal(b.step) != 0.0)
  {
    var exit := ExitingBlock(f.loops[l]);
    assert exit.Some?;
    var cmp := BranchCompare(f, exit.value);
    assert cmp.Some? && Accepted(cmp.value.pred);
    var top := Toplevel(f, l);
    var (lhs, t1) := ExprFor(f, t, Some(top), cmp.value.left);
    var (rhs, t2) := ExprFor(f, t1, Some(top), cmp.value.right);
    var sides := StrictSides(f, t2, l, lhs, rhs);
    assert sides.Some?;
    var phi := SingleVariantPhi(f, t2, l, sides.value.varying);
    assert phi.Some?;
    assert GetLoopInfoRas(f, t, l) == RecurrenceRas(f, t2, l, top, phi.value, cmp.value.pred, sides.value.bound);
    RecurrenceRasShape(f, t2, l, top, phi.value, cmp.value.pred, sides.value.bound);
  }

  /** A recognised recurrence has its two entries, the one from the
      preheader invariant and the latch one variant; an equality exit
      needs a non-zero constant step. */
  lemma {:induction false} RecurrenceRasShape(f: Function, t: Table, l: LoopId, top: LoopId, phi: ValueId, pred: Predicate, bound: Expr)
    requires WellFormed(f) && l < |f.loops| && top < |f.loops| && VariantPhi(f, l, phi)
    requires RecurrenceRas(f, t, l, top, phi, pred, bound).0.Some?
    ensures var pair := IncomingPair(f, phi, f.loops[l].latch);
            && pair.Some? && Invariant(f, l, pair.value.0) && !Invariant(f, l, pair.value.1)
            && (pred == EQ ==>
                  var b := RecurrenceRas(f, t, l, top, phi, pred, bound).0.value;
                  b.step.IsConstant() && NumVal(b.step) != 0.0)
  {
    var (pre, lat) := IncomingPair(f, phi, f.loops[l].latch).value;
    var (phiEx, t3) := Intern(f, t, phi);
    var (latEx, t4) := ExprFor(f, t3, Some(top), lat);
    var step := MatchStep(latEx, phiEx).value;
    var (start, t5) := ExprFor(f, t4, Some(top), pre);
    var end := RasEnd(pred, step, bound).value;
    assert RecurrenceRas(f, t, l, top, phi, pred, bound) == (Some(Bounds(phi, start, end, step)), t5);
  }

  /** The start is the value of the entry next to the latch entry, the
      latch value is the phi plus the step, the step does not mention the
      phi, and the end is the bound adjusted as `RasAdjust` says, under
      any environment agreeing with the final table. */
  lemma {:induction false} RecurrenceRasMeaning(f: Function, t: Table, l: LoopId, top: LoopId, phi: ValueId, pred: Predicate, bound: Expr,
                             env: map<string, real>, run: ValueId -> real)
    requires WellFormed(f) && l < |f.loops| && top < |f.loops| && VariantPhi(f, l, phi)
    requires bound.IsValid()
    requires RecurrenceRas(f, t, l, top, phi, pred, bound).0.Some?
    requires Agrees(RecurrenceRas(f, t, l, top, phi, pred, bound).1, env, run)
    ensures var (b, t') := RecurrenceRas(f, t, l, top, phi, pred, bound);
            var pair := IncomingPair(f, phi, f.loops[l].latch);
            && pair.Some?
            && Value(b.value.start, env) == RefValue(f, Some(top), pair.value.0, run)
            && RefValue(f, Some(top), pair.value.1, run) == run(phi) + Value(b.value.step, env)
            && phi in t'.exprs && !Has(b.value.step, t'.exprs[phi])
            && (pred == EQ ==> b.value.step.IsConstant())
            && Value(b.value.end, env) == Value(bound, env) + RasAdjust(pred, b.value.step)
  {
    var (pre, lat) := IncomingPair(f, phi, f.loops[l].latch).value;
    var (phiEx, t3) := Intern(f, t, phi);
    var (latEx, t4) := ExprFor(f, t3, Some(top), lat);
    var step := MatchStep(latEx, phiEx).value;
    var (start, t5) := ExprFor(f, t4, Some(top), pre);
    var end := RasEnd(pred, step, bound).value;
    assert RecurrenceRas(f, t, l, top, phi, pred, bound) == (Some(Bounds(phi, start, end, step)), t5);
    ExprForKeeps(f, t4, Some(top), pre);
    StepMeaning(f, t, top, phi, lat, t5, env, run);
    ExprForValue(f, t4, Some(top), pre, env, run);
    RasEndValue(pred, step, bound, env);
  }

  /** The meaning of a recognised loop, sanitizer copy: exactly one side
      of the exit comparison is loop-invariant, and the end is that side
      adjusted as `RasAdjust` says; the start and the step are as in
      `RecurrenceRasMeaning`. */
  lemma {:induction false} GetLoopInfoRasMeaning(f: Function, t: Table, l: LoopId, env: map<string, real>, run: ValueId -> real)
    requires WellFormed(f) && l < |f.loops|
    requires GetLoopInfoRas(f, t, l).0.Some?
    requires Agrees(GetLoopInfoRas(f, t, l).1, env, run)
    ensures var b := GetLoopInfoRas(f, t, l).0.value;
            var top := Toplevel(f, l);
            var cmp := BranchCompare(f, f.loops[l].exiting[0]).value;
            var pair := IncomingPair(f, b.phi, f.loops[l].latch);
            && pair.Some?
            && (cmp.pred == EQ ==> b.step.IsConstant())
            && (var (lhs, t1) := ExprFor(f, t, Some(top), cmp.left);
                var (rhs, t2) := ExprFor(f, t1, Some(top), cmp.right);
                var bound := if ExprInvariant(f, t2, l, rhs) then cmp.right else cmp.left;
                && ExprInvariant(f, t2, l, lhs) != ExprInvariant(f, t2, l, rhs)
                && Value(b.end, env) == RefValue(f, Some(top), bound, run) + RasAdjust(cmp.pred, b.step))
            && Value(b.start, env) == RefValue(f, Some(top), pair.value.0, run)
            && RefValue(f, Some(top), pair.value.1, run) == run(b.phi) + Value(b.step, env)
  {
    var cmp := BranchCompare(f, f.loops[l].exiting[0]).value;
    var top := Toplevel(f, l);
    var (lhs, t1) := ExprFor(f, t, Some(top), cmp.left);
    var (rhs, t2) := ExprFor(f, t1, Some(top), cmp.right);
    var sides := StrictSides(f, t2, l, lhs, rhs).value;
    var phi := SingleVariantPhi(f, t2, l, sides.varying).value;
    var r := RecurrenceRas(f, t2, l, top, phi, cmp.pred, sides.bound);
    assert GetLoopInfoRas(f, t, l) == r;
    RecurrenceRasKeeps(f, t2, l, top, phi, cmp.pred, sides.bound);
    RecurrenceRasMeaning(f, t2, l, top, phi, cmp.pred, sides.bound, env, run);
    ExprForKeeps(f, t1, Some(top), cmp.right);
    KeepsTrans(f, t1, t2, r.1);
    AgreesShrinks(t1, r.1, env, run);
    ExprForValue(f, t, Some(top), cmp.left, env, run);
    AgreesShrinks(t2, r.1, env, run);
    ExprForValue(f, t1, Some(top), cmp.right, env, run);
  }

  // ---------------------------------------------------------------------
  // getColocatedLoopInfo

  /** The start and step of a phi advancing alongside an induction
      variable. */
  datatype CoInfo = CoInfo(start: Expr, step: Expr)

  /** An incoming entry comes from outside the loop nest level when its
      block is in no loop or in the loop's parent. */
  predicate FromOutside(f: Function, l: LoopId, b: BlockId)
    requires WellFormed(f) && l < |f.loops|
  {
    b !in f.loopFor || f.loops[l].parent == Some(f.loopFor[b])
  }

  /** One incoming entry: an entry from outside gives the start as the
      value itself, any other entry gives the trip expression built with
      `getExpr`. The flag says which. */
  function CoEntry(f: Function, t: Table, l: LoopId, e: (BlockId, ValueId)): (r: (Expr, Table, bool))
    requires WellFormed(f) && l < |f.loops| && e.1 < |f.values|
    ensures r.2 == FromOutside(f, l, e.0)
  {
    if FromOutside(f, l, e.0) then
      var (x, t1) := Intern(f, t, e.1);
      (x, t1, true)
    else
      var (x, t1) := ExprFor(f, t, None, e.1);
      (x, t1, false)
  }

  /** `getColocatedLoopInfo(L, coPHI)`. A phi without exactly two incoming
      entries, or whose entries are not one from outside and one from
      inside, fails an assertion in the analysis and fails here. When the
      phi is the induction variable its start and step are returned;
      otherwise the two entries are examined in order and the step is
      matched against the trip expression. */
  function ColocatedLoopInfo(f: Function, t: Table, l: LoopId, coPhi: ValueId): (r: (Option<CoInfo>, Table))
    requires WellFormed(f) && l < |f.loops| && coPhi < |f.values| && f.values[coPhi].kind.Phi?
    ensures r.0.Some? ==> GetLoopInfoRas(f, t, l).0.Some?
  {
    var inc := f.values[coPhi].kind.incoming;
    if |inc| != 2 then (None, t)
    else
      var (b, t1) := GetLoopInfoRas(f, t, l);
      if b.None? then (None, t1)
      else if b.value.phi == coPhi then (Some(CoInfo(b.value.start, b.value.step)), t1)
      else
        assert RefsOk(f.values[coPhi].kind, coPhi, |f.values|);
        var (x0, t2, s0) := CoEntry(f, t1, l, inc[0]);
        var (x1, t3, s1) := CoEntry(f, t2, l, inc[1]);
        if s0 == s1 then (None, t3)
        else
          var start := if s0 then x0 else x1;
          var trip := if s0 then x1 else x0;
          var (phiEx, t4) := Intern(f, t3, coPhi);
          var step := MatchStep(trip, phiEx);
          if step.None? then (None, t4)
          else (Some(CoInfo(start, step.value)), t4)
  }

  lemma {:induction false} CoEntryKeeps(f: Function, t: Table, l: LoopId, e: (BlockId, ValueId))
    requires WellFormed(f) && l < |f.loops| && e.1 < |f.values|
    ensures Keeps(f, t, CoEntry(f, t, l, e).1)
  {
    if FromOutside(f, l, e.0) {
      InternKeeps(f, t, e.1);
    } else {
      ExprForKeeps(f, t, None, e.1);
    }
  }

  /** The colocated analysis only adds symbols and keeps the tables
      consistent, whatever its outcome. */
  lemma {:induction false} ColocatedKeeps(f: Function, t: Table, l: LoopId, coPhi: ValueId)
    requires WellFormed(f) && l < |f.loops| && coPhi < |f.values| && f.values[coPhi].kind.Phi?
    ensures Keeps(f, t, ColocatedLoopInfo(f, t, l, coPhi).1)
  {
    var r := ColocatedLoopInfo(f, t, l, coPhi).1;
    var inc := f.values[coPhi].kind.incoming;
    if |inc| != 2 {
      KeepsRefl(f, t);
      return;
    }
    var (b, t1) := GetLoopInfoRas(f, t, l);
    GetLoopInfoRasKeeps(f, t, l);
    if b.None? || b.value.phi == coPhi {
      assert r == t1;
      return;
    }
    assert RefsOk(f.values[coPhi].kind, coPhi, |f.values|);
    var (x0, t2, s0) := CoEntry(f, t1, l, inc[0]);
    var (x1, t3, s1) := CoEntry(f, t2, l, inc[1]);
    CoEntryKeeps(f, t1, l, inc[0]);
    CoEntryKeeps(f, t2, l, inc[1]);
    KeepsTrans(f, t, t1, t2);
    KeepsTrans(f, t, t2, t3);
    if s0 == s1 {
      assert r == t3;
      return;
    }
    var t4 := Intern(f, t3, coPhi).1;
    InternKeeps(f, t3, coPhi);
    KeepsTrans(f, t, t3, t4);
    assert r == t4;
  }

  /** When the phi is the induction variable itself, its start and step
      are those of the loop. */
  lemma {:induction false} ColocatedOfInductionVariable(f: Function, t: Table, l: LoopId, coPhi: ValueId)
    requires WellFormed(f) && l < |f.loops| && coPhi < |f.values| && f.values[coPhi].kind.Phi?
    requires |f.values[coPhi].kind.incoming| == 2
    requires GetLoopInfoRas(f, t, l).0.Some? && GetLoopInfoRas(f, t, l).0.value.phi == coPhi
    ensures var b := GetLoopInfoRas(f, t, l).0.value;
            ColocatedLoopInfo(f, t, l, coPhi).0 == Some(CoInfo(b.start, b.step))
  {
  }

  /** The meaning of a colocated phi other than the induction variable:
      one entry comes from outside and its value is the start; the other
      entry's value, computed exactly over the whole function, is the phi
      plus the step; and the step does not mention the phi. */
  lemma {:induction false} ColocatedMeaning(f: Function, t: Table, l: LoopId, coPhi: ValueId, env: map<string, real>, run: ValueId -> real)
    requires WellFormed(f) && l < |f.loops| && coPhi < |f.values| && f.values[coPhi].kind.Phi?
    requires ColocatedLoopInfo(f, t, l, coPhi).0.Some?
    requires GetLoopInfoRas(f, t, l).0.value.phi != coPhi
    requires Agrees(ColocatedLoopInfo(f, t, l, coPhi).1, env, run)
    ensures var inc := f.values[coPhi].kind.incoming;
            var (c, t') := ColocatedLoopInfo(f, t, l, coPhi);
            && |inc| == 2 && inc[0].1 < |f.values| && inc[1].1 < |f.values|
            && FromOutside(f, l, inc[0].0) != FromOutside(f, l, inc[1].0)
            && (var (s, w) := if FromOutside(f, l, inc[0].0) then (inc[0].1, inc[1].1) else (inc[1].1, inc[0].1);
                && Value(c.value.start, env) == AtomValue(f, s, run)
                && RefValue(f, None, w, run) == run(coPhi) + Value(c.value.step, env))
            && coPhi in t'.exprs && !Has(c.value.step, t'.exprs[coPhi])
  {
    var inc := f.values[coPhi].kind.incoming;
    assert RefsOk(f.values[coPhi].kind, coPhi, |f.values|);
    var (b, t1) := GetLoopInfoRas(f, t, l);
    var (x0, t2, s0) := CoEntry(f, t1, l, inc[0]);
    var (x1, t3, s1) := CoEntry(f, t2, l, inc[1]);
    var start := if s0 then x0 else x1;
    var trip := if s0 then x1 else x0;
    var (phiEx, t4) := Intern(f, t3, coPhi);
    var step := MatchStep(trip, phiEx).value;
    assert ColocatedLoopInfo(f, t, l, coPhi) == (Some(CoInfo(start, step)), t4);
    CoEntryKeeps(f, t2, l, inc[1]);
    InternKeeps(f, t3, coPhi);
    KeepsTrans(f, t2, t3, t4);
    AgreesShrinks(t2, t4, env, run);
    InternValue(f, t3, coPhi, env, run);
    MatchStepValue(trip, phiEx, env);
    CoEntryValue(f, t1, l, inc[0], env, run);
    CoEntryValue(f, t2, l, inc[1], env, run);
  }

  /** What one entry's expression denotes. */
  lemma {:induction false} CoEntryValue(f: Function, t: Table, l: LoopId, e: (BlockId, ValueId), env: map<string, real>, run: ValueId -> real)
    requires WellFormed(f) && l < |f.loops| && e.1 < |f.values|
    requires Agrees(CoEntry(f, t, l, e).1, env, run)
    ensures FromOutside(f, l, e.0) ==> Value(CoEntry(f, t, l, e).0, env) == AtomValue(f, e.1, run)
    ensures !FromOutside(f, l, e.0) ==> Value(CoEntry(f, t, l, e).0, env) == RefValue(f, None, e.1, run)
  {
    if !FromOutside(f, l, e.0) {
      ExprForValue(f, t, None, e.1, env, run);
    }
  }
}

=== FILE: lowering.dfy ===
/** Lowering of expressions to 64-bit integer instructions (`getValue`
    and `getExprValue`). The emitted instructions are kept as a tree of
    `Code`; `Eval` gives the value the tree computes at run time, with the
    wrap-around of `i64` arithmetic and the truncating signed division of
    `sdiv`. */
module Lowering {
  import opened Wrappers
  import opened Exprs
  import opened Arith
  import opened Ir

  /** The two comparisons used by `min` and `max`. */
  datatype Cmp = Slt | Sgt

  /** Emitted instructions. `Val` is an existing value, sign-extended or
      truncated to 64 bits; `PowF` is the conversion to double, the `pow`
      intrinsic and the conversion back. */
  datatype Code =
    | Const(k: int)
    | Val(v: ValueId)
    | AddI(a: Code, b: Code)
    | MulI(a: Code, b: Code)
    | SDivI(a: Code, d: Pos)
    | Select(cmp: Cmp, a: Code, b: Code)
    | PowF(a: Code, b: Code)

  /** The outcome of lowering: a null value, the emitted instructions, or a
      crash of the compiler (an unknown symbol, a constant that does not fit
      in a `long`, or a null operand handed to an instruction builder). */
  datatype Lowered = Null | Emit(code: Code) | Crash

  /** The value computed by emitted code, given the run-time value of every
      existing value (already brought to 64 bits) and the behaviour of the
      floating-point power routine. */
  function Eval(c: Code, run: ValueId -> int, pow: (int, int) -> int): (x: int)
    ensures c.AddI? || c.MulI? ==> InI64(x)
    ensures c.Select? ==> x == Eval(c.a, run, pow) || x == Eval(c.b, run, pow)
  {
    match c
    case Const(k) => k
    case Val(v) => run(v)
    case AddI(a, b) => Wrap64(Eval(a, run, pow) + Eval(b, run, pow))
    case MulI(a, b) => Wrap64(Eval(a, run, pow) * Eval(b, run, pow))
    case SDivI(a, d) => TruncDiv(Eval(a, run, pow), d)
    case Select(Slt, a, b) =>
      var x, y := Eval(a, run, pow), Eval(b, run, pow);
      if x < y then x else y
    case Select(Sgt, a, b) =>
      var x, y := Eval(a, run, pow), Eval(b, run, pow);
      if x > y then x else y
    case PowF(a, b) => pow(Eval(a, run, pow), Eval(b, run, pow))
  }

  /** `getValue` on an atom: an integer is emitted as itself, a rational is
      converted to a `long`, which truncates toward zero, and a symbol is
      the value its name stands for. */
  function LowerAtom(e: Expr, values: map<string, ValueId>): (r: Lowered)
    requires e.IsSymbol() || e.IsConstant()
    ensures r != Null
    ensures e.Int? && InI64(e.value) ==> r == Emit(Const(e.value))
    ensures e.Rat? && InI64(TruncDiv(e.num, e.den)) ==> r == Emit(Const(TruncDiv(e.num, e.den)))
    ensures e.IsSymbol() ==> (r.Emit? <==> SymbolName(e) in values)
    ensures e.IsSymbol() && r.Emit? ==> r.code == Val(values[SymbolName(e)])
  {
    if e.Int? then (if InI64(e.value) then Emit(Const(e.value)) else Crash)
    else if e.Rat? then
      var q := TruncDiv(e.num, e.den);
      if InI64(q) then Emit(Const(q)) else Crash
    else
      var x := SymbolName(e);
      if x in values then Emit(Val(values[x])) else Crash
  }

  /** `getExprValue`: atoms through `LowerAtom`, sums and products as left
      folds, `min`/`max` as compare-and-select, powers through the
      floating-point routine. */
  function Lower(e: Expr, values: map<string, ValueId>): Lowered
    decreases e
  {
    match e
    case Add(ts) => FoldSum(ts, Null, values)
    case Mul(fs) => FoldProduct(fs, Null, values)
    case Pow(b, x) => Both(Lower(b, values), Lower(x, values), None)
    case Min(l, r) => Both(Lower(l, values), Lower(r, values), Some(Slt))
    case Max(l, r) => Both(Lower(l, values), Lower(r, values), Some(Sgt))
    case _ => LowerAtom(e, values)
  }

  /** Two operands feeding one instruction: a power (no comparison) or a
      select. A null operand crashes the builder. */
  function Both(x: Lowered, y: Lowered, cmp: Option<Cmp>): (r: Lowered)
    ensures r.Emit? <==> x.Emit? && y.Emit?
  {
    if x.Emit? && y.Emit? then
      Emit(if cmp.Some? then Select(cmp.value, x.code, y.code) else PowF(x.code, y.code))
    else Crash
  }

  /** One step of the accumulation: the first non-null value starts it, and
      each later value is combined with it by `op`. A null value after the
      start crashes the builder; a null value before it is skipped. */
  function Accumulate(acc: Lowered, cur: Lowered, isAdd: bool): (r: Lowered)
    ensures acc.Crash? || cur.Crash? ==> r.Crash?
    ensures acc.Null? ==> r == cur
    ensures acc.Emit? && cur.Emit? ==> r == Emit(if isAdd then AddI(acc.code, cur.code) else MulI(acc.code, cur.code))
    ensures acc.Emit? && cur.Null? ==> r.Crash?
  {
    if acc.Crash? || cur.Crash? then Crash
    else if acc.Null? then cur
    else if cur.Null? then Crash
    else Emit(if isAdd then AddI(acc.code, cur.code) else MulI(acc.code, cur.code))
  }

  function FoldSum(ts: seq<Expr>, acc: Lowered, values: map<string, ValueId>): Lowered
    decreases ts
  {
    if |ts| == 0 then acc
    else FoldSum(ts[1..], Accumulate(acc, Lower(ts[0], values), true), values)
  }

  /** The product fold. A factor that is a non-integer rational n/d is not
      lowered on its own: the accumulator (or n alone) is multiplied by n
      and then divided by d with `sdiv`. */
  function FoldProduct(fs: seq<Expr>, acc: Lowered, values: map<string, ValueId>): Lowered
    decreases fs
  {
    if |fs| == 0 then acc
    else
      var f := fs[0];
      var next :=
        if f.Rat? then RationalFactor(acc, f)
        else Accumulate(acc, Lower(f, values), false);
      FoldProduct(fs[1..], next, values)
  }

  /** `acc * n` (or `n`), then `sdiv` by `d`. */
  function RationalFactor(acc: Lowered, f: Expr): (r: Lowered)
    requires f.Rat?
    ensures r.Emit? <==> !acc.Crash? && InI64(f.num) && InI64(f.den)
    ensures r.Emit? && acc.Emit? ==> r.code == SDivI(MulI(acc.code, Const(f.num)), f.den)
    ensures r.Emit? && acc.Null? ==> r.code == SDivI(Const(f.num), f.den)
  {
    if acc.Crash? || !InI64(f.num) || !InI64(f.den) then Crash
    else
      var numer := Const(f.num);
      Emit(SDivI(if acc.Emit? then MulI(acc.code, numer) else numer, f.den))
  }

  // ---------------------------------------------------------------------
  // What the emitted code computes

  /** Expressions the lowering treats as plain integer polynomials: integer
      constants and symbols combined by non-empty sums and products. */
  predicate Poly(e: Expr)
    decreases e
  {
    match e
    case Int(_) => true
    case Sym(_) => true
    case Add(ts) => |ts| > 0 && forall i :: 0 <= i < |ts| ==> Poly(ts[i])
    case Mul(fs) => |fs| > 0 && forall i :: 0 <= i < |fs| ==> Poly(fs[i])
    case _ => false
  }

  /** The run-time environment of symbol names: each registered name has the
      run-time value of the value it stands for. */
  function Env(values: map<string, ValueId>, run: ValueId -> int): (env: map<string, real>)
    ensures env.Keys == values.Keys
    ensures forall x :: x in values ==> env[x] == run(values[x]) as real
  {
    map x | x in values :: run(values[x]) as real
  }

  /** The exact integer value of a polynomial, symbols taking their
      run-time values. */
  function PolyValue(e: Expr, values: map<string, ValueId>, run: ValueId -> int): int
    requires Poly(e)
    decreases e
  {
    match e
    case Int(n) => n
    case Sym(x) => if x in values then run(values[x]) else 0
    case Add(ts) => PolySum(ts, values, run)
    case Mul(fs) => PolyProduct(fs, values, run)
  }

  function PolySum(ts: seq<Expr>, values: map<string, ValueId>, run: ValueId -> int): int
    requires forall i :: 0 <= i < |ts| ==> Poly(ts[i])
    decreases ts
  {
    if |ts| == 0 then 0 else PolyValue(ts[0], values, run) + PolySum(ts[1..], values, run)
  }

  function PolyProduct(fs: seq<Expr>, values: map<string, ValueId>, run: ValueId -> int): int
    requires forall i :: 0 <= i < |fs| ==> Poly(fs[i])
    decreases fs
  {
    if |fs| == 0 then 1 else PolyValue(fs[0], values, run) * PolyProduct(fs[1..], values, run)
  }

  /** A crash stays a crash through the rest of a fold. */
  lemma {:induction false} FoldCrash(ts: seq<Expr>, values: map<string, ValueId>, isAdd: bool)
    ensures isAdd ==> FoldSum(ts, Crash, values) == Crash
    ensures !isAdd ==> FoldProduct(ts, Crash, values) == Crash
    decreases ts
  {
    if |ts| > 0 {
      FoldCrash(ts[1..], values, isAdd);
    }
  }

  /** Every existing value, brought to 64 bits, is an `i64`. */
  ghost predicate Run64(run: ValueId -> int) {
    forall v :: InI64(run(v))
  }

  /** An accumulator holds the wrapped value of `a`; a null accumulator
      stands for the fold's neutral element `unit`. */
  predicate Holds(acc: Lowered, a: int, unit: int, run: ValueId -> int, pow: (int, int) -> int) {
    && (acc.Null? ==> a == unit)
    && (acc.Emit? ==> Eval(acc.code, run, pow) == Wrap64(a))
  }

  /** A polynomial is never lowered to null, and when its lowering succeeds
      the emitted code computes its exact value modulo 2^64. */
  lemma {:induction false} LowerPolySound(e: Expr, values: map<string, ValueId>, run: ValueId -> int, pow: (int, int) -> int)
    requires Poly(e)
    requires Run64(run)
    ensures Lower(e, values) != Null
    ensures Lower(e, values).Emit? ==> Eval(Lower(e, values).code, run, pow) == Wrap64(PolyValue(e, values, run))
    decreases e, 1
  {
    match e
    case Int(n) =>
    case Sym(x) =>
    case Add(ts) =>
      FoldSumSound(ts, Null, 0, values, run, pow);
    case Mul(fs) =>
      FoldProductSound(fs, Null, 1, values, run, pow);
  }

  lemma {:induction false} FoldSumSound(ts: seq<Expr>, acc: Lowered, a: int, values: map<string, ValueId>, run: ValueId -> int, pow: (int, int) -> int)
    requires forall i :: 0 <= i < |ts| ==> Poly(ts[i])
    requires Run64(run)
    requires Holds(acc, a, 0, run, pow)
    ensures acc.Emit? || |ts| > 0 ==> FoldSum(ts, acc, values) != Null
    ensures FoldSum(ts, acc, values).Emit? ==>
              Eval(FoldSum(ts, acc, values).code, run, pow) == Wrap64(a + PolySum(ts, values, run))
    decreases ts, 0
  {
    if |ts| > 0 {
      var cur := Lower(ts[0], values);
      LowerPolySound(ts[0], values, run, pow);
      var v := PolyValue(ts[0], values, run);
      var next := Accumulate(acc, cur, true);
      if next.Crash? {
        FoldCrash(ts[1..], values, true);
      } else {
        AccumulateHolds(acc, cur, a, v, 0, true, run, pow);
        FoldSumSound(ts[1..], next, a + v, values, run, pow);
      }
    }
  }

  lemma {:induction false} FoldProductSound(fs: seq<Expr>, acc: Lowered, a: int, values: map<string, ValueId>, run: ValueId -> int, pow: (int, int) -> int)
    requires forall i :: 0 <= i < |fs| ==> Poly(fs[i])
    requires Run64(run)
    requires Holds(acc, a, 1, run, pow)
    ensures acc.Emit? || |fs| > 0 ==> FoldProduct(fs, acc, values) != Null
    ensures FoldProduct(fs, acc, values).Emit? ==>
              Eval(FoldProduct(fs, acc, values).code, run, pow) == Wrap64(a * PolyProduct(fs, values, run))
    decreases fs, 0
  {
    if |fs| > 0 {
      var cur := Lower(fs[0], values);
      LowerPolySound(fs[0], values, run, pow);
      var v := PolyValue(fs[0], values, run);
      var next := Accumulate(acc, cur, false);
      if next.Crash? {
        FoldCrash(fs[1..], values, false);
      } else {
        AccumulateHolds(acc, cur, a, v, 1, false, run, pow);
        FoldProductSound(fs[1..], next, a * v, values, run, pow);
        assert a * v * PolyProduct(fs[1..], values, run) == a * (v * PolyProduct(fs[1..], values, run));
      }
    }
  }

  /** One accumulation step combines the wrapped values as the exact
      operation would, modulo 2^64. */
  lemma {:induction false} AccumulateHolds(acc: Lowered, cur: Lowered, a: int, v: int, unit: int, isAdd: bool, run: ValueId -> int, pow: (int, int) -> int)
    requires unit == (if isAdd then 0 else 1)
    requires Holds(acc, a, unit, run, pow)
    requires cur.Emit? && Eval(cur.code, run, pow) == Wrap64(v)
    requires !Accumulate(acc, cur, isAdd).Crash?
    ensures Holds(Accumulate(acc, cur, isAdd), if isAdd then a + v else a * v, unit, run, pow)
  {
    if acc.Emit? {
      if isAdd {
        WrapAddLeft(a, Wrap64(v));
        WrapAddLeft(v, a);
      } else {
        WrapMulLeft(a, Wrap64(v));
        WrapMulLeft(v, a);
      }
    }
  }

  /** Every integer of a polynomial fits in an `i64` and every symbol is
      registered. */
  predicate PolyBound(e: Expr, values: map<string, ValueId>)
    requires Poly(e)
    decreases e
  {
    match e
    case Int(n) => InI64(n)
    case Sym(x) => x in values
    case Add(ts) => forall i :: 0 <= i < |ts| ==> PolyBound(ts[i], values)
    case Mul(fs) => forall i :: 0 <= i < |fs| ==> PolyBound(fs[i], values)
  }

  /** Lowering a polynomial succeeds exactly when its constants fit and its
      symbols are registered; otherwise the compiler crashes. */
  lemma {:induction false} LowerPolySucceeds(e: Expr, values: map<string, ValueId>)
    requires Poly(e)
    ensures Lower(e, values).Emit? <==> PolyBound(e, values)
    ensures !Lower(e, values).Emit? ==> Lower(e, values).Crash?
    decreases e, 1
  {
    LowerPolySound(e, values, _ => 0, (x, y) => 0);
    match e
    case Int(n) =>
    case Sym(x) =>
    case Add(ts) =>
      FoldSucceeds(ts, Null, values, true);
    case Mul(fs) =>
      FoldSucceeds(fs, Null, values, false);
  }

  lemma {:induction false} FoldSucceeds(ts: seq<Expr>, acc: Lowered, values: map<string, ValueId>, isAdd: bool)
    requires forall i :: 0 <= i < |ts| ==> Poly(ts[i])
    ensures var r := if isAdd then FoldSum(ts, acc, values) else FoldProduct(ts, acc, values);
            r.Emit? <==> (acc.Emit? || (acc.Null? && |ts| > 0)) && forall i :: 0 <= i < |ts| ==> PolyBound(ts[i], values)
    decreases ts, 0
  {
    if |ts| == 0 {
    } else {
      var cur := Lower(ts[0], values);
      LowerPolySucceeds(ts[0], values);
      var next := Accumulate(acc, cur, isAdd);
      if isAdd {
        assert FoldSum(ts, acc, values) == FoldSum(ts[1..], next, values);
      } else {
        assert !ts[0].Rat?;
        assert FoldProduct(ts, acc, values) == FoldProduct(ts[1..], next, values);
      }
      if next.Crash? {
        FoldCrash(ts[1..], values, isAdd);
      } else {
        FoldSucceeds(ts[1..], next, values, isAdd);
        assert forall i :: 1 <= i < |ts| ==> ts[i] == ts[1..][i - 1];
      }
    }
  }

  /** The integer value of a polynomial is its value as an expression, each
      registered symbol standing for its run-time value. */
  lemma {:induction false} PolyValueIsValue(e: Expr, values: map<string, ValueId>, run: ValueId -> int)
    requires Poly(e)
    ensures PolyValue(e, values, run) as real == Value(e, Env(values, run))
    decreases e, 1
  {
    match e
    case Int(n) =>
    case Sym(x) =>
    case Add(ts) => PolySumIsSum(ts, values, run);
    case Mul(fs) => PolyProductIsProduct(fs, values, run);
  }

  lemma {:induction false} PolySumIsSum(ts: seq<Expr>, values: map<string, ValueId>, run: ValueId -> int)
    requires forall i :: 0 <= i < |ts| ==> Poly(ts[i])
    ensures PolySum(ts, values, run) as real == SumValue(ts, Env(values, run))
    decreases ts, 0
  {
    if |ts| > 0 {
      PolyValueIsValue(ts[0], values, run);
      PolySumIsSum(ts[1..], values, run);
    }
  }

  lemma {:induction false} PolyProductIsProduct(fs: seq<Expr>, values: map<string, ValueId>, run: ValueId -> int)
    requires forall i :: 0 <= i < |fs| ==> Poly(fs[i])
    ensures PolyProduct(fs, values, run) as real == ProdValue(fs, Env(values, run))
    decreases fs, 0
  {
    if |fs| > 0 {
      var env := Env(values, run);
      var a, b := PolyValue(fs[0], values, run), PolyProduct(fs[1..], values, run);
      PolyValueIsValue(fs[0], values, run);
      PolyProductIsProduct(fs[1..], values, run);
      IntProductAsReal(a, b);
      assert ProdValue(fs, env) == Value(fs[0], env) * ProdValue(fs[1..], env);
    }
  }

  lemma {:induction false} IntProductAsReal(a: int, b: int)
    ensures (a * b) as real == a as real * b as real
  {
  }

  /** When a polynomial lowers, the emitted code computes its value as an
      expression, reduced modulo 2^64 into the `i64` range. */
  lemma {:induction false} LowerComputesValue(e: Expr, values: map<string, ValueId>, run: ValueId -> int, pow: (int, int) -> int)
    requires Poly(e) && Run64(run)
    requires Lower(e, values).Emit?
    ensures var x := Eval(Lower(e, values).code, run, pow);
            InI64(x) && (x - PolyValue(e, values, run)) % TWO_64 == 0
    ensures PolyValue(e, values, run) as real == Value(e, Env(values, run))
    ensures InI64(PolyValue(e, values, run)) ==> Eval(Lower(e, values).code, run, pow) as real == Value(e, Env(values, run))
  {
    LowerPolySound(e, values, run, pow);
    PolyValueIsValue(e, values, run);
    var v := PolyValue(e, values, run);
    assert (v - Wrap64(v)) % TWO_64 == 0;
    var k := (v - Wrap64(v)) / TWO_64;
    assert Wrap64(v) - v == TWO_64 * -k;
    ModUnique(Wrap64(v) - v, TWO_64, -k, 0);
  }

  /** `min` and `max` lower to a compare-and-select that picks the smaller
      (larger) of the two lowered operands. */
  lemma {:induction false} LowerMinMaxSelects(e: Expr, values: map<string, ValueId>, run: ValueId -> int, pow: (int, int) -> int)
    requires e.Min? || e.Max?
    requires Lower(e, values).Emit?
    ensures Lower(e.left, values).Emit? && Lower(e.right, values).Emit?
    ensures var x := Eval(Lower(e, values).code, run, pow);
            var a := Eval(Lower(e.left, values).code, run, pow);
            var b := Eval(Lower(e.right, values).code, run, pow);
            (x == a || x == b) && (e.Min? ==> x <= a && x <= b) && (e.Max? ==> x >= a && x >= b)
  {
  }

  /** A rational factor n/d multiplies the product so far by n and divides
      by d rounding toward zero; without overflow and with an exact
      division this is the exact product. */
  lemma {:induction false} RationalFactorExact(x: Expr, n: int, d: Pos, values: map<string, ValueId>, run: ValueId -> int, pow: (int, int) -> int)
    requires !x.Rat?
    requires Lower(Mul([x, Rat(n, d)]), values).Emit?
    ensures !Lower(x, values).Crash?
    ensures Lower(x, values).Emit? ==>
            var a := Eval(Lower(x, values).code, run, pow);
            Eval(Lower(Mul([x, Rat(n, d)]), values).code, run, pow) == TruncDiv(Wrap64(a * n), d)
    ensures Lower(x, values).Emit? ==>
            var a := Eval(Lower(x, values).code, run, pow);
            InI64(a * n) && (a * n) % d == 0 ==>
              Eval(Lower(Mul([x, Rat(n, d)]), values).code, run, pow) * d == a * n
  {
    LowerRationalProduct(x, n, d, values);
    var cur := Lower(x, values);
    if cur.Emit? {
      var a := Eval(cur.code, run, pow);
      var q := Eval(Lower(Mul([x, Rat(n, d)]), values).code, run, pow);
      EvalScaled(cur.code, n, d, run, pow);
      ExactQuotientValue(a, n, d, q);
    }
  }

  /** The code emitted for `x * n/d`: the product with `n`, then a signed
      division by `d`. */
  lemma {:induction false} LowerRationalProduct(x: Expr, n: int, d: Pos, values: map<string, ValueId>)
    requires !x.Rat?
    requires Lower(Mul([x, Rat(n, d)]), values).Emit?
    ensures !Lower(x, values).Crash?
    ensures Lower(x, values).Emit? ==>
            Lower(Mul([x, Rat(n, d)]), values).code == SDivI(MulI(Lower(x, values).code, Const(n)), d)
  {
    var fs := [x, Rat(n, d)];
    var cur := Lower(x, values);
    assert fs[1..] == [Rat(n, d)];
    assert FoldProduct(fs, Null, values) == FoldProduct([Rat(n, d)], cur, values);
    assert FoldProduct([Rat(n, d)], cur, values) == RationalFactor(cur, Rat(n, d));
  }

  lemma {:induction false} EvalScaled(c: Code, n: int, d: Pos, run: ValueId -> int, pow: (int, int) -> int)
    ensures Eval(SDivI(MulI(c, Const(n)), d), run, pow) == TruncDiv(Wrap64(Eval(c, run, pow) * n), d)
  {
    var m := MulI(c, Const(n));
    assert Eval(m, run, pow) == Wrap64(Eval(c, run, pow) * Eval(Const(n), run, pow));
  }

  /** A truncated quotient `q` of `a * n` by `d` is exact, `q * d == a * n`,
      when the product fits and the division leaves no remainder. */
  lemma {:induction false} ExactQuotientValue(a: int, n: int, d: Pos, q: int)
    requires q == TruncDiv(Wrap64(a * n), d)
    ensures InI64(a * n) && (a * n) % d == 0 ==> q * d == a * n
  {
    var p := a * n;
    if InI64(p) && p % d == 0 {
      var k := p / d;
      assert p == d * k;
      TruncDivExact(p, d, k);
    }
  }

  /** An exact division by a positive divisor loses nothing. */
  lemma {:induction false} TruncDivExact(p: int, d: Pos, q: int)
    requires p == d * q
    ensures TruncDiv(p, d) == q
  {
    ModUnique(Abs(p), d, Abs(q), 0);
  }
}

=== FILE: placement.dfy ===
/** Whether the values an expression stands for can be used at the end of a
    block (`SelectivePageMigration::canGenerateExprAt`): every symbol must
    stand for a value whose block dominates the target block or is the
    target block itself. A symbol that stands for a load from a global
    variable in a block that does not dominate the target is repaired: the
    load is issued again at the end of the target block, the symbol is
    rebound to the new load, and the check starts over.

    The rebinding comes in two variants. As written, it goes through
    `Expr(V, R)`, which redirects the name of the symbol's current value
    R; that name is the symbol's own only while the symbol has never been
    rebound, and when it is not, nothing changes and the check starts over
    forever. Corrected, the symbol's own name is redirected. */
module Placement {
  import opened Wrappers
  import opened Exprs
  import opened Ir
  import opened SymbolTable

  datatype Rules = AsWritten | Corrected

  /** The outcome: usable at the block, not usable, a symbol whose name
      stands for no value (the source dereferences a null value), or a
      check that starts over without end. */
  datatype Placed = Placeable | NotPlaceable | Crashes | Loops

  /** The value a symbol name stands for, if it is one of the function's. */
  function Bound(f: Function, t: Table, n: string): (r: Option<ValueId>)
    ensures r.Some? <==> n in t.values && t.values[n] < |f.values|
    ensures r.Some? ==> r.value == t.values[n]
  {
    if n in t.values && t.values[n] < |f.values| then Some(t.values[n]) else None
  }

  /** An instruction that cannot be used at the end of `target`: its block
      neither dominates the target nor is it. Without a target block (a
      loop without a preheader) the dominator tree answers that every
      block dominates it. */
  predicate Outside(f: Function, v: ValueId, target: Option<BlockId>)
    requires v < |f.values|
  {
    && target.Some?
    && IsInstruction(f.values[v].kind)
    && !Dominates(f, f.values[v].block, target.value)
    && f.values[v].block != target.value
  }

  /** A load whose pointer operand is a global variable. */
  predicate GlobalLoad(f: Function, v: ValueId)
    requires WellFormed(f) && v < |f.values|
  {
    var k := f.values[v].kind;
    k.Load? && f.values[k.ptr].kind.GlobalVar?
  }

  /** The names of the symbols of `e`. */
  function Names(e: Expr): (ns: set<string>)
    ensures forall i :: 0 <= i < |Symbols(e)| ==> SymbolName(Symbols(e)[i]) in ns
    ensures forall n :: n in ns ==> exists i :: 0 <= i < |Symbols(e)| && SymbolName(Symbols(e)[i]) == n
  {
    NamesIn(Symbols(e))
  }

  /** The names of a sequence of symbols. */
  function NamesIn(syms: seq<Expr>): (ns: set<string>)
    requires forall i :: 0 <= i < |syms| ==> syms[i].IsSymbol()
    ensures forall i :: 0 <= i < |syms| ==> SymbolName(syms[i]) in ns
    ensures forall n :: n in ns ==> exists i :: 0 <= i < |syms| && SymbolName(syms[i]) == n
    decreases |syms|
  {
    if |syms| == 0 then {}
    else
      var last := |syms| - 1;
      var rest := NamesIn(syms[..last]);
      assert forall i :: 0 <= i < last ==> syms[..last][i] == syms[i];
      rest + {SymbolName(syms[last])}
  }

  /** The names of `e` that stand for a value outside the target: what the
      repairs have left to do. */
  function Blocked(f: Function, t: Table, e: Expr, target: Option<BlockId>): set<string> {
    set n | n in Names(e) && Bound(f, t, n).Some? && Outside(f, t.values[n], target)
  }

  /** The first symbol met that stands for no value or for a value
      outside the target. */
  datatype Scan = Clear | Missing | Stuck(name: string, v: ValueId)

  function FirstStuck(f: Function, t: Table, syms: seq<Expr>, target: Option<BlockId>): (r: Scan)
    requires forall i :: 0 <= i < |syms| ==> syms[i].IsSymbol()
    ensures r.Clear? <==> forall i :: 0 <= i < |syms| ==>
              Bound(f, t, SymbolName(syms[i])).Some? && !Outside(f, t.values[SymbolName(syms[i])], target)
    ensures r.Stuck? ==> exists i :: 0 <= i < |syms| && SymbolName(syms[i]) == r.name
    ensures r.Stuck? ==> Bound(f, t, r.name) == Some(r.v) && Outside(f, r.v, target)
    ensures r.Missing? ==> exists i :: 0 <= i < |syms| && Bound(f, t, SymbolName(syms[i])).None?
  {
    if |syms| == 0 then Clear
    else
      var n := SymbolName(syms[0]);
      var b := Bound(f, t, n);
      if b.None? then Missing
      else if Outside(f, b.value, target) then Stuck(n, b.value)
      else
        var r := FirstStuck(f, t, syms[1..], target);
        assert forall i :: 1 <= i < |syms| ==> syms[i] == syms[1..][i - 1];
        r
  }

  /** The load issued again at the end of `bb`: unnamed, of the same type,
      from the same pointer. */
  function Reload(f: Function, v: ValueId, bb: BlockId): (g: Function)
    requires WellFormed(f) && v < |f.values| && f.values[v].kind.Load?
    ensures WellFormed(g) && Extends(f, g) && |g.values| == |f.values| + 1
    ensures g.values[|f.values|] == SsaValue("", f.values[v].ty, Load(f.values[v].kind.ptr), bb)
  {
    assert RefsOk(f.values[v].kind, v, |f.values|);
    var g := f.(values := f.values + [SsaValue("", f.values[v].ty, Load(f.values[v].kind.ptr), bb)]);
    forall w | 0 <= w < |g.values|
      ensures RefsOk(g.values[w].kind, w, |g.values|)
    {
      if w < |f.values| {
        assert g.values[w] == f.values[w];
        assert RefsOk(f.values[w].kind, w, |f.values|);
      }
    }
    g
  }

  /** The rebinding of the symbol named `n`, which stands for `v`, to the
      new value `nv`: as written through the name of `v`, corrected through
      `n` itself. */
  function Redirect(rules: Rules, f: Function, t: Table, n: string, v: ValueId, nv: ValueId): (r: (string, Table))
    requires WellFormed(f) && v < |f.values| && nv < |f.values| && !f.values[nv].kind.ConstInt?
    ensures rules.Corrected? ==> r == (n, t.(values := t.values[n := nv]))
  {
    if rules.AsWritten? then
      var (s, t1) := Rebind(f, t, nv, v);
      (SymbolName(s), t1)
    else (n, t.(values := t.values[n := nv]))
  }

  /** One repair of the stuck symbol `n`, which stands for the global load
      `v`: the load issued again at the end of the target and the symbol
      rebound to it. `None` when the rebinding missed the symbol, which as
      written makes the check start over unchanged. */
  function Repair(rules: Rules, f: Function, t: Table, e: Expr, target: Option<BlockId>, n: string, v: ValueId): (r: Option<(Function, Table)>)
    requires WellFormed(f) && target.Some? && v < |f.values| && f.values[v].kind.Load?
    requires n in Blocked(f, t, e, target) && Bound(f, t, n) == Some(v)
    ensures rules.Corrected? ==> r.Some?
    ensures r.Some? ==> Repaired(f, t, e, target, n, v, r.value.0, r.value.1)
  {
    var g := Reload(f, v, target.value);
    var nv := |f.values|;
    var (m, t1) := Redirect(rules, g, t, n, v, nv);
    if m != n || Bound(g, t1, n) != Some(nv) then None
    else
      RepairShrinks(f, g, t, t1, e, target, n, nv);
      Some((g, t1))
  }

  /** `g` and `t1` are `f` and `t` after the repair of the blocked symbol
      `n`, which stood for the load `v`: the load issued again at the end of
      the target as the last value, `n` rebound to it and nothing else
      rebound, one blocked name fewer. */
  predicate Repaired(f: Function, t: Table, e: Expr, target: Option<BlockId>, n: string, v: ValueId, g: Function, t1: Table)
    requires WellFormed(f)
  {
    && target.Some? && v < |f.values|
    && n in Blocked(f, t, e, target) && Bound(f, t, n) == Some(v)
    && WellFormed(g) && Extends(f, g) && |g.values| == |f.values| + 1
    && g.values[|f.values|] == SsaValue("", f.values[v].ty, f.values[v].kind, target.value)
    && Rebound(t, t1, n, |f.values|)
    && Blocked(g, t1, e, target) < Blocked(f, t, e, target)
    && (InRange(f, t) ==> InRange(g, t1))
  }

  /** `canGenerateExprAt(Ex, BB)`. */
  function CanGenerateAt(rules: Rules, f: Function, t: Table, e: Expr, target: Option<BlockId>): (r: (Placed, Function, Table))
    requires WellFormed(f)
    ensures WellFormed(r.1) && Extends(f, r.1)
    ensures r.0 == Placeable <==> FirstStuck(r.1, r.2, Symbols(e), target).Clear?
    ensures r.0 == Crashes <==> FirstStuck(r.1, r.2, Symbols(e), target).Missing?
    ensures rules.Corrected? ==> r.0 != Loops
    decreases Blocked(f, t, e, target)
  {
    match FirstStuck(f, t, Symbols(e), target)
    case Clear => (Placeable, f, t)
    case Missing => (Crashes, f, t)
    case Stuck(n, v) =>
      if !GlobalLoad(f, v) then (NotPlaceable, f, t)
      else
        match Repair(rules, f, t, e, target, n, v)
        case None => (Loops, f, t)
        case Some((g, t1)) =>
          var r := CanGenerateAt(rules, g, t1, e, target);
          r
  }

  /** `t1` is `t` with the name `n` redirected to `nv`. */
  predicate Rebound(t: Table, t1: Table, n: string, nv: ValueId) {
    && t1.values.Keys == t.values.Keys
    && n in t1.values && t1.values[n] == nv
    && forall k :: k in t.values && k != n ==> t1.values[k] == t.values[k]
  }

  /** A repair that rebinds the stuck name `n` to a load in the target
      block leaves fewer names to repair. */
  lemma {:induction false} RepairShrinks(f: Function, g: Function, t: Table, t1: Table, e: Expr, target: Option<BlockId>, n: string, nv: ValueId)
    requires WellFormed(f) && WellFormed(g) && Extends(f, g)
    requires target.Some? && nv == |f.values| && |g.values| == nv + 1 && g.values[nv].block == target.value
    requires n in Blocked(f, t, e, target)
    requires Bound(g, t1, n) == Some(nv)
    requires t1.values.Keys == t.values.Keys
    requires forall k :: k in t.values && k != n ==> t1.values[k] == t.values[k]
    ensures Blocked(g, t1, e, target) < Blocked(f, t, e, target)
  {
    forall k | k in Blocked(g, t1, e, target)
      ensures k in Blocked(f, t, e, target)
    {
      assert k != n;
      var w := t.values[k];
      assert t1.values[k] == w;
      assert w != nv;
      assert g.values[w] == f.values[w];
    }
  }

  /** Every name the table binds stands for one of the function's values. */
  predicate InRange(f: Function, t: Table) {
    forall n :: n in t.values ==> t.values[n] < |f.values|
  }

  /** The reference meaning of a placeable expression: every symbol stands
      for a value, and each one outside the target is a load from a global
      variable, which can be issued again there. */
  predicate Hoistable(f: Function, t: Table, e: Expr, target: Option<BlockId>)
    requires WellFormed(f)
  {
    forall n :: n in Names(e) ==> NameOk(f, t, n, target)
  }

  predicate NameOk(f: Function, t: Table, n: string, target: Option<BlockId>)
    requires WellFormed(f)
  {
    && Bound(f, t, n).Some?
    && (Outside(f, t.values[n], target) ==> GlobalLoad(f, t.values[n]))
  }

  /** One repair step of the check, unfolded. */
  lemma {:induction false} RepairStep(rules: Rules, f: Function, t: Table, e: Expr, target: Option<BlockId>, n: string, v: ValueId)
    requires WellFormed(f)
    requires FirstStuck(f, t, Symbols(e), target) == Stuck(n, v) && GlobalLoad(f, v)
    ensures target.Some? && n in Blocked(f, t, e, target) && Bound(f, t, n) == Some(v)
    ensures var r := Repair(rules, f, t, e, target, n, v);
            CanGenerateAt(rules, f, t, e, target) ==
              if r.None? then (Loops, f, t) else CanGenerateAt(rules, r.value.0, r.value.1, e, target)
  {
  }

  /** With the corrected rebinding, the check succeeds exactly on the
      expressions whose every symbol is bound and whose symbols outside the
      target are global loads. */
  lemma {:induction false} CorrectedPlaceable(f: Function, t: Table, e: Expr, target: Option<BlockId>)
    requires WellFormed(f) && InRange(f, t)
    ensures CanGenerateAt(Corrected, f, t, e, target).0 == Placeable <==> Hoistable(f, t, e, target)
    decreases Blocked(f, t, e, target)
  {
    var syms := Symbols(e);
    match FirstStuck(f, t, syms, target)
    case Clear =>
      ClearHoistable(f, t, e, target);
    case Missing =>
      MissingNotHoistable(f, t, e, target);
    case Stuck(n, v) =>
      if !GlobalLoad(f, v) {
        StuckNotHoistable(f, t, e, target, n, v);
      } else {
        RepairStep(Corrected, f, t, e, target, n, v);
        var (g, t1) := Repair(Corrected, f, t, e, target, n, v).value;
        CorrectedPlaceable(g, t1, e, target);
        RepairKeepsHoistable(f, g, t, t1, e, target, n, v);
      }
  }

  /** Nothing blocked: every name is bound to a usable value. */
  lemma {:induction false} ClearHoistable(f: Function, t: Table, e: Expr, target: Option<BlockId>)
    requires WellFormed(f) && InRange(f, t)
    requires FirstStuck(f, t, Symbols(e), target) == Clear
    ensures Hoistable(f, t, e, target)
  {
    var syms := Symbols(e);
    forall k | k in Names(e) ensures NameOk(f, t, k, target) {
      var i :| 0 <= i < |syms| && SymbolName(syms[i]) == k;
    }
  }

  /** A name bound to nothing spoils the expression. */
  lemma {:induction false} MissingNotHoistable(f: Function, t: Table, e: Expr, target: Option<BlockId>)
    requires WellFormed(f) && InRange(f, t)
    requires FirstStuck(f, t, Symbols(e), target) == Missing
    ensures !Hoistable(f, t, e, target)
  {
    var syms := Symbols(e);
    var i :| 0 <= i < |syms| && Bound(f, t, SymbolName(syms[i])).None?;
    assert !NameOk(f, t, SymbolName(syms[i]), target);
  }

  /** A name bound outside the target to anything but a global load spoils
      the expression, and the check gives up on it. */
  lemma {:induction false} StuckNotHoistable(f: Function, t: Table, e: Expr, target: Option<BlockId>, n: string, v: ValueId)
    requires WellFormed(f) && InRange(f, t)
    requires FirstStuck(f, t, Symbols(e), target) == Stuck(n, v) && !GlobalLoad(f, v)
    ensures !Hoistable(f, t, e, target)
    ensures CanGenerateAt(Corrected, f, t, e, target).0 != Placeable
  {
    assert !NameOk(f, t, n, target);
  }

  /** A repair neither makes nor spoils a hoistable expression. */
  lemma {:induction false} RepairKeepsHoistable(f: Function, g: Function, t: Table, t1: Table, e: Expr, target: Option<BlockId>, n: string, v: ValueId)
    requires WellFormed(f) && InRange(f, t) && Repaired(f, t, e, target, n, v, g, t1) && GlobalLoad(f, v)
    ensures Hoistable(g, t1, e, target) <==> Hoistable(f, t, e, target)
  {
    forall k | k in Names(e) && k != n
      ensures NameOk(g, t1, k, target) == NameOk(f, t, k, target)
    {
      NameKept(f, g, t, t1, k, target, n, |f.values|);
    }
    var ptr := f.values[v].kind.ptr;
    assert RefsOk(f.values[v].kind, v, |f.values|);
    assert g.values[ptr] == f.values[ptr];
    assert NameOk(g, t1, n, target) && NameOk(f, t, n, target);
  }

  /** A name the repair leaves alone keeps its standing. */
  lemma {:induction false} NameKept(f: Function, g: Function, t: Table, t1: Table, k: string, target: Option<BlockId>, n: string, nv: ValueId)
    requires WellFormed(f) && WellFormed(g) && Extends(f, g) && InRange(f, t)
    requires Rebound(t, t1, n, nv) && k != n
    ensures NameOk(g, t1, k, target) == NameOk(f, t, k, target)
  {
    if k in t.values {
      var w := t.values[k];
      assert t1.values[k] == w;
      assert g.values[w] == f.values[w];
      var x := f.values[w].kind;
      if x.Load? {
        assert RefsOk(x, w, |f.values|);
        assert g.values[x.ptr] == f.values[x.ptr];
      }
    }
  }

  /** What a run of the check may do to the table: keep its names, and
      redirect only names that were blocked, each to a load issued again at
      the target from the same pointer. */
  predicate OnlyBlockedMoved(f: Function, t: Table, e: Expr, target: Option<BlockId>, g: Function, t1: Table)
    requires WellFormed(f) && InRange(f, t)
  {
    && t1.values.Keys == t.values.Keys
    && forall k :: k in t.values && t1.values[k] != t.values[k] ==>
         && k in Blocked(f, t, e, target)
         && GlobalLoad(f, t.values[k])
         && Reissued(g, t1.values[k], f.values[t.values[k]], target)
  }

  /** Only names that were blocked are redirected, each to a load issued
      again at the target from the same pointer. */
  lemma {:induction false} RepairsOnlyBlocked(rules: Rules, f: Function, t: Table, e: Expr, target: Option<BlockId>)
    requires WellFormed(f) && InRange(f, t)
    ensures var r := CanGenerateAt(rules, f, t, e, target);
            OnlyBlockedMoved(f, t, e, target, r.1, r.2)
    decreases Blocked(f, t, e, target)
  {
    var s := FirstStuck(f, t, Symbols(e), target);
    if s.Stuck? && GlobalLoad(f, s.v) {
      RepairStep(rules, f, t, e, target, s.name, s.v);
      var rp := Repair(rules, f, t, e, target, s.name, s.v);
      if rp.Some? {
        var (g, t1) := rp.value;
        RepairsOnlyBlocked(rules, g, t1, e, target);
        var r := CanGenerateAt(rules, g, t1, e, target);
        RedirectedOnce(f, g, r.1, t, t1, r.2, e, target, s.name, s.v);
      }
    } else {
      Settled(rules, f, t, e, target);
    }
  }

  /** Without a global load to issue again, the check changes nothing. */
  lemma {:induction false} Settled(rules: Rules, f: Function, t: Table, e: Expr, target: Option<BlockId>)
    requires WellFormed(f)
    requires var s := FirstStuck(f, t, Symbols(e), target); !(s.Stuck? && GlobalLoad(f, s.v))
    ensures var r := CanGenerateAt(rules, f, t, e, target); r.1 == f && r.2 == t
  {
  }

  /** The step of `RepairsOnlyBlocked`: a name is redirected by this repair
      or by a later one, never by both. */
  lemma {:induction false} RedirectedOnce(f: Function, g: Function, h: Function, t: Table, t1: Table, t2: Table, e: Expr,
                       target: Option<BlockId>, n: string, v: ValueId)
    requires WellFormed(f) && InRange(f, t) && Repaired(f, t, e, target, n, v, g, t1) && GlobalLoad(f, v)
    requires Extends(g, h)
    requires OnlyBlockedMoved(g, t1, e, target, h, t2)
    ensures OnlyBlockedMoved(f, t, e, target, h, t2)
  {
    forall k | k in t.values && t2.values[k] != t.values[k]
      ensures k in Blocked(f, t, e, target)
      ensures GlobalLoad(f, t.values[k])
      ensures Reissued(h, t2.values[k], f.values[t.values[k]], target)
    {
      if k == n {
        assert !Outside(g, |f.values|, target);
        assert n !in Blocked(g, t1, e, target);
        assert t2.values[n] == |f.values|;
        assert h.values[|f.values|] == g.values[|f.values|];
      } else {
        var w := t.values[k];
        assert t1.values[k] == w;
        assert g.values[w] == f.values[w];
        var x := f.values[w].kind;
        assert RefsOk(x, w, |f.values|);
        assert g.values[x.ptr] == f.values[x.ptr];
      }
    }
  }

  /** `w` is a load issued at the end of the target, unnamed, with the type
      and pointer of the load `old`. */
  predicate Reissued(g: Function, w: ValueId, orig: SsaValue, target: Option<BlockId>) {
    && target.Some?
    && w < |g.values|
    && g.values[w] == SsaValue("", orig.ty, orig.kind, target.value)
  }

  /** A load `x` from the global `g` in block 1, issued again in block 2
      for an earlier check, where the symbol `x.0` now stands for the new
      load; block 2 does not dominate block 3. */
  function ReissuedOnce(): Function {
    Function(
      [ SsaValue("g", Ptr(Scalar(8)), GlobalVar, 0),
        SsaValue("x", Scalar(8), Load(0), 1),
        SsaValue("", Scalar(8), Load(0), 2) ],
      [], map[], {}, map[], [])
  }

  function ReissuedTable(): Table {
    Table(map[1 := Sym("x.0")], map[1 := 0], map["x.0" := 2], 1)
  }

  lemma {:induction false} ReissuedOnceWellFormed()
    ensures WellFormed(ReissuedOnce())
  {
    var f := ReissuedOnce();
    assert RefsOk(f.values[1].kind, 1, 3) && RefsOk(f.values[2].kind, 2, 3);
  }

  /** The symbol `x.0` stands for the load of block 2, a global load that
      block 3 cannot use. */
  lemma {:induction false} ReissuedStuck()
    ensures WellFormed(ReissuedOnce())
    ensures FirstStuck(ReissuedOnce(), ReissuedTable(), Symbols(Sym("x.0")), Some(3)) == Stuck("x.0", 2)
    ensures GlobalLoad(ReissuedOnce(), 2)
  {
    ReissuedOnceWellFormed();
    assert Symbols(Sym("x.0")) == [Sym("x.0")];
  }

  /** The load of block 2 is named `g.1` once it gets the next id. */
  lemma {:induction false} ReissuedName(g: Function)
    requires WellFormed(g) && 2 < |g.values| && g.values[..3] == ReissuedOnce().values
    ensures GetName(g, ReissuedTable(), 2).0 == "g.1"
  {
    assert g.values[2] == ReissuedOnce().values[2];
    assert g.values[0] == ReissuedOnce().values[0];
    assert BaseName(g, 2) == "g";
    assert Decimal.NatToString(1) == "1";
  }

  /** Checking `x.0` again at block 3 as written: the rebinding goes
      through the name the load of block 2 gets, `g.1`, which no symbol
      has, so nothing is rebound and the check starts over without end. */
  lemma {:induction false} AsWrittenNeverSettles()
    ensures CanGenerateAt(AsWritten, ReissuedOnce(), ReissuedTable(), Sym("x.0"), Some(3)).0 == Loops
  {
    var f, t, e := ReissuedOnce(), ReissuedTable(), Sym("x.0");
    ReissuedStuck();
    var g := Reload(f, 2, 3);
    assert g.values[..3] == f.values;
    ReissuedName(g);
    assert Rebind(g, t, 3, 2).0 == Sym("g.1");
    assert Repair(AsWritten, f, t, e, Some(3), "x.0", 2).None?;
    RepairStep(AsWritten, f, t, e, Some(3), "x.0", 2);
  }

  /** The same check with the corrected rebinding: `x.0` is rebound to a
      load in block 3 and the check succeeds. */
  lemma {:induction false} CorrectedSettles()
    ensures CanGenerateAt(Corrected, ReissuedOnce(), ReissuedTable(), Sym("x.0"), Some(3)).0 == Placeable
  {
    ReissuedHoistable();
    CorrectedPlaceable(ReissuedOnce(), ReissuedTable(), Sym("x.0"), Some(3));
  }

  /** The only name of `x.0` is a global load. */
  lemma {:induction false} ReissuedHoistable()
    ensures WellFormed(ReissuedOnce()) && InRange(ReissuedOnce(), ReissuedTable())
    ensures Hoistable(ReissuedOnce(), ReissuedTable(), Sym("x.0"), Some(3))
  {
    var f, t, e := ReissuedOnce(), ReissuedTable(), Sym("x.0");
    ReissuedStuck();
    assert NameOk(f, t, "x.0", Some(3));
    assert Symbols(e) == [e];
    assert Names(e) == {"x.0"};
  }
}

=== FILE: reduce_indexation.dfy ===
/** `ReduceIndexation`: an address is reduced to the array it starts from
    and a symbolic byte offset, by walking its chain of address
    computations (`getelementptr`) and adding, for every index, the index
    times the allocation size of the type it steps over, and for a field
    of a structure, the sizes of the fields before it. */
module ReduceIndexation {
  import opened Wrappers
  import opened Exprs
  import opened Ir
  import opened SymbolTable
  import opened LoopInfo

  // ---------------------------------------------------------------------
  // Allocation sizes

  /** The size of a pointer on the 64-bit targets the pass is built for. */
  const POINTER_SIZE: nat := 8

  /** `DataLayout::getTypeAllocSize`, without alignment padding. */
  function AllocSize(ty: Type): nat
    decreases ty, 1
  {
    match ty
    case Scalar(n) => n
    case Ptr(_) => POINTER_SIZE
    case Arr(e, n) => n * AllocSize(e)
    case Struct(fs) => PrefixSize(fs, |fs|)
  }

  /** The total size of the first `k` fields: the offset of field `k`. */
  function PrefixSize(fs: seq<Type>, k: nat): nat
    requires k <= |fs|
    decreases fs, k
  {
    if k == 0 then 0 else PrefixSize(fs, k - 1) + AllocSize(fs[k - 1])
  }

  /** The fields of a structure lie one after the other: the offset of a
      field plus its size is the offset of the next one, and no field ends
      beyond the structure. */
  lemma {:induction false} FieldsInside(fs: seq<Type>, k: nat)
    requires k < |fs|
    ensures PrefixSize(fs, k) + AllocSize(fs[k]) == PrefixSize(fs, k + 1)
    ensures PrefixSize(fs, k + 1) <= AllocSize(Struct(fs))
  {
    PrefixMonotone(fs, k + 1, |fs|);
  }

  lemma {:induction false} PrefixMonotone(fs: seq<Type>, j: nat, k: nat)
    requires j <= k <= |fs|
    ensures PrefixSize(fs, j) <= PrefixSize(fs, k)
    decreases k - j
  {
    if j < k {
      PrefixMonotone(fs, j, k - 1);
    }
  }

  /** The type one index steps into: the pointee of a pointer, the element
      of an array; any other type is kept. */
  function Indexed(ty: Type): Type {
    match ty
    case Ptr(p) => p
    case Arr(e, _) => e
    case _ => ty
  }

  // ---------------------------------------------------------------------
  // reduceMemoryOp

  /** The outcome of reducing an address: the array with the subscript
      (`true`), a subscript that became invalid (`false`), or a structure
      index that is not a constant naming a field, where the analysis
      fails an assertion. */
  datatype Reduction =
    | Reduced(root: ValueId, subscript: Expr)
    | Unreduced(subscript: Expr)
    | Aborted

  /** The outcome of the walk over the indices of one address
      computation. */
  datatype Walk = WalkOk(sub: Expr) | WalkInvalid(sub: Expr) | WalkAbort

  /** The index of a structure field: a non-negative constant that names a
      field. */
  predicate FieldIndex(f: Function, v: ValueId, fs: seq<Type>)
    requires v < |f.values|
  {
    var k := f.values[v].kind;
    k.ConstInt? && 0 <= k.value < |fs|
  }

  /** Adds the sizes of the first `k` fields one by one. */
  function AddSizes(s: Expr, fs: seq<Type>, k: nat): Expr
    requires k <= |fs|
  {
    if k == 0 then s else Plus(AddSizes(s, fs, k - 1), Int(AllocSize(fs[k - 1])))
  }

  /** The loop over the indices of one address computation, from the type
      of its base pointer. */
  function IndexWalk(f: Function, t: Table, ty: Type, idx: seq<ValueId>, s: Expr): (r: (Walk, Table))
    requires WellFormed(f) && forall i :: 0 <= i < |idx| ==> idx[i] < |f.values|
    ensures r.0.WalkInvalid? ==> !r.0.sub.IsValid()
    decreases |idx|
  {
    if |idx| == 0 then (WalkOk(s), t)
    else if ty.Struct? then
      if !FieldIndex(f, idx[0], ty.fields) then (WalkAbort, t)
      else
        var k := f.values[idx[0]].kind.value;
        IndexWalk(f, t, ty.fields[k], idx[1..], AddSizes(s, ty.fields, k))
    else
      var ty' := Indexed(ty);
      var (x, t1) := ExprFor(f, t, None, idx[0]);
      var s' := Plus(s, Times(x, Int(AllocSize(ty'))));
      if !s'.IsValid() then (WalkInvalid(s'), t1)
      else IndexWalk(f, t1, ty', idx[1..], s')
  }

  /** `reduceMemoryOp(Ptr, Array, Subscript)`. An address that is not
      computed is the array itself. A computed address is reduced from its
      base first; when that fails, the computed address is taken as the
      array, with the subscript as the failed reduction left it. */
  function ReduceMemoryOp(f: Function, t: Table, ptr: ValueId, sub: Expr): (r: (Reduction, Table))
    requires WellFormed(f) && ptr < |f.values|
    ensures r.0.Unreduced? ==> f.values[ptr].kind.Gep? && !r.0.subscript.IsValid()
    ensures !f.values[ptr].kind.Gep? ==> r == (Reduced(ptr, sub), t)
    ensures r.0.Reduced? ==> r.0.root <= ptr
    decreases ptr
  {
    var k := f.values[ptr].kind;
    if !k.Gep? then (Reduced(ptr, sub), t)
    else
      assert RefsOk(k, ptr, |f.values|);
      var (inner, t1) := ReduceMemoryOp(f, t, k.base, sub);
      if inner.Aborted? then (Aborted, t1)
      else if inner.Unreduced? then (Reduced(ptr, inner.subscript), t1)
      else
        var (w, t2) := IndexWalk(f, t1, f.values[k.base].ty, k.indices, inner.subscript);
        match w
        case WalkOk(s) => (Reduced(inner.root, s), t2)
        case WalkInvalid(s) => (Unreduced(s), t2)
        case WalkAbort => (Aborted, t2)
  }

  /** `reduceLoad`: the address a load reads, from a zero subscript. */
  function ReduceLoad(f: Function, t: Table, v: ValueId): (r: (Reduction, Table))
    requires WellFormed(f) && v < |f.values| && f.values[v].kind.Load?
    ensures r == ReduceMemoryOp(f, t, f.values[v].kind.ptr, Zero)
  {
    assert RefsOk(f.values[v].kind, v, |f.values|);
    ReduceMemoryOp(f, t, f.values[v].kind.ptr, Zero)
  }

  /** `reduceStore`: the address a store writes, from a zero subscript. */
  function ReduceStore(f: Function, t: Table, v: ValueId): (r: (Reduction, Table))
    requires WellFormed(f) && v < |f.values| && f.values[v].kind.Store?
    ensures r == ReduceMemoryOp(f, t, f.values[v].kind.ptr, Zero)
  {
    assert RefsOk(f.values[v].kind, v, |f.values|);
    ReduceMemoryOp(f, t, f.values[v].kind.ptr, Zero)
  }

  // ---------------------------------------------------------------------
  // A reference semantics: the byte offset of an address, in exact
  // arithmetic over the values of the index instructions (`RefValue`:
  // casts are the identity, division is exact and nothing wraps). It is
  // the machine offset when the indices are sums, differences and
  // products that do not overflow.

  /** The array an address starts from: the end of its chain of bases. */
  function Root(f: Function, v: ValueId): (a: ValueId)
    requires WellFormed(f) && v < |f.values|
    ensures a < |f.values| && !f.values[a].kind.Gep?
    decreases v
  {
    var k := f.values[v].kind;
    if !k.Gep? then v
    else
      assert RefsOk(k, v, |f.values|);
      Root(f, k.base)
  }

  /** The byte offset the indices select from a pointer of type `ty`, in
      exact arithmetic over the run-time values of the indices; `None` when
      a structure index does not name a field. */
  function WalkOffset(f: Function, ty: Type, idx: seq<ValueId>, run: ValueId -> real): Option<real>
    requires WellFormed(f) && forall i :: 0 <= i < |idx| ==> idx[i] < |f.values|
    decreases |idx|
  {
    if |idx| == 0 then Some(0.0)
    else if ty.Struct? then
      if !FieldIndex(f, idx[0], ty.fields) then None
      else
        var k := f.values[idx[0]].kind.value;
        var rest := WalkOffset(f, ty.fields[k], idx[1..], run);
        if rest.None? then None else Some(PrefixSize(ty.fields, k) as real + rest.value)
    else
      var rest := WalkOffset(f, Indexed(ty), idx[1..], run);
      if rest.None? then None
      else Some(Scaled(RefValue(f, None, idx[0], run), AllocSize(Indexed(ty))) + rest.value)
  }

  /** An index times a size in bytes. */
  function Scaled(x: real, n: nat): real {
    x * n as real
  }

  /** The exact-arithmetic byte offset of an address from its root array. */
  function AddressOffset(f: Function, v: ValueId, run: ValueId -> real): Option<real>
    requires WellFormed(f) && v < |f.values|
    decreases v
  {
    var k := f.values[v].kind;
    if !k.Gep? then Some(0.0)
    else
      assert RefsOk(k, v, |f.values|);
      var inner := AddressOffset(f, k.base, run);
      var w := WalkOffset(f, f.values[k.base].ty, k.indices, run);
      if inner.None? || w.None? then None else Some(inner.value + w.value)
  }

  // ---------------------------------------------------------------------
  // Properties

  lemma {:induction false} AddSizesValue(s: Expr, fs: seq<Type>, k: nat, env: map<string, real>)
    requires k <= |fs| && Clean(s)
    ensures Clean(AddSizes(s, fs, k))
    ensures Value(AddSizes(s, fs, k), env) == Value(s, env) + PrefixSize(fs, k) as real
  {
    if k > 0 {
      var a := AddSizes(s, fs, k - 1);
      var n := Int(AllocSize(fs[k - 1]));
      AddSizesValue(s, fs, k - 1, env);
      assert Clean(n);
      PlusClean(a, n);
      PlusSound(a, n, env);
    }
  }

  /** The walk only adds symbols and keeps the tables consistent. */
  lemma {:induction false} IndexWalkKeeps(f: Function, t: Table, ty: Type, idx: seq<ValueId>, s: Expr)
    requires WellFormed(f) && forall i :: 0 <= i < |idx| ==> idx[i] < |f.values|
    ensures Keeps(f, t, IndexWalk(f, t, ty, idx, s).1)
    decreases |idx|
  {
    if |idx| == 0 {
      KeepsRefl(f, t);
    } else if ty.Struct? {
      if !FieldIndex(f, idx[0], ty.fields) {
        KeepsRefl(f, t);
      } else {
        var k := f.values[idx[0]].kind.value;
        IndexWalkKeeps(f, t, ty.fields[k], idx[1..], AddSizes(s, ty.fields, k));
      }
    } else {
      var ty' := Indexed(ty);
      var (x, t1) := ExprFor(f, t, None, idx[0]);
      var s' := Plus(s, Times(x, Int(AllocSize(ty'))));
      ExprForKeeps(f, t, None, idx[0]);
      if s'.IsValid() {
        IndexWalkKeeps(f, t1, ty', idx[1..], s');
        KeepsTrans(f, t, t1, IndexWalk(f, t1, ty', idx[1..], s').1);
      }
    }
  }

  /** The reduction only adds symbols and keeps the tables consistent. */
  lemma {:induction false} ReduceKeeps(f: Function, t: Table, ptr: ValueId, sub: Expr)
    requires WellFormed(f) && ptr < |f.values|
    ensures Keeps(f, t, ReduceMemoryOp(f, t, ptr, sub).1)
    decreases ptr
  {
    var k := f.values[ptr].kind;
    if !k.Gep? {
      KeepsRefl(f, t);
    } else {
      assert RefsOk(k, ptr, |f.values|);
      var (inner, t1) := ReduceMemoryOp(f, t, k.base, sub);
      ReduceKeeps(f, t, k.base, sub);
      if inner.Reduced? {
        var t2 := IndexWalk(f, t1, f.values[k.base].ty, k.indices, inner.subscript).1;
        IndexWalkKeeps(f, t1, f.values[k.base].ty, k.indices, inner.subscript);
        KeepsTrans(f, t, t1, t2);
      }
    }
  }

  /** From a table of symbols and a clean subscript, the walk never makes
      the subscript invalid, and it fails exactly when the reference offset
      is undefined. */
  predicate WalkShape(f: Function, t: Table, ty: Type, idx: seq<ValueId>, s: Expr, run: ValueId -> real)
    requires WellFormed(f) && forall i :: 0 <= i < |idx| ==> idx[i] < |f.values|
  {
    var (w, t') := IndexWalk(f, t, ty, idx, s);
    && !w.WalkInvalid?
    && (w.WalkAbort? <==> WalkOffset(f, ty, idx, run).None?)
    && SymsOnly(t')
    && (w.WalkOk? ==> Clean(w.sub))
  }

  lemma {:induction false} IndexWalkShape(f: Function, t: Table, ty: Type, idx: seq<ValueId>, s: Expr, run: ValueId -> real)
    requires WellFormed(f) && forall i :: 0 <= i < |idx| ==> idx[i] < |f.values|
    requires SymsOnly(t) && Clean(s)
    ensures WalkShape(f, t, ty, idx, s, run)
    decreases |idx|, 1
  {
    if |idx| == 0 {
    } else if ty.Struct? {
      IndexWalkShapeStruct(f, t, ty, idx, s, run);
    } else {
      IndexWalkShapeScalar(f, t, ty, idx, s, run);
    }
  }

  lemma {:induction false} IndexWalkShapeStruct(f: Function, t: Table, ty: Type, idx: seq<ValueId>, s: Expr, run: ValueId -> real)
    requires WellFormed(f) && forall i :: 0 <= i < |idx| ==> idx[i] < |f.values|
    requires |idx| > 0 && ty.Struct?
    requires SymsOnly(t) && Clean(s)
    ensures WalkShape(f, t, ty, idx, s, run)
    decreases |idx|, 0
  {
    if FieldIndex(f, idx[0], ty.fields) {
      var k := f.values[idx[0]].kind.value;
      AddSizesValue(s, ty.fields, k, map[]);
      IndexWalkShape(f, t, ty.fields[k], idx[1..], AddSizes(s, ty.fields, k), run);
      assert IndexWalk(f, t, ty, idx, s) == IndexWalk(f, t, ty.fields[k], idx[1..], AddSizes(s, ty.fields, k));
    }
  }

  lemma {:induction false} IndexWalkShapeScalar(f: Function, t: Table, ty: Type, idx: seq<ValueId>, s: Expr, run: ValueId -> real)
    requires WellFormed(f) && forall i :: 0 <= i < |idx| ==> idx[i] < |f.values|
    requires |idx| > 0 && !ty.Struct?
    requires SymsOnly(t) && Clean(s)
    ensures WalkShape(f, t, ty, idx, s, run)
    decreases |idx|, 0
  {
    var ty' := Indexed(ty);
    var (x, t1) := ExprFor(f, t, None, idx[0]);
    var m := Times(x, Int(AllocSize(ty')));
    ExprForClean(f, t, None, idx[0]);
    assert Clean(Int(AllocSize(ty')));
    TimesClean(x, Int(AllocSize(ty')));
    PlusClean(s, m);
    IndexWalkShape(f, t1, ty', idx[1..], Plus(s, m), run);
    assert IndexWalk(f, t, ty, idx, s) == IndexWalk(f, t1, ty', idx[1..], Plus(s, m));
  }

  /** A completed walk adds the reference offset to the subscript, under
      any environment agreeing with the final table. */
  lemma {:induction false} IndexWalkValue(f: Function, t: Table, ty: Type, idx: seq<ValueId>, s: Expr,
                                          env: map<string, real>, run: ValueId -> real)
    requires WellFormed(f) && forall i :: 0 <= i < |idx| ==> idx[i] < |f.values|
    requires SymsOnly(t) && Clean(s)
    requires IndexWalk(f, t, ty, idx, s).0.WalkOk?
    requires Agrees(IndexWalk(f, t, ty, idx, s).1, env, run)
    ensures WalkOffset(f, ty, idx, run).Some?
    ensures Value(IndexWalk(f, t, ty, idx, s).0.sub, env) == Value(s, env) + WalkOffset(f, ty, idx, run).value
    decreases |idx|
  {
    IndexWalkShape(f, t, ty, idx, s, run);
    if |idx| == 0 {
    } else if ty.Struct? {
      var k := f.values[idx[0]].kind.value;
      AddSizesValue(s, ty.fields, k, env);
      IndexWalkValue(f, t, ty.fields[k], idx[1..], AddSizes(s, ty.fields, k), env, run);
    } else {
      IndexWalkScalarValue(f, t, ty, idx, s, env, run);
    }
  }

  /** The step of `IndexWalkValue` over a pointer or an array index. */
  lemma {:induction false} IndexWalkScalarValue(f: Function, t: Table, ty: Type, idx: seq<ValueId>, s: Expr,
                                                env: map<string, real>, run: ValueId -> real)
    requires WellFormed(f) && forall i :: 0 <= i < |idx| ==> idx[i] < |f.values|
    requires |idx| > 0 && !ty.Struct?
    requires SymsOnly(t) && Clean(s)
    requires IndexWalk(f, t, ty, idx, s).0.WalkOk?
    requires Agrees(IndexWalk(f, t, ty, idx, s).1, env, run)
    ensures WalkOffset(f, ty, idx, run).Some?
    ensures Value(IndexWalk(f, t, ty, idx, s).0.sub, env) == Value(s, env) + WalkOffset(f, ty, idx, run).value
    decreases |idx|, 0
  {
    var ty' := Indexed(ty);
    var (x, t1) := ExprFor(f, t, None, idx[0]);
    var m := Times(x, Int(AllocSize(ty')));
    var s' := Plus(s, m);
    ExprForClean(f, t, None, idx[0]);
    assert Clean(Int(AllocSize(ty')));
    TimesClean(x, Int(AllocSize(ty')));
    PlusClean(s, m);
    assert IndexWalk(f, t, ty, idx, s) == IndexWalk(f, t1, ty', idx[1..], s');
    var (w, t') := IndexWalk(f, t1, ty', idx[1..], s');
    IndexWalkValue(f, t1, ty', idx[1..], s', env, run);
    IndexWalkKeeps(f, t1, ty', idx[1..], s');
    AgreesShrinks(t1, t', env, run);
    ExprForValue(f, t, None, idx[0], env, run);
    TimesSize(x, AllocSize(ty'), env);
    PlusSound(s, m, env);
  }

  lemma {:induction false} TimesSize(x: Expr, n: nat, env: map<string, real>)
    requires x.IsValid()
    ensures Value(Times(x, Int(n)), env) == Scaled(Value(x, env), n)
  {
    TimesIsProduct(x, Int(n), env);
    assert Value(Int(n), env) == n as real;
    ProductOfEquals(Value(Times(x, Int(n)), env), Value(x, env), Value(Int(n), env), n);
  }

  lemma {:induction false} ProductOfEquals(p: real, a: real, b: real, n: nat)
    requires IsProduct(p, a, b) && b == n as real
    ensures p == Scaled(a, n)
  {
  }

  /** From a table of symbols and a clean subscript, the reduction never
      fails: it aborts exactly when the reference offset is undefined, and
      otherwise it reaches the root array with the subscript increased by
      the reference offset of the address, under any environment agreeing
      with the final table. */
  lemma {:induction false} ReduceSound(f: Function, t: Table, ptr: ValueId, sub: Expr,
                                       env: map<string, real>, run: ValueId -> real)
    requires WellFormed(f) && ptr < |f.values|
    requires SymsOnly(t) && Clean(sub)
    ensures var (r, t') := ReduceMemoryOp(f, t, ptr, sub);
            && !r.Unreduced?
            && (r.Aborted? <==> AddressOffset(f, ptr, run).None?)
            && SymsOnly(t')
            && (r.Reduced? ==> r.root == Root(f, ptr) && Clean(r.subscript))
            && (r.Reduced? && Agrees(t', env, run) ==>
                  Value(r.subscript, env) == Value(sub, env) + AddressOffset(f, ptr, run).value)
    decreases ptr
  {
    var k := f.values[ptr].kind;
    if k.Gep? {
      assert RefsOk(k, ptr, |f.values|);
      var (inner, t1) := ReduceMemoryOp(f, t, k.base, sub);
      ReduceSound(f, t, k.base, sub, env, run);
      if inner.Reduced? {
        var (w, t2) := IndexWalk(f, t1, f.values[k.base].ty, k.indices, inner.subscript);
        IndexWalkShape(f, t1, f.values[k.base].ty, k.indices, inner.subscript, run);
        if w.WalkOk? && Agrees(t2, env, run) {
          IndexWalkKeeps(f, t1, f.values[k.base].ty, k.indices, inner.subscript);
          AgreesShrinks(t1, t2, env, run);
          IndexWalkValue(f, t1, f.values[k.base].ty, k.indices, inner.subscript, env, run);
        }
      }
    }
  }

  /** The reduction of a load or a store starts from zero: its subscript is
      the exact-arithmetic byte offset of the accessed address from its
      root array. */
  lemma {:induction false} ReduceAccessOffset(f: Function, t: Table, v: ValueId, env: map<string, real>, run: ValueId -> real)
    requires WellFormed(f) && v < |f.values| && (f.values[v].kind.Load? || f.values[v].kind.Store?)
    requires SymsOnly(t)
    ensures f.values[v].kind.ptr < |f.values|
    ensures var (r, t') := ReduceMemoryOp(f, t, f.values[v].kind.ptr, Zero);
            && !r.Unreduced?
            && (r.Aborted? <==> AddressOffset(f, f.values[v].kind.ptr, run).None?)
            && (r.Reduced? ==> r.root == Root(f, f.values[v].kind.ptr))
            && (r.Reduced? && Agrees(t', env, run) ==>
                  Value(r.subscript, env) == AddressOffset(f, f.values[v].kind.ptr, run).value)
  {
    assert RefsOk(f.values[v].kind, v, |f.values|);
    ReduceSound(f, t, f.values[v].kind.ptr, Zero, env, run);
  }

  /** As written, a reduction whose subscript became invalid further down
      the chain is reported as a success with that invalid subscript, the
      address computation above it standing for the array. */
  lemma {:induction false} ReduceFallsThrough(f: Function, t: Table, ptr: ValueId, sub: Expr)
    requires WellFormed(f) && ptr < |f.values| && f.values[ptr].kind.Gep?
    requires f.values[ptr].kind.base < |f.values|
    requires ReduceMemoryOp(f, t, f.values[ptr].kind.base, sub).0.Unreduced?
    ensures var s := ReduceMemoryOp(f, t, f.values[ptr].kind.base, sub).0.subscript;
            ReduceMemoryOp(f, t, ptr, sub).0 == Reduced(ptr, s) && !s.IsValid()
  {
  }
}

=== FILE: relative_executions.dfy ===
/** How many times the header of a loop executes relative to an enclosing
    loop (`RelativeExecutions::getExecutionsRelativeTo`): the number of
    iterations of the loop, `sum(1/step)` over its induction variable,
    multiplied level by level by the iterations of each parent loop, as far
    out as the loop facts reach. The symbolic sums, products, inverses and
    expansions are computed by an embedded computer-algebra interpreter,
    which the model takes as a parameter. */
module RelativeExecutions {
  import opened Wrappers
  import opened Exprs
  import opened Ir
  import opened SymbolTable
  import opened LoopInfo

  /** The computer-algebra bridge: whether an expression converts, the
      inverse of an expression (`None` when the bridge returns no object),
      products, the sum of a summand over an index between two bounds, and
      expansion. */
  datatype Algebra = Algebra(
    converts: Expr -> bool,
    inverse: Expr -> Option<Expr>,
    mul: (Expr, Expr) -> Expr,
    sum: (Expr, Expr, Expr, Expr) -> Expr,
    expand: Expr -> Expr)

  /** One loop of the walk: the loop, the symbol of its induction variable,
      its start, end and step, and the inverse of the step the bridge
      computed, which one iteration counts for. */
  datatype Level = Level(loop: LoopId, index: Expr, start: Expr, end: Expr, step: Expr, weight: Expr)

  /** How the walk ended: the requested enclosing loop (or the outermost
      loop) was reached, the facts of some parent were missing (the sum so
      far is returned), or the walk failed. */
  datatype Status = Complete | Partial | Failed

  /** The result: the count, the outermost loop the count is relative to
      (`Final`; `None` when the walk failed before its first step), and the
      loops it summed over, innermost first. */
  datatype Executions = Executions(status: Status, count: Expr, final: Option<LoopId>, levels: seq<Level>)

  /** What preparing one loop gives: no loop facts, facts the bridge
      cannot use, or a level. */
  datatype Prepared = NoInfo | Unusable | Ready(level: Level)

  /** A loop's induction variable as the walk uses it: the symbol of the
      phi, its start, end and step. */
  datatype Induction = Induction(index: Expr, start: Expr, end: Expr, step: Expr)

  /** The loop analysis the walk queries (`LoopInfoExpr::getLoopInfo`,
      with the phi turned into its symbol), threading the symbol tables. */
  type LoopFacts = (Table, LoopId) -> (Option<Induction>, Table)

  /** `getLoopInfo` of the page-migration pass, and the symbol of the
      phi it finds. */
  function InductionOf(f: Function, t: Table, l: LoopId): (r: (Option<Induction>, Table))
    requires WellFormed(f) && l < |f.loops|
    ensures r.0.None? <==> GetLoopInfo(f, t, l).0.None?
  {
    var (b, t1) := GetLoopInfo(f, t, l);
    if b.None? then (None, t1)
    else
      GetLoopInfoShape(f, t, l);
      var (idx, t2) := Intern(f, t1, b.value.phi);
      (Some(Induction(idx, b.value.start, b.value.end, b.value.step)), t2)
  }

  /** The page-migration loop analysis as a `LoopFacts`. */
  function Facts(f: Function): LoopFacts {
    (t: Table, l: LoopId) => if WellFormed(f) && l < |f.loops| then InductionOf(f, t, l) else (None, t)
  }

  /** The analysis keeps the tables consistent, and from consistent tables
      it names the induction variable by a symbol. */
  ghost predicate FactsKeep(f: Function, info: LoopFacts)
    requires WellFormed(f)
  {
    && (forall t: Table, l: LoopId :: l < |f.loops| ==> Keeps(f, t, info(t, l).1))
    && (forall t: Table, l: LoopId :: l < |f.loops| && Inv(f, t) && info(t, l).0.Some? ==> info(t, l).0.value.index.Sym?)
  }

  lemma {:induction false} InductionOfKeeps(f: Function, t: Table, l: LoopId)
    requires WellFormed(f) && l < |f.loops|
    ensures Keeps(f, t, InductionOf(f, t, l).1)
    ensures Inv(f, t) && InductionOf(f, t, l).0.Some? ==> InductionOf(f, t, l).0.value.index.Sym?
  {
    var (b, t1) := GetLoopInfo(f, t, l);
    GetLoopInfoKeeps(f, t, l);
    if b.Some? {
      GetLoopInfoShape(f, t, l);
      InternKeeps(f, t1, b.value.phi);
      var t2 := Intern(f, t1, b.value.phi).1;
      KeepsTrans(f, t, t1, t2);
      assert b.value.phi in t2.exprs;
    }
  }

  /** The page-migration loop analysis satisfies `FactsKeep`. */
  lemma {:induction false} FactsSound(f: Function)
    requires WellFormed(f)
    ensures FactsKeep(f, Facts(f))
  {
    forall t: Table, l: LoopId | l < |f.loops|
      ensures Keeps(f, t, Facts(f)(t, l).1)
      ensures Inv(f, t) && Facts(f)(t, l).0.Some? ==> Facts(f)(t, l).0.value.index.Sym?
    {
      InductionOfKeeps(f, t, l);
    }
  }

  /** Parents are numbered before their children (part of `WellFormed`). */
  predicate Forest(f: Function) {
    forall l :: 0 <= l < |f.loops| ==> ParentOk(f.loops[l], l)
  }

  predicate TopOk(f: Function, top: Option<LoopId>) {
    top.Some? ==> top.value < |f.loops|
  }

  /** Every level is a loop of the function. */
  predicate InLoops(f: Function, ls: seq<Level>) {
    forall k :: 0 <= k < |ls| ==> ls[k].loop < |f.loops|
  }

  /** Consecutive levels climb the loop forest: each loop's parent is the
      next level's loop. */
  predicate Climbs(f: Function, ls: seq<Level>)
    requires InLoops(f, ls)
    decreases |ls|
  {
    |ls| <= 1 || (f.loops[ls[0].loop].parent == Some(ls[1].loop) && Climbs(f, ls[1..]))
  }

  /** Every level's weight is the bridge's inverse of its step. */
  predicate Weighted(alg: Algebra, ls: seq<Level>) {
    forall k :: 0 <= k < |ls| ==> alg.inverse(ls[k].step) == Some(ls[k].weight)
  }

  /** The loop facts of `l`, when the bridge converts the four
      expressions and inverts the step. */
  function Prepare(t: Table, alg: Algebra, info: LoopFacts, l: LoopId): (r: (Prepared, Table))
    ensures r.0.Ready? ==> r.0.level.loop == l
    ensures r.0.NoInfo? <==> info(t, l).0.None?
    ensures r.0.Ready? ==> alg.inverse(r.0.level.step) == Some(r.0.level.weight)
    ensures r.1 == info(t, l).1
    ensures r.0.Ready? ==> r.0.level.index == info(t, l).0.value.index
  {
    var (b, t1) := info(t, l);
    if b.None? then (NoInfo, t1)
    else
      var b := b.value;
      if !(alg.converts(b.index) && alg.converts(b.step) && alg.converts(b.start) && alg.converts(b.end)) then (Unusable, t1)
      else
        match alg.inverse(b.step)
        case None => (Unusable, t1)
        case Some(inv) => (Ready(Level(l, b.index, b.start, b.end, b.step, inv)), t1)
  }

  /** `getExecutionsRelativeTo(L, Toplevel, Final)` over the page-migration
      loop analysis. */
  function ExecutionsRelativeTo(f: Function, t: Table, alg: Algebra, l: LoopId, top: Option<LoopId>): (r: (Executions, Table))
    requires WellFormed(f) && l < |f.loops| && TopOk(f, top)
    ensures GetLoopInfo(f, t, l).0.None? ==> r.0.status.Failed? && r.0.count.Invalid? && r.0.final.None?
  {
    ExecutionsWith(f, t, alg, Facts(f), l, top)
  }

  /** `getExecutionsRelativeTo(L, Toplevel, Final)` over a loop analysis
      `info`: the first loop's iterations, then the walk over its
      parents. */
  function ExecutionsWith(f: Function, t: Table, alg: Algebra, info: LoopFacts, l: LoopId, top: Option<LoopId>): (r: (Executions, Table))
    requires Forest(f) && l < |f.loops| && TopOk(f, top)
    ensures r.0.status.Failed? ==> r.0.count.Invalid?
    ensures info(t, l).0.None? ==> r.0.status.Failed? && r.0.final.None?
    ensures r.0.final.None? <==> |r.0.levels| == 0
    ensures r.0.status.Failed? || |r.0.levels| >= 1
    ensures InLoops(f, r.0.levels) && Climbs(f, r.0.levels) && Weighted(alg, r.0.levels)
    ensures |r.0.levels| > 0 ==> r.0.levels[0].loop == l
    ensures r.0.status.Partial? ==>
              var last := r.0.levels[|r.0.levels| - 1].loop;
              r.0.final == Some(last) && f.loops[last].parent.Some?
    ensures r.0.status.Complete? && top.None? ==>
              var last := r.0.levels[|r.0.levels| - 1].loop;
              r.0.final == Some(last) && f.loops[last].parent.None?
    ensures r.0.status.Complete? && top.Some? ==>
              && |r.0.levels| >= 2
              && r.0.levels[|r.0.levels| - 1].loop == top.value
              && r.0.final == Some(r.0.levels[|r.0.levels| - 2].loop)
  {
    var (st, t1) := Prepare(t, alg, info, l);
    match st
    case NoInfo => (Executions(Failed, Invalid, None, []), t1)
    case Unusable => (Executions(Failed, Invalid, None, []), t1)
    case Ready(lv) =>
      Outward(f, t1, alg, info, l, top, [lv], alg.sum(lv.weight, lv.index, lv.start, lv.end))
  }

  /** The levels summed so far climb from the first loop to `l`. */
  predicate Started(f: Function, alg: Algebra, l: LoopId, acc: seq<Level>) {
    |acc| >= 1 && acc[|acc| - 1].loop == l && InLoops(f, acc) && Climbs(f, acc) && Weighted(alg, acc)
  }

  /** Where the walk over the parents may stop: at a loop without loop
      facts (partial), at the outermost loop when no toplevel loop was
      asked for, or one level past the loop whose parent is the toplevel
      loop (complete); a failure carries no count. */
  predicate Stopped(f: Function, alg: Algebra, top: Option<LoopId>, r: Executions) {
    && |r.levels| >= 1 && InLoops(f, r.levels) && Climbs(f, r.levels) && Weighted(alg, r.levels)
    && (r.status.Failed? ==> r.count.Invalid?)
    && r.final.Some?
    && (r.status.Partial? ==>
          var last := r.levels[|r.levels| - 1].loop;
          r.final == Some(last) && f.loops[last].parent.Some?)
    && (r.status.Complete? && top.None? ==>
          var last := r.levels[|r.levels| - 1].loop;
          r.final == Some(last) && f.loops[last].parent.None?)
    && (r.status.Complete? && top.Some? ==>
          && |r.levels| >= 2
          && r.levels[|r.levels| - 1].loop == top.value
          && r.final == Some(r.levels[|r.levels| - 2].loop))
  }

  /** The loop `while ((Final = L) && (L = L->getParentLoop()))`: `s`
      counts the executions relative to `l`, and `acc` holds the levels
      summed so far, the last of them being `l`'s. */
  function Outward(f: Function, t: Table, alg: Algebra, info: LoopFacts, l: LoopId, top: Option<LoopId>, acc: seq<Level>, s: Expr): (r: (Executions, Table))
    requires Forest(f) && l < |f.loops| && TopOk(f, top)
    requires Started(f, alg, l, acc)
    ensures |r.0.levels| >= |acc| && r.0.levels[0] == acc[0]
    ensures Stopped(f, alg, top, r.0)
    decreases l
  {
    var p := f.loops[l].parent;
    if p.None? then
      if top.None? then (Executions(Complete, s, Some(l), acc), t)
      else (Executions(Failed, Invalid, Some(l), acc), t)
    else
      var (st, t1) := Prepare(t, alg, info, p.value);
      match st
      case NoInfo => (Executions(Partial, s, Some(l), acc), t1)
      case Unusable => (Executions(Failed, Invalid, Some(l), acc), t1)
      case Ready(lv) =>
        var s' := alg.expand(alg.sum(alg.mul(s, lv.weight), lv.index, lv.start, lv.end));
        ClimbsSnoc(f, acc, lv);
        var acc' := acc + [lv];
        if top == p then (Executions(Complete, s', Some(l), acc'), t1)
        else Outward(f, t1, alg, info, p.value, top, acc', s')
  }

  lemma {:induction false} ClimbsSnoc(f: Function, ls: seq<Level>, lv: Level)
    requires |ls| >= 1 && InLoops(f, ls) && Climbs(f, ls) && lv.loop < |f.loops|
    requires f.loops[ls[|ls| - 1].loop].parent == Some(lv.loop)
    ensures InLoops(f, ls + [lv]) && Climbs(f, ls + [lv])
    decreases |ls|
  {
    if |ls| > 1 {
      ClimbsSnoc(f, ls[1..], lv);
      assert (ls + [lv])[1..] == ls[1..] + [lv];
    }
  }

  // ---------------------------------------------------------------------
  // Where the walk stops

  /** Asking for the executions of a loop relative to itself never
      completes: the walk only compares the parents it climbs to with the
      requested loop, and they are all outside it. */
  lemma {:induction false} ToplevelItselfNeverCompletes(f: Function, t: Table, alg: Algebra, info: LoopFacts, l: LoopId)
    requires Forest(f) && l < |f.loops|
    ensures !ExecutionsWith(f, t, alg, info, l, Some(l)).0.status.Complete?
  {
    var (st, t1) := Prepare(t, alg, info, l);
    if st.Ready? {
      var lv := st.level;
      OutwardMissesTop(f, t1, alg, info, l, Some(l), [lv], alg.sum(lv.weight, lv.index, lv.start, lv.end));
    }
  }

  lemma {:induction false} OutwardMissesTop(f: Function, t: Table, alg: Algebra, info: LoopFacts, l: LoopId, top: Option<LoopId>, acc: seq<Level>, s: Expr)
    requires Forest(f) && l < |f.loops| && TopOk(f, top)
    requires Started(f, alg, l, acc)
    requires top.Some? && top.value >= l
    ensures !Outward(f, t, alg, info, l, top, acc, s).0.status.Complete?
    decreases l
  {
    var p := f.loops[l].parent;
    if p.Some? {
      var (st, t1) := Prepare(t, alg, info, p.value);
      if st.Ready? {
        var lv := st.level;
        var s' := alg.expand(alg.sum(alg.mul(s, lv.weight), lv.index, lv.start, lv.end));
        ClimbsSnoc(f, acc, lv);
        WeightedSnoc(alg, acc, lv);
        OutwardMissesTop(f, t1, alg, info, p.value, top, acc + [lv], s');
      }
    }
  }

  lemma {:induction false} WeightedSnoc(alg: Algebra, ls: seq<Level>, lv: Level)
    requires Weighted(alg, ls) && alg.inverse(lv.step) == Some(lv.weight)
    ensures Weighted(alg, ls + [lv])
  {
  }

  // ---------------------------------------------------------------------
  // What the count means

  /** `1/y`, and 0 for `y = 0`: the value the expressions give an
      inverse of zero. */
  function InvVal(y: real): real
  {
    if y == 0.0 then 0.0 else 1.0 / y
  }

  /** `g(lo) + g(lo + 1) + ... + g(hi)`; 0 when `hi < lo`. */
  function SumOver(g: int -> real, lo: int, hi: int): real
    decreases hi - lo
  {
    if hi < lo then 0.0 else g(lo) + SumOver(g, lo + 1, hi)
  }

  /** An environment binding every symbol to an integer. */
  ghost predicate Integral(env: map<string, real>) {
    forall n :: n in env ==> env[n].Floor as real == env[n]
  }

  /** The bridge computes sums, products and expansions exactly: expansion
      keeps the value, products multiply, and a sum it can express adds up
      the summand over the integers between the bounds (for integer-valued
      symbols); a valid result never comes from an invalid operand. */
  ghost predicate Exact(alg: Algebra) {
    ExpandExact(alg) && MulExact(alg) && SumExact(alg)
  }

  ghost predicate ExpandExact(alg: Algebra) {
    && (forall e, env :: Value(alg.expand(e), env) == Value(e, env))
    && (forall e :: alg.expand(e).IsValid() ==> e.IsValid())
  }

  ghost predicate MulExact(alg: Algebra) {
    && (forall a, b, env :: MulAt(alg, a, b, env))
    && (forall a, b :: alg.mul(a, b).IsValid() ==> a.IsValid() && b.IsValid())
  }

  /** The bridge's product of `a` and `b` has the product of their values. */
  ghost predicate MulAt(alg: Algebra, a: Expr, b: Expr, env: map<string, real>) {
    IsProduct(Value(alg.mul(a, b), env), Value(a, env), Value(b, env))
  }

  ghost predicate SumExact(alg: Algebra) {
    && (forall e, n, a, b, env :: Integral(env) && alg.sum(e, Sym(n), a, b).IsValid() ==>
          Value(alg.sum(e, Sym(n), a, b), env) ==
          SumOver(j => Value(e, env[n := j as real]), Value(a, env).Floor, Value(b, env).Floor))
    && (forall e, x, a, b :: alg.sum(e, x, a, b).IsValid() ==> e.IsValid())
  }

  /** The bridge's inverse denotes `1/y`. */
  ghost predicate InverseExact(alg: Algebra) {
    forall e, env :: alg.inverse(e).Some? ==> Value(alg.inverse(e).value, env) == InvVal(Value(e, env))
  }

  /** Every level's index is a symbol. */
  predicate SymIndices(ls: seq<Level>) {
    forall k :: 0 <= k < |ls| ==> ls[k].index.Sym?
  }

  /** The reference count: the iterations of the outermost level, each
      counting its weight times the count of the levels inside it. */
  function Nest(ls: seq<Level>, env: map<string, real>): real
    requires |ls| >= 1 && SymIndices(ls)
    decreases |ls|, 1
  {
    var lv := ls[|ls| - 1];
    NestSum(ls, env, Value(lv.start, env).Floor, Value(lv.end, env).Floor)
  }

  /** The outermost level's iterations from `j` to `hi`. */
  function NestSum(ls: seq<Level>, env: map<string, real>, j: int, hi: int): real
    requires |ls| >= 1 && SymIndices(ls)
    decreases |ls|, 0, hi - j + 1
  {
    if hi < j then 0.0 else NestTerm(ls, env, j) + NestSum(ls, env, j + 1, hi)
  }

  /** One iteration of the outermost level, with its index at `j`. */
  function NestTerm(ls: seq<Level>, env: map<string, real>, j: int): real
    requires |ls| >= 1 && SymIndices(ls)
    decreases |ls|, 0, 0
  {
    var lv := ls[|ls| - 1];
    var env' := env[lv.index.name := j as real];
    var inner := if |ls| == 1 then 1.0 else Nest(ls[..|ls| - 1], env');
    inner * Value(lv.weight, env')
  }

  lemma {:induction false} SumOverNest(g: int -> real, ls: seq<Level>, env: map<string, real>, j: int, hi: int)
    requires |ls| >= 1 && SymIndices(ls)
    requires forall k :: j <= k <= hi ==> g(k) == NestTerm(ls, env, k)
    ensures SumOver(g, j, hi) == NestSum(ls, env, j, hi)
    decreases hi - j
  {
    if j <= hi {
      SumOverNest(g, ls, env, j + 1, hi);
    }
  }

  lemma {:induction false} IntegralUpdate(env: map<string, real>, n: string, j: int)
    requires Integral(env)
    ensures Integral(env[n := j as real])
  {
  }

  /** The first level: under an exact bridge the sum of the weight is the
      reference count of that level alone. */
  lemma {:induction false} FirstLevelCount(alg: Algebra, lv: Level)
    requires Exact(alg) && lv.index.Sym?
    ensures Counts(alg.sum(lv.weight, lv.index, lv.start, lv.end), [lv])
  {
    var s := alg.sum(lv.weight, lv.index, lv.start, lv.end);
    if s.IsValid() {
      forall env | Integral(env)
        ensures Value(s, env) == Nest([lv], env)
      {
        var n := lv.index.name;
        var g := j => Value(lv.weight, env[n := j as real]);
        var lo := Value(lv.start, env).Floor;
        var hi := Value(lv.end, env).Floor;
        assert Value(s, env) == SumOver(g, lo, hi);
        SumOverNest(g, [lv], env, lo, hi);
      }
    }
  }

  /** One step outward: if `s` is the reference count of `acc`, the
      expanded sum of `s` times the parent's weight is the reference count
      of `acc` extended with the parent's level. */
  lemma {:induction false} OuterLevelCount(alg: Algebra, acc: seq<Level>, s: Expr, lv: Level)
    requires Exact(alg) && Counts(s, acc) && lv.index.Sym?
    ensures Counts(alg.expand(alg.sum(alg.mul(s, lv.weight), lv.index, lv.start, lv.end)), acc + [lv])
  {
    var x := alg.sum(alg.mul(s, lv.weight), lv.index, lv.start, lv.end);
    var s' := alg.expand(x);
    var ls := acc + [lv];
    assert ls[|ls| - 1] == lv;
    assert SymIndices(ls);
    if s'.IsValid() {
      assert x.IsValid();
      assert alg.mul(s, lv.weight).IsValid();
      forall env | Integral(env)
        ensures Value(s', env) == Nest(ls, env)
      {
        var n := lv.index.name;
        var g := j => Value(alg.mul(s, lv.weight), env[n := j as real]);
        var lo := Value(lv.start, env).Floor;
        var hi := Value(lv.end, env).Floor;
        assert Value(s', env) == Value(x, env);
        assert Value(x, env) == SumOver(g, lo, hi);
        forall k | lo <= k <= hi
          ensures g(k) == NestTerm(ls, env, k)
        {
          var env' := env[n := k as real];
          IntegralUpdate(env, n, k);
          assert MulAt(alg, s, lv.weight, env');
          OuterStep(alg, acc, s, lv, env, k);
        }
        SumOverNest(g, ls, env, lo, hi);
      }
    }
  }

  /** The summand of a new outermost level, with its index at `k`, is one
      iteration of the reference count, when the bridge multiplies exactly
      there and `s` counts `acc`. */
  lemma {:induction false} OuterStep(alg: Algebra, acc: seq<Level>, s: Expr, lv: Level, env: map<string, real>, k: int)
    requires |acc| >= 1 && SymIndices(acc) && lv.index.Sym?
    requires MulAt(alg, s, lv.weight, env[lv.index.name := k as real])
    requires Value(s, env[lv.index.name := k as real]) == Nest(acc, env[lv.index.name := k as real])
    ensures SymIndices(acc + [lv])
    ensures Value(alg.mul(s, lv.weight), env[lv.index.name := k as real]) == NestTerm(acc + [lv], env, k)
  {
    var env' := env[lv.index.name := k as real];
    NestTermOuter(acc, lv, env, k);
    EqualProducts(Value(alg.mul(s, lv.weight), env'), NestTerm(acc + [lv], env, k),
                Value(s, env'), Nest(acc, env'), Value(lv.weight, env'));
  }

  /** Products of equal factors are equal. */
  lemma {:induction false} EqualProducts(p: real, q: real, x: real, x': real, y: real)
    requires IsProduct(p, x, y) && IsProduct(q, x', y) && x == x'
    ensures p == q
  {
  }

  /** An iteration of a level wrapped around `acc` is the count of `acc`
      times the level's weight, with the index at `k`. */
  lemma {:induction false} NestTermOuter(acc: seq<Level>, lv: Level, env: map<string, real>, k: int)
    requires |acc| >= 1 && SymIndices(acc) && lv.index.Sym?
    ensures SymIndices(acc + [lv])
    ensures var env' := env[lv.index.name := k as real];
            IsProduct(NestTerm(acc + [lv], env, k), Nest(acc, env'), Value(lv.weight, env'))
  {
    var ls := acc + [lv];
    assert ls[..|ls| - 1] == acc;
    assert ls[|ls| - 1] == lv;
  }

  /** `s` is valid only as the reference count of the levels `ls`. */
  ghost predicate Counts(s: Expr, ls: seq<Level>) {
    && |ls| >= 1 && SymIndices(ls)
    && (s.IsValid() ==> forall env :: Integral(env) ==> Value(s, env) == Nest(ls, env))
  }

  lemma {:induction false} OutwardCount(f: Function, t: Table, alg: Algebra, info: LoopFacts, l: LoopId, top: Option<LoopId>, acc: seq<Level>, s: Expr)
    requires WellFormed(f) && FactsKeep(f, info)
    requires l < |f.loops| && TopOk(f, top) && Inv(f, t) && Exact(alg)
    requires Started(f, alg, l, acc)
    requires Counts(s, acc)
    ensures var r := Outward(f, t, alg, info, l, top, acc, s).0;
            Counts(r.count, r.levels)
    decreases l
  {
    var p := f.loops[l].parent;
    if p.Some? {
      var (st, t1) := Prepare(t, alg, info, p.value);
      if st.Ready? {
        var lv := st.level;
        var s' := alg.expand(alg.sum(alg.mul(s, lv.weight), lv.index, lv.start, lv.end));
        OuterLevelCount(alg, acc, s, lv);
        ClimbsSnoc(f, acc, lv);
        WeightedSnoc(alg, acc, lv);
        if top != p {
          OutwardCount(f, t1, alg, info, p.value, top, acc + [lv], s');
        }
      }
    }
  }

  /** Under an exact bridge and consistent tables, a valid count is the
      reference count of the levels the walk summed: the executions of the
      loop's header per entry into the outermost loop reached. */
  lemma {:induction false} ExecutionsCount(f: Function, t: Table, alg: Algebra, info: LoopFacts, l: LoopId, top: Option<LoopId>)
    requires WellFormed(f) && FactsKeep(f, info)
    requires l < |f.loops| && TopOk(f, top) && Inv(f, t) && Exact(alg)
    ensures var r := ExecutionsWith(f, t, alg, info, l, top).0;
            && SymIndices(r.levels)
            && (r.count.IsValid() ==>
                  |r.levels| >= 1 && forall env :: Integral(env) ==> Value(r.count, env) == Nest(r.levels, env))
  {
    var (st, t1) := Prepare(t, alg, info, l);
    if st.Ready? {
      var lv := st.level;
      FirstLevelCount(alg, lv);
      OutwardCount(f, t1, alg, info, l, top, [lv], alg.sum(lv.weight, lv.index, lv.start, lv.end));
    }
  }

  /** The same for the page-migration loop analysis. */
  lemma {:induction false} ExecutionsRelativeToCount(f: Function, t: Table, alg: Algebra, l: LoopId, top: Option<LoopId>)
    requires WellFormed(f) && l < |f.loops| && TopOk(f, top) && Inv(f, t) && Exact(alg)
    ensures var r := ExecutionsRelativeTo(f, t, alg, l, top).0;
            r.count.IsValid() ==>
              && |r.levels| >= 1 && SymIndices(r.levels)
              && forall env :: Integral(env) ==> Value(r.count, env) == Nest(r.levels, env)
  {
    FactsSound(f);
    ExecutionsCount(f, t, alg, Facts(f), l, top);
  }

  /** Under an exact inverse, every level's weight is `1/step`: one
      iteration of a loop counts the inverse of its step. */
  lemma {:induction false} WeightsAreInverseSteps(f: Function, t: Table, alg: Algebra, info: LoopFacts, l: LoopId, top: Option<LoopId>, env: map<string, real>)
    requires Forest(f) && l < |f.loops| && TopOk(f, top) && InverseExact(alg)
    ensures var r := ExecutionsWith(f, t, alg, info, l, top).0;
            forall k :: 0 <= k < |r.levels| ==> Value(r.levels[k].weight, env) == InvVal(Value(r.levels[k].step, env))
  {
  }
}

=== FILE: relative_minmax.dfy ===
/** The location-relative minimum and maximum of an expression
    (`RelativeMinMax::getMinMax`): an induction variable is replaced by the
    range of its loop, from the minimum of its start to the maximum of its
    end (or the other way round for a decreasing loop), and the ranges are
    combined through sums, products, powers and `min`/`max`.

    The loop facts of a symbol come as a parameter (`Induction`), which
    also returns the symbol tables its queries extended; `InductionFacts`
    is the instance the pass uses, built from
    `getLoopForInductionVariable`, `getLoopInfo` and the comparison of the
    loop's first exiting block. The analysis threads the tables through
    every query, in the order the source makes them. It comes in two
    variants: the rules as written, and the rules corrected for the three
    unsound cases (products of two ranges, `min`/`max` nodes, and loops
    that count down); the soundness theorem is proved for the corrected
    rules, and concrete inputs show where the written rules go wrong. */
module RelativeMinMax {
  import opened Wrappers
  import opened Exprs
  import opened Ir
  import opened SymbolTable
  import opened LoopInfo

  /** What the analysis knows of an induction variable: its start, its end
      and the predicate of its loop's exit test. */
  datatype IndFacts = IndFacts(start: Expr, end: Expr, pred: Predicate)

  /** The loop facts of a symbol, when it is an induction variable, and the
      tables after the queries that looked for them. */
  type Induction = (Expr, Table) -> (Option<IndFacts>, Table)

  /** The outcome of `getMinMax`: whether it succeeded, and the `Min` and
      `Max` it leaves behind (partial ones after a failure). */
  datatype Range = Range(ok: bool, lo: Expr, hi: Expr)

  /** The rules of the source, or the rules corrected for the three
      unsound cases. */
  datatype Rules = AsWritten | Corrected

  // ---------------------------------------------------------------------
  // The loop facts the pass uses

  /** `getLoopForInductionVariable` of the phi a symbol stands for, then the
      start and end its `getLoopInfo` found and the predicate of the first
      exiting block's comparison; the tables are the ones that query left
      behind, whether or not it found a loop. */
  function FactsOf(f: Function, t: Table, s: Expr): (r: (Option<IndFacts>, Table))
    requires WellFormed(f)
    ensures r.0.Some? ==>
              && s.IsSymbol() && ValueOfSymbol(f, t, s).Some?
              && var phi := ValueOfSymbol(f, t, s).value;
              && f.values[phi].kind.Phi?
              && var l := LoopForInductionVariable(f, t, phi);
              && l.0.Some? && r.1 == l.1
              && var b := GetLoopInfo(f, t, l.0.value).0;
              && b.Some? && b.value.phi == phi
              && r.0.value.start == b.value.start && r.0.value.end == b.value.end
              && Accepted(r.0.value.pred)
    ensures r.0.None? && s.IsSymbol() && ValueOfSymbol(f, t, s).Some? && f.values[ValueOfSymbol(f, t, s).value].kind.Phi? ==>
              LoopForInductionVariable(f, t, ValueOfSymbol(f, t, s).value) == (None, r.1)
    ensures !s.IsSymbol() || ValueOfSymbol(f, t, s).None? ==> r == (None, t)
  {
    if !s.IsSymbol() then (None, t)
    else
      var v := ValueOfSymbol(f, t, s);
      if v.None? || !f.values[v.value].kind.Phi? then (None, t)
      else
        var (l, t1) := LoopForInductionVariable(f, t, v.value);
        if l.None? then (None, t1)
        else
          GetLoopInfoShape(f, t, l.value);
          var b := GetLoopInfo(f, t, l.value).0.value;
          var cmp := BranchCompare(f, f.loops[l.value].exiting[0]).value;
          (Some(IndFacts(b.start, b.end, cmp.pred)), t1)
  }

  function InductionFacts(f: Function): Induction {
    (s: Expr, t: Table) => if WellFormed(f) then FactsOf(f, t, s) else (None, t)
  }

  // ---------------------------------------------------------------------
  // The combination rules

  /** Exit tests under which the variable climbs from its start to its
      end. */
  predicate Rising(p: Predicate) {
    p == SLT || p == ULT || p == SLE || p == ULE || p == EQ
  }

  /** Exit tests under which the variable falls from its start to its
      end. */
  predicate Falling(p: Predicate) {
    p == SGT || p == UGT || p == UGE || p == SGE
  }

  /** A range reduced to one constant (`Min == Max && Min.isConstant()`). */
  predicate ConstPoint(lo: Expr, hi: Expr) {
    lo == hi && lo.IsConstant()
  }

  /** `addMinMax`. */
  function AddMinMax(prevLo: Expr, prevHi: Expr, otherLo: Expr, otherHi: Expr): (r: (Expr, Expr)) {
    (Plus(prevLo, otherLo), Plus(prevHi, otherHi))
  }

  /** `mulMinMax`: scaling by a constant point on either side, otherwise
      the extreme corner products (three of them as written, all four
      corrected). */
  function MulMinMax(rules: Rules, prevLo: Expr, prevHi: Expr, otherLo: Expr, otherHi: Expr): (r: (Expr, Expr)) {
    if ConstPoint(otherLo, otherHi) || ConstPoint(prevLo, prevHi) then
      var c := if ConstPoint(otherLo, otherHi) then otherLo else prevLo;
      if NumVal(c) > 0.0 then (Times(prevLo, otherLo), Times(prevHi, otherHi))
      else (Times(prevHi, otherHi), Times(prevLo, otherLo))
    else
      var lo3 := MinE(MinE(Times(prevLo, otherLo), Times(prevLo, otherHi)), Times(otherLo, prevHi));
      var hi3 := MaxE(MaxE(Times(prevHi, otherLo), Times(prevHi, otherHi)), Times(otherHi, prevLo));
      if rules.AsWritten? then (lo3, hi3)
      else (MinE(lo3, Times(prevHi, otherHi)), MaxE(hi3, Times(prevLo, otherLo)))
  }

  /** The power rule: an increasing power for a positive exponent, a
      decreasing one otherwise. */
  function PowMinMax(baseLo: Expr, baseHi: Expr, x: Expr): (r: (Expr, Expr))
    requires x.IsConstant()
  {
    if NumVal(x) > 0.0 then (Power(baseLo, x), Power(baseHi, x))
    else (Power(baseHi, x), Power(baseLo, x))
  }

  /** A `min` node from the results of its two operands: as written, both
      ends are the smaller of the two minima and failures are ignored;
      corrected, each end is the smaller of the matching ends, and a
      failure fails the node. */
  function MinNode(rules: Rules, first: Range, second: Range): (r: Option<(Expr, Expr)>)
    ensures rules.AsWritten? ==> r.Some?
    ensures rules.Corrected? ==> (r.Some? <==> first.ok && second.ok)
  {
    if rules.AsWritten? then
      var m := MinE(first.lo, second.lo);
      Some((m, m))
    else if first.ok && second.ok then Some((MinE(first.lo, second.lo), MinE(first.hi, second.hi)))
    else None
  }

  /** A `max` node: as written, both ends are the larger of the two
      minima (the operands' minima are what the source keeps), and
      failures are ignored; corrected, each end is the larger of the
      matching ends. */
  function MaxNode(rules: Rules, first: Range, second: Range): (r: Option<(Expr, Expr)>)
    ensures rules.AsWritten? ==> r.Some?
    ensures rules.Corrected? ==> (r.Some? <==> first.ok && second.ok)
  {
    if rules.AsWritten? then
      var m := MaxE(first.lo, second.lo);
      Some((m, m))
    else if first.ok && second.ok then Some((MaxE(first.lo, second.lo), MaxE(first.hi, second.hi)))
    else None
  }

  // ---------------------------------------------------------------------
  // getMinMax

  /** `getMinMax(Ex, Min, Max)` where `Min` and `Max` hold `lo0` and `hi0`
      on entry (a sum accumulates onto them) and the tables are `t`; the
      result carries the tables every query on the way extended. The
      bounds of an induction variable are analysed with one unit of `fuel`
      less. */
  function GetMinMax(rules: Rules, ind: Induction, e: Expr, lo0: Expr, hi0: Expr, t: Table, fuel: nat): (r: (Range, Table))
    ensures e.IsConstant() ==> r == (Range(true, e, e), t)
    ensures e.IsSymbol() && ind(e, t).0.None? ==> r == (Range(true, e, e), ind(e, t).1)
    ensures e.IsSymbol() && ind(e, t).0.Some? && ind(e, t).0.value.pred == NE ==> !r.0.ok
    ensures e.Pow? && !e.exponent.IsConstant() ==> r == (Range(false, lo0, hi0), t)
    ensures !r.0.ok && !e.Add? && !e.Mul? ==> r.0.lo == lo0 && r.0.hi == hi0
    decreases fuel, e, 2
  {
    match e
    case Int(_) => (Range(true, e, e), t)
    case Rat(_, _) => (Range(true, e, e), t)
    case Sym(_) => SymbolMinMax(rules, ind, e, lo0, hi0, t, fuel)
    case Invalid => SymbolMinMax(rules, ind, e, lo0, hi0, t, fuel)
    case Add(_) => AddFold(rules, ind, e, 0, lo0, hi0, t, fuel)
    case Mul(_) => MulFold(rules, ind, e, 0, Invalid, hi0, t, fuel)
    case Pow(b, x) =>
      if !x.IsConstant() then (Range(false, lo0, hi0), t)
      else
        var (br, t1) := GetMinMax(rules, ind, b, Zero, Zero, t, fuel);
        if !br.ok then (Range(false, lo0, hi0), t1)
        else
          var p := PowMinMax(br.lo, br.hi, x);
          (Range(true, p.0, p.1), t1)
    case Min(a, b) =>
      var (first, t1) := GetMinMax(rules, ind, a, Zero, Zero, t, fuel);
      var (second, t2) := GetMinMax(rules, ind, b, Zero, if rules.AsWritten? then first.hi else Zero, t1, fuel);
      var n := MinNode(rules, first, second);
      if n.Some? then (Range(true, n.value.0, n.value.1), t2) else (Range(false, lo0, hi0), t2)
    case Max(a, b) =>
      var (first, t1) := GetMinMax(rules, ind, a, Zero, Zero, t, fuel);
      var (second, t2) := GetMinMax(rules, ind, b, Zero, if rules.AsWritten? then first.hi else Zero, t1, fuel);
      var n := MaxNode(rules, first, second);
      if n.Some? then (Range(true, n.value.0, n.value.1), t2) else (Range(false, lo0, hi0), t2)
  }

  /** A symbol: its own range unless it is an induction variable, whose
      range runs between the ranges of its start and its end. */
  function SymbolMinMax(rules: Rules, ind: Induction, e: Expr, lo0: Expr, hi0: Expr, t: Table, fuel: nat): (r: (Range, Table))
    requires e.IsSymbol()
    ensures ind(e, t).0.None? ==> r == (Range(true, e, e), ind(e, t).1)
    ensures !r.0.ok ==> r.0.lo == lo0 && r.0.hi == hi0
    ensures r.0.ok && ind(e, t).0.Some? ==> !(ind(e, t).0.value.pred == NE) && fuel > 0
    decreases fuel, e, 1
  {
    var (fx, t1) := ind(e, t);
    if fx.None? then (Range(true, e, e), t1)
    else if fuel == 0 then (Range(false, lo0, hi0), t1)
    else
      var (s, t2) := GetMinMax(rules, ind, fx.value.start, Zero, Zero, t1, fuel - 1);
      if !s.ok then (Range(false, lo0, hi0), t2)
      else
        var (n, t3) := GetMinMax(rules, ind, fx.value.end, Zero, Zero, t2, fuel - 1);
        if !n.ok then (Range(false, lo0, hi0), t3)
        else (LoopRange(rules, fx.value.pred, s, n, lo0, hi0), t3)
  }

  /** The range of an induction variable from the ranges of its start and
      its end, by the direction its exit predicate gives it. */
  function LoopRange(rules: Rules, pred: Predicate, start: Range, end: Range, lo0: Expr, hi0: Expr): (r: Range)
    ensures r.ok <==> Rising(pred) || Falling(pred)
    ensures !r.ok ==> r.lo == lo0 && r.hi == hi0
  {
    if Rising(pred) then Range(true, start.lo, end.hi)
    else if Falling(pred) then FallingRange(rules, start, end)
    else Range(false, lo0, hi0)
  }

  /** The range of a variable that falls from its start to its end: as
      written, from the start's maximum to the end's minimum; corrected,
      from the end's minimum to the start's maximum. */
  function FallingRange(rules: Rules, start: Range, end: Range): (r: Range)
    ensures r.ok
  {
    if rules.AsWritten? then Range(true, start.hi, end.lo) else Range(true, end.lo, start.hi)
  }

  /** The loop over the terms of a sum, from the `i`-th on, with the ranges
      accumulated so far. */
  function AddFold(rules: Rules, ind: Induction, e: Expr, i: nat, lo: Expr, hi: Expr, t: Table, fuel: nat): (r: (Range, Table))
    requires e.Add? && i <= |e.terms|
    decreases fuel, e, 1, |e.terms| - i
  {
    if i == |e.terms| then (Range(true, lo, hi), t)
    else
      var (s, t1) := GetMinMax(rules, ind, e.terms[i], Zero, Zero, t, fuel);
      if !s.ok then (Range(false, lo, hi), t1)
      else
        var (lo', hi') := AddMinMax(s.lo, s.hi, lo, hi);
        AddFold(rules, ind, e, i + 1, lo', hi', t1, fuel)
  }

  /** The loop over the factors of a product: the first valid range is
      taken as it is, and every later one is multiplied in. */
  function MulFold(rules: Rules, ind: Induction, e: Expr, i: nat, lo: Expr, hi: Expr, t: Table, fuel: nat): (r: (Range, Table))
    requires e.Mul? && i <= |e.factors|
    decreases fuel, e, 1, |e.factors| - i
  {
    if i == |e.factors| then (Range(true, lo, hi), t)
    else
      var (s, t1) := GetMinMax(rules, ind, e.factors[i], Zero, Zero, t, fuel);
      if !s.ok then (Range(false, lo, hi), t1)
      else if !lo.IsValid() then MulFold(rules, ind, e, i + 1, s.lo, s.hi, t1, fuel)
      else
        var (lo', hi') := MulMinMax(rules, s.lo, s.hi, lo, hi);
        MulFold(rules, ind, e, i + 1, lo', hi', t1, fuel)
  }

  /** `getMinMaxRelativeTo(L, V)`: the range of the expression of `v`
      relative to loop `l`, with the corrected rules and the loop facts of
      the pass; the tables only gain symbols and stay consistent. */
  function GetMinMaxRelativeTo(f: Function, t: Table, l: LoopId, v: ValueId, fuel: nat): (r: (Range, Table))
    requires WellFormed(f) && l < |f.loops| && v < |f.values|
    ensures Keeps(f, t, r.1)
  {
    var (ex, t1) := ExprFor(f, t, Some(l), v);
    ExprForKeeps(f, t, Some(l), v);
    InductionFactsKeep(f);
    GetMinMaxKeeps(Corrected, f, InductionFacts(f), ex, Zero, Zero, t1, fuel);
    KeepsTrans(f, t, t1, GetMinMax(Corrected, InductionFacts(f), ex, Zero, Zero, t1, fuel).1);
    GetMinMax(Corrected, InductionFacts(f), ex, Zero, Zero, t1, fuel)
  }

  // ---------------------------------------------------------------------
  // The tables only grow

  /** An oracle that only adds symbols to the tables. */
  ghost predicate Growing(ind: Induction) {
    forall s: Expr, t: Table :: Grows(t, FactOf(ind, s, t).1)
  }

  /** The answer of the oracle for `s` on tables `t`, named so that the
      quantifiers over the oracle are only consulted where a proof asks. */
  function FactOf(ind: Induction, s: Expr, t: Table): (Option<IndFacts>, Table) {
    ind(s, t)
  }

  lemma {:induction false} GrowsTrans(t1: Table, t2: Table, t3: Table)
    requires Grows(t1, t2) && Grows(t2, t3)
    ensures Grows(t1, t3)
  {
  }

  /** With an oracle that only adds symbols, so does the analysis. */
  lemma {:induction false} GetMinMaxGrows(rules: Rules, ind: Induction, e: Expr, lo0: Expr, hi0: Expr, t: Table, fuel: nat)
    requires Growing(ind)
    ensures Grows(t, GetMinMax(rules, ind, e, lo0, hi0, t, fuel).1)
    decreases fuel, e, 2
  {
    match e
    case Int(_) =>
    case Rat(_, _) =>
    case Sym(_) => SymbolMinMaxGrows(rules, ind, e, lo0, hi0, t, fuel);
    case Invalid => SymbolMinMaxGrows(rules, ind, e, lo0, hi0, t, fuel);
    case Add(_) => AddFoldGrows(rules, ind, e, 0, lo0, hi0, t, fuel);
    case Mul(_) => MulFoldGrows(rules, ind, e, 0, Invalid, hi0, t, fuel);
    case Pow(b, x) =>
      if x.IsConstant() {
        GetMinMaxGrows(rules, ind, b, Zero, Zero, t, fuel);
      }
    case Min(a, b) =>
      var (first, t1) := GetMinMax(rules, ind, a, Zero, Zero, t, fuel);
      GetMinMaxGrows(rules, ind, a, Zero, Zero, t, fuel);
      GetMinMaxGrows(rules, ind, b, Zero, if rules.AsWritten? then first.hi else Zero, t1, fuel);
    case Max(a, b) =>
      var (first, t1) := GetMinMax(rules, ind, a, Zero, Zero, t, fuel);
      GetMinMaxGrows(rules, ind, a, Zero, Zero, t, fuel);
      GetMinMaxGrows(rules, ind, b, Zero, if rules.AsWritten? then first.hi else Zero, t1, fuel);
  }

  lemma {:induction false} SymbolMinMaxGrows(rules: Rules, ind: Induction, e: Expr, lo0: Expr, hi0: Expr, t: Table, fuel: nat)
    requires e.IsSymbol() && Growing(ind)
    ensures Grows(t, SymbolMinMax(rules, ind, e, lo0, hi0, t, fuel).1)
    decreases fuel, e, 1
  {
    var (fx, t1) := FactOf(ind, e, t);
    if fx.Some? && fuel > 0 {
      var (s, t2) := GetMinMax(rules, ind, fx.value.start, Zero, Zero, t1, fuel - 1);
      GetMinMaxGrows(rules, ind, fx.value.start, Zero, Zero, t1, fuel - 1);
      GetMinMaxGrows(rules, ind, fx.value.end, Zero, Zero, t2, fuel - 1);
    }
  }

  lemma {:induction false} AddFoldGrows(rules: Rules, ind: Induction, e: Expr, i: nat, lo: Expr, hi: Expr, t: Table, fuel: nat)
    requires e.Add? && i <= |e.terms| && Growing(ind)
    ensures Grows(t, AddFold(rules, ind, e, i, lo, hi, t, fuel).1)
    decreases fuel, e, 1, |e.terms| - i
  {
    if i < |e.terms| {
      var (s, t1) := GetMinMax(rules, ind, e.terms[i], Zero, Zero, t, fuel);
      GetMinMaxGrows(rules, ind, e.terms[i], Zero, Zero, t, fuel);
      if s.ok {
        var (lo', hi') := AddMinMax(s.lo, s.hi, lo, hi);
        AddFoldGrows(rules, ind, e, i + 1, lo', hi', t1, fuel);
      }
    }
  }

  lemma {:induction false} MulFoldGrows(rules: Rules, ind: Induction, e: Expr, i: nat, lo: Expr, hi: Expr, t: Table, fuel: nat)
    requires e.Mul? && i <= |e.factors| && Growing(ind)
    ensures Grows(t, MulFold(rules, ind, e, i, lo, hi, t, fuel).1)
    decreases fuel, e, 1, |e.factors| - i
  {
    if i < |e.factors| {
      var (s, t1) := GetMinMax(rules, ind, e.factors[i], Zero, Zero, t, fuel);
      GetMinMaxGrows(rules, ind, e.factors[i], Zero, Zero, t, fuel);
      if s.ok && !lo.IsValid() {
        MulFoldGrows(rules, ind, e, i + 1, s.lo, s.hi, t1, fuel);
      } else if s.ok {
        var (lo', hi') := MulMinMax(rules, s.lo, s.hi, lo, hi);
        MulFoldGrows(rules, ind, e, i + 1, lo', hi', t1, fuel);
      }
    }
  }

  /** The queries of the pass's loop facts only add symbols and keep the
      tables consistent. */
  lemma {:induction false} FactsOfKeeps(f: Function, t: Table, s: Expr)
    requires WellFormed(f)
    ensures Keeps(f, t, FactsOf(f, t, s).1)
  {
    var v := if s.IsSymbol() then ValueOfSymbol(f, t, s) else None;
    if v.Some? && f.values[v.value].kind.Phi? {
      LoopForKeeps(f, t, v.value);
      assert FactsOf(f, t, s).1 == LoopForInductionVariable(f, t, v.value).1;
    } else {
      KeepsRefl(f, t);
    }
  }

  lemma {:induction false} LoopForKeeps(f: Function, t: Table, phi: ValueId)
    requires WellFormed(f) && phi < |f.values|
    ensures Keeps(f, t, LoopForInductionVariable(f, t, phi).1)
  {
    var hl := HeadedLoop(f, f.values[phi].block);
    if hl.Some? {
      GetLoopInfoKeeps(f, t, hl.value);
    } else {
      KeepsRefl(f, t);
    }
  }

  /** The loop facts of the pass only add symbols to the tables. */
  lemma {:induction false} InductionFactsGrow(f: Function)
    ensures Growing(InductionFacts(f))
  {
    forall s: Expr, t: Table
      ensures Grows(t, FactOf(InductionFacts(f), s, t).1)
    {
      if WellFormed(f) {
        FactsOfKeeps(f, t, s);
      }
    }
  }

  /** An oracle whose queries keep the tables of `f` consistent. */
  ghost predicate Keeping(f: Function, ind: Induction)
    requires WellFormed(f)
  {
    forall s: Expr, t: Table :: Keeps(f, t, FactOf(ind, s, t).1)
  }

  /** The loop facts of the pass keep the tables consistent. */
  lemma {:induction false} InductionFactsKeep(f: Function)
    requires WellFormed(f)
    ensures Keeping(f, InductionFacts(f))
  {
    forall s: Expr, t: Table
      ensures Keeps(f, t, FactOf(InductionFacts(f), s, t).1)
    {
      FactsOfKeeps(f, t, s);
    }
  }

  /** With an oracle that keeps the tables consistent, so does the
      analysis, and it only adds symbols to them. */
  lemma {:induction false} GetMinMaxKeeps(rules: Rules, f: Function, ind: Induction, e: Expr, lo0: Expr, hi0: Expr, t: Table, fuel: nat)
    requires WellFormed(f) && Keeping(f, ind)
    ensures Keeps(f, t, GetMinMax(rules, ind, e, lo0, hi0, t, fuel).1)
  {
    KeepingGrows(f, ind);
    GetMinMaxGrows(rules, ind, e, lo0, hi0, t, fuel);
    if Inv(f, t) {
      GetMinMaxConsistent(rules, f, ind, e, lo0, hi0, t, fuel, Coherent(t));
    }
  }

  lemma {:induction false} KeepingGrows(f: Function, ind: Induction)
    requires WellFormed(f) && Keeping(f, ind)
    ensures Growing(ind)
  {
    forall s: Expr, t: Table
      ensures Grows(t, FactOf(ind, s, t).1)
    {
      assert Keeps(f, t, FactOf(ind, s, t).1);
    }
  }

  /** Tables that satisfy the invariant, and are coherent when `coh`. */
  predicate Consistent(f: Function, t: Table, coh: bool)
    requires WellFormed(f)
  {
    Inv(f, t) && (coh ==> Coherent(t))
  }

  lemma {:induction false} GetMinMaxConsistent(rules: Rules, f: Function, ind: Induction, e: Expr, lo0: Expr, hi0: Expr, t: Table, fuel: nat, coh: bool)
    requires WellFormed(f) && Keeping(f, ind) && Consistent(f, t, coh)
    ensures Consistent(f, GetMinMax(rules, ind, e, lo0, hi0, t, fuel).1, coh)
    decreases fuel, e, 2
  {
    match e
    case Int(_) =>
    case Rat(_, _) =>
    case Sym(_) => SymbolMinMaxConsistent(rules, f, ind, e, lo0, hi0, t, fuel, coh);
    case Invalid => SymbolMinMaxConsistent(rules, f, ind, e, lo0, hi0, t, fuel, coh);
    case Add(_) => AddFoldConsistent(rules, f, ind, e, 0, lo0, hi0, t, fuel, coh);
    case Mul(_) => MulFoldConsistent(rules, f, ind, e, 0, Invalid, hi0, t, fuel, coh);
    case Pow(b, x) =>
      if x.IsConstant() {
        GetMinMaxConsistent(rules, f, ind, b, Zero, Zero, t, fuel, coh);
      }
    case Min(_, _) => PairConsistent(rules, f, ind, e, lo0, hi0, t, fuel, coh);
    case Max(_, _) => PairConsistent(rules, f, ind, e, lo0, hi0, t, fuel, coh);
  }

  lemma {:induction false} PairConsistent(rules: Rules, f: Function, ind: Induction, e: Expr, lo0: Expr, hi0: Expr, t: Table, fuel: nat, coh: bool)
    requires WellFormed(f) && Keeping(f, ind) && Consistent(f, t, coh) && (e.Min? || e.Max?)
    ensures Consistent(f, GetMinMax(rules, ind, e, lo0, hi0, t, fuel).1, coh)
    decreases fuel, e, 1
  {
    var (first, t1) := GetMinMax(rules, ind, e.left, Zero, Zero, t, fuel);
    var lo1 := if rules.AsWritten? then first.hi else Zero;
    GetMinMaxConsistent(rules, f, ind, e.left, Zero, Zero, t, fuel, coh);
    GetMinMaxConsistent(rules, f, ind, e.right, Zero, lo1, t1, fuel, coh);
  }

  lemma {:induction false} SymbolMinMaxConsistent(rules: Rules, f: Function, ind: Induction, e: Expr, lo0: Expr, hi0: Expr, t: Table, fuel: nat, coh: bool)
    requires WellFormed(f) && Keeping(f, ind) && Consistent(f, t, coh) && e.IsSymbol()
    ensures Consistent(f, SymbolMinMax(rules, ind, e, lo0, hi0, t, fuel).1, coh)
    decreases fuel, e, 1
  {
    var (fx, t1) := FactOf(ind, e, t);
    assert Keeps(f, t, t1);
    if fx.Some? && fuel > 0 {
      var (s, t2) := GetMinMax(rules, ind, fx.value.start, Zero, Zero, t1, fuel - 1);
      GetMinMaxConsistent(rules, f, ind, fx.value.start, Zero, Zero, t1, fuel - 1, coh);
      GetMinMaxConsistent(rules, f, ind, fx.value.end, Zero, Zero, t2, fuel - 1, coh);
    }
  }

  lemma {:induction false} AddFoldConsistent(rules: Rules, f: Function, ind: Induction, e: Expr, i: nat, lo: Expr, hi: Expr, t: Table, fuel: nat, coh: bool)
    requires WellFormed(f) && Keeping(f, ind) && Consistent(f, t, coh) && e.Add? && i <= |e.terms|
    ensures Consistent(f, AddFold(rules, ind, e, i, lo, hi, t, fuel).1, coh)
    decreases fuel, e, 1, |e.terms| - i
  {
    if i < |e.terms| {
      var (s, t1) := GetMinMax(rules, ind, e.terms[i], Zero, Zero, t, fuel);
      GetMinMaxConsistent(rules, f, ind, e.terms[i], Zero, Zero, t, fuel, coh);
      if s.ok {
        var (lo', hi') := AddMinMax(s.lo, s.hi, lo, hi);
        AddFoldConsistent(rules, f, ind, e, i + 1, lo', hi', t1, fuel, coh);
      }
    }
  }

  lemma {:induction false} MulFoldConsistent(rules: Rules, f: Function, ind: Induction, e: Expr, i: nat, lo: Expr, hi: Expr, t: Table, fuel: nat, coh: bool)
    requires WellFormed(f) && Keeping(f, ind) && Consistent(f, t, coh) && e.Mul? && i <= |e.factors|
    ensures Consistent(f, MulFold(rules, ind, e, i, lo, hi, t, fuel).1, coh)
    decreases fuel, e, 1, |e.factors| - i
  {
    if i < |e.factors| {
      var (s, t1) := GetMinMax(rules, ind, e.factors[i], Zero, Zero, t, fuel);
      GetMinMaxConsistent(rules, f, ind, e.factors[i], Zero, Zero, t, fuel, coh);
      if s.ok {
        var (lo', hi') := if !lo.IsValid() then (s.lo, s.hi) else MulMinMax(rules, s.lo, s.hi, lo, hi);
        MulFoldConsistent(rules, f, ind, e, i + 1, lo', hi', t1, fuel, coh);
      }
    }
  }

  // ---------------------------------------------------------------------
  // Soundness of the corrected rules

  /** Expressions the soundness theorem covers: free of the sentinel and of
      powers, with no empty product. */
  predicate Plain(e: Expr)
    decreases e
  {
    match e
    case Invalid => false
    case Pow(_, _) => false
    case Add(ts) => forall i :: 0 <= i < |ts| ==> Plain(ts[i])
    case Mul(fs) => |fs| >= 1 && forall i :: 0 <= i < |fs| ==> Plain(fs[i])
    case Min(l, r) => Plain(l) && Plain(r)
    case Max(l, r) => Plain(l) && Plain(r)
    case _ => true
  }

  lemma {:induction false} PlainIsClean(e: Expr)
    requires Plain(e)
    ensures Clean(e)
    decreases e
  {
    match e
    case Add(ts) =>
      forall i | 0 <= i < |ts|
        ensures Clean(ts[i])
      {
        PlainIsClean(ts[i]);
      }
    case Mul(fs) =>
      forall i | 0 <= i < |fs|
        ensures Clean(fs[i])
      {
        PlainIsClean(fs[i]);
      }
    case Min(l, r) =>
      PlainIsClean(l);
      PlainIsClean(r);
    case Max(l, r) =>
      PlainIsClean(l);
      PlainIsClean(r);
    case _ =>
  }

  /** Under `env`, the variable `s` lies between its start and its end in
      the direction its exit test names, and both bounds are covered by
      the theorem. */
  predicate FactHolds(s: Expr, fx: IndFacts, env: map<string, real>) {
    && Plain(fx.start) && Plain(fx.end)
    && (Rising(fx.pred) ==> Value(fx.start, env) <= Value(s, env) <= Value(fx.end, env))
    && (Falling(fx.pred) ==> Value(fx.end, env) <= Value(s, env) <= Value(fx.start, env))
  }

  /** Every induction variable the corrected analysis of `e` from tables
      `t` asks the oracle about has, under `env`, a value its loop can give
      it. This is the assumption the source states it relies on, stated
      for exactly the queries the analysis makes, with the tables each of
      them is made on. */
  ghost predicate FactsHoldFor(ind: Induction, e: Expr, t: Table, fuel: nat, env: map<string, real>)
    decreases fuel, e, 2
  {
    match e
    case Sym(_) => SymbolFactsHold(ind, e, t, fuel, env)
    case Invalid => SymbolFactsHold(ind, e, t, fuel, env)
    case Add(_) => FoldFactsHold(ind, e, 0, t, fuel, env)
    case Mul(_) => FoldFactsHold(ind, e, 0, t, fuel, env)
    case Pow(b, x) => x.IsConstant() ==> FactsHoldFor(ind, b, t, fuel, env)
    case Min(a, b) =>
      FactsHoldFor(ind, a, t, fuel, env) && FactsHoldFor(ind, b, GetMinMax(Corrected, ind, a, Zero, Zero, t, fuel).1, fuel, env)
    case Max(a, b) =>
      FactsHoldFor(ind, a, t, fuel, env) && FactsHoldFor(ind, b, GetMinMax(Corrected, ind, a, Zero, Zero, t, fuel).1, fuel, env)
    case _ => true
  }

  /** A symbol the oracle knows as an induction variable: its fact holds,
      and so do the ones consulted for its start and, when the start has a
      range, for its end. */
  ghost predicate SymbolFactsHold(ind: Induction, e: Expr, t: Table, fuel: nat, env: map<string, real>)
    decreases fuel, e, 1
  {
    var (fx, t1) := ind(e, t);
    fx.Some? && fuel > 0 ==>
      && FactHolds(e, fx.value, env)
      && FactsHoldFor(ind, fx.value.start, t1, fuel - 1, env)
      && var (s, t2) := GetMinMax(Corrected, ind, fx.value.start, Zero, Zero, t1, fuel - 1);
         s.ok ==> FactsHoldFor(ind, fx.value.end, t2, fuel - 1, env)
  }

  /** The operands of a sum or a product from the `i`-th on, each analysed
      on the tables the one before it left, as long as the ones before
      have a range. */
  ghost predicate FoldFactsHold(ind: Induction, e: Expr, i: nat, t: Table, fuel: nat, env: map<string, real>)
    requires (e.Add? && i <= |e.terms|) || (e.Mul? && i <= |e.factors|)
    decreases fuel, e, 1, (if e.Add? then |e.terms| else |e.factors|) - i
  {
    var n := if e.Add? then |e.terms| else |e.factors|;
    i < n ==>
      var x := if e.Add? then e.terms[i] else e.factors[i];
      && FactsHoldFor(ind, x, t, fuel, env)
      && var (s, t1) := GetMinMax(Corrected, ind, x, Zero, Zero, t, fuel);
         s.ok ==> FoldFactsHold(ind, e, i + 1, t1, fuel, env)
  }

  /** `lo` and `hi` are valid and, under `env`, enclose `v`. */
  predicate Brackets(lo: Expr, hi: Expr, v: real, env: map<string, real>) {
    Clean(lo) && Clean(hi) && Value(lo, env) <= v <= Value(hi, env)
  }

  /** `lo` and `hi` are valid and enclose the value of `e` under `env`. */
  predicate Encloses(lo: Expr, hi: Expr, e: Expr, env: map<string, real>) {
    Brackets(lo, hi, Value(e, env), env)
  }

  /** The corrected analysis of `e` from tables `t`, when it succeeds,
      encloses `e`. */
  predicate SoundAt(ind: Induction, e: Expr, t: Table, fuel: nat, env: map<string, real>) {
    var r := GetMinMax(Corrected, ind, e, Zero, Zero, t, fuel).0;
    r.ok ==> Encloses(r.lo, r.hi, e, env)
  }

  /** Soundness of `getMinMax` with the corrected rules: whenever it
      succeeds, its minimum and maximum enclose the expression at every
      point where the induction variables it consults lie within their
      loops' bounds. */
  lemma {:induction false} GetMinMaxSound(ind: Induction, e: Expr, t: Table, fuel: nat, env: map<string, real>)
    requires Plain(e) && FactsHoldFor(ind, e, t, fuel, env)
    ensures SoundAt(ind, e, t, fuel, env)
    decreases fuel, e, 2
  {
    match e
    case Int(_) =>
    case Rat(_, _) =>
    case Sym(_) =>
      SymbolMinMaxSound(ind, e, t, fuel, env);
    case Add(ts) =>
      assert ts[0..] == ts;
      AddFoldSound(ind, e, 0, Zero, Zero, 0.0, SumValue(ts, env), t, fuel, env);
    case Mul(fs) =>
      assert fs[0..] == fs;
      MulFoldSound(ind, e, 0, Invalid, Zero, 1.0, ProdValue(fs, env), t, fuel, env);
    case Min(a, b) =>
      var (first, t1) := GetMinMax(Corrected, ind, a, Zero, Zero, t, fuel);
      var second := GetMinMax(Corrected, ind, b, Zero, Zero, t1, fuel).0;
      PairSound(ind, e, t, fuel, env);
      MinNodeSound(first, second, Value(a, env), Value(b, env), env);
    case Max(a, b) =>
      var (first, t1) := GetMinMax(Corrected, ind, a, Zero, Zero, t, fuel);
      var second := GetMinMax(Corrected, ind, b, Zero, Zero, t1, fuel).0;
      PairSound(ind, e, t, fuel, env);
      MaxNodeSound(first, second, Value(a, env), Value(b, env), env);
  }

  /** The two operands of a `min` or `max` node, analysed one after the
      other: each successful range encloses its operand. */
  lemma {:induction false} PairSound(ind: Induction, e: Expr, t: Table, fuel: nat, env: map<string, real>)
    requires (e.Min? || e.Max?) && Plain(e) && FactsHoldFor(ind, e, t, fuel, env)
    ensures var (first, t1) := GetMinMax(Corrected, ind, e.left, Zero, Zero, t, fuel);
            var second := GetMinMax(Corrected, ind, e.right, Zero, Zero, t1, fuel).0;
            && (first.ok ==> Encloses(first.lo, first.hi, e.left, env))
            && (second.ok ==> Encloses(second.lo, second.hi, e.right, env))
    decreases fuel, e, 1
  {
    var t1 := GetMinMax(Corrected, ind, e.left, Zero, Zero, t, fuel).1;
    GetMinMaxSound(ind, e.left, t, fuel, env);
    GetMinMaxSound(ind, e.right, t1, fuel, env);
  }

  /** A symbol whose loop facts hold: its range, when there is one,
      encloses it. */
  lemma {:induction false} SymbolMinMaxSound(ind: Induction, e: Expr, t: Table, fuel: nat, env: map<string, real>)
    requires e.Sym? && SymbolFactsHold(ind, e, t, fuel, env)
    ensures var r := SymbolMinMax(Corrected, ind, e, Zero, Zero, t, fuel).0;
            r.ok ==> Encloses(r.lo, r.hi, e, env)
    decreases fuel, e, 1
  {
    var (fx, t1) := FactOf(ind, e, t);
    if fx.Some? && fuel > 0 {
      var (s, t2) := GetMinMax(Corrected, ind, fx.value.start, Zero, Zero, t1, fuel - 1);
      var n := GetMinMax(Corrected, ind, fx.value.end, Zero, Zero, t2, fuel - 1).0;
      if s.ok && n.ok {
        GetMinMaxSound(ind, fx.value.start, t1, fuel - 1, env);
        GetMinMaxSound(ind, fx.value.end, t2, fuel - 1, env);
        LoopRangeSound(e, fx.value, s, n, env);
      }
    }
  }

  /** With enclosed start and end, the corrected rule encloses every
      value the loop gives its variable, in either direction. */
  lemma {:induction false} LoopRangeSound(e: Expr, fx: IndFacts, start: Range, end: Range, env: map<string, real>)
    requires FactHolds(e, fx, env)
    requires Encloses(start.lo, start.hi, fx.start, env)
    requires Encloses(end.lo, end.hi, fx.end, env)
    ensures var r := LoopRange(Corrected, fx.pred, start, end, Zero, Zero);
            r.ok ==> Encloses(r.lo, r.hi, e, env)
  {
  }

  /** The corrected `min` node encloses the smaller of two enclosed
      values. */
  lemma {:induction false} MinNodeSound(first: Range, second: Range, x: real, y: real, env: map<string, real>)
    requires first.ok ==> Brackets(first.lo, first.hi, x, env)
    requires second.ok ==> Brackets(second.lo, second.hi, y, env)
    ensures var n := MinNode(Corrected, first, second);
            n.Some? ==> Brackets(n.value.0, n.value.1, RealMin(x, y), env)
  {
    if first.ok && second.ok {
      MinMaxClean(first.lo, second.lo);
      MinMaxClean(first.hi, second.hi);
      MinSound(first.lo, second.lo, env);
      MinSound(first.hi, second.hi, env);
    }
  }

  /** The corrected `max` node encloses the larger of two enclosed
      values. */
  lemma {:induction false} MaxNodeSound(first: Range, second: Range, x: real, y: real, env: map<string, real>)
    requires first.ok ==> Brackets(first.lo, first.hi, x, env)
    requires second.ok ==> Brackets(second.lo, second.hi, y, env)
    ensures var n := MaxNode(Corrected, first, second);
            n.Some? ==> Brackets(n.value.0, n.value.1, RealMax(x, y), env)
  {
    if first.ok && second.ok {
      MinMaxClean(first.lo, second.lo);
      MinMaxClean(first.hi, second.hi);
      MaxSound(first.lo, second.lo, env);
      MaxSound(first.hi, second.hi, env);
    }
  }

  /** The loop over the terms: `acc` is the sum of the terms seen so far,
      which the accumulated range encloses. */
  lemma {:induction false} AddFoldSound(ind: Induction, e: Expr, i: nat, lo: Expr, hi: Expr, acc: real, q: real, t: Table, fuel: nat, env: map<string, real>)
    requires e.Add? && i <= |e.terms| && Plain(e) && FoldFactsHold(ind, e, i, t, fuel, env)
    requires Brackets(lo, hi, acc, env)
    requires q == acc + SumValue(e.terms[i..], env)
    ensures var r := AddFold(Corrected, ind, e, i, lo, hi, t, fuel).0;
            r.ok ==> Brackets(r.lo, r.hi, q, env)
    decreases fuel, e, 1, |e.terms| - i
  {
    var ts := e.terms;
    if i == |ts| {
      assert ts[i..] == [];
    } else {
      var (s, t1) := GetMinMax(Corrected, ind, ts[i], Zero, Zero, t, fuel);
      if s.ok {
        var m := AddMinMax(s.lo, s.hi, lo, hi);
        AddTermSound(ind, e, i, lo, hi, acc, t, fuel, env);
        SumValueUncons(ts, i, env);
        AddFoldSound(ind, e, i + 1, m.0, m.1, Value(ts[i], env) + acc, q, t1, fuel, env);
      }
    }
  }

  /** One step of the sum: adding the range of term `i` to the running
      range encloses the running sum plus the term. */
  lemma {:induction false} AddTermSound(ind: Induction, e: Expr, i: nat, lo: Expr, hi: Expr, acc: real, t: Table, fuel: nat, env: map<string, real>)
    requires e.Add? && i < |e.terms| && Plain(e) && FactsHoldFor(ind, e.terms[i], t, fuel, env)
    requires Brackets(lo, hi, acc, env)
    ensures var s := GetMinMax(Corrected, ind, e.terms[i], Zero, Zero, t, fuel).0;
            var m := AddMinMax(s.lo, s.hi, lo, hi);
            s.ok ==> Brackets(m.0, m.1, Value(e.terms[i], env) + acc, env)
    decreases fuel, e, 0
  {
    var s := GetMinMax(Corrected, ind, e.terms[i], Zero, Zero, t, fuel).0;
    if s.ok {
      GetMinMaxSound(ind, e.terms[i], t, fuel, env);
      SumStep(s.lo, s.hi, lo, hi, Value(e.terms[i], env), acc, env);
    }
  }

  /** `addMinMax` encloses the sum of two enclosed values. */
  lemma {:induction false} SumStep(lo1: Expr, hi1: Expr, lo2: Expr, hi2: Expr, x: real, y: real, env: map<string, real>)
    requires Brackets(lo1, hi1, x, env) && Brackets(lo2, hi2, y, env)
    ensures var r := AddMinMax(lo1, hi1, lo2, hi2);
            Brackets(r.0, r.1, x + y, env)
  {
    PlusClean(lo1, lo2);
    PlusClean(hi1, hi2);
    PlusSound(lo1, lo2, env);
    PlusSound(hi1, hi2, env);
  }

  lemma {:induction false} SumValueUncons(ts: seq<Expr>, i: nat, env: map<string, real>)
    requires i < |ts|
    ensures SumValue(ts[i..], env) == Value(ts[i], env) + SumValue(ts[i + 1..], env)
  {
    assert ts[i..][0] == ts[i] && ts[i..][1..] == ts[i + 1..];
  }

  /** The loop over the factors: `p` is the product of the factors seen
      so far, which the accumulated range encloses, and `q` is `p` times
      the product of the factors still to come. */
  lemma {:induction false} MulFoldSound(ind: Induction, e: Expr, i: nat, lo: Expr, hi: Expr, p: real, q: real, t: Table, fuel: nat, env: map<string, real>)
    requires e.Mul? && i <= |e.factors| && Plain(e) && FoldFactsHold(ind, e, i, t, fuel, env)
    requires i == 0 ==> lo.Invalid? && p == 1.0
    requires i > 0 ==> Brackets(lo, hi, p, env)
    requires IsProduct(q, p, ProdValue(e.factors[i..], env))
    ensures var r := MulFold(Corrected, ind, e, i, lo, hi, t, fuel).0;
            r.ok ==> Brackets(r.lo, r.hi, q, env)
    decreases fuel, e, 1, |e.factors| - i, 1
  {
    var fs := e.factors;
    if i == |fs| {
      assert fs[i..] == [];
      TimesOne(q, p);
    } else if !lo.IsValid() {
      MulFoldFirstSound(ind, e, i, lo, hi, p, q, t, fuel, env);
    } else {
      MulFoldNextSound(ind, e, i, lo, hi, p, q, t, fuel, env, MulFold(Corrected, ind, e, i, lo, hi, t, fuel));
    }
  }

  /** The first factor: its range starts the product. */
  lemma {:induction false} MulFoldFirstSound(ind: Induction, e: Expr, i: nat, lo: Expr, hi: Expr, p: real, q: real, t: Table, fuel: nat, env: map<string, real>)
    requires e.Mul? && i < |e.factors| && !lo.IsValid() && Plain(e) && FoldFactsHold(ind, e, i, t, fuel, env)
    requires i == 0 ==> lo.Invalid? && p == 1.0
    requires i > 0 ==> Brackets(lo, hi, p, env)
    requires IsProduct(q, p, ProdValue(e.factors[i..], env))
    ensures var r := MulFold(Corrected, ind, e, i, lo, hi, t, fuel).0;
            r.ok ==> Brackets(r.lo, r.hi, q, env)
    decreases fuel, e, 1, |e.factors| - i, 0
  {
    var fs := e.factors;
    var (s, t1) := GetMinMax(Corrected, ind, fs[i], Zero, Zero, t, fuel);
    if s.ok {
      GetMinMaxSound(ind, fs[i], t, fuel, env);
      var v := Value(fs[i], env);
      ProdValueUncons(fs, i, env);
      OneTimes(q, v, ProdValue(fs[i + 1..], env), ProdValue(fs[i..], env));
      MulFoldSound(ind, e, i + 1, s.lo, s.hi, v, q, t1, fuel, env);
    }
  }

  /** A later factor: its range times the accumulated one. */
  lemma {:induction false} MulFoldNextSound(ind: Induction, e: Expr, i: nat, lo: Expr, hi: Expr, p: real, q: real, t: Table, fuel: nat, env: map<string, real>, r: (Range, Table))
    requires e.Mul? && i < |e.factors| && lo.IsValid() && Plain(e) && FoldFactsHold(ind, e, i, t, fuel, env)
    requires i == 0 ==> lo.Invalid? && p == 1.0
    requires i > 0 ==> Brackets(lo, hi, p, env)
    requires IsProduct(q, p, ProdValue(e.factors[i..], env))
    requires r == MulFold(Corrected, ind, e, i, lo, hi, t, fuel)
    ensures r.0.ok ==> Brackets(r.0.lo, r.0.hi, q, env)
    decreases fuel, e, 1, |e.factors| - i, 0
  {
    var (s, t1) := GetMinMax(Corrected, ind, e.factors[i], Zero, Zero, t, fuel);
    if s.ok {
      var m := MulMinMax(Corrected, s.lo, s.hi, lo, hi);
      assert r == MulFold(Corrected, ind, e, i + 1, m.0, m.1, t1, fuel);
      GetMinMaxSound(ind, e.factors[i], t, fuel, env);
      var w := NextFactorRange(ind, e, i, lo, hi, p, q, t, fuel, env);
      MulFoldSound(ind, e, i + 1, m.0, m.1, w, q, t1, fuel, env);
    } else {
      assert !r.0.ok;
    }
  }

  /** The corrected product of the accumulated range and the factor's
      range encloses `w`, the product so far times the factor, and `q` is
      `w` times the factors still to come. */
  lemma {:induction false} NextFactorRange(ind: Induction, e: Expr, i: nat, lo: Expr, hi: Expr, p: real, q: real, t: Table, fuel: nat, env: map<string, real>) returns (w: real)
    requires e.Mul? && i < |e.factors|
    requires Brackets(lo, hi, p, env)
    requires IsProduct(q, p, ProdValue(e.factors[i..], env))
    requires var s := GetMinMax(Corrected, ind, e.factors[i], Zero, Zero, t, fuel).0;
             s.ok ==> Encloses(s.lo, s.hi, e.factors[i], env)
    ensures var s := GetMinMax(Corrected, ind, e.factors[i], Zero, Zero, t, fuel).0;
            s.ok ==>
              var m := MulMinMax(Corrected, s.lo, s.hi, lo, hi);
              Brackets(m.0, m.1, w, env) && IsProduct(q, w, ProdValue(e.factors[i + 1..], env))
  {
    var fs := e.factors;
    var s := GetMinMax(Corrected, ind, fs[i], Zero, Zero, t, fuel).0;
    w := 0.0;
    if s.ok {
      var v := Value(fs[i], env);
      var rest := ProdValue(fs[i + 1..], env);
      ProdValueUncons(fs, i, env);
      w := MulShuffle(v, p, rest, ProdValue(fs[i..], env), q);
      MulMinMaxSound(s.lo, s.hi, lo, hi, v, p, w, env);
    }
  }

  lemma {:induction false} ProdValueUncons(fs: seq<Expr>, i: nat, env: map<string, real>)
    requires i < |fs|
    ensures IsProduct(ProdValue(fs[i..], env), Value(fs[i], env), ProdValue(fs[i + 1..], env))
  {
    assert fs[i..][0] == fs[i] && fs[i..][1..] == fs[i + 1..];
  }

  lemma {:induction false} OneTimes(q: real, v: real, rest: real, all: real)
    requires IsProduct(all, v, rest) && IsProduct(q, 1.0, all)
    ensures IsProduct(q, v, rest)
  {
  }

  lemma {:induction false} TimesOne(q: real, p: real)
    requires IsProduct(q, p, 1.0)
    ensures q == p
  {
  }

  /** Moving the next factor `v` from the rest into the running product. */
  lemma {:induction false} MulShuffle(v: real, p: real, rest: real, all: real, q: real) returns (w: real)
    requires IsProduct(all, v, rest) && IsProduct(q, p, all)
    ensures IsProduct(w, v, p) && IsProduct(q, w, rest)
  {
    w := v * p;
    assert p * (v * rest) == (v * p) * rest;
  }

  /** The product rule with the corrected corners: for `x` in the first
      range and `y` in the second, their product `w` lies in the result. */
  lemma {:induction false} MulMinMaxSound(prevLo: Expr, prevHi: Expr, otherLo: Expr, otherHi: Expr, x: real, y: real, w: real, env: map<string, real>)
    requires Brackets(prevLo, prevHi, x, env) && Brackets(otherLo, otherHi, y, env)
    requires IsProduct(w, x, y)
    ensures var r := MulMinMax(Corrected, prevLo, prevHi, otherLo, otherHi);
            Brackets(r.0, r.1, w, env)
  {
    if ConstPoint(otherLo, otherHi) {
      ValueOfConstant(otherLo, env);
      ScaledSound(prevLo, prevHi, otherLo, x, w, env);
    } else if ConstPoint(prevLo, prevHi) {
      ValueOfConstant(prevLo, env);
      ScaledSound'(prevLo, otherLo, otherHi, y, w, env);
    } else {
      CornersSound(prevLo, prevHi, otherLo, otherHi, x, y, w, env);
    }
  }

  /** A range times a constant point `k`. */
  lemma {:induction false} ScaledSound(lo: Expr, hi: Expr, k: Expr, x: real, w: real, env: map<string, real>)
    requires Brackets(lo, hi, x, env) && k.IsConstant() && IsProduct(w, x, NumVal(k))
    ensures NumVal(k) > 0.0 ==> Brackets(Times(lo, k), Times(hi, k), w, env)
    ensures NumVal(k) <= 0.0 ==> Brackets(Times(hi, k), Times(lo, k), w, env)
  {
    ValueOfConstant(k, env);
    TimesClean(lo, k);
    TimesClean(hi, k);
    TimesIsProduct(lo, k, env);
    TimesIsProduct(hi, k, env);
    ScaleOrder(x, Value(lo, env), Value(hi, env), NumVal(k), w, Value(Times(lo, k), env), Value(Times(hi, k), env));
  }

  /** A constant point `k` times a range. */
  lemma {:induction false} ScaledSound'(k: Expr, lo: Expr, hi: Expr, y: real, w: real, env: map<string, real>)
    requires Brackets(lo, hi, y, env) && k.IsConstant() && IsProduct(w, NumVal(k), y)
    ensures NumVal(k) > 0.0 ==> Brackets(Times(k, lo), Times(k, hi), w, env)
    ensures NumVal(k) <= 0.0 ==> Brackets(Times(k, hi), Times(k, lo), w, env)
  {
    ValueOfConstant(k, env);
    TimesClean(k, lo);
    TimesClean(k, hi);
    TimesIsProduct(k, lo, env);
    TimesIsProduct(k, hi, env);
    ScaleOrder'(y, Value(lo, env), Value(hi, env), NumVal(k), w, Value(Times(k, lo), env), Value(Times(k, hi), env));
  }

  /** The four corner products bound a product of two ranges. */
  lemma {:induction false} CornersSound(prevLo: Expr, prevHi: Expr, otherLo: Expr, otherHi: Expr, x: real, y: real, w: real, env: map<string, real>)
    requires Brackets(prevLo, prevHi, x, env) && Brackets(otherLo, otherHi, y, env)
    requires IsProduct(w, x, y)
    ensures var ac, ad, cb := Times(prevLo, otherLo), Times(prevLo, otherHi), Times(otherLo, prevHi);
            var bc, bd, da := Times(prevHi, otherLo), Times(prevHi, otherHi), Times(otherHi, prevLo);
            Brackets(MinE(MinE(MinE(ac, ad), cb), bd), MaxE(MaxE(MaxE(bc, bd), da), ac), w, env)
  {
    var ac, ad, cb := Times(prevLo, otherLo), Times(prevLo, otherHi), Times(otherLo, prevHi);
    var bc, bd, da := Times(prevHi, otherLo), Times(prevHi, otherHi), Times(otherHi, prevLo);
    CornerProducts(prevLo, prevHi, otherLo, otherHi, x, y, w, env);
    var lo3 := MinE(MinE(ac, ad), cb);
    var hi3 := MaxE(MaxE(bc, bd), da);
    MinMaxClean(ac, ad);
    MinMaxClean(MinE(ac, ad), cb);
    MinMaxClean(lo3, bd);
    MinMaxClean(bc, bd);
    MinMaxClean(MaxE(bc, bd), da);
    MinMaxClean(hi3, ac);
    MinSound(ac, ad, env);
    MinSound(MinE(ac, ad), cb, env);
    MinSound(lo3, bd, env);
    MaxSound(bc, bd, env);
    MaxSound(MaxE(bc, bd), da, env);
    MaxSound(hi3, ac, env);
  }

  /** The values of the corner products bound the product. */
  lemma {:induction false} CornerProducts(prevLo: Expr, prevHi: Expr, otherLo: Expr, otherHi: Expr, x: real, y: real, w: real, env: map<string, real>)
    requires Brackets(prevLo, prevHi, x, env) && Brackets(otherLo, otherHi, y, env)
    requires IsProduct(w, x, y)
    ensures var ac, ad, cb := Times(prevLo, otherLo), Times(prevLo, otherHi), Times(otherLo, prevHi);
            var bc, bd, da := Times(prevHi, otherLo), Times(prevHi, otherHi), Times(otherHi, prevLo);
            && Clean(ac) && Clean(ad) && Clean(cb) && Clean(bc) && Clean(bd) && Clean(da)
            && RealMin(RealMin(RealMin(Value(ac, env), Value(ad, env)), Value(cb, env)), Value(bd, env)) <= w
            && w <= RealMax(RealMax(RealMax(Value(bc, env), Value(bd, env)), Value(da, env)), Value(ac, env))
  {
    TimesClean(prevLo, otherLo);
    TimesClean(prevLo, otherHi);
    TimesClean(otherLo, prevHi);
    TimesClean(prevHi, otherLo);
    TimesClean(prevHi, otherHi);
    TimesClean(otherHi, prevLo);
    TimesIsProduct(prevLo, otherLo, env);
    TimesIsProduct(prevLo, otherHi, env);
    TimesIsProduct(otherLo, prevHi, env);
    TimesIsProduct(prevHi, otherLo, env);
    TimesIsProduct(prevHi, otherHi, env);
    TimesIsProduct(otherHi, prevLo, env);
    CornerOrder(Value(prevLo, env), Value(prevHi, env), Value(otherLo, env), Value(otherHi, env), x, y, w,
      Value(Times(prevLo, otherLo), env), Value(Times(prevLo, otherHi), env), Value(Times(otherLo, prevHi), env),
      Value(Times(prevHi, otherLo), env), Value(Times(prevHi, otherHi), env), Value(Times(otherHi, prevLo), env));
  }

  /** `getMinMaxRelativeTo`: when the analysis succeeds, the range it
      gives encloses the value `v` takes in any run, relative to loop `l`,
      under the environment of the final tables, as long as the run keeps
      every induction variable the analysis consulted within its loop's
      bounds. */
  lemma {:induction false} GetMinMaxRelativeToSound(f: Function, t: Table, l: LoopId, v: ValueId, fuel: nat, run: ValueId -> real)
    requires WellFormed(f) && l < |f.loops| && v < |f.values|
    requires Inv(f, t) && Coherent(t)
    requires Plain(ExprFor(f, t, Some(l), v).0)
    requires var (ex, t1) := ExprFor(f, t, Some(l), v);
             var t2 := GetMinMaxRelativeTo(f, t, l, v, fuel).1;
             FactsHoldFor(InductionFacts(f), ex, t1, fuel, CanonEnv(t2, run))
    ensures var (r, t2) := GetMinMaxRelativeTo(f, t, l, v, fuel);
            r.ok ==> Brackets(r.lo, r.hi, RefValue(f, Some(l), v, run), CanonEnv(t2, run))
  {
    var (ex, t1) := ExprFor(f, t, Some(l), v);
    var t2 := GetMinMaxRelativeTo(f, t, l, v, fuel).1;
    var env := CanonEnv(t2, run);
    ExprForKeeps(f, t, Some(l), v);
    InductionFactsKeep(f);
    GetMinMaxKeeps(Corrected, f, InductionFacts(f), ex, Zero, Zero, t1, fuel);
    CoherentAgrees(t2, run);
    AgreesShrinks(t1, t2, env, run);
    ExprForValue(f, t, Some(l), v, env, run);
    GetMinMaxSound(InductionFacts(f), ex, t1, fuel, env);
  }

  /** The power rule: for a base whose range is positive, raising both
      ends to an integer power encloses the power, in increasing order for
      a positive exponent and in decreasing order otherwise. */
  lemma {:induction false} PowMinMaxSound(lo: Expr, hi: Expr, base: Expr, k: int, env: map<string, real>)
    requires Encloses(lo, hi, base, env) && Value(lo, env) > 0.0
    ensures var r := PowMinMax(lo, hi, Int(k));
            Encloses(r.0, r.1, Pow(base, Int(k)), env)
  {
    var a, x, b := Value(lo, env), Value(base, env), Value(hi, env);
    PowerSound(lo, k, env);
    PowerSound(hi, k, env);
    PowerClean(lo, Int(k));
    PowerClean(hi, Int(k));
    if k >= 0 {
      RealPowMono(a, x, k);
      RealPowMono(x, b, k);
    } else {
      var n: nat := -k;
      RealPowOfReciprocal(a, n);
      RealPowOfReciprocal(x, n);
      RealPowOfReciprocal(b, n);
      ReciprocalOrder(a, x);
      ReciprocalOrder(x, b);
      RealPowMono(1.0 / b, 1.0 / x, n);
      RealPowMono(1.0 / x, 1.0 / a, n);
    }
  }

  // ---------------------------------------------------------------------
  // The rules as written, against the corrected ones

  /** Two nested counted loops: `i` rises from -3 to -2 and `j` from -5
      to -4. */
  function NegativeLoops(): Induction {
    (s, t) => if s == Sym("i") then (Some(IndFacts(Int(-3), Int(-2), SLT)), t)
              else if s == Sym("j") then (Some(IndFacts(Int(-5), Int(-4), SLT)), t)
              else (None, t)
  }

  /** The point `i = -2, j = -4` is one the loops reach: both facts the
      analysis of `i * j` consults hold there. */
  lemma {:induction false} NegativeLoopsReach()
    ensures FactsHoldFor(NegativeLoops(), Mul([Sym("i"), Sym("j")]), EmptyTable, 1, map["i" := -2.0, "j" := -4.0])
  {
    var ind, env, t := NegativeLoops(), map["i" := -2.0, "j" := -4.0], EmptyTable;
    var e := Mul([Sym("i"), Sym("j")]);
    assert FactHolds(Sym("i"), ind(Sym("i"), t).0.value, env);
    assert FactHolds(Sym("j"), ind(Sym("j"), t).0.value, env);
    assert SymbolFactsHold(ind, Sym("i"), t, 1, env);
    assert SymbolFactsHold(ind, Sym("j"), t, 1, env);
    NegativeLoopRanges(Corrected);
    assert e.factors[0] == Sym("i") && e.factors[1] == Sym("j");
    assert FoldFactsHold(ind, e, 2, t, 1, env);
    assert FoldFactsHold(ind, e, 1, t, 1, env);
  }

  /** The product `i * j` reaches 8 at `i = -2, j = -4`, below the
      minimum 10 the three-corner product rule gives. */
  lemma {:induction false} MulAsWrittenMissesCorner()
    ensures var e, env := Mul([Sym("i"), Sym("j")]), map["i" := -2.0, "j" := -4.0];
            var r := GetMinMax(AsWritten, NegativeLoops(), e, Zero, Zero, EmptyTable, 1).0;
            && FactsHoldFor(NegativeLoops(), e, EmptyTable, 1, env)
            && r.ok && !Encloses(r.lo, r.hi, e, env)
  {
    NegativeLoopsReach();
    MulAsWrittenRange();
    CornerProduct();
  }

  /** The as-written analysis of `i * j` under the negative loops. */
  lemma {:induction false} MulAsWrittenRange()
    ensures GetMinMax(AsWritten, NegativeLoops(), Mul([Sym("i"), Sym("j")]), Zero, Zero, EmptyTable, 1) == (Range(true, Int(10), Int(12)), EmptyTable)
  {
    MulFoldFirst();
    MulFoldSecond();
  }

  /** The first factor `i` starts the product range at [-3, -2]. */
  lemma {:induction false} MulFoldFirst()
    ensures var e := Mul([Sym("i"), Sym("j")]);
            MulFold(AsWritten, NegativeLoops(), e, 0, Invalid, Zero, EmptyTable, 1) == MulFold(AsWritten, NegativeLoops(), e, 1, Int(-3), Int(-2), EmptyTable, 1)
  {
    NegativeLoopRanges(AsWritten);
    assert Mul([Sym("i"), Sym("j")]).factors[0] == Sym("i");
  }

  /** The second factor `j` takes the product range to [10, 12]. */
  lemma {:induction false} MulFoldSecond()
    ensures var e := Mul([Sym("i"), Sym("j")]);
            MulFold(AsWritten, NegativeLoops(), e, 1, Int(-3), Int(-2), EmptyTable, 1) == (Range(true, Int(10), Int(12)), EmptyTable)
  {
    var e := Mul([Sym("i"), Sym("j")]);
    NegativeLoopRanges(AsWritten);
    ThreeCorners();
    assert e.factors[1] == Sym("j");
    assert MulFold(AsWritten, NegativeLoops(), e, 2, Int(10), Int(12), EmptyTable, 1) == (Range(true, Int(10), Int(12)), EmptyTable);
  }

  /** `i * j` is 8 at `i = -2, j = -4`. */
  lemma {:induction false} CornerProduct()
    ensures Value(Mul([Sym("i"), Sym("j")]), map["i" := -2.0, "j" := -4.0]) == 8.0
  {
    var env := map["i" := -2.0, "j" := -4.0];
    assert ProdValue([Sym("j")], env) == -4.0;
  }

  lemma {:induction false} NegativeLoopRanges(rules: Rules)
    ensures GetMinMax(rules, NegativeLoops(), Sym("i"), Zero, Zero, EmptyTable, 1) == (Range(true, Int(-3), Int(-2)), EmptyTable)
    ensures GetMinMax(rules, NegativeLoops(), Sym("j"), Zero, Zero, EmptyTable, 1) == (Range(true, Int(-5), Int(-4)), EmptyTable)
  {
    var ind, t := NegativeLoops(), EmptyTable;
    assert GetMinMax(rules, ind, Int(-3), Zero, Zero, t, 0) == (Range(true, Int(-3), Int(-3)), t);
    assert GetMinMax(rules, ind, Int(-2), Zero, Zero, t, 0) == (Range(true, Int(-2), Int(-2)), t);
    assert GetMinMax(rules, ind, Int(-5), Zero, Zero, t, 0) == (Range(true, Int(-5), Int(-5)), t);
    assert GetMinMax(rules, ind, Int(-4), Zero, Zero, t, 0) == (Range(true, Int(-4), Int(-4)), t);
  }

  /** The three-corner rule on [-5, -4] times [-3, -2] gives [10, 12]. */
  lemma {:induction false} ThreeCorners()
    ensures MulMinMax(AsWritten, Int(-5), Int(-4), Int(-3), Int(-2)) == (Int(10), Int(12))
  {
    assert Times(Int(-5), Int(-3)) == Int(15);
    assert Times(Int(-5), Int(-2)) == Int(10);
    assert Times(Int(-3), Int(-4)) == Int(12);
    assert Times(Int(-4), Int(-3)) == Int(12);
    assert Times(Int(-4), Int(-2)) == Int(8);
    assert Times(Int(-2), Int(-5)) == Int(10);
  }

  /** At the same point the corrected product rule encloses `i * j`. */
  lemma {:induction false} MulCorrectedEncloses()
    ensures var e, env := Mul([Sym("i"), Sym("j")]), map["i" := -2.0, "j" := -4.0];
            var r := GetMinMax(Corrected, NegativeLoops(), e, Zero, Zero, EmptyTable, 1).0;
            r.ok && Encloses(r.lo, r.hi, e, env)
  {
    var e, env := Mul([Sym("i"), Sym("j")]), map["i" := -2.0, "j" := -4.0];
    var ind := NegativeLoops();
    NegativeLoopsReach();
    assert Plain(e) by { assert Plain(Sym("i")) && Plain(Sym("j")); }
    GetMinMaxSound(ind, e, EmptyTable, 1, env);
    NegativeLoopRanges(Corrected);
  }

  /** A loop in which `i` rises from 0 to 10. */
  function CountToTen(): Induction {
    (s, t) => if s == Sym("i") then (Some(IndFacts(Int(0), Int(10), SLT)), t) else (None, t)
  }

  /** `min(i, 20)` is 10 at `i = 10`, but the `min` node as written
      gives the range [0, 0]. */
  lemma {:induction false} MinAsWrittenClipsRange()
    ensures var e, env := Min(Sym("i"), Int(20)), map["i" := 10.0];
            var r := GetMinMax(AsWritten, CountToTen(), e, Zero, Zero, EmptyTable, 1).0;
            && FactsHoldFor(CountToTen(), e, EmptyTable, 1, env)
            && r.ok && !Encloses(r.lo, r.hi, e, env)
  {
    var e, env, t := Min(Sym("i"), Int(20)), map["i" := 10.0], EmptyTable;
    var ind := CountToTen();
    assert FactHolds(Sym("i"), ind(Sym("i"), t).0.value, env);
    assert SymbolFactsHold(ind, Sym("i"), t, 1, env);
    assert GetMinMax(AsWritten, ind, Sym("i"), Zero, Zero, t, 1) == (Range(true, Int(0), Int(10)), t);
    assert Value(e, env) == 10.0;
  }

  /** The corrected `min` node gives [0, 10] for `min(i, 20)`, which
      encloses it wherever the loop reaches. */
  lemma {:induction false} MinCorrectedEncloses(env: map<string, real>)
    requires FactsHoldFor(CountToTen(), Min(Sym("i"), Int(20)), EmptyTable, 1, env)
    ensures var e := Min(Sym("i"), Int(20));
            GetMinMax(Corrected, CountToTen(), e, Zero, Zero, EmptyTable, 1) == (Range(true, Int(0), Int(10)), EmptyTable)
            && Encloses(Int(0), Int(10), e, env)
  {
    var e, t := Min(Sym("i"), Int(20)), EmptyTable;
    var ind := CountToTen();
    assert GetMinMax(Corrected, ind, Sym("i"), Zero, Zero, t, 1) == (Range(true, Int(0), Int(10)), t);
    assert Plain(e) by { assert Plain(Sym("i")) && Plain(Int(20)); }
    GetMinMaxSound(ind, e, t, 1, env);
  }

  /** A loop in which `i` falls from 10 to 0. */
  function CountDown(): Induction {
    (s, t) => if s == Sym("i") then (Some(IndFacts(Int(10), Int(0), SGT)), t) else (None, t)
  }

  /** For a falling loop the rule as written gives the range [10, 0],
      which encloses no value at all; the corrected rule gives [0, 10]. */
  lemma {:induction false} FallingAsWrittenIsEmpty()
    ensures var r := GetMinMax(AsWritten, CountDown(), Sym("i"), Zero, Zero, EmptyTable, 1).0;
            r.ok && Value(r.lo, map[]) > Value(r.hi, map[])
    ensures GetMinMax(Corrected, CountDown(), Sym("i"), Zero, Zero, EmptyTable, 1).0 == Range(true, Int(0), Int(10))
  {
    var ind, t := CountDown(), EmptyTable;
    assert GetMinMax(AsWritten, ind, Int(10), Zero, Zero, t, 0) == (Range(true, Int(10), Int(10)), t);
    assert GetMinMax(AsWritten, ind, Int(0), Zero, Zero, t, 0) == (Range(true, Int(0), Int(0)), t);
    assert GetMinMax(Corrected, ind, Int(10), Zero, Zero, t, 0) == (Range(true, Int(10), Int(10)), t);
    assert GetMinMax(Corrected, ind, Int(0), Zero, Zero, t, 0) == (Range(true, Int(0), Int(0)), t);
  }

  // ---------------------------------------------------------------------
  // Real arithmetic

  /** Multiplying by `k` keeps or reverses the order of a range. */
  lemma {:induction false} ScaleBetween(x: real, a: real, b: real, k: real)
    requires a <= x <= b
    ensures k > 0.0 ==> a * k <= x * k <= b * k
    ensures k <= 0.0 ==> b * k <= x * k <= a * k
    ensures RealMin(a * k, b * k) <= x * k <= RealMax(a * k, b * k)
  {
    assert (x - a) * k == x * k - a * k;
    assert (b - x) * k == b * k - x * k;
    ProductSign(x - a, k);
    ProductSign(b - x, k);
  }

  /** A non-negative amount scaled by `k` has the sign of `k`. */
  lemma {:induction false} ProductSign(u: real, k: real)
    requires u >= 0.0
    ensures k > 0.0 ==> u * k >= 0.0
    ensures k <= 0.0 ==> u * k <= 0.0
  {
  }

  lemma {:induction false} ScaleOrder(x: real, a: real, b: real, k: real, w: real, pa: real, pb: real)
    requires a <= x <= b
    requires IsProduct(w, x, k) && IsProduct(pa, a, k) && IsProduct(pb, b, k)
    ensures k > 0.0 ==> pa <= w <= pb
    ensures k <= 0.0 ==> pb <= w <= pa
  {
    ScaleBetween(x, a, b, k);
  }

  lemma {:induction false} ScaleOrder'(y: real, c: real, d: real, k: real, w: real, pc: real, pd: real)
    requires c <= y <= d
    requires IsProduct(w, k, y) && IsProduct(pc, k, c) && IsProduct(pd, k, d)
    ensures k > 0.0 ==> pc <= w <= pd
    ensures k <= 0.0 ==> pd <= w <= pc
  {
    ScaleBetween(y, c, d, k);
  }

  /** A product over a box lies between the extreme products of its
      corners. */
  lemma {:induction false} CornerOrder(a: real, b: real, c: real, d: real, x: real, y: real, w: real,
                    ac: real, ad: real, cb: real, bc: real, bd: real, da: real)
    requires a <= x <= b && c <= y <= d
    requires IsProduct(w, x, y) && IsProduct(ac, a, c) && IsProduct(ad, a, d) && IsProduct(cb, c, b)
    requires IsProduct(bc, b, c) && IsProduct(bd, b, d) && IsProduct(da, d, a)
    ensures RealMin(RealMin(RealMin(ac, ad), cb), bd) <= w
    ensures w <= RealMax(RealMax(RealMax(bc, bd), da), ac)
  {
    var ay, yb := a * y, b * y;
    ScaleBetween(x, a, b, y);
    assert RealMin(ay, yb) <= w <= RealMax(ay, yb);
    ScaleBetween(y, c, d, a);
    ScaleBetween(y, c, d, b);
  }

  /** Powers of positive numbers keep their order. */
  lemma {:induction false} RealPowMono(a: real, b: real, n: nat)
    requires 0.0 < a <= b
    ensures 0.0 < RealPow(a, n) <= RealPow(b, n)
  {
    if n > 0 {
      var m: nat := n - 1;
      var c, d := RealPow(a, m), RealPow(b, m);
      RealPowMono(a, b, m);
      ProductMono(a, b, c, d);
      assert RealPow(a, n) == a * c;
      assert RealPow(b, n) == b * d;
    } else {
      assert RealPow(a, 0) == 1.0 && RealPow(b, 0) == 1.0;
    }
  }

  lemma {:induction false} ProductMono(a: real, b: real, c: real, d: real)
    requires 0.0 < a <= b && 0.0 < c <= d
    ensures 0.0 < a * c <= b * d
  {
    ScaleBetween(a, a, b, c);
    ScaleBetween(c, c, d, b);
    assert a * c > 0.0;
  }

  /** Reciprocals of positive numbers reverse their order. */
  lemma {:induction false} ReciprocalOrder(a: real, b: real)
    requires 0.0 < a <= b
    ensures 0.0 < 1.0 / b <= 1.0 / a
  {
    assert 1.0 / b == (1.0 / a) * (a / b);
    assert a / b <= 1.0;
  }
}

=== FILE: runtime.dfy ===
/** The runtime library the inserted hooks call: the page range of an
    array slice, the decision whether to migrate it, the region handed to
    the memory-binding call, the round-robin choice of a NUMA node for each
    new thread, and the cache size read from the machine topology at
    start-up. The topology, the binding calls and the lock are outside the
    model; their inputs and outputs are parameters. */
module Runtime {
  import opened Wrappers
  import opened Arith

  /** Pages are 2^12 bytes (`1 << PAGE_EXP`). */
  const PAGE_EXP: nat := 12
  const PAGE_SIZE: int := 4096

  /** The reuse threshold (`REUSE_CTE`, 200 unless overridden at build
      time) and the fraction of the cache a slice must exceed. */
  const REUSE_CONSTANT: real := 200.0
  const CACHE_CONSTANT: real := 0.2

  /** The range used as the divisor when the slice is empty or reversed. */
  const FALLBACK_RANGE: int := 100000

  // ---------------------------------------------------------------------
  // Pages

  /** The page number of an address: `long` division by the page size,
      rounding toward zero. */
  function PageOf(addr: int): (p: int)
    ensures addr >= 0 ==> p >= 0 && p * PAGE_SIZE <= addr < p * PAGE_SIZE + PAGE_SIZE
    ensures addr < 0 ==> p <= 0 && p * PAGE_SIZE - PAGE_SIZE < addr <= p * PAGE_SIZE
  {
    var p := TruncDiv(addr, PAGE_SIZE);
    if addr >= 0 then
      assert p == addr / PAGE_SIZE;
      p
    else
      assert -p == (-addr) / PAGE_SIZE;
      p
  }

  /** The first and the last page of `Ary[Start..End]`. */
  datatype Pages = Pages(first: int, last: int)

  function PagesOf(ary: int, start: int, end: int): (r: Pages)
    ensures ary + start >= 0 ==> r.first * PAGE_SIZE <= ary + start < r.first * PAGE_SIZE + PAGE_SIZE
    ensures ary + end >= 0 ==> r.last * PAGE_SIZE <= ary + end < r.last * PAGE_SIZE + PAGE_SIZE
  {
    Pages(PageOf(ary + start), PageOf(ary + end))
  }

  /** Page numbers are monotonic in the address. */
  lemma {:induction false} PageOfMonotonic(a: int, b: int)
    requires 0 <= a <= b
    ensures PageOf(a) <= PageOf(b)
  {
  }

  // ---------------------------------------------------------------------
  // The heuristic

  /** `__spm_get`'s test, in exact arithmetic: the slice is larger than a
      fifth of the cache, and its reuse per byte (the divisor falls back to
      100000 for an empty or reversed slice) exceeds the reuse constant. */
  function Migrates(cache: nat, start: int, end: int, reuse: int): (b: bool)
    ensures b ==> end > start
  {
    var range := end - start;
    var divisor := if range > 0 then range else FALLBACK_RANGE;
    && (range as real) > CACHE_CONSTANT * (cache as real)
    && (reuse as real) / (divisor as real) > REUSE_CONSTANT
  }

  /** The test in integers: five slices exceed the cache and the reuse
      exceeds 200 times the slice. The fallback divisor never decides,
      because the first conjunct already demands a positive slice. */
  lemma {:induction false} MigratesExactly(cache: nat, start: int, end: int, reuse: int)
    ensures Migrates(cache, start, end, reuse) <==>
      5 * (end - start) > cache && reuse > 200 * (end - start)
  {
    var range := end - start;
    if range > 0 {
      var q := (reuse as real) / (range as real);
      assert (reuse as real) == q * (range as real);
      assert q > REUSE_CONSTANT <==> (reuse as real) > REUSE_CONSTANT * (range as real) by {
        RealScale(q, REUSE_CONSTANT, range as real);
      }
    }
  }

  /** `a > b` is kept by scaling with a positive factor, both ways. */
  lemma {:induction false} RealScale(a: real, b: real, c: real)
    requires c > 0.0
    ensures a > b <==> a * c > b * c
  {
    if a > b {
      assert (a - b) * c > 0.0;
    } else {
      assert (b - a) * c >= 0.0;
    }
  }

  /** An empty or reversed slice never migrates, whatever its reuse. */
  lemma {:induction false} NonPositiveRangeNeverMigrates(cache: nat, start: int, end: int, reuse: int)
    requires end <= start
    ensures !Migrates(cache, start, end, reuse)
  {
  }

  /** A cache of a million bytes and a slice of 300000 bytes: a reuse of
      70 million migrates, a reuse of 10 million does not. */
  lemma {:induction false} HeuristicExample()
    ensures Migrates(1000000, 0, 300000, 70000000)
    ensures !Migrates(1000000, 0, 300000, 10000000)
  {
    MigratesExactly(1000000, 0, 300000, 70000000);
    MigratesExactly(1000000, 0, 300000, 10000000);
  }

  // ---------------------------------------------------------------------
  // The region bound to the running thread's node

  /** A memory area: its first byte and its length in bytes. */
  datatype Region = Region(base: int, length: int)

  predicate InRegion(a: int, r: Region) {
    r.base <= a < r.base + r.length
  }

  /** `migrate` as written: the area starts at the first page and is
      `PageEnd - PageStart` pages long, so the last page is not part of it. */
  function MigrateAsWritten(pageStart: int, pageEnd: int): (r: Region)
    ensures r.base + r.length == pageEnd * PAGE_SIZE
  {
    Region(pageStart * PAGE_SIZE, (pageEnd - pageStart) * PAGE_SIZE)
  }

  /** The area of the pages from the first through the last. */
  function Migrate(pageStart: int, pageEnd: int): (r: Region)
    ensures r.base + r.length == pageEnd * PAGE_SIZE + PAGE_SIZE
  {
    Region(pageStart * PAGE_SIZE, (pageEnd - pageStart + 1) * PAGE_SIZE)
  }

  /** As written, the byte at `Ary + End` is never bound: it lies on the
      last page, which the area stops short of. A slice within one page
      binds nothing at all. */
  lemma {:induction false} AsWrittenMissesLastPage(ary: int, start: int, end: int)
    requires 0 <= ary + start <= ary + end
    ensures !InRegion(ary + end, MigrateAsWritten(PagesOf(ary, start, end).first, PagesOf(ary, start, end).last))
    ensures PageOf(ary + start) == PageOf(ary + end) ==>
      MigrateAsWritten(PagesOf(ary, start, end).first, PagesOf(ary, start, end).last).length == 0
  {
  }

  /** With the last page included, every byte from `Ary + Start` through
      `Ary + End` is bound, and the area is whole pages. */
  lemma {:induction false} MigrateCoversSlice(ary: int, start: int, end: int, a: int)
    requires 0 <= ary + start <= a <= ary + end
    ensures InRegion(a, Migrate(PagesOf(ary, start, end).first, PagesOf(ary, start, end).last))
    ensures Migrate(PagesOf(ary, start, end).first, PagesOf(ary, start, end).last).base % PAGE_SIZE == 0
  {
    var ps := PagesOf(ary, start, end);
    PageOfMonotonic(ary + start, ary + end);
    assert (ps.first * PAGE_SIZE) % PAGE_SIZE == 0;
  }

  /** `__spm_get`: the area to bind to the calling thread's node, if any. */
  function Get(cache: nat, ary: int, start: int, end: int, reuse: int): (r: Option<Region>)
    ensures r.Some? <==> Migrates(cache, start, end, reuse)
    ensures r.Some? && 0 <= ary + start ==>
      forall a :: ary + start <= a <= ary + end ==> InRegion(a, r.value)
  {
    if Migrates(cache, start, end, reuse) then
      var ps := PagesOf(ary, start, end);
      var r := Migrate(ps.first, ps.last);
      assert forall a :: 0 <= ary + start <= a <= ary + end ==> InRegion(a, r) by {
        forall a | 0 <= ary + start <= a <= ary + end {
          MigrateCoversSlice(ary, start, end, a);
        }
      }
      Some(r)
    else None
  }

  /** The smallest slice the as-written area drops entirely: the array at
      address 0, offsets 0 through 4095. */
  lemma {:induction false} SinglePageBindsNothing()
    ensures MigrateAsWritten(PageOf(0), PageOf(4095)).length == 0
    ensures Migrate(PageOf(0), PageOf(4095)) == Region(0, PAGE_SIZE)
  {
  }

  // ---------------------------------------------------------------------
  // The round-robin node cursor

  /** The node chosen last (initially -1) and the number of NUMA nodes. */
  datatype Cursor = Cursor(current: int, nodes: nat)

  function Init(nodes: nat): Cursor {
    Cursor(-1, nodes)
  }

  predicate CursorOk(c: Cursor) {
    -1 <= c.current < c.nodes
  }

  /** `__spm_thread_lock`: advance the cursor and return the node to bind
      the thread to; a machine without nodes divides by zero. */
  function Lock(c: Cursor): (r: Option<(Cursor, nat)>)
    requires CursorOk(c)
    ensures r.None? <==> c.nodes == 0
    ensures r.Some? ==> CursorOk(r.value.0) && r.value.0.nodes == c.nodes
    ensures r.Some? ==> r.value.1 == r.value.0.current
    ensures r.Some? && c.current + 1 < c.nodes ==> r.value.1 == c.current + 1
    ensures r.Some? && c.current + 1 == c.nodes ==> r.value.1 == 0
  {
    if c.nodes == 0 then None
    else
      var k := (c.current + 1) % c.nodes;
      Some((Cursor(k, c.nodes), k))
  }

  /** The nodes chosen by `count` locks from a fresh cursor. */
  method Locks(nodes: nat, count: nat) returns (picks: Option<seq<nat>>)
    ensures picks.None? <==> nodes == 0 && count > 0
    ensures picks.Some? ==> |picks.value| == count
    ensures picks.Some? ==> forall j :: 0 <= j < count ==> picks.value[j] == j % nodes
  {
    var c := Init(nodes);
    var out: seq<nat> := [];
    var j := 0;
    while j < count
      invariant 0 <= j <= count && |out| == j
      invariant CursorOk(c) && c.nodes == nodes
      invariant j > 0 ==> nodes > 0 && c.current == (j - 1) % nodes
      invariant j == 0 ==> c.current == -1
      invariant forall i :: 0 <= i < j ==> out[i] == i % nodes
    {
      var r := Lock(c);
      if r.None? {
        return None;
      }
      c := r.value.0;
      out := out + [r.value.1];
      NextModulo(j, nodes);
      j := j + 1;
    }
    return Some(out);
  }

  /** One step of the cursor is one step modulo the node count. */
  lemma {:induction false} NextModulo(j: nat, n: nat)
    requires n > 0
    ensures j > 0 ==> ((j - 1) % n + 1) % n == j % n
    ensures (j - 1 + 1) % n == j % n
  {
    if j > 0 {
      var q, r := (j - 1) / n, (j - 1) % n;
      assert j == n * q + (r + 1);
      if r + 1 < n {
        ModUnique(j, n, q, r + 1);
        ModUnique(r + 1, n, 0, r + 1);
      } else {
        assert j == n * (q + 1) + 0;
        ModUnique(j, n, q + 1, 0);
        ModUnique(r + 1, n, 1, 0);
      }
    }
  }

  /** Any `n` consecutive locks visit every one of the `n` nodes exactly
      once, in order. */
  lemma {:induction false} RoundRobinCovers(s: nat, n: nat, node: nat)
    requires node < n
    ensures exists j :: s <= j < s + n && j % n == node
  {
    var r := s % n;
    var j := if node >= r then s + (node - r) else s + (n - r) + node;
    assert s == n * (s / n) + r;
    if node >= r {
      ModUnique(j, n, s / n, node);
    } else {
      ModUnique(j, n, s / n + 1, node);
    }
  }

  lemma {:induction false} RoundRobinDistinct(s: nat, n: nat, a: nat, b: nat)
    requires s <= a < b < s + n
    ensures a % n != b % n
  {
    if a % n == b % n {
      var qa, qb := a / n, b / n;
      assert a == n * qa + a % n && b == n * qb + b % n;
      assert b - a == n * (qb - qa);
      if qb - qa > 0 {
        MulAtLeast(n, qb - qa);
      }
    }
  }

  // ---------------------------------------------------------------------
  // The cache size

  datatype ObjType = PU | Cache | OtherObj

  /** A topology object: its type, its cache size (when it is a cache) and
      its parent, which comes earlier in the list. */
  datatype Obj = Obj(ty: ObjType, size: nat, parent: Option<nat>)

  predicate TopologyOk(topo: seq<Obj>) {
    forall i :: 0 <= i < |topo| && topo[i].parent.Some? ==> topo[i].parent.value < i
  }

  /** The objects from `o` up to the root. */
  function Ancestors(topo: seq<Obj>, o: nat): (r: seq<nat>)
    requires TopologyOk(topo) && o < |topo|
    ensures |r| > 0 && r[0] == o
    ensures forall k :: 0 <= k < |r| ==> r[k] < |topo|
    ensures topo[r[|r| - 1]].parent.None?
    decreases o
  {
    match topo[o].parent
    case None => [o]
    case Some(p) => [o] + Ancestors(topo, p)
  }

  /** The summed sizes of the caches among `objs`. */
  function CacheSum(topo: seq<Obj>, objs: seq<nat>): nat
    requires forall k :: 0 <= k < |objs| ==> objs[k] < |topo|
  {
    if |objs| == 0 then 0
    else (if topo[objs[0]].ty == Cache then topo[objs[0]].size else 0) + CacheSum(topo, objs[1..])
  }

  /** The first processing unit, if the topology has one. */
  function FirstPU(topo: seq<Obj>): (r: Option<nat>)
    ensures r.Some? ==> r.value < |topo| && topo[r.value].ty == PU
    ensures r.Some? ==> forall i :: 0 <= i < r.value ==> topo[i].ty != PU
    ensures r.None? ==> forall i :: 0 <= i < |topo| ==> topo[i].ty != PU
  {
    if |topo| == 0 then None
    else if topo[0].ty == PU then Some(0)
    else
      match FirstPU(topo[1..])
      case None => None
      case Some(i) => Some(i + 1)
  }

  /** The start-up walk of `__spm_init`: from processing unit 0 up the
      parent chain, adding the size of every cache met. */
  method CacheSize(topo: seq<Obj>) returns (total: nat)
    requires TopologyOk(topo)
    ensures FirstPU(topo).None? ==> total == 0
    ensures FirstPU(topo).Some? ==> total == CacheSum(topo, Ancestors(topo, FirstPU(topo).value))
  {
    total := 0;
    var pu := FirstPU(topo);
    if pu.None? {
      return;
    }
    var o: Option<nat> := pu;
    while o.Some?
      invariant o.Some? ==> o.value < |topo|
      invariant o.Some? ==> total + CacheSum(topo, Ancestors(topo, o.value)) == CacheSum(topo, Ancestors(topo, pu.value))
      invariant o.None? ==> total == CacheSum(topo, Ancestors(topo, pu.value))
      decreases if o.Some? then o.value + 1 else 0
    {
      var x := topo[o.value];
      if x.ty == Cache {
        total := total + x.size;
      }
      o := x.parent;
    }
  }

  /** Every cache above processing unit 0 counts toward the total. */
  lemma {:induction false} CacheCounted(topo: seq<Obj>, o: nat, k: nat)
    requires TopologyOk(topo) && o < |topo|
    requires k < |Ancestors(topo, o)| && topo[Ancestors(topo, o)[k]].ty == Cache
    ensures topo[Ancestors(topo, o)[k]].size <= CacheSum(topo, Ancestors(topo, o))
    decreases o
  {
    var chain := Ancestors(topo, o);
    if k > 0 {
      var p := topo[o].parent.value;
      assert chain[1..] == Ancestors(topo, p);
      CacheCounted(topo, p, k - 1);
    }
  }
}

=== FILE: sample_loop.dfy ===
/** A concrete loop the pass handles end to end:

      void f(long n, char *a) { for (long i = 0; i < n; i++) x = a[i]; }

    in the IR of `Ir`, with block 0 the entry (and the loop's preheader)
    and block 1 the loop. The access `a[i]` is reduced to the array `a`
    and the subscript `i`, the loop counts `n` iterations, the range of
    `i` is `[0, n - 1]`, and the pass keeps a record for the preheader
    whose minimum, maximum and reuse are `0`, `n - 1` and `n`. On every
    run that enters the loop with `0 <= i < n`, the run fits
    (`CallSites.RunFits`), so `CallSites.KeptRecordBrackets` applies and
    the record brackets the byte the access reads. The walk of
    `runOnFunction` handles the loop block once and ends with that one
    record.

    The lemmas evaluate the pass one stage at a time. Those that look at
    the function take any `f` of the sample's shape, which keeps the
    literal out of the solver's way; the stages are then chained on the
    facts alone. */
module SampleLoop {
  import opened Wrappers
  import opened Exprs
  import opened Ir
  import opened SymbolTable
  import opened LoopInfo
  import opened Lowering
  import opened ReduceIndexation
  import opened RelativeExecutions
  import opened CallSites
  import RelativeMinMax
  import Placement

  // ---------------------------------------------------------------------
  // The function

  /** Values 0 and 1 are the arguments `n` and `a`, 2 and 3 the constants
      0 and 1; the loop block holds the phi `i` (4), the address `&a[i]`
      (5), the load (6), `i + 1` (7), the exit test `i < n` (8) and the
      branch (9); 10 is the entry's jump. */
  function Sample(): Function {
    Function(
      [ SsaValue("n", Scalar(8), Argument, 0),
        SsaValue("a", Ptr(Scalar(1)), Argument, 0),
        SsaValue("", Scalar(8), ConstInt(0), 0),
        SsaValue("", Scalar(8), ConstInt(1), 0),
        SsaValue("i", Scalar(8), Phi([(0, 2), (1, 7)]), 1),
        SsaValue("p", Ptr(Scalar(1)), Gep(1, [4]), 1),
        SsaValue("x", Scalar(1), Load(5), 1),
        SsaValue("inc", Scalar(8), Binary(BAdd, 4, 3), 1),
        SsaValue("c", Scalar(1), ICmp(SLT, 4, 0), 1),
        SsaValue("", Scalar(1), CondBr(8), 1),
        SsaValue("", Scalar(1), Jump, 0) ],
      [ Loop(1, [1], None, Some(0), Some(1), [1], 1, 2) ],
      map[0 := 10, 1 := 9], {(0, 1)}, map[1 := 0], [1, 0])
  }

  /** A function of the sample's shape: the same values, loop, blocks and
      dominance. */
  predicate Shaped(f: Function) {
    && |f.values| == 11
    && f.values[0] == SsaValue("n", Scalar(8), Argument, 0)
    && f.values[1] == SsaValue("a", Ptr(Scalar(1)), Argument, 0)
    && f.values[2] == SsaValue("", Scalar(8), ConstInt(0), 0)
    && f.values[3] == SsaValue("", Scalar(8), ConstInt(1), 0)
    && f.values[4] == SsaValue("i", Scalar(8), Phi([(0, 2), (1, 7)]), 1)
    && f.values[5] == SsaValue("p", Ptr(Scalar(1)), Gep(1, [4]), 1)
    && f.values[6] == SsaValue("x", Scalar(1), Load(5), 1)
    && f.values[7] == SsaValue("inc", Scalar(8), Binary(BAdd, 4, 3), 1)
    && f.values[8] == SsaValue("c", Scalar(1), ICmp(SLT, 4, 0), 1)
    && f.values[9] == SsaValue("", Scalar(1), CondBr(8), 1)
    && f.values[10] == SsaValue("", Scalar(1), Jump, 0)
    && f.loops == [Loop(1, [1], None, Some(0), Some(1), [1], 1, 2)]
    && f.terminator == map[0 := 10, 1 := 9]
    && f.dom == {(0, 1)}
    && f.loopFor == map[1 := 0]
    && f.domPostorder == [1, 0]
  }

  lemma {:induction false} SampleWellFormed()
    ensures WellFormed(Sample())
  {
  }

  lemma {:induction false} SampleShaped()
    ensures Shaped(Sample())
  {
  }

  /** `Shaped` pins down every part of a function: it holds of the sample
      and of nothing else. */
  lemma {:induction false} ShapedIsSample(f: Function)
    requires Shaped(f)
    ensures f == Sample()
  {
    assert f.values == Sample().values;
  }

  // ---------------------------------------------------------------------
  // What the pass computes

  /** The tables after the access is reduced (`i` named `i.0`), and after
      the loop is analysed (`n` named `n.1`). */
  const T1: Table := Table(map[4 := Sym("i.0")], map[4 := 0], map["i.0" := 4], 1)
  const T2: Table := Table(map[4 := Sym("i.0"), 0 := Sym("n.1")], map[4 := 0, 0 := 1], map["i.0" := 4, "n.1" := 0], 2)

  /** `n - 1`, the last value of `i`. */
  const Last: Expr := Add([Sym("n.1"), Int(-1)])

  /** The loop's one level: `i` from 0 to `n - 1` by 1. */
  const Lv: Level := Level(0, Sym("i.0"), Int(0), Last, Int(1), Int(1))

  /** A bridge that sums unit steps: the sum of 1 over `i` from `a` to `b`
      is `b - a + 1`. */
  const Alg: Algebra := Algebra(
    (e: Expr) => true,
    (e: Expr) => if e == Int(1) then Some(Int(1)) else None,
    (a: Expr, b: Expr) => Times(a, b),
    (w: Expr, i: Expr, a: Expr, b: Expr) => if w == Int(1) then Plus(Minus(b, a), Int(1)) else Invalid,
    (e: Expr) => e)

  const Cfg: Config := Config(Alg, 1)

  /** The record: minimum 0, maximum `n - 1`, reuse `n` bytes. */
  const Rec: Record := Record(0, 1, Const(0), AddI(Val(0), Const(-1)), Val(0))

  // ---------------------------------------------------------------------
  // The reduction of `a[i]`

  lemma {:induction false} IndexNamed(f: Function)
    requires WellFormed(f) && Shaped(f)
    ensures FullName(f, 4, 0) == "i.0"
  {
    assert Decimal.NatToString(0) == "0";
  }

  lemma {:induction false} IndexInterned(f: Function)
    requires WellFormed(f) && Shaped(f)
    ensures Intern(f, EmptyTable, 4) == (Sym("i.0"), T1)
  {
    IndexNamed(f);
  }

  /** Adding zero to a symbol, or scaling it by one, gives the symbol. */
  lemma {:induction false} UnitsVanish(x: string)
    ensures Times(Sym(x), Int(1)) == Sym(x)
    ensures Plus(Zero, Sym(x)) == Sym(x)
  {
    assert Terms(Zero) == [] && Terms(Sym(x)) == [Sym(x)];
    assert Terms(Zero) + Terms(Sym(x)) == [Sym(x)];
    assert Constants([Sym(x)]) == [] && NonConstants([Sym(x)]) == [Sym(x)];
  }

  lemma {:induction false} IndexWalked(f: Function)
    requires WellFormed(f) && Shaped(f)
    ensures IndexWalk(f, EmptyTable, Ptr(Scalar(1)), [4], Zero) == (WalkOk(Sym("i.0")), T1)
  {
    IndexInterned(f);
    UnitsVanish("i.0");
    IndexOutside(f);
  }

  lemma {:induction false} IndexOutside(f: Function)
    requires WellFormed(f) && Shaped(f)
    ensures ExprFor(f, EmptyTable, None, 4) == (Sym("i.0"), T1)
  {
    IndexInterned(f);
  }

  /** The load reads `a` at subscript `i`, one byte wide. */
  lemma {:induction false} LoadReduced(f: Function)
    requires WellFormed(f) && Shaped(f)
    ensures IsAccess(f.values[6].kind)
    ensures Reduce(f, EmptyTable, 6) == (Reduced(1, Sym("i.0")), 1, T1)
  {
    IndexWalked(f);
    assert ReduceMemoryOp(f, EmptyTable, 1, Zero) == (Reduced(1, Zero), EmptyTable);
    assert ReduceLoad(f, EmptyTable, 6) == (Reduced(1, Sym("i.0")), T1);
  }

  // ---------------------------------------------------------------------
  // The loop's bounds

  lemma {:induction false} BoundNamed(f: Function)
    requires WellFormed(f) && Shaped(f)
    ensures ExprFor(f, T1, Some(0), 0) == (Sym("n.1"), T2)
  {
    assert Decimal.NatToString(1) == "1";
    assert FullName(f, 0, 1) == "n.1";
  }

  lemma {:induction false} ExitTest(f: Function)
    requires WellFormed(f) && Shaped(f)
    ensures BranchCompare(f, 1) == Some(Compare(SLT, 4, 0))
    ensures Toplevel(f, 0) == 0
  {
  }

  lemma {:induction false} IndexScoped(f: Function)
    requires WellFormed(f) && Shaped(f)
    ensures ExprFor(f, T1, Some(0), 4) == (Sym("i.0"), T1)
    ensures ExprFor(f, T2, Some(0), 0) == (Sym("n.1"), T2)
  {
    IndexInScope(f);
    BoundInScope(f);
  }

  lemma {:induction false} IndexInScope(f: Function)
    requires WellFormed(f) && Shaped(f)
    ensures ExprFor(f, T1, Some(0), 4) == (Sym("i.0"), T1)
  {
    assert IsAtom(f, Some(0), 4);
    assert 4 in T1.exprs && T1.exprs[4] == Sym("i.0");
  }

  lemma {:induction false} BoundInScope(f: Function)
    requires WellFormed(f) && Shaped(f)
    ensures ExprFor(f, T2, Some(0), 0) == (Sym("n.1"), T2)
  {
    assert IsAtom(f, Some(0), 0);
    assert 0 in T2.exprs && T2.exprs[0] == Sym("n.1");
  }

  lemma {:induction false} SidesChosen(f: Function)
    requires WellFormed(f) && Shaped(f)
    ensures ChooseSides(f, T2, 0, Sym("i.0"), Sym("n.1")) == Some(Sides(Sym("i.0"), Sym("n.1")))
  {
    IndexVaries(f);
    BoundInvariant(f);
  }

  lemma {:induction false} IndexVaries(f: Function)
    requires WellFormed(f) && Shaped(f)
    ensures !ExprInvariant(f, T2, 0, Sym("i.0"))
  {
    assert Symbols(Sym("i.0")) == [Sym("i.0")];
    assert ValueOfSymbol(f, T2, Sym("i.0")) == Some(4);
    assert SymbolVariant(f, T2, 0, Sym("i.0"));
  }

  lemma {:induction false} BoundInvariant(f: Function)
    requires WellFormed(f) && Shaped(f)
    ensures ExprInvariant(f, T2, 0, Sym("n.1"))
  {
    assert Symbols(Sym("n.1")) == [Sym("n.1")];
    assert ValueOfSymbol(f, T2, Sym("n.1")) == Some(0);
    assert !SymbolVariant(f, T2, 0, Sym("n.1"));
  }

  lemma {:induction false} PhiFound(f: Function)
    requires WellFormed(f) && Shaped(f)
    ensures SingleVariantPhi(f, T2, 0, Sym("i.0")) == Some(4)
    ensures VariantPhi(f, 0, 4)
  {
    assert Symbols(Sym("i.0")) == [Sym("i.0")];
    assert SymbolVariant(f, T2, 0, Sym("i.0"));
    assert VariantOccurrences(f, T2, 0, [Sym("i.0")]) == [4];
    SingleVariantPhiSpec(f, T2, 0, Sym("i.0"));
  }

  lemma {:induction false} PhiIncoming(f: Function)
    requires WellFormed(f) && Shaped(f)
    ensures Incoming(f, 4, 0) == Some(2) && Incoming(f, 4, 1) == Some(7)
    ensures Invariant(f, 0, 2) && !Invariant(f, 0, 7)
  {
  }

  lemma {:induction false} PhiStart(f: Function)
    requires WellFormed(f) && Shaped(f)
    ensures ExprFor(f, T2, Some(0), 2) == (Int(0), T2)
    ensures Intern(f, T2, 4) == (Sym("i.0"), T2)
  {
  }

  lemma {:induction false} OnePlus()
    ensures Plus(Sym("i.0"), Int(1)) == Add([Sym("i.0"), Int(1)])
  {
    assert Terms(Sym("i.0")) + Terms(Int(1)) == [Sym("i.0"), Int(1)];
    assert [Sym("i.0"), Int(1)][1..] == [Int(1)];
    assert [Int(1)][1..] == [];
    assert NumAdd(Int(1), Int(0)) == Int(1);
    assert Constants([Sym("i.0"), Int(1)]) == [Int(1)];
    assert NonConstants([Sym("i.0"), Int(1)]) == [Sym("i.0")];
  }

  lemma {:induction false} LatchOperands(f: Function)
    requires WellFormed(f) && Shaped(f)
    ensures ExprFor(f, T2, Some(0), 3) == (Int(1), T2)
    ensures !IsAtom(f, Some(0), 7) && f.values[7].kind == Binary(BAdd, 4, 3)
  {
  }

  lemma {:induction false} PhiScoped(f: Function)
    requires WellFormed(f) && Shaped(f)
    ensures ExprFor(f, T2, Some(0), 4) == (Sym("i.0"), T2)
  {
  }

  /** The value from the latch is `i + 1`. */
  lemma {:induction false} LatchValue(f: Function)
    requires WellFormed(f) && Shaped(f)
    ensures ExprFor(f, T2, Some(0), 7) == (Add([Sym("i.0"), Int(1)]), T2)
  {
    OnePlus();
    LatchOperands(f);
    PhiScoped(f);
  }

  lemma {:induction false} StepAndLast()
    ensures MatchStep(Add([Sym("i.0"), Int(1)]), Sym("i.0")) == Some(Int(1))
    ensures EndBound(SLT, Sym("n.1")) == Last
  {
    StepMatched();
    LastBound();
  }

  lemma {:induction false} StepMatched()
    ensures MatchStep(Add([Sym("i.0"), Int(1)]), Sym("i.0")) == Some(Int(1))
  {
    assert IndexOf([Sym("i.0"), Int(1)], Sym("i.0")) == 0;
    assert [Sym("i.0"), Int(1)][..0] + [Sym("i.0"), Int(1)][1..] == [Int(1)];
    assert MkAdd([Int(1)]) == Int(1);
  }

  lemma {:induction false} LastBound()
    ensures EndBound(SLT, Sym("n.1")) == Last
  {
    assert Neg(Int(1)) == Int(-1);
    assert Terms(Sym("n.1")) + Terms(Int(-1)) == [Sym("n.1"), Int(-1)];
  }

  /** The recurrence from the facts found on the way. */
  lemma {:induction false} RecurrenceOf(f: Function)
    requires WellFormed(f) && 0 < |f.loops| && 7 < |f.values| && VariantPhi(f, 0, 4)
    requires f.loops[0].preheader == Some(0) && f.loops[0].latch == Some(1)
    requires Incoming(f, 4, 0) == Some(2) && Incoming(f, 4, 1) == Some(7)
    requires Invariant(f, 0, 2) && !Invariant(f, 0, 7)
    requires ExprFor(f, T2, Some(0), 2) == (Int(0), T2) && Intern(f, T2, 4) == (Sym("i.0"), T2)
    requires ExprFor(f, T2, Some(0), 7) == (Add([Sym("i.0"), Int(1)]), T2)
    ensures Recurrence(f, T2, 0, 0, 4, SLT, Sym("n.1")) == (Some(Bounds(4, Int(0), Last, Int(1))), T2)
  {
    StepAndLast();
  }

  lemma {:induction false} SampleRecurrence(f: Function)
    requires WellFormed(f) && Shaped(f)
    ensures VariantPhi(f, 0, 4)
    ensures Recurrence(f, T2, 0, 0, 4, SLT, Sym("n.1")) == (Some(Bounds(4, Int(0), Last, Int(1))), T2)
  {
    PhiFound(f);
    PhiIncoming(f);
    PhiStart(f);
    LatchValue(f);
    RecurrenceOf(f);
  }

  /** `getLoopInfo` from the facts found on the way, on tables `t` where
      `i` is named already. */
  lemma {:induction false} LoopInfoOf(f: Function, t: Table)
    requires WellFormed(f) && 0 < |f.loops| && 4 < |f.values|
    requires f.loops[0].exiting == [1] && BranchCompare(f, 1) == Some(Compare(SLT, 4, 0)) && Toplevel(f, 0) == 0
    requires ExprFor(f, t, Some(0), 4) == (Sym("i.0"), t) && ExprFor(f, t, Some(0), 0) == (Sym("n.1"), T2)
    requires ChooseSides(f, T2, 0, Sym("i.0"), Sym("n.1")) == Some(Sides(Sym("i.0"), Sym("n.1")))
    requires SingleVariantPhi(f, T2, 0, Sym("i.0")) == Some(4) && VariantPhi(f, 0, 4)
    requires Recurrence(f, T2, 0, 0, 4, SLT, Sym("n.1")) == (Some(Bounds(4, Int(0), Last, Int(1))), T2)
    ensures GetLoopInfo(f, t, 0) == (Some(Bounds(4, Int(0), Last, Int(1))), T2)
  {
    InfoFromPhi(f, t, 0, Compare(SLT, 4, 0), 0, Sym("i.0"), t, Sym("n.1"), T2, Sides(Sym("i.0"), Sym("n.1")), 4);
  }

  /** `getLoopInfo` reaches the recurrence once the exit test, its two
      sides and the phi are found. */
  lemma {:induction false} InfoFromPhi(f: Function, t: Table, l: LoopId, cmp: Compare, top: LoopId,
                                       lhs: Expr, t1: Table, rhs: Expr, t2: Table, sides: Sides, phi: ValueId)
    requires WellFormed(f) && l < |f.loops| && |f.loops[l].exiting| > 0
    requires BranchCompare(f, f.loops[l].exiting[0]) == Some(cmp) && Accepted(cmp.pred) && Toplevel(f, l) == top
    requires ExprFor(f, t, Some(top), cmp.left) == (lhs, t1) && ExprFor(f, t1, Some(top), cmp.right) == (rhs, t2)
    requires lhs.IsValid() && rhs.IsValid()
    requires ChooseSides(f, t2, l, lhs, rhs) == Some(sides)
    requires SingleVariantPhi(f, t2, l, sides.varying) == Some(phi) && VariantPhi(f, l, phi)
    ensures top < |f.loops|
    ensures GetLoopInfo(f, t, l) == Recurrence(f, t2, l, top, phi, cmp.pred, sides.bound)
  {
  }

  /** The loop runs `i` from 0 to `n - 1` by 1, from the tables after
      the reduction and from the tables after the loop analysis. */
  lemma {:induction false} SampleLoopInfo(f: Function)
    requires WellFormed(f) && Shaped(f)
    ensures GetLoopInfo(f, T1, 0) == (Some(Bounds(4, Int(0), Last, Int(1))), T2)
    ensures GetLoopInfo(f, T2, 0) == (Some(Bounds(4, Int(0), Last, Int(1))), T2)
  {
    BoundNamed(f);
    ExitTest(f);
    IndexScoped(f);
    SidesChosen(f);
    PhiFound(f);
    SampleRecurrence(f);
    PhiScoped(f);
    LoopInfoOf(f, T1);
    LoopInfoOf(f, T2);
  }

  // ---------------------------------------------------------------------
  // The executions of the access

  /** `n - 1 - 0 + 1` is `n`. */
  lemma {:induction false} CountIsN()
    ensures Alg.sum(Int(1), Sym("i.0"), Int(0), Last) == Sym("n.1")
  {
    LastMinusZero();
    LastPlusOne();
  }

  lemma {:induction false} LastMinusZero()
    ensures Minus(Last, Int(0)) == Last
  {
    assert Neg(Int(0)) == Int(0);
    assert Terms(Int(0)) == [];
    assert Terms(Last) + [] == [Sym("n.1"), Int(-1)];
    assert NumAdd(Int(-1), Int(0)) == Int(-1);
  }

  lemma {:induction false} LastPlusOne()
    ensures Plus(Last, Int(1)) == Sym("n.1")
  {
    assert Terms(Last) + Terms(Int(1)) == [Sym("n.1"), Int(-1), Int(1)];
    assert Constants([Sym("n.1"), Int(-1), Int(1)]) == [Int(-1), Int(1)];
    assert NonConstants([Sym("n.1"), Int(-1), Int(1)]) == [Sym("n.1")];
    assert NumAdd(Int(1), Int(0)) == Int(1);
    assert NumAdd(Int(-1), Int(1)) == Int(0);
  }

  lemma {:induction false} SampleInduction(f: Function)
    requires WellFormed(f) && Shaped(f)
    ensures InductionOf(f, T1, 0) == (Some(Induction(Sym("i.0"), Int(0), Last, Int(1))), T2)
  {
    SampleLoopInfo(f);
    PhiStart(f);
  }

  /** The walk from the loop's facts: one level, and the outermost loop
      reached. */
  lemma {:induction false} ExecutionsOf(f: Function)
    requires WellFormed(f) && 0 < |f.loops| && f.loops[0].parent.None?
    requires InductionOf(f, T1, 0) == (Some(Induction(Sym("i.0"), Int(0), Last, Int(1))), T2)
    ensures ExecutionsRelativeTo(f, T1, Alg, 0, None) == (Executions(Complete, Sym("n.1"), Some(0), [Lv]), T2)
  {
    CountIsN();
    assert Facts(f)(T1, 0) == InductionOf(f, T1, 0);
    assert Prepare(T1, Alg, Facts(f), 0) == (Ready(Lv), T2);
  }

  /** Relative to no given loop, the access runs `n` times, relative to
      its own loop. */
  lemma {:induction false} SampleExecutions(f: Function)
    requires WellFormed(f) && Shaped(f)
    ensures ExecutionsRelativeTo(f, T1, Alg, 0, None) == (Executions(Complete, Sym("n.1"), Some(0), [Lv]), T2)
  {
    SampleInduction(f);
    ExecutionsOf(f);
  }

  // ---------------------------------------------------------------------
  // The range of the subscript

  lemma {:induction false} IndexFacts(f: Function)
    requires WellFormed(f) && Shaped(f)
    ensures ValueOfSymbol(f, T2, Sym("i.0")) == Some(4) && f.values[4].kind.Phi?
    ensures HeadedLoop(f, f.values[4].block) == Some(0)
    ensures f.loops[0].exiting == [1]
  {
  }

  lemma {:induction false} LoopOfIndex(f: Function)
    requires WellFormed(f) && 4 < |f.values| && HeadedLoop(f, f.values[4].block) == Some(0)
    requires GetLoopInfo(f, T2, 0) == (Some(Bounds(4, Int(0), Last, Int(1))), T2)
    ensures LoopForInductionVariable(f, T2, 4) == (Some(0), T2)
  {
  }

  lemma {:induction false} FactsOfIndex(f: Function)
    requires WellFormed(f) && 0 < |f.loops| && 4 < |f.values| && f.values[4].kind.Phi?
    requires ValueOfSymbol(f, T2, Sym("i.0")) == Some(4) && LoopForInductionVariable(f, T2, 4) == (Some(0), T2)
    requires f.loops[0].exiting == [1] && BranchCompare(f, 1) == Some(Compare(SLT, 4, 0))
    requires GetLoopInfo(f, T2, 0) == (Some(Bounds(4, Int(0), Last, Int(1))), T2)
    ensures RelativeMinMax.FactsOf(f, T2, Sym("i.0")) == (Some(RelativeMinMax.IndFacts(Int(0), Last, SLT)), T2)
  {
  }

  /** `i` is the loop's induction variable, from 0 to `n - 1`; `n` is
      none. */
  lemma {:induction false} SampleFacts(f: Function)
    requires WellFormed(f) && Shaped(f)
    ensures RelativeMinMax.InductionFacts(f)(Sym("i.0"), T2) == (Some(RelativeMinMax.IndFacts(Int(0), Last, SLT)), T2)
  {
    IndexFacts(f);
    ExitTest(f);
    SampleLoopInfo(f);
    LoopOfIndex(f);
    FactsOfIndex(f);
  }

  lemma {:induction false} BoundFacts(f: Function)
    requires WellFormed(f) && Shaped(f)
    ensures RelativeMinMax.InductionFacts(f)(Sym("n.1"), T2) == (None, T2)
  {
    assert ValueOfSymbol(f, T2, Sym("n.1")) == Some(0);
  }

  lemma {:induction false} LastSums()
    ensures Plus(Sym("n.1"), Zero) == Sym("n.1")
    ensures Plus(Int(-1), Sym("n.1")) == Last
  {
    assert Terms(Sym("n.1")) + Terms(Zero) == [Sym("n.1")];
    assert Constants([Sym("n.1")]) == [] && NonConstants([Sym("n.1")]) == [Sym("n.1")];
    assert Terms(Int(-1)) + Terms(Sym("n.1")) == [Int(-1), Sym("n.1")];
    assert Constants([Int(-1), Sym("n.1")]) == [Int(-1)];
    assert NonConstants([Int(-1), Sym("n.1")]) == [Sym("n.1")];
    assert NumAdd(Int(-1), Int(0)) == Int(-1);
  }

  /** `n - 1` is its own range: `n` is no induction variable. */
  lemma {:induction false} LastRange(ind: RelativeMinMax.Induction)
    requires ind(Sym("n.1"), T2) == (None, T2)
    ensures RelativeMinMax.GetMinMax(RelativeMinMax.Corrected, ind, Last, Zero, Zero, T2, 0) == (RelativeMinMax.Range(true, Last, Last), T2)
  {
    LastSums();
    assert RelativeMinMax.GetMinMax(RelativeMinMax.Corrected, ind, Sym("n.1"), Zero, Zero, T2, 0) == (RelativeMinMax.Range(true, Sym("n.1"), Sym("n.1")), T2);
    assert RelativeMinMax.AddFold(RelativeMinMax.Corrected, ind, Last, 2, Last, Last, T2, 0) == (RelativeMinMax.Range(true, Last, Last), T2);
    assert RelativeMinMax.AddFold(RelativeMinMax.Corrected, ind, Last, 1, Sym("n.1"), Sym("n.1"), T2, 0) == (RelativeMinMax.Range(true, Last, Last), T2);
  }

  /** With one unit of fuel, `i` ranges over `[0, n - 1]`. */
  lemma {:induction false} IndexRange(ind: RelativeMinMax.Induction)
    requires ind(Sym("i.0"), T2) == (Some(RelativeMinMax.IndFacts(Int(0), Last, SLT)), T2)
    requires ind(Sym("n.1"), T2) == (None, T2)
    ensures RelativeMinMax.GetMinMax(RelativeMinMax.Corrected, ind, Sym("i.0"), Zero, Zero, T2, 1) == (RelativeMinMax.Range(true, Int(0), Last), T2)
  {
    LastRange(ind);
  }

  // ---------------------------------------------------------------------
  // The record

  /** The pass state once the loop is analysed: no records yet. */
  function After(f: Function): State {
    State(f, T2, [], {})
  }

  /** `n`, 0 and `n - 1` are usable at the end of the preheader: `n` is an
      argument. */
  lemma {:induction false} BoundsPlaceable(f: Function)
    requires WellFormed(f) && Shaped(f)
    ensures CheckAt(After(f), Sym("n.1"), Some(0)) == Usable(After(f))
    ensures CheckAt(After(f), Int(0), Some(0)) == Usable(After(f))
    ensures CheckAt(After(f), Last, Some(0)) == Usable(After(f))
  {
    assert Symbols(Sym("n.1")) == [Sym("n.1")] && Symbols(Int(0)) == [];
    assert Symbols(Last) == [Sym("n.1")] by {
      assert Last.terms[1..] == [Int(-1)];
    }
    assert !Placement.Outside(f, 0, Some(0));
    assert Placement.FirstStuck(f, T2, [Sym("n.1")], Some(0)) == Placement.Clear;
    assert Placement.FirstStuck(f, T2, [], Some(0)) == Placement.Clear;
  }

  /** The checks in turn, from the check of each. */
  lemma {:induction false} ChecksPass(s: State, a: Expr, b: Expr, c: Expr, pre: Option<BlockId>)
    requires Good(s)
    requires CheckAt(s, a, pre) == Usable(s) && CheckAt(s, b, pre) == Usable(s) && CheckAt(s, c, pre) == Usable(s)
    ensures CheckAll(s, [a, b, c], pre) == Usable(s)
  {
    assert CheckAll(s, [c], pre) == Usable(s) by {
      assert [c][1..] == [];
    }
    assert CheckAll(s, [b, c], pre) == Usable(s) by {
      assert [b, c][1..] == [c];
    }
    assert [a, b, c][1..] == [b, c];
  }

  /** The three expressions lower to `n`, 0 and `n + (-1)`. */
  lemma {:induction false} BoundsLowered()
    ensures Lower(Times(Sym("n.1"), Int(1)), T2.values) == Emit(Val(0))
    ensures Lower(Int(0), T2.values) == Emit(Const(0))
    ensures Lower(Last, T2.values) == Emit(AddI(Val(0), Const(-1)))
  {
    UnitsVanish("n.1");
    assert Last.terms[1..] == [Int(-1)];
    assert FoldSum([Int(-1)], Emit(Val(0)), T2.values) == Emit(AddI(Val(0), Const(-1)));
  }

  lemma {:induction false} RecordInserted(f: Function)
    requires WellFormed(f)
    ensures Insert(After(f), 0, 0, 1, Times(Sym("n.1"), Int(1)), Int(0), Last) == Kept(After(f).(calls := [Rec]), 0, Rec)
  {
    BoundsLowered();
    assert AddCall([], Rec) == [Rec];
  }

  lemma {:induction false} BoundsPass(f: Function)
    requires WellFormed(f)
    requires CheckAt(After(f), Sym("n.1"), Some(0)) == Usable(After(f))
    requires CheckAt(After(f), Int(0), Some(0)) == Usable(After(f))
    requires CheckAt(After(f), Last, Some(0)) == Usable(After(f))
    ensures CheckAll(After(f), [Sym("n.1"), Int(0), Last], Some(0)) == Usable(After(f))
  {
    ChecksPass(After(f), Sym("n.1"), Int(0), Last, Some(0));
  }

  lemma {:induction false} RecordFinished(f: Function)
    requires WellFormed(f) && 0 < |f.loops| && 1 < |f.values| && f.loops[0].preheader == Some(0)
    requires CheckAll(After(f), [Sym("n.1"), Int(0), Last], Some(0)) == Usable(After(f))
    ensures Finish(After(f), 0, 1, Sym("n.1"), 1, Int(0), Last) == Kept(After(f).(calls := [Rec]), 0, Rec)
  {
    RecordInserted(f);
  }

  lemma {:induction false} RecordBounded(f: Function)
    requires WellFormed(f) && 0 < |f.loops| && 1 < |f.values| && f.loops[0].preheader == Some(0)
    requires !Placement.Outside(f, 1, Some(0))
    requires RelativeMinMax.GetMinMax(RelativeMinMax.Corrected, RelativeMinMax.InductionFacts(f), Sym("i.0"), Zero, Zero, T2, 1)
             == (RelativeMinMax.Range(true, Int(0), Last), T2)
    requires Finish(After(f), 0, 1, Sym("n.1"), 1, Int(0), Last) == Kept(After(f).(calls := [Rec]), 0, Rec)
    ensures Bounded(Cfg, After(f), 0, 1, Sym("i.0"), Sym("n.1"), 1) == Kept(After(f).(calls := [Rec]), 0, Rec)
  {
  }

  /** The range and the record once the loop is analysed. */
  lemma {:induction false} SampleBounded(f: Function)
    requires WellFormed(f) && Shaped(f)
    ensures Bounded(Cfg, After(f), 0, 1, Sym("i.0"), Sym("n.1"), 1) == Kept(After(f).(calls := [Rec]), 0, Rec)
  {
    SampleFacts(f);
    BoundFacts(f);
    IndexRange(RelativeMinMax.InductionFacts(f));
    BoundsPlaceable(f);
    BoundsPass(f);
    RecordFinished(f);
    RecordBounded(f);
  }

  /** The pass state before the access: empty tables, no records. */
  function Before(f: Function): State {
    State(f, EmptyTable, [], {})
  }

  lemma {:induction false} CallGenerated(f: Function)
    requires WellFormed(f) && 0 < |f.loops| && 6 < |f.values| && IsAccess(f.values[6].kind)
    requires Reduce(f, EmptyTable, 6) == (Reduced(1, Sym("i.0")), 1, T1)
    requires ExecutionsRelativeTo(f, T1, Alg, 0, None) == (Executions(Complete, Sym("n.1"), Some(0), [Lv]), T2)
    requires Bounded(Cfg, After(f), 0, 1, Sym("i.0"), Sym("n.1"), 1) == Kept(After(f).(calls := [Rec]), 0, Rec)
    ensures GenerateCallFor(Cfg, Before(f), 0, 6) == Kept(After(f).(calls := [Rec]), 0, Rec)
  {
    assert Before(f).(t := T2) == After(f);
  }

  /** The pass keeps the access `a[i]` of the sample loop with the record
      `(preheader 0, a, 0, n - 1, n)`. */
  lemma {:induction false} SampleKept(f: Function)
    requires WellFormed(f) && Shaped(f)
    ensures GenerateCallFor(Cfg, Before(f), 0, 6) == Kept(After(f).(calls := [Rec]), 0, Rec)
  {
    LoadReduced(f);
    SampleExecutions(f);
    SampleBounded(f);
    CallGenerated(f);
  }

  // ---------------------------------------------------------------------
  // The runs on which the record means what it says

  /** The run-time environment of the final tables names `i` and `n`. */
  lemma {:induction false} EnvOf(run: ValueId -> int)
    ensures Env(T2.values, run)["i.0"] == run(4) as real
    ensures Env(T2.values, run)["n.1"] == run(0) as real
    ensures "i.0" in Env(T2.values, run) && "n.1" in Env(T2.values, run)
  {
  }

  /** Under that environment `n - 1` has the value one below `n`. */
  lemma {:induction false} LastValue(env: map<string, real>)
    ensures Value(Last, env) == Value(Sym("n.1"), env) - 1.0
  {
    assert SumValue([Int(-1)], env) == -1.0 by {
      assert [Int(-1)][1..] == [];
    }
    assert [Sym("n.1"), Int(-1)][1..] == [Int(-1)];
  }

  /** A sum or product holds no induction variable the oracle is asked
      about once the fuel is spent, whatever the tables. */
  lemma {:induction false} LastFactsHold(ind: RelativeMinMax.Induction, i: nat, t: Table, env: map<string, real>)
    requires i <= 2
    ensures RelativeMinMax.FoldFactsHold(ind, Last, i, t, 0, env)
    decreases 2 - i
  {
    if i < 2 {
      var x := Last.terms[i];
      assert RelativeMinMax.FactsHoldFor(ind, x, t, 0, env);
      var (s, t1) := RelativeMinMax.GetMinMax(RelativeMinMax.Corrected, ind, x, Zero, Zero, t, 0);
      LastFactsHold(ind, i + 1, t1, env);
    }
  }

  /** The fact of `i` holds on every run inside the loop: `0 <= i <= n - 1`. */
  lemma {:induction false} IndexFactsHold(ind: RelativeMinMax.Induction, run: ValueId -> int)
    requires ind(Sym("i.0"), T2) == (Some(RelativeMinMax.IndFacts(Int(0), Last, SLT)), T2)
    requires 0 <= run(4) < run(0)
    ensures RelativeMinMax.FactsHoldFor(ind, Sym("i.0"), T2, 1, Env(T2.values, run))
  {
    var env := Env(T2.values, run);
    EnvOf(run);
    LastValue(env);
    assert RelativeMinMax.FactHolds(Sym("i.0"), RelativeMinMax.IndFacts(Int(0), Last, SLT), env);
    var (s, t2) := RelativeMinMax.GetMinMax(RelativeMinMax.Corrected, ind, Int(0), Zero, Zero, T2, 0);
    LastFactsHold(ind, 0, t2, env);
  }

  /** The two bounds are polynomials that fit in 64 bits on such a run. */
  lemma {:induction false} BoundsFit(run: ValueId -> int)
    requires 0 <= run(4) < run(0) && Arith.InI64(run(0))
    ensures Poly(Int(0)) && Poly(Last)
    ensures PolyValue(Int(0), T2.values, run) == 0
    ensures PolyValue(Last, T2.values, run) == run(0) - 1
    ensures Arith.InI64(PolyValue(Int(0), T2.values, run)) && Arith.InI64(PolyValue(Last, T2.values, run))
  {
    assert Poly(Last.terms[0]) && Poly(Last.terms[1]);
    assert [Sym("n.1"), Int(-1)][1..] == [Int(-1)];
    assert [Int(-1)][1..] == [];
  }

  /** The stored symbol of the reduction stands for the index. */
  lemma {:induction false} IndexAgrees(run: ValueId -> int)
    ensures LoopInfo.Agrees(T1, Env(T2.values, run), AsReal(run))
  {
    EnvOf(run);
  }

  /** Combining the facts above: a run inside the loop fits the record. */
  lemma {:induction false} FitsOf(f: Function, run: ValueId -> int)
    requires WellFormed(f) && 0 < |f.loops| && 6 < |f.values| && IsAccess(f.values[6].kind)
    requires 0 <= run(4) < run(0) && Arith.InI64(run(0))
    requires Reduce(f, EmptyTable, 6) == (Reduced(1, Sym("i.0")), 1, T1)
    requires ExecutionsRelativeTo(f, T1, Alg, 0, None) == (Executions(Complete, Sym("n.1"), Some(0), [Lv]), T2)
    requires GenerateCallFor(Cfg, Before(f), 0, 6) == Kept(After(f).(calls := [Rec]), 0, Rec)
    requires RelativeMinMax.GetMinMax(RelativeMinMax.Corrected, RelativeMinMax.InductionFacts(f), Sym("i.0"), Zero, Zero, T2, 1)
             == (RelativeMinMax.Range(true, Int(0), Last), T2)
    requires RelativeMinMax.FactsHoldFor(RelativeMinMax.InductionFacts(f), Sym("i.0"), T2, 1, Env(T2.values, run))
    ensures RunFits(Cfg, Before(f), 0, 6, run)
  {
    BoundsFit(run);
    IndexAgrees(run);
  }

  /** Every run that is inside the sample loop (`0 <= i < n`) and whose
      values are 64-bit integers fits the record the pass keeps. */
  lemma {:induction false} SampleFits(f: Function, run: ValueId -> int)
    requires WellFormed(f) && Shaped(f)
    requires 0 <= run(4) < run(0) && Arith.InI64(run(0))
    ensures RunFits(Cfg, Before(f), 0, 6, run)
  {
    LoadReduced(f);
    SampleExecutions(f);
    SampleKept(f);
    SampleFacts(f);
    BoundFacts(f);
    IndexRange(RelativeMinMax.InductionFacts(f));
    IndexFactsHold(RelativeMinMax.InductionFacts(f), run);
    FitsOf(f, run);
  }

  /** The byte offset of `&a[i]` from `a` is `i`: the elements are one byte
      wide. */
  lemma {:induction false} OffsetOfIndex(f: Function, run: ValueId -> int)
    requires WellFormed(f) && Shaped(f)
    ensures AddressOffset(f, 5, AsReal(run)) == Some(run(4) as real)
  {
    assert AddressOffset(f, 1, AsReal(run)) == Some(0.0);
    IndexWalkOffset(f, run);
  }

  /** Walking the index `i` over `char *` moves `i` bytes. */
  lemma {:induction false} IndexWalkOffset(f: Function, run: ValueId -> int)
    requires WellFormed(f) && Shaped(f)
    ensures WalkOffset(f, Ptr(Scalar(1)), [4], AsReal(run)) == Some(run(4) as real)
  {
    assert RefValue(f, None, 4, AsReal(run)) == run(4) as real;
    assert [4][1..] == [];
    assert WalkOffset(f, Scalar(1), [], AsReal(run)) == Some(0.0);
    assert Scaled(run(4) as real, AllocSize(Indexed(Ptr(Scalar(1))))) == run(4) as real;
  }

  /** The emitted bounds compute `0` and `n - 1`. */
  lemma {:induction false} RecordValues(run: ValueId -> int, pow: (int, int) -> int)
    requires 0 < run(0) && Arith.InI64(run(0))
    ensures Eval(Rec.min, run, pow) == 0 && Eval(Rec.max, run, pow) == run(0) - 1
  {
    assert Arith.InI64(run(0) - 1);
  }

  /** The pass keeps `a[i]` of the sample loop with a record whose bounds
      are `0` and `n - 1`; on every run inside the loop the accessed byte
      offset `i` lies between them, which is what the general theorem
      promises of a kept record. */
  lemma {:induction false} SampleBracketsOn(f: Function, run: ValueId -> int, pow: (int, int) -> int)
    requires WellFormed(f) && Shaped(f)
    requires 0 <= run(4) < run(0) && Run64(run)
    ensures GenerateCallFor(Cfg, Before(f), 0, 6) == Kept(After(f).(calls := [Rec]), 0, Rec)
    ensures AddressOffset(f, 5, AsReal(run)) == Some(run(4) as real)
    ensures Eval(Rec.min, run, pow) == 0 && Eval(Rec.max, run, pow) == run(0) - 1
    ensures Eval(Rec.min, run, pow) as real <= AddressOffset(f, 5, AsReal(run)).value <= Eval(Rec.max, run, pow) as real
  {
    assert Arith.InI64(run(0));
    SampleKept(f);
    SampleFits(f, run);
    OffsetOfIndex(f, run);
    RecordValues(run, pow);
    BracketsOf(f, run, pow);
  }

  /** Combining step of `SampleBracketsOn`: the general theorem applied to
      the kept access. */
  lemma {:induction false} BracketsOf(f: Function, run: ValueId -> int, pow: (int, int) -> int)
    requires WellFormed(f) && 0 < |f.loops| && 6 < |f.values| && f.values[6].kind == Load(5)
    requires Run64(run) && RunFits(Cfg, Before(f), 0, 6, run)
    requires GenerateCallFor(Cfg, Before(f), 0, 6) == Kept(After(f).(calls := [Rec]), 0, Rec)
    requires AddressOffset(f, 5, AsReal(run)) == Some(run(4) as real)
    ensures Eval(Rec.min, run, pow) as real <= run(4) as real <= Eval(Rec.max, run, pow) as real
  {
    assert Good(Before(f));
    KeptRecordBrackets(Cfg, Before(f), 0, 6, run, pow);
  }

  // ---------------------------------------------------------------------
  // The range query of the induction variable

  /** The tables after the loop analysis are consistent. */
  lemma {:induction false} TablesConsistent(f: Function)
    requires WellFormed(f) && Shaped(f)
    ensures Inv(f, T2) && Coherent(T2)
  {
    IndexInterned(f);
    InternInv(f, EmptyTable, 4);
    SampleLoopInfo(f);
    GetLoopInfoKeeps(f, T1, 0);
  }

  /** `getMinMaxRelativeTo` of the phi `i` in its loop is `[0, n - 1]`. */
  lemma {:induction false} RelativeToIndex(f: Function)
    requires WellFormed(f) && Shaped(f)
    ensures RelativeMinMax.GetMinMaxRelativeTo(f, T2, 0, 4, 1) == (RelativeMinMax.Range(true, Int(0), Last), T2)
  {
    PhiScoped(f);
    SampleFacts(f);
    BoundFacts(f);
    IndexRange(RelativeMinMax.InductionFacts(f));
  }

  /** The hypothesis of `GetMinMaxRelativeToSound` holds for the phi `i` on
      every run with `0 <= i < n`, and its conclusion puts `i` in
      `[0, n - 1]`. */
  lemma {:induction false} SampleRelativeTo(f: Function, run: ValueId -> int)
    requires WellFormed(f) && Shaped(f) && 0 <= run(4) < run(0)
    ensures RelativeMinMax.GetMinMaxRelativeTo(f, T2, 0, 4, 1) == (RelativeMinMax.Range(true, Int(0), Last), T2)
    ensures ExprFor(f, T2, Some(0), 4) == (Sym("i.0"), T2)
    ensures RelativeMinMax.FactsHoldFor(RelativeMinMax.InductionFacts(f), Sym("i.0"), T2, 1, CanonEnv(T2, AsReal(run)))
    ensures RelativeMinMax.Brackets(Int(0), Last, RefValue(f, Some(0), 4, AsReal(run)), CanonEnv(T2, AsReal(run)))
  {
    TablesConsistent(f);
    RelativeToIndex(f);
    PhiScoped(f);
    SampleFacts(f);
    CanonFactsHold(RelativeMinMax.InductionFacts(f), run);
    RelativeToBrackets(f, run);
  }

  /** The loop facts of `i` hold under the environment of the tables. */
  lemma {:induction false} CanonFactsHold(ind: RelativeMinMax.Induction, run: ValueId -> int)
    requires ind(Sym("i.0"), T2) == (Some(RelativeMinMax.IndFacts(Int(0), Last, SLT)), T2)
    requires 0 <= run(4) < run(0)
    ensures RelativeMinMax.FactsHoldFor(ind, Sym("i.0"), T2, 1, CanonEnv(T2, AsReal(run)))
  {
    IndexFactsHold(ind, run);
    assert CanonEnv(T2, AsReal(run)) == Env(T2.values, run);
  }

  lemma {:induction false} RelativeToBrackets(f: Function, run: ValueId -> int)
    requires WellFormed(f) && 0 < |f.loops| && 4 < |f.values| && Inv(f, T2) && Coherent(T2)
    requires ExprFor(f, T2, Some(0), 4) == (Sym("i.0"), T2)
    requires RelativeMinMax.GetMinMaxRelativeTo(f, T2, 0, 4, 1) == (RelativeMinMax.Range(true, Int(0), Last), T2)
    requires RelativeMinMax.FactsHoldFor(RelativeMinMax.InductionFacts(f), Sym("i.0"), T2, 1, CanonEnv(T2, AsReal(run)))
    ensures RelativeMinMax.Brackets(Int(0), Last, RefValue(f, Some(0), 4, AsReal(run)), CanonEnv(T2, AsReal(run)))
  {
    RelativeMinMax.GetMinMaxRelativeToSound(f, T2, 0, 4, 1, AsReal(run));
  }

  // ---------------------------------------------------------------------
  // The whole pass on the sample

  /** The instructions of the loop block, in order. */
  lemma {:induction false} LoopInstructions(f: Function)
    requires WellFormed(f) && Shaped(f)
    ensures InstructionsUpTo(f, 1, |f.values|) == [4, 5, 6, 7, 8, 9]
  {
    LoopBlockValues(f);
    InstructionsOf(f, [4, 5, 6, 7, 8, 9]);
  }

  /** Values 4 to 9, and only those, are instructions of the loop block. */
  lemma {:induction false} LoopBlockValues(f: Function)
    requires WellFormed(f) && Shaped(f)
    ensures forall v :: 0 <= v < |f.values| && f.values[v].block == 1 ==> 4 <= v <= 9
    ensures forall v :: 4 <= v <= 9 ==> f.values[v].block == 1 && IsInstruction(f.values[v].kind)
  {
  }

  lemma {:induction false} InstructionsOf(f: Function, vs: seq<ValueId>)
    requires vs == [4, 5, 6, 7, 8, 9] && |f.values| == 11
    requires forall v :: 0 <= v < |f.values| && f.values[v].block == 1 ==> 4 <= v <= 9
    requires forall v :: 4 <= v <= 9 ==> f.values[v].block == 1 && IsInstruction(f.values[v].kind)
    ensures InstructionsUpTo(f, 1, |f.values|) == vs
  {
    forall v | 0 <= v < |f.values| && f.values[v].block == 1 && IsInstruction(f.values[v].kind)
      ensures v in vs
    {
      assert v == vs[v - 4];
    }
    UpToExact(f, 1, |f.values|, vs);
  }

  /** The instructions of a block below `n` are the one increasing list of
      them. */
  lemma {:induction false} UpToExact(f: Function, b: BlockId, n: nat, vs: seq<ValueId>)
    requires n <= |f.values| && |vs| <= n
    requires forall i :: 0 <= i < |vs| ==> vs[i] < n && f.values[vs[i]].block == b && IsInstruction(f.values[vs[i]].kind)
    requires forall v :: 0 <= v < n && f.values[v].block == b && IsInstruction(f.values[v].kind) ==> v in vs
    requires forall i, j :: 0 <= i < j < |vs| ==> vs[i] < vs[j]
    ensures InstructionsUpTo(f, b, n) == vs
    decreases n, 1
  {
    if n == 0 {
      assert |vs| == 0;
    } else if f.values[n - 1].block == b && IsInstruction(f.values[n - 1].kind) {
      UpToTaken(f, b, n, vs);
    } else {
      UpToSkipped(f, b, n, vs);
    }
  }

  /** When value `n - 1` is one of them, it is the last of the list. */
  lemma {:induction false} UpToTaken(f: Function, b: BlockId, n: nat, vs: seq<ValueId>)
    requires 0 < n <= |f.values| && |vs| <= n
    requires f.values[n - 1].block == b && IsInstruction(f.values[n - 1].kind)
    requires forall i :: 0 <= i < |vs| ==> vs[i] < n && f.values[vs[i]].block == b && IsInstruction(f.values[vs[i]].kind)
    requires forall v :: 0 <= v < n && f.values[v].block == b && IsInstruction(f.values[v].kind) ==> v in vs
    requires forall i, j :: 0 <= i < j < |vs| ==> vs[i] < vs[j]
    ensures InstructionsUpTo(f, b, n) == vs
    decreases n, 0
  {
    assert n - 1 in vs;
    LastIs(vs, n);
    var k := |vs| - 1;
    Prefix(f, b, n, vs, k);
    UpToExact(f, b, n - 1, vs[..k]);
    SplitLast(vs);
    UpToAppends(f, b, n);
  }

  lemma {:induction false} SplitLast(vs: seq<nat>)
    requires 0 < |vs|
    ensures vs == vs[..|vs| - 1] + [vs[|vs| - 1]]
  {
  }

  /** An instruction of the block at `n - 1` extends the list below it. */
  lemma {:induction false} UpToAppends(f: Function, b: BlockId, n: nat)
    requires 0 < n <= |f.values|
    requires f.values[n - 1].block == b && IsInstruction(f.values[n - 1].kind)
    ensures InstructionsUpTo(f, b, n) == InstructionsUpTo(f, b, n - 1) + [n - 1]
  {
  }

  /** In an increasing list below `n` that holds `n - 1`, it comes last. */
  lemma {:induction false} LastIs(vs: seq<nat>, n: nat)
    requires forall i :: 0 <= i < |vs| ==> vs[i] < n
    requires forall i, j :: 0 <= i < j < |vs| ==> vs[i] < vs[j]
    requires n - 1 in vs
    ensures 0 < |vs| && vs[|vs| - 1] == n - 1
  {
    var k :| 0 <= k < |vs| && vs[k] == n - 1;
    assert vs[|vs| - 1] < n;
    assert k == |vs| - 1;
  }

  /** Dropping the last element, `n - 1`, leaves the list of those below
      `n - 1`. */
  lemma {:induction false} Prefix(f: Function, b: BlockId, n: nat, vs: seq<ValueId>, k: nat)
    requires 0 < n <= |f.values| && k == |vs| - 1 && vs[k] == n - 1
    requires forall i :: 0 <= i < |vs| ==> vs[i] < n && f.values[vs[i]].block == b && IsInstruction(f.values[vs[i]].kind)
    requires forall v :: 0 <= v < n && f.values[v].block == b && IsInstruction(f.values[v].kind) ==> v in vs
    requires forall i, j :: 0 <= i < j < |vs| ==> vs[i] < vs[j]
    ensures |vs[..k]| <= n - 1
    ensures forall i :: 0 <= i < |vs[..k]| ==> vs[..k][i] < n - 1 && f.values[vs[..k][i]].block == b && IsInstruction(f.values[vs[..k][i]].kind)
    ensures forall v :: 0 <= v < n - 1 && f.values[v].block == b && IsInstruction(f.values[v].kind) ==> v in vs[..k]
    ensures forall i, j :: 0 <= i < j < |vs[..k]| ==> vs[..k][i] < vs[..k][j]
  {
    var ws := vs[..k];
    forall v | 0 <= v < n - 1 && f.values[v].block == b && IsInstruction(f.values[v].kind)
      ensures v in ws
    {
      var p :| 0 <= p < |vs| && vs[p] == v;
      assert p != k;
      assert ws[p] == v;
    }
    IncreasingBelow(vs, n);
  }

  /** When value `n - 1` is not one of them, the list is that below `n - 1`. */
  lemma {:induction false} UpToSkipped(f: Function, b: BlockId, n: nat, vs: seq<ValueId>)
    requires 0 < n <= |f.values| && |vs| <= n
    requires !(f.values[n - 1].block == b && IsInstruction(f.values[n - 1].kind))
    requires forall i :: 0 <= i < |vs| ==> vs[i] < n && f.values[vs[i]].block == b && IsInstruction(f.values[vs[i]].kind)
    requires forall v :: 0 <= v < n && f.values[v].block == b && IsInstruction(f.values[v].kind) ==> v in vs
    requires forall i, j :: 0 <= i < j < |vs| ==> vs[i] < vs[j]
    ensures InstructionsUpTo(f, b, n) == vs
    decreases n, 0
  {
    forall i | 0 <= i < |vs|
      ensures vs[i] < n - 1
    {
      assert vs[i] != n - 1;
    }
    IncreasingBelow(vs, n - 1);
    UpToExact(f, b, n - 1, vs);
    UpToSkips(f, b, n);
  }

  /** Any other value at `n - 1` leaves the list below it as it is. */
  lemma {:induction false} UpToSkips(f: Function, b: BlockId, n: nat)
    requires 0 < n <= |f.values|
    requires !(f.values[n - 1].block == b && IsInstruction(f.values[n - 1].kind))
    ensures InstructionsUpTo(f, b, n) == InstructionsUpTo(f, b, n - 1)
  {
  }

  /** A strictly increasing list of numbers below `m` has at most `m`
      elements. */
  lemma {:induction false} IncreasingBelow(vs: seq<nat>, m: nat)
    requires forall i, j :: 0 <= i < j < |vs| ==> vs[i] < vs[j]
    requires forall i :: 0 <= i < |vs| ==> vs[i] < m
    ensures |vs| <= m
  {
    if |vs| > 0 {
      IncreasingAtLeast(vs, |vs| - 1);
    }
  }

  lemma {:induction false} IncreasingAtLeast(vs: seq<nat>, i: nat)
    requires forall p, q :: 0 <= p < q < |vs| ==> vs[p] < vs[q]
    requires i < |vs|
    ensures vs[i] >= i
  {
    if i > 0 {
      IncreasingAtLeast(vs, i - 1);
    }
  }

  /** Steps past values that are not accesses leave the state alone. */
  lemma {:induction false} PassesOver(f: Function, s: State, vs: seq<ValueId>)
    requires Good(s) && s.f == f && 0 < |f.loops|
    requires forall i :: 0 <= i < |vs| ==> vs[i] < |f.values| && !IsAccess(f.values[vs[i]].kind)
    ensures forall i :: 0 <= i < |vs| ==> PassStep(Cfg)(s, 0, vs[i]) == Dropped(s)
  {
  }

  /** The loop block's instructions in turn: only the load adds a record. */
  lemma {:induction false} BlockHandled(f: Function)
    requires WellFormed(f) && Shaped(f)
    ensures HandleAll(PassStep(Cfg), Before(f), 0, [4, 5, 6, 7, 8, 9]) == Some(After(f).(calls := [Rec]))
  {
    BeforeLoad(f);
    LoadStep(f);
    AfterLoad(f);
    HandleFrom(PassStep(Cfg), Before(f), [4, 5, 6], After(f).(calls := [Rec]), [7, 8, 9]);
  }

  /** The pass's step at the load is the call of SampleKept. */
  lemma {:induction false} LoadStep(f: Function)
    requires WellFormed(f) && Shaped(f)
    ensures PassStep(Cfg)(Before(f), 0, 6) == Kept(After(f).(calls := [Rec]), 0, Rec)
  {
    assert Good(Before(f));
    SampleKept(f);
  }

  /** The phi and the address are not accesses. */
  lemma {:induction false} BeforeLoad(f: Function)
    requires WellFormed(f) && Shaped(f)
    ensures PassStep(Cfg)(Before(f), 0, 4) == Dropped(Before(f))
    ensures PassStep(Cfg)(Before(f), 0, 5) == Dropped(Before(f))
  {
    assert Good(Before(f));
    var vs: seq<ValueId> := [4, 5];
    assert vs[0] == 4 && vs[1] == 5;
    PassesOver(f, Before(f), vs);
  }

  /** The instructions after the load change nothing. */
  lemma {:induction false} AfterLoad(f: Function)
    requires WellFormed(f) && Shaped(f)
    ensures HandleAll(PassStep(Cfg), After(f).(calls := [Rec]), 0, [7, 8, 9]) == Some(After(f).(calls := [Rec]))
  {
    var s := After(f).(calls := [Rec]);
    assert Good(s);
    var vs: seq<ValueId> := [7, 8, 9];
    assert vs[0] == 7 && vs[1] == 8 && vs[2] == 9;
    PassesOver(f, s, vs);
    HandleNone(PassStep(Cfg), s, vs);
  }

  /** Steps that all leave `s` alone leave it alone together. */
  lemma {:induction false} HandleNone(gen: Step, s: State, vs: seq<ValueId>)
    requires forall i :: 0 <= i < |vs| ==> gen(s, 0, vs[i]) == Dropped(s)
    ensures HandleAll(gen, s, 0, vs) == Some(s)
    decreases |vs|
  {
    if |vs| > 0 {
      assert gen(s, 0, vs[0]) == Dropped(s);
      HandleNone(gen, s, vs[1..]);
    }
  }

  /** Three steps that end in `s`, then the rest from `s`. */
  lemma {:induction false} HandleFrom(gen: Step, s0: State, first: seq<ValueId>, s: State, rest: seq<ValueId>)
    requires |first| == 3
    requires gen(s0, 0, first[0]) == Dropped(s0) && gen(s0, 0, first[1]) == Dropped(s0)
    requires gen(s0, 0, first[2]).Kept? && gen(s0, 0, first[2]).s == s
    requires HandleAll(gen, s, 0, rest) == Some(s)
    ensures HandleAll(gen, s0, 0, first + rest) == Some(s)
  {
    var all := first + rest;
    assert all[0] == first[0] && all[1..][0] == first[1] && all[1..][1..][0] == first[2];
    assert all[1..][1..][1..] == rest;
    assert HandleAll(gen, s0, 0, all[1..][1..]) == Some(s);
    assert HandleAll(gen, s0, 0, all[1..]) == Some(s);
  }

  /** The walk over the dominator tree meets the loop header, handles
      the loop's one block, and ends with the one record. */
  lemma {:induction false} SampleWalk(f: Function)
    requires WellFormed(f) && Shaped(f)
    ensures CallSites.Walk(PassStep(Cfg), f, Before(f), |f.domPostorder|) == (Some(After(f).(calls := [Rec])), [1])
  {
    LoopInstructions(f);
    BlockHandled(f);
    LoopVisited(f, PassStep(Cfg), After(f).(calls := [Rec]));
    WalkOf(f, PassStep(Cfg), After(f).(calls := [Rec]));
  }

  /** `runOnFunction` on the sample: it runs, reports a change, handles the
      loop block once and keeps the one record. */
  method SampleRun(f: Function) returns (r: Run, trace: seq<BlockId>)
    requires WellFormed(f) && Shaped(f)
    ensures r.Ran? && r.changed && r.calls == [Rec] && trace == [1]
  {
    SampleWalk(f);
    r, trace := RunOnFunction(Cfg, f, EmptyTable);
  }

  /** Visiting the loop's one block handles its instructions. */
  lemma {:induction false} LoopVisited(f: Function, gen: Step, s: State)
    requires HandleAll(gen, Before(f), 0, InstructionsUpTo(f, 1, |f.values|)) == Some(s)
    ensures VisitBlocks(gen, 0, [1], 1, Before(f), []) == (Some(s), [1])
  {
    assert VisitBlocks(gen, 0, [1], 0, Before(f), []) == (Some(Before(f)), []);
    assert [1][0] == 1 && 1 !in [] && Before(f).f == f;
    assert [] + [1] == [1];
  }

  /** The walk from the loop's visit: block 1 heads the scanned loop, block
      0 heads none. */
  lemma {:induction false} WalkOf(f: Function, gen: Step, s: State)
    requires WellFormed(f) && Shaped(f)
    requires VisitBlocks(gen, 0, [1], 1, Before(f), []) == (Some(s), [1])
    ensures CallSites.Walk(gen, f, Before(f), |f.domPostorder|) == (Some(s), [1])
  {
    assert HeadedLoop(f, 1) == Some(0) && Scanned(f, 0);
    assert HeadedLoop(f, 0) == None;
    WalkTwo(f, gen, s);
  }

  /** The walk over the post-order `[1, 0]` from the facts about its two
      blocks. */
  lemma {:induction false} WalkTwo(f: Function, gen: Step, s: State)
    requires WellFormed(f) && f.domPostorder == [1, 0] && 0 < |f.loops| && f.loops[0].blocks == [1]
    requires HeadedLoop(f, 1) == Some(0) && Scanned(f, 0) && HeadedLoop(f, 0) == None
    requires VisitBlocks(gen, 0, [1], 1, Before(f), []) == (Some(s), [1])
    ensures CallSites.Walk(gen, f, Before(f), |f.domPostorder|) == (Some(s), [1])
  {
    assert CallSites.Walk(gen, f, Before(f), 0) == (Some(Before(f)), []);
    assert CallSites.Walk(gen, f, Before(f), 1) == (Some(s), [1]);
  }
}

=== FILE: symbols.dfy ===
/** The process-wide tables behind `Expr(Value*)`: the symbol made for
    each value (`Exprs`), the sequential id of each value (`Ids`), the value
    each symbol name stands for (`Values`) and the id counter. Every
    operation takes the tables and returns the updated tables. */
module SymbolTable {
  import opened Wrappers
  import opened Exprs
  import opened Ir
  import Decimal

  datatype Table = Table(
    exprs: map<ValueId, Expr>,
    ids: map<ValueId, nat>,
    values: map<string, ValueId>,
    next: nat)

  /** The tables at program start. */
  const EmptyTable: Table := Table(map[], map[], map[], 0)

  /** The part of a symbol name before the id: the name of a named
      instruction or argument; the name of any other named value wrapped in
      `__SRA_SYM_UNKNOWN_`..`__`; for an unnamed load, the name of the
      pointer it loads from; and `__SRA_SYM_UNAMED__` otherwise. */
  function BaseName(f: Function, v: ValueId): string
    requires WellFormed(f) && v < |f.values|
  {
    var x := f.values[v];
    if x.name != [] then
      if IsInstruction(x.kind) || x.kind.Argument? then x.name
      else "__SRA_SYM_UNKNOWN_" + x.name + "__"
    else if x.kind.Load? then f.values[x.kind.ptr].name
    else "__SRA_SYM_UNAMED__"
  }

  /** The symbol name of a value with a given id: base, a dot, the id. */
  function FullName(f: Function, v: ValueId, id: nat): string
    requires WellFormed(f) && v < |f.values|
  {
    BaseName(f, v) + "." + Decimal.NatToString(id)
  }

  /** The tables are consistent: ids are below the counter and pairwise
      different, every stored symbol is the full name of its value under the
      value's id, and every registered name belongs to a stored symbol. */
  predicate Inv(f: Function, t: Table)
    requires WellFormed(f)
  {
    IdsOk(f, t) && ExprsNamed(f, t) && ValuesNamed(t)
  }

  predicate IdsOk(f: Function, t: Table) {
    && (forall v :: v in t.ids ==> v < |f.values| && t.ids[v] < t.next)
    && (forall v, w :: v in t.ids && w in t.ids && v != w ==> t.ids[v] != t.ids[w])
  }

  predicate ExprsNamed(f: Function, t: Table)
    requires WellFormed(f) && IdsOk(f, t)
  {
    forall v :: v in t.exprs ==> v in t.ids && t.exprs[v] == Sym(FullName(f, v, t.ids[v]))
  }

  predicate ValuesNamed(t: Table) {
    forall n :: n in t.values ==> exists v :: v in t.exprs && t.exprs[v] == Sym(n)
  }

  /** Every stored symbol stands for its own value: true until a symbol is
      rebound. */
  predicate Coherent(t: Table) {
    forall v :: v in t.exprs ==> t.exprs[v].Sym? && t.exprs[v].name in t.values && t.values[t.exprs[v].name] == v
  }

  /** `GetName`: gives the value the next id unless it has one, then forms
      its symbol name. */
  function GetName(f: Function, t: Table, v: ValueId): (r: (string, Table))
    requires WellFormed(f) && v < |f.values|
    ensures v in r.1.ids && r.0 == FullName(f, v, r.1.ids[v])
    ensures v in t.ids ==> r.1 == t
    ensures v !in t.ids ==> r.1 == t.(ids := t.ids[v := t.next], next := t.next + 1)
  {
    var t1 := if v in t.ids then t else t.(ids := t.ids[v := t.next], next := t.next + 1);
    (FullName(f, v, t1.ids[v]), t1)
  }

  /** Different values never share a name in consistent tables. */
  lemma {:induction false} NamesDistinct(f: Function, t: Table, v: ValueId, w: ValueId)
    requires WellFormed(f) && Inv(f, t)
    requires v in t.ids && w in t.ids && v != w
    ensures FullName(f, v, t.ids[v]) != FullName(f, w, t.ids[w])
  {
    Decimal.SuffixedNamesDistinct(BaseName(f, v), t.ids[v], BaseName(f, w), t.ids[w]);
  }

  /** A name formed with the counter differs from every name in the tables. */
  lemma {:induction false} FreshNameDistinct(f: Function, t: Table, v: ValueId, w: ValueId)
    requires WellFormed(f) && Inv(f, t)
    requires v < |f.values| && w in t.ids
    ensures FullName(f, v, t.next) != FullName(f, w, t.ids[w])
  {
    Decimal.SuffixedNamesDistinct(BaseName(f, v), t.next, BaseName(f, w), t.ids[w]);
  }

  /** A name formed with the counter is not registered yet. */
  lemma {:induction false} FreshNameUnregistered(f: Function, t: Table, v: ValueId)
    requires WellFormed(f) && Inv(f, t) && v < |f.values|
    ensures FullName(f, v, t.next) !in t.values
  {
    var n := FullName(f, v, t.next);
    if n in t.values {
      var w :| w in t.exprs && t.exprs[w] == Sym(n);
      FreshNameDistinct(f, t, v, w);
    }
  }

  /** `GetName` keeps the tables consistent. */
  lemma {:induction false} GetNameInv(f: Function, t: Table, v: ValueId)
    requires WellFormed(f) && Inv(f, t) && v < |f.values|
    ensures Inv(f, GetName(f, t, v).1)
  {
  }

  /** `Expr(V)`: an integer constant is the integer itself and leaves the
      tables alone; a value seen before gets its stored symbol back;
      otherwise the value gets a fresh symbol, stored for it, and the new
      name is registered as standing for the value. */
  function Intern(f: Function, t: Table, v: ValueId): (r: (Expr, Table))
    requires WellFormed(f) && v < |f.values|
    ensures f.values[v].kind.ConstInt? ==> r.0 == Int(f.values[v].kind.value) && r.1 == t
    ensures !f.values[v].kind.ConstInt? ==> v in r.1.exprs && r.0 == r.1.exprs[v]
    ensures v in t.exprs ==> r.1 == t
    ensures !f.values[v].kind.ConstInt? && v !in t.exprs ==>
              && r.0 == Sym(GetName(f, t, v).0)
              && r.1.values == t.values[GetName(f, t, v).0 := v]
              && r.1.exprs == t.exprs[v := r.0]
  {
    var x := f.values[v];
    if x.kind.ConstInt? then (Int(x.kind.value), t)
    else if v in t.exprs then (t.exprs[v], t)
    else
      var (name, t1) := GetName(f, t, v);
      var s := Sym(name);
      (s, t1.(exprs := t1.exprs[v := s], values := t1.values[name := v]))
  }

  /** The name a value not stored yet receives is neither registered nor
      the name of a stored symbol. */
  lemma {:induction false} NewNameUnused(f: Function, t: Table, v: ValueId)
    requires WellFormed(f) && Inv(f, t) && v < |f.values| && v !in t.exprs
    ensures GetName(f, t, v).0 !in t.values
    ensures forall w :: w in t.exprs ==> t.exprs[w] != Sym(GetName(f, t, v).0)
  {
    var name := GetName(f, t, v).0;
    if v in t.ids {
      forall w | w in t.exprs
        ensures t.exprs[w] != Sym(name)
      {
        NamesDistinct(f, t, v, w);
      }
    } else {
      FreshNameUnregistered(f, t, v);
      forall w | w in t.exprs
        ensures t.exprs[w] != Sym(name)
      {
        FreshNameDistinct(f, t, v, w);
      }
    }
  }

  /** Interning keeps the tables consistent, and consistent tables stay
      coherent. */
  lemma {:induction false} InternInv(f: Function, t: Table, v: ValueId)
    requires WellFormed(f) && Inv(f, t) && v < |f.values|
    ensures Inv(f, Intern(f, t, v).1)
    ensures Coherent(t) ==> Coherent(Intern(f, t, v).1)
  {
    if !f.values[v].kind.ConstInt? && v !in t.exprs {
      var t1 := GetName(f, t, v).1;
      var t2 := Intern(f, t, v).1;
      NewNameUnused(f, t, v);
      GetNameInv(f, t, v);
      assert IdsOk(f, t2) by {
        assert t2.ids == t1.ids && t2.next == t1.next;
      }
      InternExprsNamed(f, t, v);
      InternValuesNamed(f, t, v);
      if Coherent(t) {
        InternCoherent(f, t, v);
      }
    }
  }

  lemma {:induction false} InternExprsNamed(f: Function, t: Table, v: ValueId)
    requires WellFormed(f) && Inv(f, t) && v < |f.values|
    requires !f.values[v].kind.ConstInt? && v !in t.exprs
    ensures IdsOk(f, Intern(f, t, v).1) && ExprsNamed(f, Intern(f, t, v).1)
  {
    GetNameInv(f, t, v);
  }

  lemma {:induction false} InternCoherent(f: Function, t: Table, v: ValueId)
    requires WellFormed(f) && Inv(f, t) && Coherent(t) && v < |f.values|
    requires !f.values[v].kind.ConstInt? && v !in t.exprs
    ensures Coherent(Intern(f, t, v).1)
  {
    NewNameUnused(f, t, v);
  }

  lemma {:induction false} InternValuesNamed(f: Function, t: Table, v: ValueId)
    requires WellFormed(f) && ValuesNamed(t) && v < |f.values|
    requires !f.values[v].kind.ConstInt? && v !in t.exprs
    ensures ValuesNamed(Intern(f, t, v).1)
  {
    var name := GetName(f, t, v).0;
    var t2 := Intern(f, t, v).1;
    forall n | n in t2.values
      ensures exists w :: w in t2.exprs && t2.exprs[w] == Sym(n)
    {
      if n == name {
        assert t2.exprs[v] == Sym(n);
      } else {
        var w :| w in t.exprs && t.exprs[w] == Sym(n);
        assert t2.exprs[w] == Sym(n);
      }
    }
  }

  /** Interning a value a second time changes nothing and returns the same
      symbol. */
  lemma {:induction false} InternTwice(f: Function, t: Table, v: ValueId)
    requires WellFormed(f) && v < |f.values|
    ensures Intern(f, Intern(f, t, v).1, v) == Intern(f, t, v)
  {
  }

  /** In consistent tables different values have different symbols. */
  lemma {:induction false} InternedSymbolsDistinct(f: Function, t: Table, v: ValueId, w: ValueId)
    requires WellFormed(f) && Inv(f, t)
    requires v in t.exprs && w in t.exprs && v != w
    ensures t.exprs[v] != t.exprs[w]
  {
    NamesDistinct(f, t, v, w);
  }

  /** `getSymbolValue`: the value a symbol's name stands for, if any. */
  function SymbolValue(t: Table, e: Expr): (r: Option<ValueId>)
    requires e.IsSymbol()
    ensures r.Some? <==> SymbolName(e) in t.values
    ensures r.Some? ==> t.values[SymbolName(e)] == r.value
  {
    Get(t.values, SymbolName(e))
  }

  /** After the first interning of a non-constant value, its symbol stands
      for it. */
  lemma {:induction false} SymbolValueAfterIntern(f: Function, t: Table, v: ValueId)
    requires WellFormed(f) && v < |f.values|
    requires !f.values[v].kind.ConstInt? && v !in t.exprs
    ensures SymbolValue(Intern(f, t, v).1, Intern(f, t, v).0) == Some(v)
  {
  }

  /** In coherent tables a symbol always stands for its value. */
  lemma {:induction false} SymbolValueCoherent(f: Function, t: Table, v: ValueId)
    requires WellFormed(f) && Inv(f, t) && Coherent(t) && v < |f.values|
    requires !f.values[v].kind.ConstInt?
    ensures SymbolValue(Intern(f, t, v).1, Intern(f, t, v).0) == Some(v)
  {
    InternInv(f, t, v);
  }

  /** `Expr(V, R)`: the symbol keeps R's name (and R's id, which R receives
      now if it had none) and the name is redirected to stand for V when it
      is registered. For an integer constant V the result is a fresh symbol
      that is merely named like the sentinel and the tables stay as they
      are. */
  function Rebind(f: Function, t: Table, v: ValueId, r: ValueId): (res: (Expr, Table))
    requires WellFormed(f) && v < |f.values| && r < |f.values|
    ensures f.values[v].kind.ConstInt? ==> res == (Sym(INVALID_NAME), t)
    ensures !f.values[v].kind.ConstInt? ==>
              && res.0 == Sym(GetName(f, t, r).0)
              && res.1.exprs == t.exprs
              && res.1.ids == GetName(f, t, r).1.ids
              && res.1.values.Keys == t.values.Keys
              && (forall n :: n in t.values && n != res.0.name ==> res.1.values[n] == t.values[n])
              && (res.0.name in t.values ==> res.1.values[res.0.name] == v)
  {
    if f.values[v].kind.ConstInt? then (Sym(INVALID_NAME), t)
    else
      var (name, t1) := GetName(f, t, r);
      if name in t1.values then (Sym(name), t1.(values := t1.values[name := v]))
      else (Sym(name), t1)
  }

  /** Rebinding keeps the tables consistent. */
  lemma {:induction false} RebindInv(f: Function, t: Table, v: ValueId, r: ValueId)
    requires WellFormed(f) && Inv(f, t) && v < |f.values| && r < |f.values|
    ensures Inv(f, Rebind(f, t, v, r).1)
  {
    GetNameInv(f, t, r);
  }

  /** Rebinding an interned value R: the result is R's own symbol, and
      afterwards that symbol stands for V. */
  lemma {:induction false} RebindRedirects(f: Function, t: Table, v: ValueId, r: ValueId)
    requires WellFormed(f) && Inv(f, t) && Coherent(t)
    requires v < |f.values| && r in t.exprs && !f.values[v].kind.ConstInt?
    ensures Rebind(f, t, v, r).0 == t.exprs[r]
    ensures SymbolValue(Rebind(f, t, v, r).1, t.exprs[r]) == Some(v)
  {
  }

  /** Consistency survives appending values to the function. */
  lemma {:induction false} InvExtends(f: Function, g: Function, t: Table)
    requires WellFormed(f) && WellFormed(g) && Extends(f, g) && Inv(f, t)
    ensures Inv(g, t)
  {
    forall v | 0 <= v < |f.values|
      ensures BaseName(g, v) == BaseName(f, v)
    {
      assert g.values[v] == f.values[v];
      if f.values[v].kind.Load? && f.values[v].name == [] {
        assert g.values[f.values[v].kind.ptr] == f.values[f.values[v].kind.ptr];
      }
    }
  }
}

=== FILE: worker_functions.dfy ===
/** The `GetWorkerFunctions` module pass: the names of the start routines
    handed to `pthread_create` anywhere in a module. */
module WorkerFunctions {
  import opened Wrappers
  import opened Ir

  /** A module is its functions, each with its instructions listed block
      by block in program order. */
  type Program = seq<Function>

  /** A call whose callee is known and is `pthread_create`; calls through
      a pointer have no callee and are skipped. */
  predicate CreatesThread(k: Kind) {
    k.Call? && k.callee == Some("pthread_create")
  }

  /** `getArgOperand(2)` of a thread creation with fewer than three
      operands: the pass reads past the operand list. */
  predicate ShortCreate(k: Kind) {
    CreatesThread(k) && |k.args| < 3
  }

  /** The start routine named by value `v` of `f`, when it is a thread
      creation with its third operand. */
  function Routine(f: Function, v: ValueId): Option<string>
    requires v < |f.values|
  {
    var k := f.values[v].kind;
    if CreatesThread(k) && |k.args| >= 3 && k.args[2] < |f.values| then Some(f.values[k.args[2]].name)
    else None
  }

  /** Some function of `m` spawns a thread running `name`. */
  ghost predicate SpawnedIn(m: Program, name: string) {
    exists i, v :: 0 <= i < |m| && 0 <= v < |m[i].values| && Routine(m[i], v) == Some(name)
  }

  /** Some thread creation of `f` has too few operands. */
  ghost predicate ShortIn(f: Function) {
    exists v :: 0 <= v < |f.values| && ShortCreate(f.values[v].kind)
  }

  /** Some function of `m` holds such a thread creation. */
  ghost predicate Malformed(m: Program) {
    exists i :: 0 <= i < |m| && ShortIn(m[i])
  }

  /** The start routines named by the first `n` values of `f`. */
  function FoundIn(f: Function, n: nat): set<string>
    requires n <= |f.values|
    decreases n
  {
    if n == 0 then {}
    else
      var here: set<string> := if Routine(f, n - 1).Some? then {Routine(f, n - 1).value} else {};
      FoundIn(f, n - 1) + here
  }

  /** A name is collected from the first `n` values of `f` exactly when one
      of them creates a thread running it. */
  lemma {:induction false} FoundInExact(f: Function, n: nat, x: string)
    requires n <= |f.values|
    ensures x in FoundIn(f, n) <==> exists v :: 0 <= v < n && Routine(f, v) == Some(x)
    decreases n
  {
    if n > 0 {
      FoundInExact(f, n - 1, x);
      if Routine(f, n - 1) == Some(x) {
        assert 0 <= n - 1 < n && Routine(f, n - 1) == Some(x);
      }
      if exists v :: 0 <= v < n && Routine(f, v) == Some(x) {
        var v :| 0 <= v < n && Routine(f, v) == Some(x);
        if v < n - 1 {
          assert x in FoundIn(f, n - 1);
        }
      }
    }
  }

  /** The start routines named by the first `n` functions of `m`. */
  function FoundUpTo(m: Program, n: nat): set<string>
    requires n <= |m|
    decreases n
  {
    if n == 0 then {} else FoundUpTo(m, n - 1) + FoundIn(m[n - 1], |m[n - 1].values|)
  }

  /** The collected names are exactly the start routines of the thread
      creations of the first `n` functions. */
  lemma {:induction false} FoundUpToExact(m: Program, n: nat, x: string)
    requires n <= |m|
    ensures x in FoundUpTo(m, n) <==>
      exists i, v :: 0 <= i < n && 0 <= v < |m[i].values| && Routine(m[i], v) == Some(x)
    decreases n
  {
    if n > 0 {
      FoundUpToExact(m, n - 1, x);
      var f := m[n - 1];
      if x in FoundUpTo(m, n) {
        if x in FoundUpTo(m, n - 1) {
          var i, v :| 0 <= i < n - 1 && 0 <= v < |m[i].values| && Routine(m[i], v) == Some(x);
          assert 0 <= i < n && 0 <= v < |m[i].values| && Routine(m[i], v) == Some(x);
        } else {
          assert x in FoundIn(f, |f.values|);
          FoundInExact(f, |f.values|, x);
          var v :| 0 <= v < |f.values| && Routine(f, v) == Some(x);
          assert 0 <= n - 1 < n && 0 <= v < |m[n - 1].values| && Routine(m[n - 1], v) == Some(x);
        }
      }
      if exists i, v :: 0 <= i < n && 0 <= v < |m[i].values| && Routine(m[i], v) == Some(x) {
        var i, v :| 0 <= i < n && 0 <= v < |m[i].values| && Routine(m[i], v) == Some(x);
        if i < n - 1 {
          assert x in FoundUpTo(m, n - 1);
        } else {
          FoundInExact(f, |f.values|, x);
          assert x in FoundIn(f, |f.values|);
        }
      }
    }
  }

  /** The whole module collects exactly the routines it spawns. */
  lemma {:induction false} CollectedExact(m: Program)
    ensures forall x :: x in FoundUpTo(m, |m|) <==> SpawnedIn(m, x)
  {
    forall x
      ensures x in FoundUpTo(m, |m|) <==> SpawnedIn(m, x)
    {
      FoundUpToExact(m, |m|, x);
    }
  }

  /** One function of the scan: its start routines, or `None` at a
      thread creation with too few operands. */
  method ScanFunction(f: Function) returns (r: Option<set<string>>)
    ensures r.None? <==> ShortIn(f)
    ensures r.Some? ==> r.value == FoundIn(f, |f.values|)
  {
    var found: set<string> := {};
    var v := 0;
    while v < |f.values|
      invariant 0 <= v <= |f.values|
      invariant found == FoundIn(f, v)
      invariant forall w :: 0 <= w < v ==> !ShortCreate(f.values[w].kind)
    {
      var k := f.values[v].kind;
      if CreatesThread(k) {
        if |k.args| < 3 {
          assert ShortCreate(f.values[v].kind);
          return None;
        }
        if k.args[2] < |f.values| {
          found := found + {f.values[k.args[2]].name};
        }
      }
      v := v + 1;
    }
    return Some(found);
  }

  /** `runOnModule`: every instruction of every function is examined in
      order; the result is the set of start-routine names, or `None` when
      a thread creation has too few operands. The module is never
      changed. */
  method RunOnModule(m: Program) returns (workers: Option<set<string>>, changed: bool)
    ensures !changed
    ensures workers.None? <==> Malformed(m)
    ensures workers.Some? ==> forall x :: x in workers.value <==> SpawnedIn(m, x)
  {
    var found: set<string> := {};
    var i := 0;
    while i < |m|
      invariant 0 <= i <= |m|
      invariant found == FoundUpTo(m, i)
      invariant forall j :: 0 <= j < i ==> !ShortIn(m[j])
    {
      var inF := ScanFunction(m[i]);
      if inF.None? {
        assert 0 <= i < |m| && ShortIn(m[i]);
        return None, false;
      }
      assert FoundUpTo(m, i + 1) == FoundUpTo(m, i) + inF.value;
      found := found + inF.value;
      i := i + 1;
    }
    assert !Malformed(m);
    CollectedExact(m);
    return Some(found), false;
  }

  /** Creating the same routine twice records it once: a module with a
      second copy of one of its functions collects the same names. */
  lemma {:induction false} RepeatedCreation(m: Program, f: Function, x: string)
    requires f in m
    ensures SpawnedIn(m + [f], x) <==> SpawnedIn(m, x)
  {
    var m' := m + [f];
    var j :| 0 <= j < |m| && m[j] == f;
    if SpawnedIn(m', x) {
      var i, v :| 0 <= i < |m'| && 0 <= v < |m'[i].values| && Routine(m'[i], v) == Some(x);
      if i == |m| {
        assert Routine(m[j], v) == Some(x);
      } else {
        assert Routine(m[i], v) == Some(x);
      }
    }
    if SpawnedIn(m, x) {
      var i, v :| 0 <= i < |m| && 0 <= v < |m[i].values| && Routine(m[i], v) == Some(x);
      assert m'[i] == m[i];
    }
  }
}

=== FILE: wrappers.dfy ===
/** Optional values, used wherever the source returns a null pointer or a
    `false` success flag. */
module Wrappers {

  datatype Option<+T> = None | Some(value: T) {

    /** The value, or a default when there is none. */
    function GetOr(default: T): T {
      match this
      case Some(v) => v
      case None => default
    }
  }

  /** Map lookup that reports a missing key as `None`. */
  function Get<K, V>(m: map<K, V>, k: K): (r: Option<V>)
    ensures r.Some? <==> k in m
    ensures r.Some? ==> r.value == m[k]
  {
    if k in m then Some(m[k]) else None
  }
}
